=== FILE: README.md ===
# Advent of Code 2024, days 1 to 23, in Dafny

This project models the solutions to the first twenty-three puzzles of
Advent of Code 2024. Each puzzle has two parts, and each part is its own
Rust crate. The model proves what each solution computes, up to the gaps
listed under "## Left out". One file covers each day:

- A module per crate: `Day01a`, `Day01b`, … `Day23b`.
- Days 13, 15, 16 and 20 have a single crate each: `Day13b`, `Day15b`,
  `Day16` and `Race`.
- Where both parts of a day share logic, that logic lives in a module of
  its own: `Garden` (day 12), `Robots` (14), `Vm` (17), `RamRun` (18),
  `Towels` (19), `Keypads`, `Chains`, `Dirpad` and `Numpad` (21),
  `Secrets` and `Market` (22), and `Lan` (23).

`common.dfy` holds the generic building blocks the days share:

- `Wrappers`: `Option` and sums.
- `Seqs`: counting, filtering, distinctness and sorting of sequences.
- `Grids`: rectangular character grids.
- `Arith`: digits, powers, gcd and Rust's truncating remainder.
- `Heaps`: a priority queue as a multiset.
- `Text`: splitting lines and reading numbers.

The models follow the programs' own algorithms:

- the backwards operator search of day 7;
- the cached recursions of days 11, 19 and 21;
- the Dijkstra searches of days 16, 18 and 20;
- the Bron–Kerbosch clique search of day 23.

Each of these is related by a lemma to an independent statement of what
the puzzle asks:

- the distinct cells, triangles or maximal cliques;
- the equations that some choice of operators makes true;
- the number of stones after 75 blinks;
- the first byte that cuts the path.

Loops in the source that need not terminate take an explicit `fuel`
bound. The lemmas speak about the results obtained within that fuel.

## Model

Some functions only compute and carry no contract of their own: for
example `Day13b.Solve`, `Vm.Step`, `Day23b.BronKerbosch`, `Secrets.Next`,
`Robots.Step` and `Day22b.Gain`. The lemma rows that cite the same source
lines (`Day13b.SolveSound`, `Vm.StepWrites`, `Day23b.BronKerboschSound`,
`Secrets.NextBounded`, `Robots.StepsClosed`, `Day22b.GainSum` and their
neighbours) state what they compute.

| member | source | states |
|---|---|---|
| Day01a.PairDistances | day01a/src/main.rs:15-18 | `zip` pairs the columns position by position and stops at the shorter one; each entry is the absolute difference of its pair |
| Day01a.Distance | day01a/src/main.rs:12-19 | the total distance of the sorted columns is zero exactly when the sorted columns agree at every paired position |
| Day01a.DistanceSymmetric | day01a/src/main.rs:12-19 | swapping the two columns does not change the distance |
| Day01a.DistanceOrderIndependent | day01a/src/main.rs:12-19 | the distance depends only on the multisets of the two columns, not on the order of the input lines |
| Day01a.DistanceZeroIff | day01a/src/main.rs:12-19 | for columns of equal length the distance is zero exactly when they hold the same ids equally often |
| Day01b.Occurrences | day01b/src/main.rs:16-19 | the count map has a key exactly for each id in the right column, and its value is how often the id occurs there |
| Day01b.Score | day01b/src/main.rs:14-21 | the score is the sum over the left column, in any order, of each id times its number of occurrences on the right |
| Day01b.ScoreIgnoresUnmatched | day01b/src/main.rs:21 | an id that never occurs on the right adds nothing to the score |
| Day02a.Diffs | day02a/src/main.rs:10 | one difference per adjacent pair of levels: later minus earlier |
| Day02a.IncreasingMeansAscending | day02a/src/main.rs:12-14 | a report passes the increasing filter exactly when every step climbs by one to three, so it is strictly ascending and gains at most three per position |
| Day02a.BothIffShort | day02a/src/main.rs:12-17 | a report passes both the increasing and the decreasing filter exactly when it has at most one level |
| Day02a.AsWrittenOvercounts | day02a/src/main.rs:12-19 | the chained count equals the number of safe reports plus the number of reports with at most one level |
| Day02a.SafeCount | day02a/src/main.rs:12-19 | counting each safe report once never gives more than the number of reports, which the program's chained count can exceed |
| Day02a.OneLevelCountedTwice | day02a/src/main.rs:17-19 | the one-report input `[[7]]` is counted twice although it holds one safe report |
| Day02b.RemoveAt | day02b/src/main.rs:28-29 | removing position `i` keeps every other level in order and shortens the report by one |
| Day02b.TryFix | day02b/src/main.rs:26-36 | the answer is true exactly when dropping some single level leaves a safe report |
| Day02b.SafeTrimmed | day02b/src/main.rs:3-12 | dropping the first level of a non-empty safe report leaves it safe |
| Day02b.Tally | day02b/src/main.rs:21-41 | the first count is the number of safe reports; the two counts together are the reports that are safe or fixable by one removal |
| Day03a.DigitRun | day03a/src/main.rs:13 | the leading run consists of digits only and ends at the end of the input or at a non-digit |
| Day03a.Tag | day03a/src/main.rs:26 | a literal matches exactly when it is a prefix of the input, and the rest is what follows it |
| Day03a.ParseNumber | day03a/src/main.rs:12-23 | succeeds exactly when the leading digit run has one to three digits; the value is below 1000, is that run's decimal value, and the whole run is consumed |
| Day03a.ParseTuple | day03a/src/main.rs:25-28 | on success both numbers are below 1000 and the rest is a strictly shorter suffix of the input |
| Day03a.ParseMul | day03a/src/main.rs:30-34 | on success both factors are below 1000 and the rest is a strictly shorter suffix of the input |
| Day03a.ParseOne | day03a/src/main.rs:36-40 | skipping characters until `mul(x,y)` matches consumes input on success and yields factors below 1000 |
| Day03a.ParseAll | day03a/src/main.rs:42-55 | every collected pair has both factors below 1000 |
| Day03a.NumberRoundTrip | day03a/src/main.rs:12-23 | a number below 1000 written in decimal and followed by a non-digit is read back whole |
| Day03a.TagPrefix | day03a/src/main.rs:31 | a literal in front of the input is consumed exactly |
| Day03a.TupleRoundTrip | day03a/src/main.rs:25-28 | `x,y` written out is read back as the same pair |
| Day03a.MulRoundTrip | day03a/src/main.rs:30-34 | `mul(x,y)` written out is read back as the same pair and leaves the following text untouched |
| Day03a.ParseAllCons | day03a/src/main.rs:42-55 | scanning a written instruction followed by more text yields that instruction, then what the text yields |
| Day03a.ParseAllRoundTrip | day03a/src/main.rs:42-55 | scanning the concatenation of written instructions yields the same list of pairs |
| Day03a.LongNumberRejected | day03a/src/main.rs:19-21 | a run of four or more digits is not a number |
| Day03a.ParseOneFirst | day03a/src/main.rs:36-40 | when no instruction starts before position `k` and one starts at `k`, the scan returns exactly what parses at `k`: the first match wins and everything before it is skipped |
| Day03a.ParseOneNone | day03a/src/main.rs:36-40 | the scan fails exactly when no position of the text, the end included, starts an instruction |
| Day03a.ParseAllSkips | day03a/src/main.rs:42-55 | text in which no instruction starts is skipped; the instruction after it is collected and the scan goes on right after it |
| Day03a.NumberOf | day03a/src/main.rs:12-23 | one to three digits followed by a non-digit are read as their decimal value |
| Day03a.MulOf | day03a/src/main.rs:30-34 | `mul(x,y)` with factors of one to three digits is read as their values and leaves what follows |
| Day03a.FourDigits | day03a/src/main.rs:25-34 | `mul(x,y` with a four-digit second factor is not an instruction |
| Day03a.FourDigitsNone | day03a/src/main.rs:36-40 | a `mul(` cut short by a four-digit factor and followed by text without `m` leaves the scan with nothing to find |
| Day03a.BrokenFront | day03a/src/main.rs:42-55 | a `mul(` followed by a non-number without `m` is skipped, and the scan resumes at the next instruction |
| Day03a.ParseAllSame | day03a/src/main.rs:42-55 | texts whose first scans agree yield the same list |
| Day03a.ParseOneShort | day03a/src/main.rs:59 | one scan of `mul(1,2)` yields `(1, 2)` and leaves nothing |
| Day03a.ParseOneLong | day03a/src/main.rs:60 | one scan of `mul(111,222)` yields `(111, 222)` and leaves nothing |
| Day03a.ParseOneLongFactor | day03a/src/main.rs:61 | one scan of `mul(111,2222)` fails |
| Day03a.GarbageOnly | day03a/src/main.rs:63 | one scan of `garbagemul(111,333)` skips the garbage and yields `(111, 333)` |
| Day03a.GarbageAround | day03a/src/main.rs:64-67 | one scan of `garbagemul(111,333)moregarbage` yields `(111, 333)` and leaves `moregarbage` |
| Day03a.ParseAllOne | day03a/src/main.rs:69 | scanning `mul(1,2)` yields `[(1, 2)]` |
| Day03a.ParseAllTwo | day03a/src/main.rs:70 | scanning `mul(1,2)mul(3,4)` yields `[(1, 2), (3, 4)]` |
| Day03a.ParseAllBroken | day03a/src/main.rs:71 | scanning `mul(1,2)mul(*mul(5,6)` skips the broken instruction and yields `[(1, 2), (5, 6)]` |
| Day03b.ParseInstruction | day03b/src/main.rs:38-62 | `mul` is tried first and wins whenever it parses; text starting with `do()` gives `Do` and with `don't()` gives `Dont`, each consuming just that word; it fails exactly when none of the three matches; on success input is consumed |
| Day03b.ParseOne | day03b/src/main.rs:58-62 | skipping characters until an instruction matches consumes input on success |
| Day03b.ParseOneFirst | day03b/src/main.rs:58-62 | when no instruction starts before position `k` and one starts at `k`, the scan returns exactly what parses at `k` |
| Day03b.ParseOneNone | day03b/src/main.rs:58-62 | the scan fails exactly when no position of the text starts an instruction |
| Day03b.OneSameAsPartOne | day03b/src/main.rs:58-62 | on text without `do()` or `don't()` one scanning step finds the same multiplication as part one's |
| Day03b.SameAsPartOne | day03b/src/main.rs:64-77 | on text without `do()` or `don't()` both scanners find the same multiplications in the same order |
| Day03b.Run | day03b/src/main.rs:80-97 | the final flag says whether no `don't()` is left unanswered by a later `do()`; the sum covers exactly the multiplications enabled where they stand |
| Day03b.NoSwitchesAllEnabled | day03b/src/main.rs:79-97 | with no switches among the instructions the sum is part one's sum |
| Day04a.ReadBackwards | day04a/src/main.rs:7-16 | `XMAS` read from a cell in one direction is `SAMX` read from its far end in the opposite direction |
| Day04a.RestFollows | day04a/src/main.rs:31-41 | true exactly when `M`, `A` and `S` sit one, two and three steps away inside the grid |
| Day04a.CountAt | day04a/src/main.rs:26-43 | a cell counts one for each of the eight directions along which `XMAS` is spelled from it |
| Day04a.CountXmas | day04a/src/main.rs:20-45 | the result is the number of (cell, direction) pairs along which `XMAS` is spelled |
| Day04a.NoXNoMatch | day04a/src/main.rs:26-28 | a cell that holds no `X` starts no match |
| Day04b.ArrangementsAreCrosses | day04b/src/main.rs:17-55 | the four tested arrangements around an `A` are exactly the cases where both diagonals read `MAS` one way or the other |
| Day04b.CountCrosses | day04b/src/main.rs:11-57 | the result is the number of interior `A` cells with both diagonals reading `MAS` |
| Day05a.BuildRules | day05a/src/main.rs:25-33 | a page has an entry exactly when some rule names it first, and its set holds exactly the pages those rules name second |
| Day05a.CheckUpdate | day05a/src/main.rs:36-48 | the update is accepted exactly when no page is preceded by a page that a rule says must come after it |
| Day05a.Solve | day05a/src/main.rs:51-56 | the result is the sum of the middle pages of the updates that obey every rule |
| Day05b.Cmp | day05b/src/main.rs:18-32 | pages compare equal exactly when they are the same page or no rule relates them; less and greater each require the matching rule |
| Day05b.CmpSwap | day05b/src/main.rs:18-32 | swapping the arguments turns greater into less and keeps equal, while two contradicting rules make both orders compare less |
| Day05b.Insert | day05b/src/main.rs:112 | inserting into a sorted list keeps it sorted and adds exactly the one entry |
| Day05b.SortEntries | day05b/src/main.rs:112 | the sorted entries are a permutation of the input with no neighbours out of order |
| Day05b.Entries | day05b/src/main.rs:99-111 | each page becomes an entry holding the page and the pages that must follow it, none when no rule names it first |
| Day05b.Reorder | day05b/src/main.rs:96-115 | the reordered update is a permutation of the update |
| Day05b.ReorderObeysRules | day05b/src/main.rs:96-115 | when the rules order the update's pages strictly and totally, the reordered update obeys every rule |
| Day05b.Solve | day05b/src/main.rs:79-122 | the result is the sum of the middle pages of the rule-breaking updates, each taken after reordering |
| Day06a.Ahead | day06a/src/main.rs:78 | the cell in front of the guard lies one step away in the direction it faces |
| Day06a.TurnRight | day06a/src/main.rs:85-88 | turning keeps the position and advances the direction index by one, modulo four |
| Day06a.FourTurns | day06a/src/main.rs:6 | four right turns restore the original heading |
| Day06a.Forward | day06a/src/main.rs:89-96 | a forward step keeps the heading and moves onto the cell ahead |
| Day06a.Route | day06a/src/main.rs:73-97 | the cells the guard steps out of, and the cell it walks off the map from, all lie inside the map and include the starting cell |
| Day06a.Patrol | day06a/src/main.rs:69-97 | a finished patrol occupies at least one cell |
| Day06a.AsWrittenCountsExitAgain | day06a/src/main.rs:73-97 | the program's counter is the number of distinct cells stepped out of plus one for the exit cell |
| Day06a.AsWrittenVersusDistinct | day06a/src/main.rs:80-83 | the program's count exceeds the number of distinct cells occupied by one exactly when the exit cell had already been stepped out of |
| Day06a.ExitCountedTwice | day06a/src/main.rs:80-83 | in a 2x3 lab with obstacles at (0,0), (0,1), (1,2) and the guard at (1,0) facing down the program reports 3 where the guard occupies 2 cells |
| Day06b.StepOf | day06b/src/main.rs:144-174 | a move keeps the guard's heading valid |
| Day06b.Walk | day06b/src/main.rs:139-175 | every state the walk reaches has a valid heading |
| Day06b.WalkSplit | day06b/src/main.rs:139-175 | walking `a + b` moves is walking `a` moves and then `b` more |
| Day06b.ExitedStaysExited | day06b/src/main.rs:146-153 | once the guard has left the field it stays gone |
| Day06b.RepeatNeverExits | day06b/src/main.rs:63-89 | a walk that returns to an earlier state never leaves the field |
| Day06b.LoopsSound | day06b/src/main.rs:31-98 | a reported loop means the walk revisits a state; a reported exit means the guard really leaves the field |
| Day06b.Search | day06b/src/main.rs:139-175 | every counted cell differs from the start, holds no obstacle, lies on the field and traps the guard in a loop when blocked |
| Day07a.Test | day07a/src/main.rs:28-45 | working backwards from the last number accepts exactly the equations that some choice of `+` and `*`, evaluated left to right, makes true |
| Day07a.SolvableStep | day07a/src/main.rs:31-42 | an equation is solvable exactly when the last operator can be `*` (the target divides evenly and the quotient is solvable) or `+` (the target is large enough and the difference is solvable) |
| Day07a.Extend | day07a/src/main.rs:31-42 | appending an operator applies it to the value of the shorter equation and the last number |
| Day07b.CatSplits | day07b/src/main.rs:30-33 | the concatenation divided by ten to the digit count of `b` gives back `a`, and the remainder gives back `b` |
| Day07b.OpsOf | day07b/src/main.rs:27-36 | a combination number selects one operator per base-3 digit |
| Day07b.Encode | day07b/src/main.rs:17-18 | every operator sequence is selected by a combination number below `3^k` |
| Day07b.EvalCombination | day07b/src/main.rs:19-37 | the sum is the left-to-right value under the operators the combination selects |
| Day07b.Calibrates | day07b/src/main.rs:17-42 | trying the combinations in order accepts exactly the equations some choice of `+`, `*` and `\|\|` makes true |
| Day07b.EvalWithoutConcat | day07b/src/main.rs:27-29 | without concatenation part two's evaluation is part one's |
| Day07b.PartOneIncluded | day07b/src/main.rs:17-42 | every equation part one accepts, part two accepts |
| Day08a.PairAntinodesExact | day08a/src/main.rs:134-156 | the points one pair inserts are exactly the map cells on their line where one antenna is twice as far away as the other |
| Day08a.PairSound | day08a/src/main.rs:134-156 | every inserted point is on the map and twice as far from one antenna as from the other |
| Day08a.PairComplete | day08a/src/main.rs:134-156 | every map cell twice as far from one antenna as from the other is inserted, the points between the antennas included |
| Day08a.AtThird | day08a/src/main.rs:145-148 | a point between two antennas and twice as far from one splits their distance in thirds, so the distance is a multiple of three |
| Day08a.Thirds | day08a/src/main.rs:146-148 | the points a third and two thirds along a distance divisible by three are twice as far from one end as from the other |
| Day08a.Locate | day08a/src/main.rs:112-125 | the map lists, for every frequency on the map, each of its antennas exactly once |
| Day08a.AntinodesExact | day08a/src/main.rs:127-161 | the counted cells are exactly the map cells where one antenna is twice as far away as another of the same frequency |
| Day08b.Gcd | day08b/src/main.rs:79 | the gcd is zero only for two zeros and otherwise divides both arguments |
| Day08b.GcdGreatest | day08b/src/main.rs:79 | every common divisor divides the gcd |
| Day08b.Normalize | day08b/src/main.rs:78-84 | a non-zero vector is its normalized direction times the positive gcd of its coordinates |
| Day08b.RayLength | day08b/src/main.rs:146-150 | the walk visits that many consecutive steps on the map, and the next step is off the map |
| Day08b.Convex | day08b/src/main.rs:104-109 | the steps of a line that lie on the rectangular map form an unbroken run |
| Day08b.LineExact | day08b/src/main.rs:146-156 | from a map cell the two walks together insert exactly the map cells a whole number of steps away along the line |
| Day08b.PairAntinodesExact | day08b/src/main.rs:142-156 | one pair inserts exactly the map cells a whole number of reduced steps away from the first antenna |
| Day08b.AntennasResonate | day08b/src/main.rs:142-156 | both antennas of a pair are among its antinodes |
| Day08b.DirectionReversed | day08b/src/main.rs:144 | the reduced direction of the reversed pair is the opposite vector |
| Day08b.OnLineSymmetric | day08b/src/main.rs:139-158 | the line through two antennas is the same seen from either end |
| Day08b.AntinodesExact | day08b/src/main.rs:138-161 | the counted cells are exactly the map cells on the line through two antennas of the same frequency, at whole reduced steps |
| Day08b.AntinodesSound | day08b/src/main.rs:138-161 | every counted cell is on the map and in line with two antennas of one frequency |
| Day08b.AntinodesComplete | day08b/src/main.rs:138-161 | every map cell in line with two antennas of one frequency, at whole reduced steps, is counted |
| Day09a.ParseFrom | day09a/src/main.rs:13-41 | the disk has as many blocks as the digits add up to |
| Day09a.ParseIds | day09a/src/main.rs:19-38 | only the ids of the listed files occur on the disk |
| Day09a.ParseFileSize | day09a/src/main.rs:19-38 | file `k` occupies exactly as many blocks as its digit says |
| Day09a.Swap | day09a/src/main.rs:56 | swapping exchanges the two blocks and leaves every other block in place |
| Day09a.Defrag | day09a/src/main.rs:43-58 | the result is a permutation of the disk with all files before all free space, a file block only lands where a block was free, and the result is exactly `Compacted` of the disk: the rightmost file block goes into the leftmost gap, round after round |
| Day09a.CompactedFront | day09a/src/main.rs:47-49 | in the reference compaction a leading file block stays in front, whatever the disk ends with |
| Day09a.SkipFiles | day09a/src/main.rs:47-49 | the left scan passes only file blocks and stops at a free block or at the right scan, keeping what is still to compact |
| Day09a.SkipGaps | day09a/src/main.rs:50-52 | the right scan passes only free blocks and stops at a file block or at the left scan, keeping what is still to compact |
| Day09a.FramedLeft | day09a/src/main.rs:47-49 | passing a file block on the left does not change what the disk compacts to |
| Day09a.FramedRight | day09a/src/main.rs:50-52 | passing a free block on the right does not change what the disk compacts to |
| Day09a.FramedSwap | day09a/src/main.rs:53-56 | swapping the leftmost gap with the rightmost file block does not change what the disk compacts to |
| Day09a.CompactedExample | day09a/src/main.rs:43-58 | the disk `0..12` compacts to `0211..`, the moved blocks in reverse order, with checksum 4 |
| Day09a.Solve | day09a/src/main.rs:82-87 | there is an answer exactly when the disk has a block, and it is the checksum of the compacted disk |
| Day09a.SwapKeeps | day09a/src/main.rs:47-56 | swapping the leftmost gap with the rightmost file block keeps the scan invariants |
| Day09a.ChecksumAppend | day09a/src/main.rs:60-66 | the checksum of a disk is that of its front plus that of its back at the back's own positions |
| Day09a.FreeAddsNothing | day09a/src/main.rs:64 | free space at the end adds nothing to the checksum |
| Day09b.ParseAgrees | day09b/src/main.rs:28-51 | the sectors of part two stand for exactly the blocks part one parses |
| Day09b.TotalExpand | day09b/src/main.rs:8-16 | the sectors' block count for each block kind is the count in the blocks they stand for |
| Day09b.Split | day09b/src/main.rs:53-63 | splitting keeps the block kind, cuts the sector into lengths `at` and the rest, and shifts the later sectors by one |
| Day09b.SplitTotal | day09b/src/main.rs:53-63 | splitting keeps the block counts before the shifted position |
| Day09b.SwapTotal | day09b/src/main.rs:97 | swapping two sectors keeps every block count |
| Day09b.SwapFree | day09b/src/main.rs:97 | moving a file into an earlier gap removes the gap's blocks from the free space before the file's old place |
| Day09b.SplitStep | day09b/src/main.rs:90-95 | cutting a gap keeps the sectors non-empty, the blocks and the whole files, and the free space before the file to move |
| Day09b.SwapStep | day09b/src/main.rs:97 | swapping a gap with a later file keeps the sectors non-empty, the blocks and the whole files, and strictly lowers the free space before the file's old place |
| Day09b.SkipFree | day09b/src/main.rs:68-71 | the scan stops at the last file at or before its start, or at the first sector, passing only free sectors, and the free space before it can only shrink |
| Day09b.FindGap | day09b/src/main.rs:74-80 | the scan stops at the leftmost free sector before the file that is long enough for it, or at the file when no such sector exists |
| Day09b.Place | day09b/src/main.rs:90-97 | the file lands in the gap, the rest of a longer gap stays free right after it, the file's old place becomes free space of the file's length, and every other sector keeps its place up to the one-step shift |
| Day09b.PlaceStep | day09b/src/main.rs:90-97 | a placement keeps the sectors non-empty, the blocks and the whole files, and lowers the free space before the scan position |
| Day09b.Move | day09b/src/main.rs:90-97 | one round places the file into the leftmost gap that takes it, extends the trace of placements by that round, and resumes the scan at the file's old place |
| Day09b.Defrag | day09b/src/main.rs:65-99 | the result has non-empty sectors, stands for the same blocks in some order, keeps every file sector whole, and is reached from the input by a run of rounds each moving a file into the leftmost gap before it that is long enough |
| Day09b.SectorChecksum | day09b/src/main.rs:19-24 | a sector's share of the checksum is that of the blocks it stands for |
| Day09b.Checksum | day09b/src/main.rs:101-109 | adding up the sectors' shares at their starting positions gives the checksum of the blocks they stand for |
| Day10a.Neighbours | day10a/src/main.rs:90 | four neighbours, each one step away horizontally or vertically |
| Day10a.ReachesLower | day10a/src/main.rs:98-101 | every cell a trail leads down to is passable and strictly lower |
| Day10a.Visit | day10a/src/main.rs:88-107 | the walk never forgets a visited cell |
| Day10a.VisitSpec | day10a/src/main.rs:88-107 | the walk adds only cells reachable downhill from the start and leaves every visited cell with its lower neighbours visited |
| Day10a.VisitExact | day10a/src/main.rs:65-67 | a walk from a top with a fresh visited field marks exactly the cells a trail leads down to |
| Day10a.Cell | day10a/src/main.rs:48-60 | `.` is impassable, and a digit stands for its own height |
| Day10a.ParseMap | day10a/src/main.rs:43-63 | every covered cell gets its character's height and the rest of the field stays empty |
| Day10a.Find | day10a/src/main.rs:50-56 | the collected cells are exactly the covered cells holding the character, each once |
| Day10a.Score | day10a/src/main.rs:65-67 | a cell's score is at most one more than the number of tops |
| Day10a.ScoreExact | day10a/src/main.rs:65-67 | a cell that is not a top scores one for each top a trail leads down from |
| Day10a.TotalScoreExact | day10a/src/main.rs:65-69 | the answer counts the pairs of a bottom and a top with a trail between them |
| Day10b.RatePositive | day10b/src/main.rs:77-92 | a walk raises a cell's rating exactly when a trail from one of the tried neighbours leads to it |
| Day10b.RatedIffScored | day10b/src/main.rs:77-92 | a top rates a cell exactly when part one's walk from the top marks it |
| Day10b.ScoreAtMostRating | day10b/src/main.rs:65-69 | each cell's rating is at least its part-one score |
| Day11a.SuccessorRule | day11b/src/main.rs:85-100 | zero becomes one; a number with an even count of digits splits into halves with half the digits each side that rebuild it; any other number is multiplied by 2024 |
| Day11a.Halves | day11a/src/main.rs:39-47 | cutting a number of `2h` digits by ten to the `h` gives a left half of `h` digits and a right half below the mask that rebuild it |
| Day11a.BlinkAppend | day11a/src/main.rs:16-19 | stones blink independently: the blink of two rows side by side is their blinks side by side |
| Day11a.StonesAppend | day11a/src/main.rs:16-19 | over any number of blinks a row evolves as its parts do |
| Day11a.SimulateCounts | day11a/src/main.rs:27-57 | the recursive count for a stone is the length of the row it grows into over the remaining blinks |
| Day11a.TotalCounts | day11a/src/main.rs:16-19 | the answer is the number of stones after 25 blinks |
| Day11b.BuildLookup | day11b/src/main.rs:25-50 | every entry holds the blink rule's answer, and a finished table holds every engraved number and everything its entries lead to |
| Day11b.BlinkPermutation | day11b/src/main.rs:58-73 | what a row blinks into depends only on which stones it holds, not on their order |
| Day11b.CreditStep | day11b/src/main.rs:61-71 | crediting what `count` equal stones become extends the blinked row by those stones' blinks |
| Day11b.Step | day11b/src/main.rs:59-72 | one round turns the counts of a row into the counts of the row after one blink |
| Day11b.BlinkClosed | day11b/src/main.rs:62 | a closed table that holds every stone of a row holds every stone after a blink, so the lookup never fails |
| Day11b.CountNumbers | day11b/src/main.rs:52-56 | the counts are exactly the multiset of engraved numbers |
| Day11b.Solve | day11b/src/main.rs:18-76 | when the table was finished, the answer is the number of stones after 75 blinks |
| Garden.Sides | day12a/src/main.rs:69-95 | four neighbours, each one step away horizontally or vertically |
| Garden.SidesSymmetric | day12a/src/main.rs:69-95 | sharing a side is symmetric |
| Garden.Trace | day12a/src/main.rs:56-96 | one call visits a fresh run of plots of the plant starting at its own plot, each plot after the first beside an earlier one, leaves every same-plant side of them visited, and adds their count to the area and their measures to the score |
| Garden.Follow | day12b/src/main.rs:151-169 | a side in the field of the same plant ends up visited; whatever is entered starts at that side, hangs together, and is counted as in `Trace` |
| Garden.LinkedAppend | day12a/src/main.rs:66-95 | a plot followed by the runs entered through its sides hangs together when each run starts beside it |
| Garden.FindRegions | day12a/src/main.rs:28-44 | the scan yields regions that partition the field into connected, maximal same-plant parts, each counted with its area and summed measure |
| Garden.TotalPrice | day12a/src/main.rs:11-15 | summing area times measure over the counted regions prices the regions' plots |
| Garden.Solve | day12a/src/main.rs:17-54 | the answer is the sum over a partition of the field into connected, maximal same-plant regions of area times summed measure |
| Day12a.Fences | day12a/src/main.rs:69-94 | a plot has at most four fences |
| Day12a.FencesAreSides | day12a/src/main.rs:69-94 | a plot's fences are the sides it does not share with a plot of its plant |
| Day12a.Solve | day12a/src/main.rs:17-54 | the answer is the sum over the regions (connected, maximal same-plant parts partitioning the field) of area times perimeter |
| Day12b.CornerRule | day12b/src/main.rs:78-116 | a corner is outer when neither side plot joins, or inner when both do but the diagonal does not |
| Day12b.Corners | day12b/src/main.rs:132-149 | a plot has at most four corners |
| Day12b.LoneCorners | day12b/src/main.rs:132-149 | a plot with no neighbour of its plant has all four corners |
| Day12b.Solve | day12b/src/main.rs:20-58 | the answer is the sum over the regions (connected, maximal same-plant parts partitioning the field) of area times corner count |
| Day13b.Moved | day13b/src/main.rs:46-55 | the prize is moved by 10000000000000 along both axes and the button moves are kept |
| Day13b.Cramer | day13b/src/main.rs:61-68 | presses that win multiply out to the two cross-product numerators over the determinant |
| Day13b.Uncramer | day13b/src/main.rs:61-68 | numerators that are those multiples of a nonzero determinant give a win |
| Day13b.SolveSound | day13b/src/main.rs:60-94 | an answer wins the machine with a positive number of presses of each button |
| Day13b.SolveComplete | day13b/src/main.rs:74-91 | every win with positive presses and non-parallel moves is the answer given |
| Day13b.SolveParallel | day13b/src/main.rs:67-72 | parallel button moves have no answer |
| Day13b.TokensAppend | day13b/src/main.rs:104-108 | the tokens of two lists of machines add up |
| Robots.AddWraps | day14a/src/main.rs:26-31 | for an in-field position and a velocity under one field, the wrapped sum is the true modulo and stays in the field |
| Robots.StepsClosed | day14a/src/main.rs:40-42 | after `n` seconds a robot stands at its start plus `n` times its velocity, modulo the field, with the velocity unchanged |
| Robots.AfterNext | day14a/src/main.rs:60-64 | one more round of moves after `n` rounds is `n + 1` rounds |
| Robots.StaysValid | day14a/src/main.rs:60-64 | moving keeps every robot in the field with its velocity |
| Robots.MoveAll | day14a/src/main.rs:61-63 | every robot moved once, in order |
| Robots.Simulate | day14a/src/main.rs:60-64 | after the rounds each robot has moved that many times |
| Day14a.Quadrants | day14a/src/main.rs:65-92 | a position is in some quadrant exactly when it is off the middle row and column, and then in only one |
| Day14a.CountsAdd | day14a/src/main.rs:65-92 | the four quadrant counts together are the robots off the middle lines |
| Day14a.Solve | day14a/src/main.rs:57-94 | the answer is the product of the quadrant counts after 100 seconds |
| Day14b.IndexCell | day14b/src/main.rs:79 | a field cell's row-major index is in range and names the cell back |
| Day14b.CellIndex | day14b/src/main.rs:77-79 | every index names an in-field cell whose index it is |
| Day14b.TalliedIs | day14b/src/main.rs:77-80 | a tally of the robots is unique |
| Day14b.Arrive | day14b/src/main.rs:78-80 | one more robot adds one to its own cell and to the total |
| Day14b.Relocate | day14b/src/main.rs:87-91 | moving one robot takes one off its old cell and adds one to its new cell, keeping the total |
| Day14b.Census | day14b/src/main.rs:77-80 | the initial counts hold the number of robots on each cell and add up to the robot count |
| Day14b.Zeros | day14b/src/main.rs:77 | the zeroed counts add up to zero |
| Day14b.StepAll | day14b/src/main.rs:87-91 | after moving every robot once the counts are again the per-cell tally with the same total |
| Day14b.DeltaBound | day14b/src/main.rs:95-101 | the neighbour differences of non-negative counts add to at most twice their total, less the end counts |
| Day14b.Improve | day14b/src/main.rs:103-107 | the minimum is replaced only by a strictly smaller spread, so the first moment reaching it is kept |
| Day14b.Search | day14b/src/main.rs:82-108 | the result is the smallest spread over all iterations, at the first iteration reaching it, with the robots of that moment; with fewer robots than half of `u32::MAX` a minimum is always found |
| Day14b.Line | day14b/src/main.rs:62-69 | a plot line has an `X` exactly at the robot positions of its row, blanks elsewhere and a line break |
| Day14b.RowsCell | day14b/src/main.rs:61-70 | each cell of the stacked rows is the cell of its own line |
| Day14b.PlotCell | day14b/src/main.rs:58-72 | the plot has one line per row, and a cell shows `X` exactly when a robot stands on it |
| Day15b.TileSymbol | day15b/src/main.rs:15-26 | reading a map character gives a tile exactly when that tile is drawn with the character |
| Day15b.DirectionArrow | day15b/src/main.rs:59-69 | reading a move character gives a direction exactly when that direction is written with it |
| Day15b.Directions | day15b/src/main.rs:300 | the moves read are no more than the characters |
| Day15b.DirectionsArrows | day15b/src/main.rs:300 | writing moves down and reading them back gives the same moves |
| Day15b.DirectionsAppend | day15b/src/main.rs:300 | reading a move list in two pieces gives the moves of both pieces in order |
| Day15b.Wide | day15b/src/main.rs:290-296 | every map character becomes two cells |
| Day15b.WidenLength | day15b/src/main.rs:288-297 | a line of map characters doubles in width |
| Day15b.WidenAt | day15b/src/main.rs:288-297 | character `i` becomes the cells `2 * i` and `2 * i + 1` |
| Day15b.DecodeRow | day15b/src/main.rs:82 | a decoded line has one tile per character, drawn with that character; it fails exactly when some character is no tile |
| Day15b.DecodeRows | day15b/src/main.rs:80-83 | every line decodes to its row; decoding fails exactly when some line fails |
| Day15b.FindInRow | day15b/src/main.rs:92-98 | the first robot of a row, or none when the row has none |
| Day15b.FindRobot | day15b/src/main.rs:88-100 | the first robot in reading order, or none when there is none |
| Day15b.Parse | day15b/src/main.rs:79-108 | a parsed warehouse is rectangular and the robot stands where the map says |
| Day15b.Swap | day15b/src/main.rs:118-122 | the two tiles trade places, nothing else changes, and the tile counts stay |
| Day15b.SetCount | day15b/src/main.rs:114-116 | overwriting a tile removes one of the old kind and adds one of the new |
| Day15b.TryMoveH | day15b/src/main.rs:138-173 | a failed push changes nothing; a successful one moves the tile to the next cell along the row; tile counts stay |
| Day15b.Reach | day15b/src/main.rs:155-171 | where a push ends: an empty cell past the pushed tile |
| Day15b.PushShifts | day15b/src/main.rs:138-173 | a push succeeds exactly when an empty cell lies past the boxes, and then shifts the run up to it by one cell |
| Day15b.PushEnd | day15b/src/main.rs:158-161 | moving into an adjacent empty cell shifts a run of length one |
| Day15b.PushStep | day15b/src/main.rs:163-167 | after the run beyond has shifted, moving the tile extends the shift to its cell |
| Day15b.CanMoveCases | day15b/src/main.rs:183-213 | the border, a wall or the robot block; an empty cell allows; a box needs both halves movable |
| Day15b.MoveV | day15b/src/main.rs:215-242 | pushing keeps the tile counts and the shape of the warehouse; rows behind the pushed tile are untouched, and so is the rest of its own row; when the push is allowed the tile lands one row along and leaves its cell empty |
| Day15b.TryMoveV | day15b/src/main.rs:175-181 | the move is refused exactly when the vertical check fails, and then nothing changes; an allowed one moves the tile one row along and empties its cell; tile counts stay |
| Day15b.TryMoveRobot | day15b/src/main.rs:124-136 | the robot stays or steps to the neighbouring cell; staying changes nothing; tile counts stay |
| Day15b.Run | day15b/src/main.rs:302-304 | the warehouse keeps its size and validity over all moves |
| Day15b.RunKeepsTiles | day15b/src/main.rs:302-304 | no move creates or destroys a tile |
| Day15b.RowGpsMembers | day15b/src/main.rs:249-260 | a row contributes `100 * y + x` for exactly its left box halves |
| Day15b.GpsMembers | day15b/src/main.rs:244-263 | every left box half contributes its coordinate and nothing else does, one per box |
| Day15b.SolveBoxes | day15b/src/main.rs:284-306 | the answer sums one coordinate per box of the starting warehouse, at the boxes' final places |
| Day16.Rotations | day16/src/main.rs:165-183 | the two rotations undo each other, four quarter turns are none, and a half turn is the same either way round |
| Day16.Add | day16/src/main.rs:45-68 | a step moves exactly one cell horizontally or vertically |
| Day16.StepBack | day16/src/main.rs:45-68 | turning round and stepping back returns to the cell |
| Day16.KindSymbol | day16/src/main.rs:21-31 | reading a character gives a tile kind exactly when that kind is drawn with it |
| Day16.DecodeRow | day16/src/main.rs:86-106 | a decoded line has one fresh tile per character; it fails exactly when some character is no tile |
| Day16.DecodeRows | day16/src/main.rs:84-108 | every line decodes to its row; decoding fails exactly when some line fails |
| Day16.LastInRow | day16/src/main.rs:86-99 | the last tile of a kind in a row, or none when the row has none |
| Day16.LastOf | day16/src/main.rs:81-99 | the remembered position is the last tile of the kind in reading order, or `(0, 0)` when there is none |
| Day16.Parse | day16/src/main.rs:79-120 | parsing fails exactly on an unknown character; otherwise the tiles follow the text, the start costs 0 facing East, other tiles `usize::MAX`, and the remembered start is a start tile |
| Day16.Interior | day16/src/main.rs:122-130 | from a non-wall tile of a wall-bordered maze every step stays inside |
| Day16.Extend | day16/src/main.rs:225-299 | a route extended by one allowed move is again a route |
| Day16.RankCheapest | day16/src/main.rs:205-210 | the heap order ranks a node higher exactly when it is cheaper |
| Day16.TotalNonNegative | day16/src/main.rs:33-37 | the sum of tile costs is never negative |
| Day16.TotalSet | day16/src/main.rs:235-237 | overwriting a tile changes the cost sum by the difference of costs |
| Day16.Visit | day16/src/main.rs:228-250 | a neighbour is updated exactly when it is no wall and the candidate is strictly cheaper; the search invariants stay and the work measure does not grow |
| Day16.Improve | day16/src/main.rs:234-248 | an improvement keeps every recorded cost real, lowers the cost sum, lowers the result on an end tile, and queues other tiles |
| Day16.Arrives | day16/src/main.rs:229-237 | the improving candidate ends a route one move longer |
| Day16.Enqueued | day16/src/main.rs:242-246 | a queued node stands on a reachable tile that is neither wall nor end |
| Day16.Improved | day16/src/main.rs:235-237 | recording a cheaper real route keeps the frame and soundness |
| Day16.EndImproved | day16/src/main.rs:239-240 | an improved end tile lowers the result to the minimum |
| Day16.OtherImproved | day16/src/main.rs:241-247 | improving a non-end tile leaves the result the least end cost |
| Day16.Search | day16/src/main.rs:212-303 | the loop ends with every reached tile holding a real route's cost and direction, in a fixpoint where no forward step or turn out of a reached non-end tile's recorded node would improve a neighbour, and with the result the least cost on an end tile, reached by a real route; `usize::MAX` when none was reached |
| Day16.VisitClosed | day16/src/main.rs:228-250 | after one move every reached non-end tile's node is still queued, or is the popped one, or has its moves relaxed, and the move's candidate improves nothing |
| Day16.Expand | day16/src/main.rs:216-298 | after the three moves of a popped node the node is relaxed, so every reached non-end tile is queued or relaxed, with the search invariants kept |
| Day16.EndRoute | day16/src/main.rs:223-240 | a finite result is the cost of a real route to an end tile |
| Day16.SearchSettles | day16/src/main.rs:225-299 | after the search no cost is above `usize::MAX` and walls keep it |
| Day16.Trace | day16/src/main.rs:344-392 | the position is added; everything added is a non-wall tile no dearer than it, and everything added besides it is one step from an added tile and 1 or 1001 cheaper, or two steps straight on and 2 cheaper; the start tile is added but not expanded |
| Day16.Traced | day16/src/main.rs:360-390 | tracing from a linked neighbour adds only tiles cheaper than the current one, each linked to from a traced tile |
| Day16.FedTrans | day16/src/main.rs:344-392 | tiles linked to from earlier traces stay linked as the set grows |
| Day16.Part2 | day16/src/main.rs:305-320 | there is an answer exactly when the end tile was reached; it is the size of a set that holds the end tile and only non-wall tiles no dearer than the end, each other one linked to from a counted tile by a step that is 1 or 1001 cheaper or two straight steps 2 cheaper |
| Day16.Solve | day16/src/main.rs:212-320 | an answer comes only from a parsed, wall-bordered maze with its start in place; its first part is the cost of a real route from the start to an end tile and the least end cost of a final search state at its fixpoint; its second part counts the traced tiles of that state, as part two states |
| Vm.XorLaws | day17a/src/main.rs:97-104 | exclusive or is commutative, has 0 as identity and undoes itself |
| Vm.XorBits | day17a/src/main.rs:125-133 | exclusive or of two `k`-bit numbers is a `k`-bit number |
| Vm.ComboOf | day17a/src/main.rs:21-31 | a combo operand code is valid exactly below 7 |
| Vm.ComboCodes | day17a/src/main.rs:21-31 | codes and combo operands correspond one to one |
| Vm.DecodeEncode | day17a/src/main.rs:45-59 | decoding inverts encoding; a decoded instruction encodes back to its opcode and operand, except the ignored operand of `bxc`; decoding succeeds exactly for opcodes below 8 whose combo operand is valid |
| Vm.Pairs | day17a/src/main.rs:194-197 | the first `n` pairs decode one instruction each, and decoding fails exactly when one pair fails |
| Vm.Program | day17a/src/main.rs:194-197 | the program has one instruction per complete pair, each the decoding of its pair; it fails exactly when one pair fails |
| Vm.StepPc | day17a/src/main.rs:114-123 | only a `jnz` with A nonzero jumps, to its literal; every other step moves on by two |
| Vm.StepWrites | day17a/src/main.rs:96-174 | each instruction writes only its own register with the shifted, exclusive-or or masked value, and only `out` appends one value below 8 to the output |
| Vm.Run | day17a/src/main.rs:84-176 | a finished run ends halted, and a halted machine is left as it is |
| Vm.RunOutput | day17a/src/main.rs:84-176 | a run only appends to the output, and only values below 8 |
| Vm.RunMoreFuel | day17a/src/main.rs:84-176 | more steps do not change a finished run |
| Vm.Outputs | day17a/src/main.rs:204-211 | a run's output holds only values below 8 |
| Day17a.Join | day17a/src/main.rs:213-218 | the outputs as digits at the even positions, separated by commas |
| Day17a.JoinDigits | day17a/src/main.rs:213-218 | the digit at position `2 * k` reads back as output `k` |
| Day17a.Solve | day17a/src/main.rs:179-218 | an answer is the joined output of the decoded program run to completion on the given registers |
| Day17b.Digits | day17b/src/main.rs:206 | `k` octal digits |
| Day17b.FoldDigits | day17b/src/main.rs:206 | splitting the folded number into digits gives the digits back, and the number is below 8 to their count |
| Day17b.DigitsFold | day17b/src/main.rs:206 | folding the digits of a number below 8 to the `k` gives the number back |
| Day17b.FoldLeading | day17b/src/main.rs:193 | with a nonzero leading digit the number has exactly that many octal digits |
| Day17b.Zeros | day17b/src/main.rs:239-242 | `n` zero digits |
| Day17b.SolveDigit | day17b/src/main.rs:226-272 | the settled digits before `digit` are kept; on success the leading digit is nonzero and the program prints the matching number of its own code for the chosen digit |
| Day17b.Solve | day17b/src/main.rs:178-224 | an answer makes the program print its own code, and has exactly as many octal digits as the program has numbers |
| RamRun.Neighbours | day18a/src/main.rs:116-155 | the neighbours looked at are exactly the on-grid cells one step right, below, left or above |
| RamRun.NeighboursSymmetric | day18a/src/main.rs:116-155 | being neighbours is symmetric |
| RamRun.Put | day18a/src/main.rs:165-167 | the grid with one tile replaced and every other tile kept |
| RamRun.Same | day18a/src/main.rs:77-93 | grids with the same tiles everywhere are equal |
| RamRun.Extend | day18a/src/main.rs:116-155 | a path extended by a step to a non-wall neighbour is a path |
| RamRun.Blank | day18a/src/main.rs:77-93 | the new map has no walls and no costs |
| RamRun.Drop | day18a/src/main.rs:95-97 | dropping bytes succeeds exactly when all lie on the grid, and then walls exactly the old walls and the dropped cells, costs untouched |
| RamRun.Layout | day18a/src/main.rs:77-104 | the prepared map exists exactly when all bytes lie on the grid; its walls are exactly the dropped cells and only the start has a cost, 0 |
| RamRun.LayoutStep | day18b/src/main.rs:174-180 | dropping one more wall on the prepared map gives the layout of the longer byte list |
| RamRun.RankCheapest | day18a/src/main.rs:44-49 | the heap order ranks a node higher exactly when it is cheaper |
| RamRun.CheckPos | day18a/src/main.rs:164-175 | a neighbour that is no wall and has no cost or a larger one gets the new cost and is queued; otherwise nothing changes; afterwards the neighbour is a wall or costs at most the new cost; every recorded cost stays the length of a real path and never grows |
| RamRun.UpdateRecorded | day18a/src/main.rs:165-167 | the new cost is the length of a real path to the neighbour |
| RamRun.UpdateProgress | day18a/src/main.rs:165-167 | an update leaves fewer uncosted tiles or a smaller cost sum |
| RamRun.ClosedStep | day18a/src/main.rs:122-124 | after an update every costed tile is still queued at its cost or has no neighbour costing more than one above it |
| RamRun.ExpandOne | day18a/src/main.rs:116-125 | one neighbour checked keeps the loop invariants |
| RamRun.KeepsTrans | day18a/src/main.rs:114-155 | keeping walls and costs is transitive |
| RamRun.Expand | day18a/src/main.rs:114-155 | expanding a node checks all its neighbours: recorded costs stay real and never grow, and the popped tile's neighbours all end up walls or costing at most one more than it |
| RamRun.CoversStep | day18a/src/main.rs:116-155 | one more checked neighbour is a wall or costs at most one more than the popped tile |
| RamRun.EndPending | day18a/src/main.rs:108-113 | once the end has a cost it stays queued |
| RamRun.Search | day18a/src/main.rs:99-156 | the search finds the end exactly when a path reaches it, and then reports the length of a path to it that no other path is shorter than |
| RamRun.StartStays | day18a/src/main.rs:101-104 | the start keeps cost 0 throughout the search |
| RamRun.Along | day18a/src/main.rs:106-156 | along any path from the start, some tile is queued at no more than its distance along the path, or the last tile costs at most the path's length |
| RamRun.Shortest | day18a/src/main.rs:106-112 | when a cheapest queued node stands on the end, the end's cost is at most the length of every path to it |
| RamRun.Start0 | day18a/src/main.rs:99-104 | the starting state satisfies the search invariants |
| RamRun.Popped | day18a/src/main.rs:108-114 | popping a node keeps the invariants, with that node's tile left to expand |
| RamRun.Unreachable | day18b/src/main.rs:76-125 | with the queue empty and the end without cost no path reaches the end |
| RamRun.Covered | day18b/src/main.rs:76-125 | with the queue empty, every tile a path reaches has a cost |
| Day18a.Solve | day18a/src/main.rs:69-162 | an answer exists exactly when the first 1024 bytes lie on the grid; it is the length of a shortest path to the end, or `usize::MAX` exactly when the end cannot be reached |
| Day18b.Fall | day18b/src/main.rs:179-181 | after one more byte the map is the layout of the longer prefix |
| Day18b.Judge | day18b/src/main.rs:181-194 | a search on the layout decides whether the byte is the first to block the end |
| Day18b.OffGrid | day18b/src/main.rs:174-180 | a byte off the grid leaves the whole list without a layout |
| Day18b.PrefixOffGrid | day18b/src/main.rs:174-180 | a prefix without a layout leaves the whole list without one |
| Day18b.Solve | day18b/src/main.rs:148-199 | the answer is the first byte after the 1024th that blocks every path; none when no byte does, or a byte lies off the grid |
| Towels.Split | day19a/src/main.rs:37-48 | a possible design is a pattern itself or starts with a pattern whose rest is possible |
| Towels.Joined | day19a/src/main.rs:42-47 | a pattern followed by a possible design is possible |
| Towels.Single | day19a/src/main.rs:37-40 | a pattern is a possible design on its own |
| Towels.WaysPossible | day19b/src/main.rs:32-55 | the count of ways is positive exactly when the design is possible |
| Towels.WaysFromSome | day19b/src/main.rs:47-51 | a positive count over the patterns from `i` on comes from some pattern the design starts with whose rest has a way |
| Towels.WaysFromAt | day19b/src/main.rs:47-51 | the count over the patterns covers the ways of every pattern the design starts with |
| Day19a.Check | day19a/src/main.rs:28-52 | the verdict is whether the design can be cut into patterns; every cached verdict stays right, a cached one is returned unchanged, and a failure is cached |
| Day19a.Solve | day19a/src/main.rs:6-20 | the answer is the number of possible designs |
| Day19b.Count | day19b/src/main.rs:32-55 | the count is the number of ways to cut the design; every cached count stays right and the design's own count is cached |
| Day19b.Solve | day19b/src/main.rs:6-24 | the answer is the total number of ways, positive exactly when some design is possible |
| Day19b.TotalPositive | day19b/src/main.rs:24 | the total is positive exactly when some design is possible |
| Race.KindSymbol | day20/src/main.rs:20-41 | printing and parsing a tile kind are inverse |
| Race.DecodeRow | day20/src/main.rs:144-158 | a line decodes exactly when every character is a tile, each to its fresh tile |
| Race.DecodeRows | day20/src/main.rs:142-161 | the lines decode exactly when each does, row by row |
| Race.LastInRow | day20/src/main.rs:144-156 | the last tile of a kind in a row, or none when the row has none |
| Race.LastOf | day20/src/main.rs:139-156 | the remembered position is the last tile of the kind in reading order, or `(0, 0)` when there is none |
| Race.Parse | day20/src/main.rs:137-173 | a map exists exactly for a non-empty rectangle of known characters; its size is the first row's length by the row count, its tiles follow the text, only start tiles cost 0, and start and end are the last ones in reading order |
| Race.AroundUnit | day20/src/main.rs:67-98 | the four neighbours are exactly the points one step away |
| Race.Steps | day20/src/main.rs:200-240 | the neighbours tried are exactly the on-map points one step away |
| Race.Put | day20/src/main.rs:290-295 | the map with one tile replaced, every other tile and its size kept |
| Race.ChainCosts | day20/src/main.rs:246-274 | along a chain of costs rising by one, tile `i` costs the first cost plus `i` |
| Race.RankCheapest | day20/src/main.rs:120-125 | the heap order ranks a node higher exactly when it is cheaper |
| Race.Measured | day20/src/main.rs:185-244 | the search's progress measures are never negative |
| Race.CheckPos | day20/src/main.rs:290-303 | a node comes back exactly when the tile is no wall and has no cost or a larger one; then the tile gets the new cost; otherwise nothing changes; no other tile changes |
| Race.Visit | day20/src/main.rs:207-209 | after checking and pushing, the tile is a wall or costed, and costs once set stay set |
| Race.ClosedStep | day20/src/main.rs:200-240 | a costed tile stays queued or settled after an update |
| Race.EndsStep | day20/src/main.rs:196-198 | a costed end tile stays queued |
| Race.CoversStep | day20/src/main.rs:200-240 | one more checked neighbour is wall or costed |
| Race.KeepsTrans | day20/src/main.rs:185-244 | keeping kinds, walls and costs is transitive |
| Race.ExpandOne | day20/src/main.rs:200-240 | one neighbour checked keeps the loop invariants |
| Race.Expand | day20/src/main.rs:200-240 | expanding a node checks all its in-bounds neighbours; recorded costs stay, and all neighbours end up walls or costed |
| Race.Solve | day20/src/main.rs:185-244 | no start exactly when the start position is not a start tile; a route found runs from the start to the end with costs counting up from zero; when the queue empties no end tile is reachable |
| Race.Round | day20/src/main.rs:192-241 | popping an end finishes with its traced route; otherwise the invariants stay and the search makes progress |
| Race.Finish | day20/src/main.rs:196-198 | the traced route runs from the start to the end along rising costs |
| Race.Start0 | day20/src/main.rs:186-190 | the starting state satisfies the search invariants |
| Race.Popped | day20/src/main.rs:192-196 | popping a node keeps the invariants, with that node pending expansion |
| Race.Arrived | day20/src/main.rs:246-274 | a traced chain from the start is a route whose costs count up from zero |
| Race.ChainPath | day20/src/main.rs:246-274 | a chain of costed tiles on the map is a route |
| Race.Unreachable | day20/src/main.rs:192-243 | with the queue empty no end tile is reachable |
| Race.Covered | day20/src/main.rs:192-243 | with the queue empty every tile a route reaches has a cost |
| Race.FindPrev | day20/src/main.rs:254-265 | a neighbour found has the wanted cost |
| Race.TraceFrom | day20/src/main.rs:251-273 | a traced path is a chain of costs rising by one from the start to the position |
| Race.Trace | day20/src/main.rs:246-274 | the traced path is a chain of costs rising by one from the start to the end |
| Race.Save | day20/src/main.rs:341-359 | a saving exists exactly when the landing tile costs more than the cheat's arrival, and is that difference |
| Race.Compute | day20/src/main.rs:341-359 | the saving is returned and recorded in the table |
| Race.GainsAppend | day20/src/main.rs:361-401 | the entries of two lists of cheats add up |
| Race.CornerOnce | day20/src/main.rs:367-398 | each corner check tries exactly the one point of the map in its corner at that distance and offset |
| Race.WalkOnce | day20/src/main.rs:364-400 | up to any point of the loops each point of the map before it is tried exactly once, and nothing else |
| Race.Advance | day20/src/main.rs:367-398 | checking a corner adds its entry when its bounds check passes |
| Race.FindSaves | day20/src/main.rs:361-401 | the entries recorded from a tile are the cheats to every point tried, and those saving at least 100 are as many as the tiles such a cheat reaches |
| Race.Duration | day20/src/main.rs:365-399 | one duration records the cheats of all its offsets |
| Race.Corners | day20/src/main.rs:366-398 | one offset records the cheats of its four corners |
| Race.Try | day20/src/main.rs:367-374 | one corner records its cheat when its check passes |
| Race.GainsCount | day20/src/main.rs:325-328 | an entry counts exactly when its cheat saves at least 100 |
| Race.CheatsCounted | day20/src/main.rs:361-401 | the counted entries from a tile are as many as the tiles a cheat of 2 to 20 picoseconds reaches saving at least 100 |
| Race.CostedSuffix | day20/src/main.rs:316-323 | the rest of a costed route is costed |
| Race.Run | day20/src/main.rs:305-339 | an answer counts the worthwhile cheats along a real route from start to end; no map means no answer |
| Race.CountCheats | day20/src/main.rs:316-328 | the loop over the route counts the cheats of its tiles up to the first end |
| Keypads.BelowIrreflexive | day21a/src/main.rs:26-44 | no move list is smaller than itself |
| Keypads.BelowAsymmetric | day21a/src/main.rs:26-44 | of two move lists at most one is smaller |
| Keypads.BelowTotal | day21a/src/main.rs:26-44 | two different move lists are ordered one way or the other |
| Keypads.BelowTransitive | day21a/src/main.rs:26-44 | the order on move lists is transitive |
| Keypads.Min | day21a/src/main.rs:110 | the smaller of two move lists: one of them, and neither is below it |
| Keypads.DisplaceAppend | day21a/src/main.rs:69-119 | the displacement of two move lists in a row is the sum of theirs |
| Keypads.DisplaceRun | day21a/src/main.rs:73-88 | `n` moves in one direction displace the arm `n` cells that way |
| Keypads.XRunDisplace | day21a/src/main.rs:73-80 | the horizontal run covers the horizontal distance |
| Keypads.YRunDisplace | day21a/src/main.rs:81-88 | the vertical run covers the vertical distance |
| Keypads.RunsDisplace | day21a/src/main.rs:100-103 | both orders of the two runs take the arm along the whole displacement |
| Keypads.Diagonal | day21a/src/main.rs:89-114 | a choice exists exactly when one order is safe; it is a safe order, and the smaller one when both are safe |
| Keypads.Cheapest | day21a/src/main.rs:69-119 | the chosen moves take the arm exactly from start to end in as few moves as any path; a straight line never fails |
| Keypads.WalkDisplace | day21a/src/main.rs:69-119 | a walk that stays on the pad ends where the moves lead |
| Keypads.ClearStep | day21a/src/main.rs:122-131 | a run is clear when its first cell is on the pad and the rest of the run is clear |
| Keypads.WalkRun | day21a/src/main.rs:100-103 | a run of equal moves gets through exactly when every cell it passes is on the pad |
| Keypads.RowClear | day21a/src/main.rs:122-131 | with the gap in a corner, a horizontal run between keys is clear unless it ends on the gap |
| Keypads.ColumnClear | day21a/src/main.rs:122-131 | with the gap in a corner, a vertical run between keys is clear unless it ends on the gap |
| Keypads.WalkCornerXY | day21a/src/main.rs:102 | horizontal-first reaches the end key exactly when its turning cell is not the gap |
| Keypads.WalkCornerYX | day21a/src/main.rs:103 | vertical-first reaches the end key exactly when its turning cell is not the gap |
| Keypads.CheapestReaches | day21a/src/main.rs:69-119 | when the safe orders turn on keys and one is safe, the choice never fails and the arm reaches the end key without crossing the gap |
| Keypads.Ends | day21a/src/main.rs:100-103 | the first and last moves of the two orders round a corner |
| Keypads.Order | day21a/src/main.rs:34-44 | Left < Down < Up < Right, and `[Left, Down]` < `[Down, Left]` |
| Chains.ExpandHead | day21a/src/main.rs:57-67 | the keys above for a list are the block for its first key, then those for the rest |
| Chains.ExpandClosed | day21a/src/main.rs:325-336 | when every block ends on the home key, so does every expansion |
| Chains.ExpandAppend | day21a/src/main.rs:57-67 | after keys that end on home, the expansion splits |
| Chains.IterateAppend | day21a/src/main.rs:359-375 | expanding through many pads splits after keys that end on home |
| Chains.IterateEmpty | day21a/src/main.rs:359-375 | nothing to type below means nothing to type above |
| Chains.CountIterate | day21b/src/main.rs:418-447 | counting block by block gives the length of the written-out expansion |
| Chains.SumIterate | day21b/src/main.rs:423-447 | the block counts one level up add to the length of the expansion of the keys |
| Chains.CountKeys | day21b/src/main.rs:418-447 | the count is the number of keys typed at the top of the pads, and every cached entry stays right |
| Dirpad.At | day21a/src/main.rs:274-284 | a key is found exactly on the pad, at its own position |
| Dirpad.AtPosition | day21a/src/main.rs:274-284 | every key is found where it is |
| Dirpad.Flags | day21a/src/main.rs:304-321 | the safety of a diagonal order depends only on its first and last moves |
| Dirpad.Premise | day21a/src/main.rs:304-321 | each order the safety rule allows turns on a key, and one order is always allowed |
| Dirpad.Reach | day21a/src/main.rs:69-119 | the choice never panics, and the arm following it stays on keys and stops on the wanted key |
| Dirpad.Moves | day21a/src/main.rs:69-119 | the moves stay on the pad, end on the wanted key, and are as short as any path |
| Dirpad.KeysFrom | day21a/src/main.rs:325-336 | one arrow key per move, each aiming its move, then A |
| Dirpad.OperateBlock | day21a/src/main.rs:325-336 | typing the keys of a walk on the pad moves the arm along it and presses the key where it stops |
| Dirpad.OperateSteps | day21a/src/main.rs:57-67 | a robot typing the blocks through some keys types those keys |
| Dirpad.OperateStep | day21a/src/main.rs:325-336 | the keys of a walk stopping on a key, then keys typing more, type that key and the more |
| Dirpad.AtOnPad | day21a/src/main.rs:274-284 | a key is found exactly on the pad |
| Dirpad.RoundTrip | day21a/src/main.rs:365-369 | a robot driven with the expansion of some keys, arm starting on A, types exactly those keys and never points at the gap |
| Dirpad.Homes | day21a/src/main.rs:334 | every block ends by pressing A |
| Dirpad.UnwindIterate | day21a/src/main.rs:365-375 | a chain of robots types back exactly the keys it was expanded from |
| Numpad.At | day21a/src/main.rs:148-164 | a key is found exactly on the pad, at its own position |
| Numpad.AtPosition | day21a/src/main.rs:148-164 | every key is found where it is |
| Numpad.PositionOnPad | day21a/src/main.rs:148-164 | every key lies on the pad |
| Numpad.AtOnPad | day21a/src/main.rs:148-164 | a key is found exactly on the pad |
| Numpad.FromCharInverse | day21a/src/main.rs:175-192 | reading a character gives the key printed as it, and fails exactly on characters that are neither digits nor A |
| Numpad.CharRoundTrip | day21a/src/main.rs:175-192 | printing a key and reading it back gives the key |
| Numpad.CodeInverse | day21a/src/main.rs:357 | a code is read exactly when every character is a key, key `i` printing as character `i` |
| Numpad.TrimAPrefix | day21a/src/main.rs:377 | the trimmed text is a prefix not ending in A, and everything cut off is A |
| Numpad.ParseUsizeDigits | day21a/src/main.rs:377 | a parsed number fits in 64 bits; digits parse exactly when non-empty and fitting, to their decimal value |
| Numpad.CodeNumExample | day21a/src/main.rs:377 | the numeric part of `029A` is 29 |
| Numpad.Flags | day21a/src/main.rs:203-237 | the safety of a diagonal order depends only on its first and last moves |
| Numpad.Premise | day21a/src/main.rs:203-237 | each order the safety rule allows turns on a key, and one order is always allowed |
| Numpad.Reach | day21a/src/main.rs:69-119 | the choice never panics, and the arm following it stays on keys and stops on the wanted key |
| Numpad.Moves | day21a/src/main.rs:69-119 | the moves stay on the pad, end on the wanted key, and are as short as any path |
| Numpad.MoveSequence | day21a/src/main.rs:56-67 | one move list per key: the moves from the key before it, or from A for the first, to it |
| Numpad.MovesChoice | day21a/src/main.rs:69-119 | the moves between two keys are the cheapest-moves choice, which never panics |
| Numpad.MovesAOne | day21a/src/main.rs:69-119 | from A to 1 the moves are up, left, left: the horizontal-first order would pass over the gap |
| Numpad.MovesOneNine | day21a/src/main.rs:69-119 | from 1 to 9 both orders are safe and the smaller, up up right right, is taken |
| Numpad.MovesNineTwo | day21a/src/main.rs:69-119 | from 9 to 2 both orders are safe and the smaller, left down down, is taken |
| Numpad.MoveSequenceExample | day21a/src/main.rs:240-256 | the moves to type 1, 9, 2, 1 from A are [up, left, left], [up, up, right, right], [left, down, down], [left] |
| Numpad.OperateStep | day21a/src/main.rs:359-363 | the keys of a walk stopping on a key, then keys typing more, type that key and the more |
| Numpad.OperateSteps | day21a/src/main.rs:359-363 | a robot typing the blocks through some keys types those keys |
| Numpad.RoundTrip | day21a/src/main.rs:359-363 | the numeric-pad robot driven with the expansion of a code, arm starting on A, types exactly the code and never points at the gap |
| Day21a.TypedPresses | day21a/src/main.rs:356-375 | the person's presses make the three robots type the code and nothing else |
| Day21a.Complexity | day21a/src/main.rs:357-378 | a complexity exists exactly when the code is read and its numeric part parses |
| Day21a.Solve | day21a/src/main.rs:350-387 | an answer exists exactly when every code has a complexity |
| Day21b.Complexity | day21b/src/main.rs:391-402 | a complexity exists exactly when the code is read and its numeric part parses |
| Day21b.Score | day21b/src/main.rs:391-402 | the complexity with presses counted through the cache, every cached entry staying right |
| Day21b.Run | day21b/src/main.rs:382-409 | with one shared cache, the sum of the complexities |
| Day21b.Solve | day21b/src/main.rs:382-409 | the answer is the sum of complexities behind 25 robots |
| Day21b.PartOne | day21b/src/main.rs:382-409 | with two robots the count gives the sum of part one |
| Secrets.NextBounded | day22a/src/main.rs:32-38 | a secret below 2^24 stays below 2^24, and zero stays zero |
| Secrets.StepOneSign | day22b/src/main.rs:80 | the first line keeps a non-negative `i32` secret non-negative |
| Secrets.StepTwoAgrees | day22b/src/main.rs:81 | on a non-negative secret the signed shift line is the unsigned one |
| Secrets.StepTwoSign | day22b/src/main.rs:81 | the signed shift line always yields a non-negative secret |
| Secrets.StepThreeSign | day22b/src/main.rs:82 | the third line keeps a non-negative secret non-negative |
| Secrets.NextSignedSign | day22b/src/main.rs:78-84 | whatever its sign, one signed step yields a non-negative secret |
| Secrets.NextSignedAgrees | day22b/src/main.rs:78-84 | on non-negative secrets the `i32` step is the `u32` step of part one |
| Secrets.AdvanceBounded | day22a/src/main.rs:17-19 | a step that keeps a bound keeps it for any number of steps |
| Secrets.AdvanceAgrees | day22b/src/main.rs:28-33 | two steps that agree on non-negative secrets and keep them non-negative agree for any number of steps |
| Secrets.AdvanceLimit | day22a/src/main.rs:17-19 | any number of steps keeps a secret below 2^24 |
| Secrets.SignedAdvance | day22b/src/main.rs:28-33 | non-negative `i32` secrets evolve exactly as the `u32` ones |
| Day22a.Evolve | day22a/src/main.rs:15-21 | the secret after 2000 steps, still below 2^24 when it started so |
| Day22a.Solve | day22a/src/main.rs:6-24 | the answer adds up every buyer's 2000th secret |
| Market.Totals | day22b/src/main.rs:53-61 | a run has a total exactly when some buyer offers for it, and the total is the sum of all offers for it |
| Market.Best | day22b/src/main.rs:64-69 | none exactly for no totals; otherwise a total that no other total exceeds |
| Day22b.List | day22b/src/main.rs:22-36 | the listing holds one price and change pair per step, in order |
| Day22b.AllListed | day22b/src/main.rs:22-36 | the listing with the `i32` step and last-digit price is the buyer's pairs |
| Day22b.Key | day22b/src/main.rs:43-45 | a window's run has four changes |
| Day22b.ScanFirst | day22b/src/main.rs:43-46 | the offer for a run is the price at the end of its first window, and there is none when no window has the run |
| Day22b.FirstOffers | day22b/src/main.rs:39-50 | a buyer offers for exactly the runs some window has, each at its first offer |
| Day22b.GainSum | day22b/src/main.rs:53-61 | offers that agree buyer by buyer add up to the run's gain |
| Day22b.FirstWindowSold | day22b/src/main.rs:43-46 | every buyer offers for the run of its first window |
| Day22b.Offers | day22b/src/main.rs:39-50 | one buyer's offers are its first offers per run |
| Day22b.AllOffers | day22b/src/main.rs:39-50 | one offer map per buyer, in order, each holding its first offers |
| Day22b.Solve | day22b/src/main.rs:13-76 | none exactly for no buyers; otherwise the gain of a run some buyer offers for, and no such run gains more |
| Lan.LessIrreflexive | day23a/src/main.rs:21 | no name is before itself in string order |
| Lan.LessTransitive | day23a/src/main.rs:21 | string order is transitive |
| Lan.LessTotal | day23a/src/main.rs:21 | two different names are ordered one way or the other |
| Lan.AscendingOrder | day23a/src/main.rs:21-22 | in the ordered name set every earlier name is smaller |
| Lan.AscendingDistinct | day23a/src/main.rs:21-22 | the ordered name set holds each name once |
| Lan.Insert | day23a/src/main.rs:21 | inserting into the ordered set keeps it ordered and adds exactly the new name |
| Lan.Names | day23a/src/main.rs:21 | the names are ordered and are exactly the endpoints of the links |
| Lan.Position | day23a/src/main.rs:30-34 | the index of a name is its place in the ordered names |
| Lan.SplitOnceInverse | day23a/src/main.rs:18 | the split fails exactly when there is no `-`; otherwise the halves rebuild the line around its first `-` |
| Lan.LinksSome | day23a/src/main.rs:16-19 | the links are read exactly when every line has a `-`, one link per line |
| Lan.NeighborsIn | day23a/src/main.rs:41-44 | a node's neighbours are exactly the indices paired with it by a link either way |
| Lan.BuildAscending | day23a/src/main.rs:22-28 | the nodes are in ascending name order |
| Lan.BuildSymmetric | day23a/src/main.rs:41-44 | every neighbour is a node, and links go both ways |
| Lan.BuildLinked | day23a/src/main.rs:16-44 | two nodes are adjacent exactly when their names are linked in the input |
| Lan.PairsNamed | day23a/src/main.rs:36-39 | an index pair comes from a link exactly when the names at those indices are linked |
| Lan.BuildLoopless | day23a/src/main.rs:16-44 | no node is its own neighbour exactly when no line links a computer to itself |
| Day23a.CyclesSound | day23a/src/main.rs:69-91 | everything reported is a sorted closed walk continuing the given path |
| Day23a.ExtendSound | day23a/src/main.rs:85-89 | everything the extension reports is a sorted closed walk continuing the path |
| Day23a.ClosesBack | day23a/src/main.rs:85-89 | a closed walk continuing a one-step longer path continues the path |
| Day23a.ExtendHas | day23a/src/main.rs:85-89 | what a listed neighbour reports is part of the extension |
| Day23a.FreshDistinct | day23a/src/main.rs:87 | a path of new nodes has no repeats |
| Day23a.WalkTriangle | day23a/src/main.rs:77-80 | a closed walk through three distinct nodes sorts into a triangle |
| Day23a.CyclesTriangle | day23a/src/main.rs:69-91 | every cycle reported from a node is a triangle |
| Day23a.Closes | day23a/src/main.rs:77-80 | a full path closing back to its start is reported, sorted |
| Day23a.Reach | day23a/src/main.rs:85-89 | what is reported after a step to a new neighbour is reported from the node before |
| Day23a.TriangleCycles | day23a/src/main.rs:69-91 | every triangle is reported from its smallest node |
| Day23a.Found | day23a/src/main.rs:69-91 | the triangle `a < b < d` is found walking from `a` |
| Day23a.AllCyclesTriangles | day23a/src/main.rs:46-50 | the cycles found are exactly the triangles of the network |
| Day23a.Solve | day23a/src/main.rs:13-61 | the answer fails exactly when some line has no `-` |
| Day23a.SolveCounts | day23a/src/main.rs:13-61 | the answer is the number of distinct triangles of the network that include a computer whose name starts with `t` |
| Day23b.FilterNodes | day23b/src/main.rs:81-123 | filtering keeps the nodes within the network |
| Day23b.RestTodo | day23b/src/main.rs:81-123 | the candidates left to try stay candidates once the first is removed |
| Day23b.Outsider | day23b/src/main.rs:81-123 | a node linked to the whole clique is not in it |
| Day23b.Grow | day23b/src/main.rs:81-123 | adding a candidate keeps the clique a clique without repeats |
| Day23b.StepInv | day23b/src/main.rs:81-123 | the recursive call keeps the search state: the clique grows and candidates and found nodes are cut to the neighbours |
| Day23b.NextInv | day23b/src/main.rs:81-123 | moving a tried candidate to the found nodes keeps the search state |
| Day23b.BronKerboschSound | day23b/src/main.rs:81-123 | every clique reported is maximal, within the network and without repeats |
| Day23b.ExploreSplit | day23b/src/main.rs:81-123 | what the loop reports comes from the first candidate's call or from the rest of the loop |
| Day23b.ExploreSound | day23b/src/main.rs:81-123 | every clique the loop reports is maximal |
| Day23b.NoneExtends | day23b/src/main.rs:81-123 | no node can join a clique that covers a maximal one |
| Day23b.Covered | day23b/src/main.rs:81-123 | when the clique covers a maximal clique, nothing is left to try and the clique is reported |
| Day23b.TakeCovers | day23b/src/main.rs:81-123 | after taking a member of the maximal clique its other members are in the clique or the neighbours |
| Day23b.SkipCovers | day23b/src/main.rs:81-123 | skipping a non-member leaves the maximal clique's members in the rest of the loop |
| Day23b.Reports | day23b/src/main.rs:81-123 | a clique reported by either part is reported by both together |
| Day23b.BronKerboschComplete | day23b/src/main.rs:81-123 | every maximal clique extending the current one through candidates, and avoiding found nodes, is reported |
| Day23b.ExploreComplete | day23b/src/main.rs:81-123 | the loop reports every such maximal clique |
| Day23b.ReportedFirst | day23b/src/main.rs:81-123 | what the first candidate's call reports, the loop reports |
| Day23b.ReportedLater | day23b/src/main.rs:81-123 | what the rest of the loop reports, the loop reports |
| Day23b.TakeComplete | day23b/src/main.rs:81-123 | when the first candidate is a member, the loop reports the maximal clique |
| Day23b.SkipComplete | day23b/src/main.rs:81-123 | when the first candidate is not a member, the loop still reports the maximal clique |
| Day23b.StartInv | day23b/src/main.rs:65-79 | the search starts from a valid state: no clique, every node a candidate |
| Day23b.FindCliquesSound | day23b/src/main.rs:65-79 | every clique found is maximal |
| Day23b.FindCliquesComplete | day23b/src/main.rs:65-79 | every maximal clique is found |
| Day23b.ExtendToMaximal | day23b/src/main.rs:65-79 | every clique lies within a maximal one |
| Day23b.Longest | day23b/src/main.rs:48-51 | none exactly for no cliques; otherwise a longest clique, the last of those of its length |
| Day23b.Largest | day23b/src/main.rs:46-51 | the longest clique found exists and no clique of the network is larger |
| Day23b.SplitPrefix | day23b/src/main.rs:57 | text without a comma joins onto the first part |
| Day23b.SplitJoin | day23b/src/main.rs:57 | splitting the joined names at the commas gives them back, when no name holds a comma |
| Day23b.SortNodes | day23b/src/main.rs:52-55 | sorting keeps the nodes within the network |
| Day23b.PasswordNames | day23b/src/main.rs:52-57 | the password names are the clique's names, each once, in ascending order |
| Day23b.NamesOf | day23b/src/main.rs:52-55 | the names of an ascending reordering of the clique are ascending and are its names |
| Day23b.Solve | day23b/src/main.rs:13-57 | an answer exists exactly when every line has a `-` and no computer is linked to itself |
| Day23b.SolveLargest | day23b/src/main.rs:13-57 | for such input the answer is the password of a maximum clique of the network |

## Left out

- Reading the puzzle input from disk, timing with `Instant` and `println!`: I/O, outside the model. Each `Solve` takes the parsed input.
- Parsing of the puzzle text into numbers and lists is outside the model, because it is plain library code. The parsers that carry puzzle logic are modelled: the day 3 scanners and the grid, program and link readers of days 15, 16, 17, 20, 21 and 23.
- Integer widths: sums and products are unbounded, so `u32`, `usize` and `u64` overflow is not modelled. Where an underflow decides a branch, it is modelled explicitly: the day 20 neighbour lookups and `Day09a.Defrag`. Day 16's trace is the exception: it reads a `cur_cost - k` that would underflow as no match, which neither a release nor a debug build does (see the Day16.Below line below).
- Debug output: `Debug` formatting (day 15) and the map print of day 16 are display only.
- `par_iter` (day 22): modelled as a sequential iteration, because the per-buyer work is independent.
- Day05b.SortEntries: the sort is an insertion sort standing for Rust's stable `sort_by`. The rules are proved to be obeyed only when they order the update's pages strictly and totally; contradictory rules make the comparison unsound.
- Day06b.LoopsSound: proves that a reported loop or exit is real. Loop detection is not proved complete within the fuel.
- Day06a.Patrol: walks within a `fuel` bound, because the source walks until the guard leaves; walks that need more steps are not covered. The same holds for Day06b.Search.
- Day06b.Search: only soundness is proved: every counted cell traps the guard. Completeness is not proved. It would say that every cell on the guard's path that traps the guard gets counted. That rests on the loop test spotting every loop, and the test remembers only the last direction the guard left each cell in, so this is not proved either.
- Day07a.Test: requires positive numbers, because the source's `%` by zero panics.
- Day07b.Calibrates: the source counts digits with an `f32` `log10`; the model uses the exact decimal digit count. The sum of the accepted test values is not stated.
- Day08b.AntinodesExact: the cells counted are those a whole number of *reduced* steps away. No lemma shows that every lattice point on the line is such a step.
- Day09a.Defrag: requires a non-empty disk, because `len() - 1` underflows on an empty one.
- Day09b.Defrag: requires non-empty sectors, because the source's parse drops zero lengths. The contract fixes where each round puts a file, but not which files get a round: that the files are taken highest id first and that each moves at most once is not stated.
- Day10b.RatePositive: states when a rating is positive and that it is at least the score. It does not prove that the rating equals the number of distinct trails.
- Day11a: the source's cache is created but never written, so it is left out.
- Day11b.BuildLookup: has a fuel bound; the answer is claimed only when the table was finished.
- Day12b.Solve: the corner count is not proved equal to the number of straight sides of a region.
- Day13b.TokensAppend: the sum of the tokens over the machines is stated through this lemma, not as the contract of the whole program.
- Day14b.Search: the spread is the sum of the neighbour differences as unbounded integers. The `u32` `abs_diff` sum is not modelled with overflow. The plot print is left out.
- Day15b.TryMoveH: the branch the source marks unreachable, where a robot is the obstacle, is modelled as blocking.
- Day15b.MoveV: the branches the source marks unreachable leave the warehouse unchanged. Only the pushed tile's own move is characterised: it lands one row along and leaves an empty cell. Where the boxes it pushes land is not characterised; the contract only says the tile counts stay and rows behind the push are untouched.
- Day16.Search: proves that every recorded cost is the cost of a real route, that the loop ends in a fixpoint, and that the result is the least end cost recorded. It does not prove that this cost is optimal over all routes, which the per-tile keying of the source does not guarantee either.
- Day16.Below: `trace_path` compares `cur_cost - k` in `usize` (day16/src/main.rs:360, 362, 369, 379, 388). The model reads a subtraction that would underflow as no match. A release build wraps instead: at a traced tile of cost 1000, `cur_cost - 1001` is `usize::MAX`, which matches a wall or unreached neighbour. That neighbour would then be traced and counted. A debug build panics on any traced non-start tile cheaper than 1001 that reaches :362 or :379. The model follows neither build.
- Day16.Part2: the counted tiles are not proved to be exactly the tiles on best routes, and the start is not proved to be counted. The trace keys tiles by position alone and stops early at a forward tile already counted (day16/src/main.rs:356), so what it reaches depends on the order of visits.
- Day17a.Solve: the program runs within a `fuel` bound on the number of instructions.
- Day19a.Solve: the hash set of patterns is modelled as a sequence in iteration order.
- Race.Solve: the outcome in which tracing back the path fails is not proved impossible.
- Day21b.Solve: the concrete counts of the count-keys test are not proved, and `usize` overflow of the counts is not modelled.
- Day22b.Solve: parsing the secret numbers is left out.
- Day23b.Solve: the order and duplicates of the neighbour lists are not modelled; only membership matters to the search. A computer linked to itself makes the source recurse forever; the model returns no answer there.

## Findings

| source | as written | input that shows it | evidently intended | confidence | as-written member | corrected member |
|---|---|---|---|---|---|---|
| day02a/src/main.rs:12-19 | the increasing reports and the decreasing reports are counted one after the other; a report with at most one level passes both filters and is counted twice | the single report `[7]`: the program counts 2 safe reports | each safe report counted once: 1 | high, not executed | Day02a.OneLevelCountedTwice | Day02a.SafeCount |
| day06a/src/main.rs:80-83 | when the guard walks off the map the counter is raised once more, even when the last cell was already counted | a 2x3 lab with obstacles at (0,0), (0,1) and (1,2), and the guard at (1,0) facing down: the program reports 3 | the number of distinct cells occupied: 2 | high, not executed | Day06a.ExitCountedTwice | Day06a.Patrol |

=== FILE: common.dfy ===
/** Small shared vocabulary: optional values, sums over sequences, sorting and
    rectangular grids stored as rows of cells. */

module Wrappers {
  /** A value that may be missing, as Rust's `Option`. */
  datatype Option<+T> = None | Some(value: T)

  /** The sum of `f` over `s`, missing as soon as one term is: a loop
      that adds up results and panics on the first bad one. */
  function SumAll<T>(f: T -> Option<nat>, s: seq<T>): (r: Option<nat>)
    ensures r.Some? <==> forall i :: 0 <= i < |s| ==> f(s[i]).Some?
    decreases |s|
  {
    if |s| == 0 then Some(0)
    else
      var init := s[..|s| - 1];
      assert forall i :: 0 <= i < |init| ==> init[i] == s[i];
      match SumAll(f, init)
      case None => None
      case Some(sum) => if f(s[|s| - 1]).None? then None else Some(sum + f(s[|s| - 1]).value)
  }

  /** One more term on a sum that is not missing. */
  lemma SumAllNext<T>(f: T -> Option<nat>, s: seq<T>, i: nat, sum: nat, term: nat)
    requires i < |s| && SumAll(f, s[..i]) == Some(sum) && f(s[i]) == Some(term)
    ensures SumAll(f, s[..i + 1]) == Some(sum + term)
  {
    assert s[..i + 1][..i] == s[..i];
  }

  /** Sums of terms that agree everywhere agree. */
  lemma {:induction false} SumAllCongruent<T>(f: T -> Option<nat>, g: T -> Option<nat>, s: seq<T>)
    requires forall x :: f(x) == g(x)
    ensures SumAll(f, s) == SumAll(g, s)
    decreases |s|
  {
    if |s| > 0 {
      SumAllCongruent(f, g, s[..|s| - 1]);
    }
  }
}

module Seqs {

  function Abs(x: int): nat
  {
    if x < 0 then -x else x
  }

  /** Sum of a sequence, accumulated from the left like an iterator `sum()`. */
  function Sum(s: seq<int>): int
  {
    if |s| == 0 then 0 else Sum(s[..|s| - 1]) + s[|s| - 1]
  }

  lemma {:induction false} SumAppend(a: seq<int>, b: seq<int>)
    ensures Sum(a + b) == Sum(a) + Sum(b)
    decreases |b|
  {
    if |b| == 0 {
      assert a + b == a;
    } else {
      assert (a + b)[..|a + b| - 1] == a + b[..|b| - 1];
      SumAppend(a, b[..|b| - 1]);
    }
  }

  lemma SumCons(x: int, s: seq<int>)
    ensures Sum([x] + s) == x + Sum(s)
  {
    SumAppend([x], s);
    assert [x][..0] == [];
  }

  /** Summing a prefix one element longer adds exactly that element. */
  lemma SumPrefix(s: seq<int>, i: nat)
    requires i < |s|
    ensures Sum(s[..i + 1]) == Sum(s[..i]) + s[i]
  {
    assert s[..i + 1][..i] == s[..i];
  }

  /** Replacing one element changes the sum by the difference. */
  lemma SumUpdate(s: seq<int>, i: nat, v: int)
    requires i < |s|
    ensures Sum(s[i := v]) == Sum(s) - s[i] + v
  {
    assert s == s[..i] + [s[i]] + s[i + 1..];
    assert s[i := v] == s[..i] + [v] + s[i + 1..];
    SumAppend(s[..i] + [s[i]], s[i + 1..]);
    SumAppend(s[..i], [s[i]]);
    SumAppend(s[..i] + [v], s[i + 1..]);
    SumAppend(s[..i], [v]);
    assert [s[i]][..0] == [] && [v][..0] == [];
  }

  /** A sequence of non-negative numbers has a non-negative sum. */
  lemma {:induction false} SumNonNegative(s: seq<int>)
    requires forall i :: 0 <= i < |s| ==> s[i] >= 0
    ensures Sum(s) >= 0
    decreases |s|
  {
    if |s| > 0 {
      SumNonNegative(s[..|s| - 1]);
    }
  }

  /** The sum depends only on the multiset of elements, not on their order. */
  lemma {:induction false} SumPermutation(a: seq<int>, b: seq<int>)
    requires multiset(a) == multiset(b)
    ensures Sum(a) == Sum(b)
    decreases |a|
  {
    if |a| == 0 {
      assert |b| == |multiset(b)| == 0;
    } else {
      var x := a[|a| - 1];
      assert x in multiset(b);
      var j :| 0 <= j < |b| && b[j] == x;
      var a' := a[..|a| - 1];
      var b' := b[..j] + b[j + 1..];
      assert a == a' + [x];
      assert b == b[..j] + [x] + b[j + 1..];
      assert multiset(a') == multiset(b') by {
        assert multiset(a) == multiset(a') + multiset{x};
        assert multiset(b) == multiset(b[..j]) + multiset{x} + multiset(b[j + 1..]);
        assert multiset(b') == multiset(b[..j]) + multiset(b[j + 1..]);
        assert multiset(a') == multiset(a) - multiset{x};
        assert multiset(b') == multiset(b) - multiset{x};
      }
      SumPermutation(a', b');
      SumAppend(a', [x]);
      SumAppend(b[..j] + [x], b[j + 1..]);
      SumAppend(b[..j], [x]);
      SumAppend(b[..j], b[j + 1..]);
    }
  }

  /** Sum of `f` over the elements of `s`, from the left. */
  function SumOf(s: seq<int>, f: int -> int): int
  {
    if |s| == 0 then 0 else SumOf(s[..|s| - 1], f) + f(s[|s| - 1])
  }

  lemma {:induction false} SumOfAppend(a: seq<int>, b: seq<int>, f: int -> int)
    ensures SumOf(a + b, f) == SumOf(a, f) + SumOf(b, f)
    decreases |b|
  {
    if |b| == 0 {
      assert a + b == a;
    } else {
      assert (a + b)[..|a + b| - 1] == a + b[..|b| - 1];
      SumOfAppend(a, b[..|b| - 1], f);
    }
  }

  /** Like `SumPermutation`, for the sum of the images under `f`. */
  lemma {:induction false} SumOfPermutation(a: seq<int>, b: seq<int>, f: int -> int)
    requires multiset(a) == multiset(b)
    ensures SumOf(a, f) == SumOf(b, f)
    decreases |a|
  {
    if |a| == 0 {
      assert |b| == |multiset(b)| == 0;
    } else {
      var x := a[|a| - 1];
      assert x in multiset(b);
      var j :| 0 <= j < |b| && b[j] == x;
      var a' := a[..|a| - 1];
      var b' := b[..j] + b[j + 1..];
      assert a == a' + [x];
      assert b == b[..j] + [x] + b[j + 1..];
      assert multiset(a') == multiset(b') by {
        assert multiset(a) == multiset(a') + multiset{x};
        assert multiset(b) == multiset(b[..j]) + multiset{x} + multiset(b[j + 1..]);
        assert multiset(b') == multiset(b[..j]) + multiset(b[j + 1..]);
        assert multiset(a') == multiset(a) - multiset{x};
        assert multiset(b') == multiset(b) - multiset{x};
      }
      SumOfPermutation(a', b', f);
      SumOfAppend(a', [x], f);
      SumOfAppend(b[..j] + [x], b[j + 1..], f);
      SumOfAppend(b[..j], [x], f);
      SumOfAppend(b[..j], b[j + 1..], f);
      assert [x][..0] == [];
    }
  }

  /** `SumOf` only looks at `f` on the elements of `s`. */
  lemma {:induction false} SumOfCongruent(s: seq<int>, f: int -> int, g: int -> int)
    requires forall i :: 0 <= i < |s| ==> f(s[i]) == g(s[i])
    ensures SumOf(s, f) == SumOf(s, g)
    decreases |s|
  {
    if |s| > 0 {
      SumOfCongruent(s[..|s| - 1], f, g);
    }
  }

  /** How many elements of `s` satisfy `p`, like `filter(p).count()`. */
  function CountIf<T>(s: seq<T>, p: T -> bool): nat
  {
    if |s| == 0 then 0 else CountIf(s[..|s| - 1], p) + (if p(s[|s| - 1]) then 1 else 0)
  }

  lemma {:induction false} CountIfAppend<T>(a: seq<T>, b: seq<T>, p: T -> bool)
    ensures CountIf(a + b, p) == CountIf(a, p) + CountIf(b, p)
    decreases |b|
  {
    if |b| == 0 {
      assert a + b == a;
    } else {
      assert (a + b)[..|a + b| - 1] == a + b[..|b| - 1];
      CountIfAppend(a, b[..|b| - 1], p);
    }
  }

  /** No more elements are counted than there are. */
  lemma {:induction false} CountIfAtMost<T>(s: seq<T>, p: T -> bool)
    ensures CountIf(s, p) <= |s|
    decreases |s|
  {
    if |s| > 0 {
      CountIfAtMost(s[..|s| - 1], p);
    }
  }

  /** The elements of `s` satisfying `p`, in order, like `filter(p)`. */
  function Filter<T>(s: seq<T>, p: T -> bool): (r: seq<T>)
    ensures |r| <= |s|
    ensures forall i :: 0 <= i < |r| ==> r[i] in s && p(r[i])
    ensures forall i :: 0 <= i < |s| && p(s[i]) ==> s[i] in r
  {
    if |s| == 0 then [] else (if p(s[0]) then [s[0]] else []) + Filter(s[1..], p)
  }

  /** Filtering out an element that is present shortens the sequence. */
  lemma {:induction false} FilterShorter<T>(s: seq<T>, p: T -> bool, x: T)
    requires x in s && !p(x)
    ensures |Filter(s, p)| < |s|
  {
    if s[0] != x {
      FilterShorter(s[1..], p, x);
    }
  }

  /** The number of occurrences of `x` in `s`. */
  function Occ<T(==)>(s: seq<T>, x: T): nat
  {
    if |s| == 0 then 0 else Occ(s[..|s| - 1], x) + (if s[|s| - 1] == x then 1 else 0)
  }

  lemma {:induction false} OccAppend<T>(a: seq<T>, b: seq<T>, x: T)
    ensures Occ(a + b, x) == Occ(a, x) + Occ(b, x)
    decreases |b|
  {
    if |b| == 0 {
      assert a + b == a;
    } else {
      assert (a + b)[..|a + b| - 1] == a + b[..|b| - 1];
      OccAppend(a, b[..|b| - 1], x);
    }
  }

  /** The elements of `r` satisfying `p`. */
  ghost function Select<T>(r: set<T>, p: T -> bool): set<T>
  {
    set x | x in r && p(x)
  }

  /** Counting over a list that holds each element of `r` exactly once is
      counting over `r`. */
  lemma {:induction false} CountIfOnce<T>(s: seq<T>, r: set<T>, p: T -> bool)
    requires forall x :: Occ(s, x) == if x in r then 1 else 0
    ensures CountIf(s, p) == |Select(r, p)|
    decreases |s|
  {
    if |s| == 0 {
      assert forall x :: x !in r by {
        forall x ensures x !in r {
          assert Occ(s, x) == 0;
        }
      }
      assert (set x | x in r && p(x)) == {};
    } else {
      var t, last := s[..|s| - 1], s[|s| - 1];
      assert Occ(s, last) == Occ(t, last) + 1;
      assert last in r;
      forall x
        ensures Occ(t, x) == if x in r - {last} then 1 else 0
      {
        assert Occ(s, x) == Occ(t, x) + (if last == x then 1 else 0);
      }
      CountIfOnce(t, r - {last}, p);
      var a := set x | x in r - {last} && p(x);
      var b := set x | x in r && p(x);
      if p(last) {
        assert b == a + {last};
      } else {
        assert b == a;
      }
    }
  }

  /** Replacing one element changes the count by what leaves and what enters. */
  lemma CountIfUpdate<T>(s: seq<T>, i: nat, v: T, p: T -> bool)
    requires i < |s|
    ensures CountIf(s[i := v], p) + (if p(s[i]) then 1 else 0) == CountIf(s, p) + (if p(v) then 1 else 0)
  {
    assert s == s[..i] + [s[i]] + s[i + 1..];
    assert s[i := v] == s[..i] + [v] + s[i + 1..];
    CountIfAppend(s[..i] + [s[i]], s[i + 1..], p);
    CountIfAppend(s[..i], [s[i]], p);
    CountIfAppend(s[..i] + [v], s[i + 1..], p);
    CountIfAppend(s[..i], [v], p);
    assert [s[i]][..0] == [] && [v][..0] == [];
  }

  /** Inclusion and exclusion: counting `p` and `q` separately counts the
      elements satisfying both twice. */
  lemma {:induction false} CountIfUnion<T>(s: seq<T>, p: T -> bool, q: T -> bool, either: T -> bool, both: T -> bool)
    requires forall i :: 0 <= i < |s| ==> (either(s[i]) <==> p(s[i]) || q(s[i]))
    requires forall i :: 0 <= i < |s| ==> (both(s[i]) <==> p(s[i]) && q(s[i]))
    ensures CountIf(s, p) + CountIf(s, q) == CountIf(s, either) + CountIf(s, both)
    decreases |s|
  {
    if |s| > 0 {
      var t := s[..|s| - 1];
      assert forall i :: 0 <= i < |t| ==> t[i] == s[i];
      CountIfUnion(t, p, q, either, both);
    }
  }

  /** The first element of an ascending sequence is its least element. */
  lemma SortedHeadLeast(s: seq<int>, x: int)
    requires Sorted(s) && x in multiset(s)
    ensures |s| > 0 && s[0] <= x
  {
    var i :| 0 <= i < |s| && s[i] == x;
  }

  /** Two ascending sequences with the same elements are equal. */
  lemma {:induction false} SortedUnique(a: seq<int>, b: seq<int>)
    requires Sorted(a) && Sorted(b) && multiset(a) == multiset(b)
    ensures a == b
    decreases |a|
  {
    if |a| == 0 {
      assert |b| == |multiset(b)| == 0;
    } else {
      assert a[0] in multiset(a);
      SortedHeadLeast(b, a[0]);
      SortedHeadLeast(a, b[0]);
      assert a[0] == b[0];
      assert a == [a[0]] + a[1..];
      assert b == [b[0]] + b[1..];
      assert multiset(a[1..]) == multiset(a) - multiset{a[0]};
      assert multiset(b[1..]) == multiset(b) - multiset{b[0]};
      SortedUnique(a[1..], b[1..]);
    }
  }

  /** A sequence is its part before `i`, its element at `i` and the rest. */
  lemma Around<T>(s: seq<T>, i: nat)
    requires i < |s|
    ensures s == s[..i] + ([s[i]] + s[i + 1..])
  {
  }

  /** A nonempty sequence is its front and its last element. */
  lemma Snoc<T>(s: seq<T>)
    requires |s| > 0
    ensures s == s[..|s| - 1] + [s[|s| - 1]]
  {
  }

  lemma Associative<T>(a: seq<T>, b: seq<T>, c: seq<T>)
    ensures a + (b + c) == a + b + c
  {
  }

  /** `f` of each element of `s` and the one before it, `first` standing
      before the first element. */
  function Pairs<T, U>(f: (T, T) -> U, first: T, s: seq<T>): (r: seq<U>)
    ensures |r| == |s|
    decreases |s|
  {
    if |s| == 0 then [] else [f(first, s[0])] + Pairs(f, s[0], s[1..])
  }

  lemma {:induction false} PairsAt<T, U>(f: (T, T) -> U, first: T, s: seq<T>, i: nat)
    requires i < |s|
    ensures Pairs(f, first, s)[i] == f(if i == 0 then first else s[i - 1], s[i])
    decreases i
  {
    if i > 0 {
      PairsAt(f, s[0], s[1..], i - 1);
    }
  }

  /** The pairs of a four-element sequence, spelled out. */
  lemma PairsFour<T, U>(f: (T, T) -> U, first: T, a: T, b: T, c: T, d: T)
    ensures Pairs(f, first, [a, b, c, d]) == [f(first, a), f(a, b), f(b, c), f(c, d)]
  {
    assert [a, b, c, d][1..] == [b, c, d] && [b, c, d][1..] == [c, d] && [c, d][1..] == [d];
    assert Pairs(f, c, [d]) == [f(c, d)];
    assert Pairs(f, b, [c, d]) == [f(b, c), f(c, d)];
    assert Pairs(f, a, [b, c, d]) == [f(a, b), f(b, c), f(c, d)];
  }

  /** The pairs of `a + b` are those of `a`, then those of `b` after the
      last element of `a`. */
  lemma {:induction false} PairsAppend<T, U>(f: (T, T) -> U, first: T, a: seq<T>, b: seq<T>)
    ensures Pairs(f, first, a + b) == Pairs(f, first, a) + Pairs(f, if |a| == 0 then first else a[|a| - 1], b)
    decreases |a|
  {
    if |a| == 0 {
      assert a + b == b;
    } else {
      assert (a + b)[0] == a[0] && (a + b)[1..] == a[1..] + b;
      PairsAppend(f, a[0], a[1..], b);
    }
  }

  /** The blocks of `bs` one after another. */
  function Flatten<T>(bs: seq<seq<T>>): seq<T>
    decreases |bs|
  {
    if |bs| == 0 then [] else bs[0] + Flatten(bs[1..])
  }

  lemma {:induction false} FlattenAppend<T>(a: seq<seq<T>>, b: seq<seq<T>>)
    ensures Flatten(a + b) == Flatten(a) + Flatten(b)
    decreases |a|
  {
    if |a| == 0 {
      assert a + b == b;
    } else {
      assert (a + b)[0] == a[0] && (a + b)[1..] == a[1..] + b;
      FlattenAppend(a[1..], b);
    }
  }

  /** An element of the flattened blocks is an element of one block. */
  lemma {:induction false} FlattenHas<T>(bs: seq<seq<T>>, x: T)
    ensures x in Flatten(bs) <==> exists i :: 0 <= i < |bs| && x in bs[i]
    decreases |bs|
  {
    if |bs| > 0 {
      FlattenHas(bs[1..], x);
      if exists i :: 0 <= i < |bs| && x in bs[i] {
        var i :| 0 <= i < |bs| && x in bs[i];
        if i > 0 {
          assert bs[1..][i - 1] == bs[i];
        }
      }
      if exists i :: 0 <= i < |bs[1..]| && x in bs[1..][i] {
        var i :| 0 <= i < |bs[1..]| && x in bs[1..][i];
        assert bs[i + 1] == bs[1..][i];
      }
    }
  }

  /** `n` copies of `x`. */
  function Repeat<T>(x: T, n: nat): (r: seq<T>)
    ensures |r| == n
  {
    if n == 0 then [] else [x] + Repeat(x, n - 1)
  }

  lemma {:induction false} RepeatOnly<T>(x: T, n: nat, y: T)
    requires y in Repeat(x, n)
    ensures y == x
    decreases n
  {
    if y != x {
      RepeatOnly(x, n - 1, y);
    }
  }

  /** `n` copies of `x` hold `x` exactly `n` times. */
  lemma {:induction false} RepeatCount<T>(x: T, n: nat)
    ensures multiset(Repeat(x, n)) == multiset{}[x := n]
    decreases n
  {
    if n > 0 {
      RepeatCount(x, n - 1);
      assert Repeat(x, n) == [x] + Repeat(x, n - 1);
    }
  }

  /** Removing the element at `i` removes one occurrence of it. */
  lemma Remove<T>(s: seq<T>, i: nat)
    requires i < |s|
    ensures multiset(s) == multiset(s[..i] + s[i + 1..]) + multiset{s[i]}
  {
    Around(s, i);
    calc {
      multiset(s);
      multiset(s[..i] + ([s[i]] + s[i + 1..]));
      multiset(s[..i]) + multiset{s[i]} + multiset(s[i + 1..]);
      multiset(s[..i] + s[i + 1..]) + multiset{s[i]};
    }
  }

  /** No element occurs twice. */
  predicate Distinct<T(==)>(s: seq<T>)
  {
    forall i, j :: 0 <= i < j < |s| ==> s[i] != s[j]
  }

  lemma {:induction false} DistinctOnce<T>(s: seq<T>, x: T)
    requires Distinct(s)
    ensures multiset(s)[x] <= 1
  {
    if |s| > 0 {
      assert s == [s[0]] + s[1..];
      assert Distinct(s[1..]) by {
        forall i, j | 0 <= i < j < |s[1..]|
          ensures s[1..][i] != s[1..][j]
        {
          assert s[1..][i] == s[i + 1] && s[1..][j] == s[j + 1];
        }
      }
      DistinctOnce(s[1..], x);
      if x == s[0] {
        assert x !in multiset(s[1..]);
      }
    }
  }

  /** A reordering of a sequence without repeats has none either. */
  lemma PermutedDistinct<T>(a: seq<T>, b: seq<T>)
    requires Distinct(a) && multiset(a) == multiset(b)
    ensures Distinct(b)
  {
    forall i, j | 0 <= i < j < |b|
      ensures b[i] != b[j]
    {
      if b[i] == b[j] {
        Remove(b, j);
        assert (b[..j] + b[j + 1..])[i] == b[i];
        DistinctOnce(a, b[i]);
      }
    }
  }

  /** Filtering keeps a sequence free of repeats. */
  lemma {:induction false} FilterDistinct<T>(s: seq<T>, p: T -> bool)
    requires Distinct(s)
    ensures Distinct(Filter(s, p))
  {
    if |s| > 0 {
      assert Distinct(s[1..]) by {
        forall i, j | 0 <= i < j < |s[1..]|
          ensures s[1..][i] != s[1..][j]
        {
          assert s[1..][i] == s[i + 1] && s[1..][j] == s[j + 1];
        }
      }
      FilterDistinct(s[1..], p);
      var rest := Filter(s[1..], p);
      assert s[0] !in s[1..] by {
        forall k | 0 <= k < |s[1..]|
          ensures s[1..][k] != s[0]
        {
          assert s[1..][k] == s[k + 1];
        }
      }
    }
  }

  /** A sequence without repeats is no longer than any sequence holding
      all its elements. */
  lemma {:induction false} DistinctShorter<T>(a: seq<T>, b: seq<T>)
    requires Distinct(a) && forall x :: x in a ==> x in b
    ensures |a| <= |b|
  {
    if |a| > 0 {
      assert a[0] in a;
      var i :| 0 <= i < |b| && b[i] == a[0];
      var b' := b[..i] + b[i + 1..];
      forall x | x in a[1..]
        ensures x in b'
      {
        var k :| 0 <= k < |a[1..]| && a[1..][k] == x;
        assert a[k + 1] == x && x != a[0] && x in a;
        var j :| 0 <= j < |b| && b[j] == x;
        if j < i {
          assert b'[j] == x;
        } else {
          assert b'[j - 1] == x;
        }
      }
      assert Distinct(a[1..]) by {
        forall m, n | 0 <= m < n < |a[1..]|
          ensures a[1..][m] != a[1..][n]
        {
          assert a[1..][m] == a[m + 1] && a[1..][n] == a[n + 1];
        }
      }
      DistinctShorter(a[1..], b');
    }
  }

  /** Sorting keeps the members. */
  lemma SortMembers(s: seq<int>)
    ensures forall x :: x in Sort(s) <==> x in s
  {
    var r := Sort(s);
    forall x
      ensures x in r <==> x in s
    {
      assert x in r <==> x in multiset(r);
      assert x in s <==> x in multiset(s);
    }
  }

  /** A sorted reordering of distinct numbers is strictly ascending and
      has the same members. */
  lemma SortedDistinct(p: seq<int>, c: seq<int>)
    requires Distinct(p) && Sorted(c) && multiset(c) == multiset(p)
    ensures forall i, j :: 0 <= i < j < |c| ==> c[i] < c[j]
    ensures forall x :: x in c <==> x in p
  {
    PermutedDistinct(p, c);
    forall x
      ensures x in c <==> x in p
    {
      assert x in c <==> x in multiset(c);
      assert x in p <==> x in multiset(p);
    }
  }

  predicate Sorted(s: seq<int>)
  {
    forall i, j :: 0 <= i < j < |s| ==> s[i] <= s[j]
  }

  /** Inserts `x` into an ascending sequence, keeping it ascending. */
  function Insert(x: int, s: seq<int>): (r: seq<int>)
    requires Sorted(s)
    ensures Sorted(r)
    ensures multiset(r) == multiset(s) + multiset{x}
    ensures |r| == |s| + 1
  {
    if |s| == 0 then [x]
    else if x <= s[0] then [x] + s
    else
      var rest := Insert(x, s[1..]);
      InsertHead(x, s, rest);
      [s[0]] + rest
  }

  lemma InsertHead(x: int, s: seq<int>, rest: seq<int>)
    requires Sorted(s) && |s| > 0 && s[0] < x
    requires Sorted(rest) && multiset(rest) == multiset(s[1..]) + multiset{x}
    ensures Sorted([s[0]] + rest)
    ensures multiset([s[0]] + rest) == multiset(s) + multiset{x}
  {
    assert s == [s[0]] + s[1..];
    forall k | 0 <= k < |rest|
      ensures s[0] <= rest[k]
    {
      assert rest[k] in multiset(rest);
      if rest[k] != x {
        assert rest[k] in multiset(s[1..]);
        var i :| 0 <= i < |s[1..]| && s[1..][i] == rest[k];
        assert s[1..][i] == s[i + 1];
      }
    }
    var r := [s[0]] + rest;
    forall i, j | 0 <= i < j < |r|
      ensures r[i] <= r[j]
    {
      if i > 0 {
        assert r[i] == rest[i - 1] && r[j] == rest[j - 1];
      } else {
        assert r[j] == rest[j - 1];
      }
    }
  }

  /** Ascending sort (Rust's `sort`, which is stable; ties are equal numbers). */
  function Sort(s: seq<int>): (r: seq<int>)
    ensures Sorted(r)
    ensures multiset(r) == multiset(s)
    ensures |r| == |s|
  {
    if |s| == 0 then []
    else
      assert s == s[..|s| - 1] + [s[|s| - 1]];
      Insert(s[|s| - 1], Sort(s[..|s| - 1]))
  }

}

module Grids {
  import Seqs

  /** A rectangular field addressed as `g[y][x]`: `h` rows of `w` cells. */
  predicate IsGrid<T>(g: seq<seq<T>>, w: nat, h: nat)
  {
    |g| == h && forall y :: 0 <= y < h ==> |g[y]| == w
  }

  predicate InBounds(w: nat, h: nat, x: int, y: int)
  {
    0 <= x < w && 0 <= y < h
  }

  /** Overwrites the cell at column `x` of row `y`. */
  function Set<T>(g: seq<seq<T>>, x: nat, y: nat, v: T): (r: seq<seq<T>>)
    requires y < |g| && x < |g[y]|
    ensures |r| == |g|
    ensures forall j :: 0 <= j < |g| ==> |r[j]| == |g[j]|
    ensures r[y][x] == v
    ensures forall j, i :: 0 <= j < |g| && 0 <= i < |g[j]| && (j != y || i != x) ==> r[j][i] == g[j][i]
  {
    g[y := g[y][x := v]]
  }

  /** A grid of `h` rows of `w` copies of `v`. */
  function Fill<T>(w: nat, h: nat, v: T): (r: seq<seq<T>>)
    ensures IsGrid(r, w, h)
    ensures forall y, x :: 0 <= y < h && 0 <= x < w ==> r[y][x] == v
  {
    seq(h, _ => seq(w, _ => v))
  }

  /** The sum of `f` over all cells. */
  function Measure<T>(g: seq<seq<T>>, f: T -> int): int
  {
    Seqs.Sum(seq(|g|, y requires 0 <= y < |g| => Seqs.Sum(seq(|g[y]|, x requires 0 <= x < |g[y]| => f(g[y][x])))))
  }

  lemma MeasureNonNegative<T>(g: seq<seq<T>>, f: T -> int)
    requires forall t :: f(t) >= 0
    ensures Measure(g, f) >= 0
  {
    var rows := seq(|g|, y requires 0 <= y < |g| => Seqs.Sum(seq(|g[y]|, x requires 0 <= x < |g[y]| => f(g[y][x]))));
    forall y | 0 <= y < |g|
      ensures rows[y] >= 0
    {
      Seqs.SumNonNegative(seq(|g[y]|, x requires 0 <= x < |g[y]| => f(g[y][x])));
    }
    Seqs.SumNonNegative(rows);
  }

  lemma MeasureSet<T>(g: seq<seq<T>>, x: nat, y: nat, t: T, f: T -> int)
    requires y < |g| && x < |g[y]|
    ensures Measure(Set(g, x, y, t), f) == Measure(g, f) - f(g[y][x]) + f(t)
  {
    var r := Set(g, x, y, t);
    var row := seq(|g[y]|, i requires 0 <= i < |g[y]| => f(g[y][i]));
    var row' := seq(|r[y]|, i requires 0 <= i < |r[y]| => f(r[y][i]));
    assert row' == row[x := f(t)];
    Seqs.SumUpdate(row, x, f(t));
    var rows := seq(|g|, j requires 0 <= j < |g| => Seqs.Sum(seq(|g[j]|, i requires 0 <= i < |g[j]| => f(g[j][i]))));
    var rows' := seq(|r|, j requires 0 <= j < |r| => Seqs.Sum(seq(|r[j]|, i requires 0 <= i < |r[j]| => f(r[j][i]))));
    assert rows' == rows[y := Seqs.Sum(row')];
    Seqs.SumUpdate(rows, y, Seqs.Sum(row'));
  }
}

module Arith {
  /** A product of naturals is natural: stated apart so that a large
      context need not rediscover it. */
  lemma MulNat(a: nat, b: nat)
    ensures a * b >= 0
  {
  }

  lemma MulGap(a: int, b: int, p: int)
    requires a > b && p > 0
    ensures a * p - b * p >= p
  {
    assert a * p - b * p == (a - b - 1) * p + p;
    assert (a - b - 1) * p >= 0;
  }

  /** Rust's `%` on `i32`: the remainder keeps the sign of the dividend. */
  function Rem(a: int, m: int): int
    requires m > 0
  {
    if a >= 0 then a % m else -((-a) % m)
  }

  /** The remainder is smaller than the divisor in size, differs from the
      dividend by a multiple of it, and has the dividend's sign. */
  lemma RemBounds(a: int, m: int)
    requires m > 0
    ensures -m < Rem(a, m) < m && (a - Rem(a, m)) % m == 0
    ensures a >= 0 ==> Rem(a, m) >= 0
    ensures a <= 0 ==> Rem(a, m) <= 0
  {
    RemParts(a, m);
  }

  lemma RemParts(a: int, m: int)
    requires m > 0
    ensures 0 <= a % m < m && 0 <= (-a) % m < m
    ensures (a - a % m) % m == 0 && (a + (-a) % m) % m == 0
  {
    DivMod(a - a % m, m, a / m, 0);
    DivMod(a + (-a) % m, m, -((-a) / m), 0);
  }

  /** Quotient and remainder are the only pair that rebuilds `x`. */
  lemma DivMod(x: int, p: int, q: int, r: int)
    requires p > 0 && 0 <= r < p && x == q * p + r
    ensures x / p == q && x % p == r
  {
    var q', r' := x / p, x % p;
    if q' > q {
      MulGap(q', q, p);
    } else if q' < q {
      MulGap(q, q', p);
    }
  }

  function Pow(b: nat, e: nat): (p: nat)
    ensures b > 0 ==> p > 0
  {
    if e == 0 then 1 else b * Pow(b, e - 1)
  }

  /** Number of decimal digits, `ilog10(n) + 1` for positive `n`; zero has
      one. */
  function Digits(n: nat): nat
  {
    if n < 10 then 1 else 1 + Digits(n / 10)
  }

  /** `n` lies between the powers of ten its digit count names. */
  lemma {:induction false} DigitsBounds(n: nat)
    ensures Digits(n) >= 1
    ensures n < Pow(10, Digits(n)) && (Digits(n) == 1 || Pow(10, Digits(n) - 1) <= n)
    decreases n
  {
    if n >= 10 {
      DigitsBounds(n / 10);
      var d := Digits(n / 10);
      assert Pow(10, d + 1) == 10 * Pow(10, d);
      assert d == 1 || Pow(10, d) == 10 * Pow(10, d - 1);
    }
  }

  /** Quotient and remainder rebuild the number. */
  lemma Rebuild(n: int, m: int)
    requires m > 0
    ensures (n / m) * m + n % m == n && 0 <= n % m < m
  {
  }

  lemma {:induction false} PowAdd(b: nat, x: nat, y: nat)
    ensures Pow(b, x + y) == Pow(b, x) * Pow(b, y)
    decreases x
  {
    if x > 0 {
      PowAdd(b, x - 1, y);
      assert x + y - 1 == (x - 1) + y;
      var p, q := Pow(b, x - 1), Pow(b, y);
      assert Pow(b, x + y) == b * (p * q);
      MulAssociative(b, p, q);
    }
  }

  lemma MulAssociative(a: int, b: int, c: int)
    ensures a * (b * c) == (a * b) * c
  {
  }

  /** Bounds on `n` between two multiples of `m` bound the quotient. */
  lemma DivBounds(n: int, m: int, lo: int, hi: int)
    requires m > 0 && lo * m <= n < hi * m
    ensures lo <= n / m < hi
  {
    var q, r := n / m, n % m;
    assert n == q * m + r;
    if q < lo {
      MulGap(lo, q, m);
    }
    if q >= hi {
      if q > hi {
        MulGap(q, hi, m);
      }
    }
  }

  /** A number between `10^(k-1)` and `10^k` has `k` digits. */
  lemma {:induction false} DigitsExact(n: nat, k: nat)
    requires k >= 1 && Pow(10, k - 1) <= n < Pow(10, k)
    ensures Digits(n) == k
    decreases k
  {
    if k > 1 {
      DivBounds(n, 10, Pow(10, k - 2), Pow(10, k - 1));
      DigitsExact(n / 10, k - 1);
    }
  }
}

/** `std::collections::BinaryHeap` as a multiset: `pop` removes a greatest
    element under the element type's ordering, given here as a rank;
    which of several equally ranked elements comes out is left open. */
module Heaps {
  method PopMax<T(==)>(todos: multiset<T>, rank: T -> int) returns (n: T)
    requires todos != multiset{}
    ensures n in todos && forall m :: m in todos ==> rank(m) <= rank(n)
  {
    n :| n in todos;
    var rest := todos;
    while rest != multiset{}
      invariant rest <= todos && n in todos
      invariant forall m :: m in todos ==> m in rest || rank(m) <= rank(n)
      decreases |rest|
    {
      var k :| k in rest;
      if rank(k) > rank(n) {
        n := k;
      }
      rest := rest - multiset{k};
    }
  }
}

/** Decimal digits in text. */
module Text {
  predicate IsDigit(c: char)
  {
    '0' <= c <= '9'
  }

  predicate AllDigits(s: string)
  {
    forall i :: 0 <= i < |s| ==> IsDigit(s[i])
  }

  /** Decimal value of a string of digits, most significant first. */
  function Value(ds: string): nat
    requires AllDigits(ds)
  {
    if |ds| == 0 then 0 else Value(ds[..|ds| - 1]) * 10 + (ds[|ds| - 1] as int - '0' as int)
  }
}

=== FILE: day01.dfy ===
/** Day 1: two columns of location ids, compared by distance (part one) and
    by similarity score (part two). */

module Day01a {
  import opened Seqs

  function Min(a: nat, b: nat): nat
  {
    if a < b then a else b
  }

  /** The absolute differences of the pairs `zip` forms: position by position,
      stopping at the end of the shorter list. */
  function PairDistances(l: seq<int>, r: seq<int>): (d: seq<int>)
    ensures |d| == Min(|l|, |r|)
    ensures forall i :: 0 <= i < |d| ==> d[i] == Abs(r[i] - l[i])
  {
    if |l| == 0 || |r| == 0 then [] else [Abs(r[0] - l[0])] + PairDistances(l[1..], r[1..])
  }

  /** A sum of non-negative terms is zero exactly when every term is. */
  lemma {:induction false} SumZeroIff(s: seq<int>)
    requires forall i :: 0 <= i < |s| ==> s[i] >= 0
    ensures Sum(s) == 0 <==> forall i :: 0 <= i < |s| ==> s[i] == 0
    decreases |s|
  {
    if |s| > 0 {
      var t := s[..|s| - 1];
      SumZeroIff(t);
      SumNonNegative(t);
      assert forall i :: 0 <= i < |t| ==> t[i] == s[i];
    }
  }

  /** The lists hold the same id at every position `zip` pairs up. */
  predicate AgreeOnPairs(l: seq<int>, r: seq<int>)
  {
    forall i :: 0 <= i < |l| && i < |r| ==> l[i] == r[i]
  }

  /** Total distance: both lists sorted ascending, then paired up. The
      distance is zero exactly when the sorted lists agree on every pair. */
  function Distance(left: seq<nat>, right: seq<nat>): (d: nat)
    ensures d == 0 <==> AgreeOnPairs(Sort(left), Sort(right))
  {
    var ds := PairDistances(Sort(left), Sort(right));
    SumNonNegative(ds);
    SumZeroIff(ds);
    Sum(ds)
  }

  /** Pairing the lists the other way round gives the same distance. */
  lemma DistanceSymmetric(left: seq<nat>, right: seq<nat>)
    ensures Distance(left, right) == Distance(right, left)
  {
    var l, r := Sort(left), Sort(right);
    assert PairDistances(l, r) == PairDistances(r, l);
  }

  /** The order in which the ids are listed does not matter: only the
      multisets of the two columns do. */
  lemma DistanceOrderIndependent(left: seq<nat>, right: seq<nat>, left': seq<nat>, right': seq<nat>)
    requires multiset(left) == multiset(left') && multiset(right) == multiset(right')
    ensures Distance(left, right) == Distance(left', right')
  {
    SortedUnique(Sort(left), Sort(left'));
    SortedUnique(Sort(right), Sort(right'));
  }

  /** For columns of equal length the distance is zero exactly when they
      hold the same ids the same number of times. */
  lemma DistanceZeroIff(left: seq<nat>, right: seq<nat>)
    requires |left| == |right|
    ensures Distance(left, right) == 0 <==> multiset(left) == multiset(right)
  {
    var l, r := Sort(left), Sort(right);
    if multiset(left) == multiset(right) {
      SortedUnique(l, r);
    }
    if AgreeOnPairs(l, r) {
      assert l == r;
    }
  }
}

module Day01b {
  import opened Seqs

  /** How often each id occurs in `right`, built as the `BTreeMap` whose
      entry is incremented once per occurrence. */
  function Occurrences(right: seq<int>): (m: map<int, nat>)
    ensures forall x :: x in m <==> x in multiset(right)
    ensures forall x :: x in m ==> m[x] == multiset(right)[x]
  {
    if |right| == 0 then map[]
    else
      var x := right[|right| - 1];
      var m := Occurrences(right[..|right| - 1]);
      assert right == right[..|right| - 1] + [x];
      m[x := (if x in m then m[x] else 0) + 1]
  }

  /** One id's contribution: the id times its count, missing ids counting zero. */
  function Similarity(counts: map<int, nat>, l: int): int
  {
    l * (if l in counts then counts[l] else 0)
  }

  /** The similarity score: each left id times how often it occurs on the
      right, summed over the sorted left column. It equals the same sum taken
      over the left column in its given order with counts read directly off
      the right column's multiset. */
  function Score(left: seq<nat>, right: seq<nat>): (s: int)
    ensures s == SumOf(left, l => l * multiset(right)[l])
  {
    var counts := Occurrences(right);
    var sorted := Sort(left);
    SumOfPermutation(sorted, left, l => Similarity(counts, l));
    SumOfCongruent(left, l => Similarity(counts, l), l => l * multiset(right)[l]);
    SumOf(sorted, l => Similarity(counts, l))
  }

  /** Ids that never occur on the right contribute nothing. */
  lemma ScoreIgnoresUnmatched(left: seq<nat>, right: seq<nat>, x: nat)
    requires x !in multiset(right)
    ensures Score(left + [x], right) == Score(left, right)
  {
    SumOfAppend(left, [x], l => l * multiset(right)[l]);
    assert [x][..0] == [];
  }
}

=== FILE: day02.dfy ===
/** Day 2: reports of levels are safe when they move in one direction by
    steps of one to three (part one), or can be made so by dropping one
    level (part two). */

module Day02a {
  import opened Seqs

  /** Differences of adjacent levels, as `windows(2).map(|w| w[1] - w[0])`. */
  function Diffs(report: seq<int>): (d: seq<int>)
    ensures |d| == if |report| == 0 then 0 else |report| - 1
    ensures forall i :: 0 <= i < |d| ==> d[i] == report[i + 1] - report[i]
  {
    if |report| <= 1 then [] else [report[1] - report[0]] + Diffs(report[1..])
  }

  predicate Increasing(report: seq<int>)
  {
    var d := Diffs(report);
    forall i :: 0 <= i < |d| ==> 0 < d[i] <= 3
  }

  predicate Decreasing(report: seq<int>)
  {
    var d := Diffs(report);
    forall i :: 0 <= i < |d| ==> -3 <= d[i] < 0
  }

  /** A safe report is increasing or decreasing (steps of one to three). */
  predicate Safe(report: seq<int>)
  {
    Increasing(report) || Decreasing(report)
  }

  predicate Short(report: seq<int>)
  {
    |report| <= 1
  }

  /** An increasing report is strictly ascending and climbs at most three
      per position; conversely a report with those two properties at every
      step is increasing. */
  lemma IncreasingMeansAscending(report: seq<int>)
    ensures Increasing(report) ==>
      (forall i, j :: 0 <= i < j < |report| ==> report[i] < report[j] <= report[i] + 3 * (j - i))
    ensures (forall i :: 0 <= i < |report| - 1 ==> report[i] < report[i + 1] <= report[i] + 3) ==> Increasing(report)
  {
    var d := Diffs(report);
    if |report| > 1 && Increasing(report) {
      forall i, j | 0 <= i < j < |report|
        ensures report[i] < report[j] <= report[i] + 3 * (j - i)
      {
        StepBound(report, i, j);
      }
    }
    if forall i :: 0 <= i < |report| - 1 ==> report[i] < report[i + 1] <= report[i] + 3 {
      forall k | 0 <= k < |d|
        ensures 0 < d[k] <= 3
      {
        assert d[k] == report[k + 1] - report[k];
      }
    }
  }

  lemma {:induction false} StepBound(report: seq<int>, i: nat, j: nat)
    requires Increasing(report) && i < j < |report|
    ensures report[i] < report[j] <= report[i] + 3 * (j - i)
    decreases j - i
  {
    var d := Diffs(report);
    assert d[j - 1] == report[j] - report[j - 1];
    if i < j - 1 {
      StepBound(report, i, j - 1);
    }
  }

  /** A report is both increasing and decreasing exactly when it has at
      most one level, since then it has no steps at all. */
  lemma BothIffShort(report: seq<int>)
    ensures Increasing(report) && Decreasing(report) <==> Short(report)
  {
    if |report| > 1 {
      assert Diffs(report)[0] == report[1] - report[0];
    }
  }

  /** The count as computed: the increasing reports chained with the
      decreasing ones. */
  function SafeCountAsWritten(reports: seq<seq<int>>): nat
  {
    CountIf(reports, Increasing) + CountIf(reports, Decreasing)
  }

  /** The count as intended: each safe report once, so never more than
      there are reports. */
  function SafeCount(reports: seq<seq<int>>): (r: nat)
    ensures r <= |reports|
  {
    CountIfAtMost(reports, Safe);
    CountIf(reports, Safe)
  }

  /** The chained count exceeds the number of safe reports by exactly the
      number of reports with at most one level, which pass both filters. */
  lemma AsWrittenOvercounts(reports: seq<seq<int>>)
    ensures SafeCountAsWritten(reports) == SafeCount(reports) + CountIf(reports, Short)
  {
    forall i | 0 <= i < |reports|
      ensures Short(reports[i]) <==> Increasing(reports[i]) && Decreasing(reports[i])
    {
      BothIffShort(reports[i]);
    }
    CountIfUnion(reports, Increasing, Decreasing, Safe, Short);
  }

  /** A single one-level report is counted twice. */
  lemma OneLevelCountedTwice()
    ensures SafeCountAsWritten([[7]]) == 2
    ensures SafeCount([[7]]) == 1
  {
    assert [[7]][..0] == [];
  }
}

module Day02b {
  import opened Seqs
  import opened Day02a

  /** The report without the level at position `i`, as `Vec::remove`. */
  function RemoveAt(report: seq<int>, i: nat): (r: seq<int>)
    requires i < |report|
    ensures |r| == |report| - 1
    ensures forall k :: 0 <= k < |r| ==> r[k] == if k < i then report[k] else report[k + 1]
  {
    report[..i] + report[i + 1..]
  }

  /** Some single level can be dropped to leave a safe report. */
  predicate Fixable(report: seq<int>)
  {
    exists i :: 0 <= i < |report| && Safe(RemoveAt(report, i))
  }

  predicate Tolerated(report: seq<int>)
  {
    Safe(report) || Fixable(report)
  }

  /** Tries every position in turn, stopping at the first removal that
      leaves a safe report. */
  method TryFix(report: seq<int>) returns (fixed: bool)
    ensures fixed <==> Fixable(report)
  {
    for i := 0 to |report|
      invariant forall k :: 0 <= k < i ==> !Safe(RemoveAt(report, k))
    {
      if Safe(RemoveAt(report, i)) {
        return true;
      }
    }
    return false;
  }

  /** Dropping the first level of a safe report keeps it safe, so the
      dampener never turns a safe report into an unsafe one. */
  lemma SafeTrimmed(report: seq<int>)
    requires Safe(report) && |report| > 0
    ensures Safe(RemoveAt(report, 0))
  {
    var r := RemoveAt(report, 0);
    assert r == report[1..];
    if |report| > 1 {
      assert Diffs(r) == Diffs(report)[1..];
      if Increasing(report) {
        TailIncreasing(report);
      } else {
        TailDecreasing(report);
      }
    }
  }

  lemma TailIncreasing(report: seq<int>)
    requires Increasing(report) && |report| > 1
    ensures Increasing(report[1..])
  {
    var d, e := Diffs(report), Diffs(report[1..]);
    assert e == d[1..];
    assert forall k :: 0 <= k < |e| ==> e[k] == d[k + 1];
  }

  lemma TailDecreasing(report: seq<int>)
    requires Decreasing(report) && |report| > 1
    ensures Decreasing(report[1..])
  {
    var d, e := Diffs(report), Diffs(report[1..]);
    assert e == d[1..];
    assert forall k :: 0 <= k < |e| ==> e[k] == d[k + 1];
  }

  /** Counts as the source does: the reports that are safe as they are
      (all reports minus the problematic ones), and the problematic reports
      that one removal fixes. Together they are the tolerated reports. */
  method Tally(reports: seq<seq<int>>) returns (reallySafe: nat, fixable: nat)
    ensures reallySafe == CountIf(reports, Safe)
    ensures reallySafe + fixable == CountIf(reports, Tolerated)
  {
    var problematic := 0;
    fixable := 0;
    for n := 0 to |reports|
      invariant n - problematic == CountIf(reports[..n], Safe)
      invariant n - problematic + fixable == CountIf(reports[..n], Tolerated)
      invariant problematic <= n
    {
      assert reports[..n + 1][..n] == reports[..n];
      if !Safe(reports[n]) {
        problematic := problematic + 1;
        var ok := TryFix(reports[n]);
        if ok {
          fixable := fixable + 1;
        }
      }
    }
    assert reports[..|reports|] == reports;
    reallySafe := |reports| - problematic;
  }
}

=== FILE: day03.dfy ===
/** Day 3: scanning corrupted memory for `mul(x,y)` instructions (part one)
    and for `do()` / `don't()` switches as well (part two). The scanners are
    modelled on the parser combinators the program uses: a parser either
    succeeds with the remaining input and a value, or fails recoverably. */

module Day03a {
  import opened Seqs
  import opened Text

  datatype Parsed<T> = Ok(rest: string, value: T) | Fail

  /** Length of the run of digits at the front of `s`. */
  function DigitRun(s: string): (k: nat)
    ensures k <= |s|
    ensures AllDigits(s[..k])
    ensures k == |s| || !IsDigit(s[k])
  {
    if |s| == 0 || !IsDigit(s[0]) then 0
    else
      var k := 1 + DigitRun(s[1..]);
      assert s[..k] == [s[0]] + s[1..][..k - 1];
      k
  }

  /** Decimal representation without leading zeros. */
  function Show(n: nat): (s: string)
    ensures 1 <= |s| && AllDigits(s)
    ensures Value(s) == n
    ensures n < 10 ==> |s| == 1
    ensures n < 100 ==> |s| <= 2
    ensures n < 1000 ==> |s| <= 3
  {
    var last := [(n % 10 + '0' as int) as char];
    if n < 10 then
      assert last[..0] == [];
      last
    else
      var s := Show(n / 10) + last;
      assert s[..|s| - 1] == Show(n / 10);
      s
  }

  /** Matches the literal `t` at the front of the input. */
  function Tag(t: string, s: string): (r: Parsed<()>)
    ensures r.Ok? <==> t <= s
    ensures r.Ok? ==> s == t + r.rest
  {
    if t <= s then
      assert s == t + s[|t|..];
      Ok(s[|t|..], ())
    else Fail
  }

  /** A run of one or more digits, accepted only when it has at most three
      digits; the whole run is consumed, so a fourth digit makes it fail. */
  function ParseNumber(s: string): (r: Parsed<nat>)
    ensures r.Ok? <==> 1 <= DigitRun(s) <= 3
    ensures r.Ok? ==> r.value < 1000 && s == s[..DigitRun(s)] + r.rest && Value(s[..DigitRun(s)]) == r.value
  {
    var k := DigitRun(s);
    if k == 0 || k > 3 then Fail
    else
      ValueBound(s[..k]);
      assert s == s[..k] + s[k..];
      Ok(s[k..], Value(s[..k]))
  }

  lemma {:induction false} ValueBound(ds: string)
    requires AllDigits(ds)
    ensures Value(ds) < Pow10(|ds|)
    decreases |ds|
  {
    if |ds| > 0 {
      ValueBound(ds[..|ds| - 1]);
    }
  }

  function Pow10(k: nat): nat
  {
    if k == 0 then 1 else 10 * Pow10(k - 1)
  }

  /** `r` is what is left of `s` after a prefix has been consumed. */
  predicate SuffixOf(r: string, s: string)
  {
    |r| <= |s| && s[|s| - |r|..] == r
  }

  lemma SuffixAppend(p: string, r: string)
    ensures SuffixOf(r, p + r)
  {
    assert (p + r)[|p|..] == r;
  }

  lemma SuffixTrans(a: string, b: string, c: string)
    requires SuffixOf(a, b) && SuffixOf(b, c)
    ensures SuffixOf(a, c)
  {
    assert c[|c| - |a|..] == c[|c| - |b|..][|b| - |a|..];
  }

  /** Two numbers separated by a comma. */
  function ParseTuple(s: string): (r: Parsed<(nat, nat)>)
    ensures r.Ok? ==> Small(r.value) && |r.rest| < |s| && SuffixOf(r.rest, s)
  {
    match ParseNumber(s)
    case Fail => Fail
    case Ok(s1, x) =>
      match Tag(",", s1)
      case Fail => Fail
      case Ok(s2, _) =>
        match ParseNumber(s2)
        case Fail => Fail
        case Ok(s3, y) =>
          SuffixAppend(s[..DigitRun(s)], s1);
          SuffixAppend(",", s2);
          SuffixAppend(s2[..DigitRun(s2)], s3);
          SuffixTrans(s3, s2, s1);
          SuffixTrans(s3, s1, s);
          Ok(s3, (x, y))
  }

  /** `mul(` then a tuple then `)`. */
  function ParseMul(s: string): (r: Parsed<(nat, nat)>)
    ensures r.Ok? ==> Small(r.value) && |r.rest| < |s| && SuffixOf(r.rest, s)
  {
    match Tag("mul(", s)
    case Fail => Fail
    case Ok(s1, _) =>
      match ParseTuple(s1)
      case Fail => Fail
      case Ok(s2, p) =>
        match Tag(")", s2)
        case Fail => Fail
        case Ok(s3, _) =>
          SuffixAppend("mul(", s1);
          SuffixAppend(")", s3);
          SuffixTrans(s3, s2, s1);
          SuffixTrans(s3, s1, s);
          Ok(s3, p)
  }

  /** Skips one character at a time until `mul(x,y)` matches; fails once
      the input runs out. */
  function ParseOne(s: string): (r: Parsed<(nat, nat)>)
    ensures r.Ok? ==> Small(r.value) && |r.rest| < |s| && SuffixOf(r.rest, s)
    decreases |s|
  {
    var m := ParseMul(s);
    if m.Ok? then m
    else if |s| == 0 then Fail
    else
      var r := ParseOne(s[1..]);
      if r.Fail? then r
      else
        SuffixAppend([s[0]], s[1..]);
        assert s == [s[0]] + s[1..];
        SuffixTrans(r.rest, s[1..], s);
        r
  }

  /** Both factors have at most three digits. */
  predicate Small(p: (nat, nat))
  {
    p.0 < 1000 && p.1 < 1000
  }

  /** No instruction starts at position `j` of `s`. */
  predicate FailsAt(s: string, j: nat)
    requires j <= |s|
  {
    ParseMul(s[j..]).Fail?
  }

  /** No instruction starts at any of the first `k` positions of `s`. */
  predicate NoneBefore(s: string, k: nat)
    requires k <= |s| + 1
  {
    forall j :: 0 <= j < k ==> FailsAt(s, j)
  }

  /** The scan finds the first position where `mul(x,y)` parses, and
      returns what parses there. */
  lemma {:induction false} ParseOneFirst(s: string, k: nat)
    requires k <= |s| && NoneBefore(s, k) && ParseMul(s[k..]).Ok?
    ensures ParseOne(s) == ParseMul(s[k..])
    decreases k
  {
    if k > 0 {
      assert FailsAt(s, 0);
      assert s[0..] == s;
      forall j | 0 <= j < k - 1 ensures FailsAt(s[1..], j) {
        assert FailsAt(s, j + 1);
        assert s[1..][j..] == s[j + 1..];
      }
      assert s[1..][k - 1..] == s[k..];
      ParseOneFirst(s[1..], k - 1);
    } else {
      assert s[0..] == s;
    }
  }

  /** The scan fails exactly when `mul(x,y)` parses at no position. */
  lemma {:induction false} ParseOneNone(s: string)
    ensures ParseOne(s).Fail? <==> NoneBefore(s, |s| + 1)
    decreases |s|
  {
    assert s[0..] == s;
    if |s| > 0 {
      ParseOneNone(s[1..]);
      if ParseOne(s).Fail? {
        forall j | 0 <= j < |s| + 1 ensures FailsAt(s, j) {
          if j > 0 {
            assert FailsAt(s[1..], j - 1);
            assert s[1..][j - 1..] == s[j..];
          }
        }
      } else if NoneBefore(s, |s| + 1) {
        assert FailsAt(s, 0);
        forall j | 0 <= j < |s| ensures FailsAt(s[1..], j) {
          assert FailsAt(s, j + 1);
          assert s[1..][j..] == s[j + 1..];
        }
        assert false;
      }
    } else {
      assert Tag("mul(", s).Fail?;
      assert FailsAt(s, 0);
    }
  }

  /** Text in which no instruction starts is skipped: scanning it followed
      by an instruction finds that instruction and goes on after it. */
  lemma ParseAllSkips(g: string, p: (nat, nat), rest: string)
    requires Small(p) && NoneBefore(g + Render(p) + rest, |g|)
    ensures ParseAll(g + Render(p) + rest) == [p] + ParseAll(rest)
  {
    var s := g + Render(p) + rest;
    assert s[|g|..] == Render(p) + rest;
    MulRoundTrip(p, rest);
    ParseOneFirst(s, |g|);
  }

  /** Every instruction found, in order, until no further one can be parsed. */
  function ParseAll(s: string): (ps: seq<(nat, nat)>)
    ensures forall i :: 0 <= i < |ps| ==> Small(ps[i])
    decreases |s|
  {
    var r := ParseOne(s);
    if r.Fail? then []
    else
      var tail := ParseAll(r.rest);
      assert Small(r.value);
      [r.value] + tail
  }

  /** The sum of all products. */
  function Total(ps: seq<(nat, nat)>): nat
  {
    if |ps| == 0 then 0 else Total(ps[..|ps| - 1]) + ps[|ps| - 1].0 * ps[|ps| - 1].1
  }

  /** The text of one instruction. */
  function Render(p: (nat, nat)): string
  {
    "mul(" + Show(p.0) + "," + Show(p.1) + ")"
  }

  function RenderAll(ps: seq<(nat, nat)>): string
  {
    if |ps| == 0 then "" else Render(ps[0]) + RenderAll(ps[1..])
  }

  /** A number is read back whole when something other than a digit follows. */
  lemma NumberRoundTrip(n: nat, rest: string)
    requires n < 1000
    requires |rest| == 0 || !IsDigit(rest[0])
    ensures ParseNumber(Show(n) + rest) == Ok(rest, n)
  {
    var s := Show(n) + rest;
    DigitRunOf(Show(n), rest);
    assert s[..|Show(n)|] == Show(n);
    assert s[|Show(n)|..] == rest;
  }

  lemma {:induction false} DigitRunOf(ds: string, rest: string)
    requires AllDigits(ds)
    requires |rest| == 0 || !IsDigit(rest[0])
    ensures DigitRun(ds + rest) == |ds|
    decreases |ds|
  {
    if |ds| > 0 {
      assert (ds + rest)[1..] == ds[1..] + rest;
      DigitRunOf(ds[1..], rest);
    }
  }

  /** Matching a literal at the front consumes exactly that literal. */
  lemma TagPrefix(t: string, rest: string)
    ensures Tag(t, t + rest) == Ok(rest, ())
  {
    assert t <= t + rest;
    assert (t + rest)[|t|..] == rest;
  }

  lemma TupleRoundTrip(p: (nat, nat), rest: string)
    requires p.0 < 1000 && p.1 < 1000
    requires |rest| == 0 || !IsDigit(rest[0])
    ensures ParseTuple(Show(p.0) + ("," + (Show(p.1) + rest))) == Ok(rest, p)
  {
    var tail := Show(p.1) + rest;
    NumberRoundTrip(p.0, "," + tail);
    TagPrefix(",", tail);
    NumberRoundTrip(p.1, rest);
  }

  /** A rendered instruction is parsed back to the same pair, leaving the
      text after it untouched. */
  lemma MulRoundTrip(p: (nat, nat), rest: string)
    requires p.0 < 1000 && p.1 < 1000
    ensures ParseMul(Render(p) + rest) == Ok(rest, p)
  {
    var x, y := Show(p.0), Show(p.1);
    var inner := x + ("," + (y + (")" + rest)));
    assert Render(p) + rest == "mul(" + inner;
    TagPrefix("mul(", inner);
    TupleRoundTrip(p, ")" + rest);
    TagPrefix(")", rest);
  }

  /** Scanning a rendered instruction yields it, then whatever follows. */
  lemma ParseAllCons(p: (nat, nat), rest: string)
    requires p.0 < 1000 && p.1 < 1000
    ensures ParseAll(Render(p) + rest) == [p] + ParseAll(rest)
  {
    MulRoundTrip(p, rest);
  }

  /** Rendering a list of instructions and scanning the text yields the
      list again. */
  lemma {:induction false} ParseAllRoundTrip(ps: seq<(nat, nat)>)
    requires forall i :: 0 <= i < |ps| ==> Small(ps[i])
    ensures ParseAll(RenderAll(ps)) == ps
    decreases |ps|
  {
    if |ps| == 0 {
      assert Tag("mul(", "").Fail?;
    } else {
      ParseAllCons(ps[0], RenderAll(ps[1..]));
      ParseAllRoundTrip(ps[1..]);
      assert ps == [ps[0]] + ps[1..];
    }
  }

  /** The value of a single digit. */
  lemma ValueOne(a: char)
    requires IsDigit(a)
    ensures Value([a]) == a as int - '0' as int
  {
    assert [a][..0] == [];
  }

  /** The value of three digits. */
  lemma ValueThree(a: char, b: char, c: char)
    requires IsDigit(a) && IsDigit(b) && IsDigit(c)
    ensures Value([a, b, c]) == 100 * (a as int - '0' as int) + 10 * (b as int - '0' as int) + (c as int - '0' as int)
  {
    assert [a, b, c][..2] == [a, b];
    assert [a, b][..1] == [a];
    ValueOne(a);
  }

  /** A run of one to three digits is read as its value. */
  lemma NumberOf(ds: string, rest: string)
    requires AllDigits(ds) && 1 <= |ds| <= 3
    requires |rest| == 0 || !IsDigit(rest[0])
    ensures ParseNumber(ds + rest) == Ok(rest, Value(ds))
  {
    DigitRunOf(ds, rest);
    assert (ds + rest)[..|ds|] == ds;
    assert (ds + rest)[|ds|..] == rest;
  }

  /** The text `mul(x,y)` followed by `rest`. */
  function MulText(x: string, y: string, rest: string): string
  {
    "mul(" + (x + ("," + (y + (")" + rest))))
  }

  /** `mul(x,y)` with factors of one to three digits is read as their
      values, leaving what follows. */
  lemma MulOf(x: string, y: string, rest: string)
    requires AllDigits(x) && 1 <= |x| <= 3 && AllDigits(y) && 1 <= |y| <= 3
    ensures ParseMul(MulText(x, y, rest)) == Ok(rest, (Value(x), Value(y)))
  {
    var s1 := x + ("," + (y + (")" + rest)));
    TagPrefix("mul(", s1);
    NumberOf(x, "," + (y + (")" + rest)));
    TagPrefix(",", y + (")" + rest));
    NumberOf(y, ")" + rest);
    assert ParseTuple(s1) == Ok(")" + rest, (Value(x), Value(y)));
    TagPrefix(")", rest);
  }

  /** `mul(x,y` with a factor `y` of four digits is no instruction. */
  lemma FourDigits(x: string, y: string, rest: string)
    requires AllDigits(x) && 1 <= |x| <= 3 && AllDigits(y) && |y| == 4
    ensures ParseMul("mul(" + (x + ("," + (y + rest)))).Fail?
  {
    var s1 := x + ("," + (y + rest));
    TagPrefix("mul(", s1);
    NumberOf(x, "," + (y + rest));
    TagPrefix(",", y + rest);
    LongNumberRejected(y, rest);
    assert ParseTuple(s1).Fail?;
  }

  /** A scan of text that starts with an instruction reads it. */
  lemma ParseOneFront(x: string, y: string, rest: string)
    requires AllDigits(x) && 1 <= |x| <= 3 && AllDigits(y) && 1 <= |y| <= 3
    ensures ParseOne(MulText(x, y, rest)) == Ok(rest, (Value(x), Value(y)))
  {
    var text := MulText(x, y, rest);
    MulOf(x, y, rest);
    assert text[0..] == text;
    ParseOneFirst(text, 0);
  }

  /** One scan of `mul(1,2)` reads the instruction whole. */
  lemma ParseOneShort()
    ensures ParseOne("mul(1,2)") == Ok("", (1, 2))
  {
    assert "mul(1,2)" == MulText("1", "2", "");
    ValueOne('1');
    ValueOne('2');
    ParseOneFront("1", "2", "");
  }

  /** One scan of `mul(111,222)` reads the instruction whole. */
  lemma ParseOneLong()
    ensures ParseOne("mul(111,222)") == Ok("", (111, 222))
  {
    assert "mul(111,222)" == MulText("111", "222", "");
    ValueThree('1', '1', '1');
    ValueThree('2', '2', '2');
    ParseOneFront("111", "222", "");
  }

  /** Text that does not start with `m` holds no instruction at its
      front. */
  lemma NoMulAt(s: string)
    requires |s| == 0 || s[0] != 'm'
    ensures ParseMul(s).Fail?
  {
    assert !("mul(" <= s);
  }

  /** No instruction starts before `k` when none starts at the front and
      no `m` follows it before `k`. */
  lemma NoneBeforeFrom(s: string, k: nat)
    requires 0 < k <= |s| && ParseMul(s).Fail? && 'm' !in s[1..k]
    ensures NoneBefore(s, k)
  {
    forall j | 0 <= j < k ensures ParseMul(s[j..]).Fail? {
      if j > 0 {
        assert s[j..][0] == s[1..k][j - 1];
        NoMulAt(s[j..]);
      }
    }
  }

  /** An instruction cut short by a four-digit factor, followed by text
      without `m`, holds no instruction anywhere. */
  lemma FourDigitsNone(x: string, y: string, rest: string)
    requires AllDigits(x) && 1 <= |x| <= 3 && AllDigits(y) && |y| == 4
    requires 'm' !in rest
    ensures ParseOne("mul(" + (x + ("," + (y + rest)))).Fail?
  {
    var s := "mul(" + (x + ("," + (y + rest)));
    FourDigits(x, y, rest);
    NoLaterM(x, y, rest);
    NoneBeforeFrom(s, |s|);
    NoMulAt(s[|s|..]);
    assert FailsAt(s, |s|);
    assert NoneBefore(s, |s| + 1);
    ParseOneNone(s);
  }

  lemma NoLaterM(x: string, y: string, rest: string)
    requires AllDigits(x) && AllDigits(y) && 'm' !in rest
    ensures var s := "mul(" + (x + ("," + (y + rest))); 'm' !in s[1..|s|]
  {
    var s := "mul(" + (x + ("," + (y + rest)));
    assert s[1..|s|] == "ul(" + (x + ("," + (y + rest)));
    assert 'm' !in x && 'm' !in y;
  }

  /** A four-digit factor leaves nothing to find in `mul(111,2222)`. */
  lemma ParseOneLongFactor()
    ensures ParseOne("mul(111,2222)").Fail?
  {
    assert "mul(111,2222)" == "mul(" + ("111" + ("," + ("2222" + ")")));
    FourDigitsNone("111", "2222", ")");
  }

  /** Garbage in front of an instruction is skipped. */
  lemma GarbageOnly()
    ensures ParseOne("garbagemul(111,333)") == Ok("", (111, 333))
  {
    var s := "garbagemul(111,333)";
    assert s == "garbage" + MulText("111", "333", "");
    GarbageFirst("");
  }

  /** Garbage in front of an instruction is skipped, and what follows it
      is left over. */
  lemma GarbageAround()
    ensures ParseOne("garbagemul(111,333)moregarbage") == Ok("moregarbage", (111, 333))
  {
    var s := "garbagemul(111,333)moregarbage";
    assert s == "garbage" + MulText("111", "333", "moregarbage");
    GarbageFirst("moregarbage");
  }

  lemma GarbageFirst(rest: string)
    ensures ParseOne("garbage" + MulText("111", "333", rest)) == Ok(rest, (111, 333))
  {
    var s := "garbage" + MulText("111", "333", rest);
    assert s[0] == 'g' && s[1..7] == "arbage";
    NoMulAt(s);
    NoneBeforeFrom(s, 7);
    assert s[7..] == MulText("111", "333", rest);
    ValueThree('1', '1', '1');
    ValueThree('3', '3', '3');
    MulOf("111", "333", rest);
    ParseOneFirst(s, 7);
  }

  /** A scan of one instruction finds it. */
  lemma ParseAllOne()
    ensures ParseAll("mul(1,2)") == [(1, 2)]
  {
    assert "mul(1,2)" == MulText("1", "2", "");
    ValueOne('1');
    ValueOne('2');
    ParseAllSingle("1", "2");
  }

  /** A scan of two instructions in a row finds both, in order. */
  lemma ParseAllTwo()
    ensures ParseAll("mul(1,2)mul(3,4)") == [(1, 2), (3, 4)]
  {
    TwoText();
    ValueOne('1');
    ValueOne('2');
    ValueOne('3');
    ValueOne('4');
    ParseAllPair("1", "2", "3", "4");
  }

  /** Text that is two instructions yields both, in order. */
  lemma ParseAllPair(x1: string, y1: string, x2: string, y2: string)
    requires AllDigits(x1) && 1 <= |x1| <= 3 && AllDigits(y1) && 1 <= |y1| <= 3
    requires AllDigits(x2) && 1 <= |x2| <= 3 && AllDigits(y2) && 1 <= |y2| <= 3
    ensures ParseAll(MulText(x1, y1, MulText(x2, y2, ""))) == [(Value(x1), Value(y1)), (Value(x2), Value(y2))]
  {
    var a, b := (Value(x1), Value(y1)), (Value(x2), Value(y2));
    assert [a] + [b] == [a, b];
    ParseAllSingle(x2, y2);
    ParseAllFront(x1, y1, MulText(x2, y2, ""));
  }

  /** Text that is one instruction yields just it. */
  lemma ParseAllSingle(x: string, y: string)
    requires AllDigits(x) && 1 <= |x| <= 3 && AllDigits(y) && 1 <= |y| <= 3
    ensures ParseAll(MulText(x, y, "")) == [(Value(x), Value(y))]
  {
    ParseAllEnd();
    ParseAllFront(x, y, "");
  }

  lemma TwoText()
    ensures "mul(1,2)mul(3,4)" == MulText("1", "2", MulText("3", "4", ""))
  {
  }

  /** A broken instruction between two good ones is skipped. */
  lemma ParseAllBroken()
    ensures ParseAll("mul(1,2)mul(*mul(5,6)") == [(1, 2), (5, 6)]
  {
    var broken := "mul(*mul(5,6)";
    BrokenText(broken);
    BrokenTail(broken);
    ValueOne('1');
    ValueOne('2');
    ParseAllFront("1", "2", broken);
  }

  lemma BrokenText(broken: string)
    requires broken == "mul(*mul(5,6)"
    ensures "mul(1,2)mul(*mul(5,6)" == MulText("1", "2", broken)
  {
  }

  /** `mul(*` is skipped before `mul(5,6)`. */
  lemma BrokenTail(broken: string)
    requires broken == "mul(*mul(5,6)"
    ensures ParseAll(broken) == [(5, 6)]
  {
    var last := MulText("5", "6", "");
    assert broken == "mul(" + ("*" + last);
    ValueOne('5');
    ValueOne('6');
    ParseAllEnd();
    ParseAllFront("5", "6", "");
    MulOf("5", "6", "");
    BrokenFront("*", last);
  }

  /** Nothing is found in empty text. */
  lemma ParseAllEnd()
    ensures ParseAll("") == []
  {
    assert Tag("mul(", "").Fail?;
  }

  /** Scanning text that starts with an instruction yields it, then what
      the rest yields. */
  lemma ParseAllFront(x: string, y: string, rest: string)
    requires AllDigits(x) && 1 <= |x| <= 3 && AllDigits(y) && 1 <= |y| <= 3
    ensures ParseAll(MulText(x, y, rest)) == [(Value(x), Value(y))] + ParseAll(rest)
  {
    ParseOneFront(x, y, rest);
  }

  /** `mul(` followed by text `t` that is not a number and holds no `m`
      is no instruction, and none starts inside it. */
  lemma BrokenNone(t: string, rest: string)
    requires |t| > 0 && !IsDigit(t[0]) && 'm' !in t
    ensures NoneBefore("mul(" + (t + rest), 4 + |t|)
    ensures ("mul(" + (t + rest))[4 + |t|..] == rest
  {
    var s := "mul(" + (t + rest);
    TagPrefix("mul(", t + rest);
    assert DigitRun(t + rest) == 0;
    assert s[1..4 + |t|] == "ul(" + t;
    NoneBeforeFrom(s, 4 + |t|);
  }

  /** `mul(` followed by text `t` that is not a number and holds no `m`
      is skipped, and scanning goes on with the instruction after it. */
  lemma BrokenFront(t: string, rest: string)
    requires |t| > 0 && !IsDigit(t[0]) && 'm' !in t
    requires ParseMul(rest).Ok?
    ensures ParseAll("mul(" + (t + rest)) == ParseAll(rest)
  {
    BrokenNone(t, rest);
    SkipTo("mul(" + (t + rest), 4 + |t|);
  }

  /** Text in which no instruction starts before `k`, and one starts at
      `k`, yields what the text from `k` on yields. */
  lemma SkipTo(s: string, k: nat)
    requires k <= |s| && NoneBefore(s, k) && ParseMul(s[k..]).Ok?
    ensures ParseAll(s) == ParseAll(s[k..])
  {
    ParseOneFirst(s, k);
    assert s[k..][0..] == s[k..];
    ParseOneFirst(s[k..], 0);
    ParseAllSame(s, s[k..]);
  }

  /** Texts whose first scans agree yield the same instructions. */
  lemma ParseAllSame(a: string, b: string)
    requires ParseOne(a) == ParseOne(b)
    ensures ParseAll(a) == ParseAll(b)
  {
  }

  /** A run of four or more digits is never a number. */
  lemma LongNumberRejected(ds: string, rest: string)
    requires AllDigits(ds) && |ds| > 3
    ensures ParseNumber(ds + rest).Fail?
  {
    DigitRunAtLeast(ds, rest);
  }

  lemma {:induction false} DigitRunAtLeast(ds: string, rest: string)
    requires AllDigits(ds)
    ensures DigitRun(ds + rest) >= |ds|
    decreases |ds|
  {
    if |ds| > 0 {
      assert (ds + rest)[1..] == ds[1..] + rest;
      DigitRunAtLeast(ds[1..], rest);
    }
  }
}

module Day03b {
  import A = Day03a

  datatype Instruction = Mul(x: nat, y: nat) | Do | Dont

  /** `mul(x,y)`, `do()` or `don't()`, tried in that order. */
  function ParseInstruction(s: string): (r: A.Parsed<Instruction>)
    ensures r.Ok? ==> |r.rest| < |s| && A.SuffixOf(r.rest, s)
    ensures A.ParseMul(s).Ok? ==> r == Lift(A.ParseMul(s))
    ensures "do()" <= s ==> r == A.Ok(s[4..], Do)
    ensures "don't()" <= s ==> r == A.Ok(s[7..], Dont)
    ensures r.Fail? <==> A.ParseMul(s).Fail? && !("do()" <= s) && !("don't()" <= s)
  {
    assert "do()" <= s ==> s[0] == 'd';
    assert "don't()" <= s ==> s[0] == 'd' && s[2] == 'n';
    match A.ParseMul(s)
    case Ok(rest, p) => A.Ok(rest, Mul(p.0, p.1))
    case Fail =>
      match A.Tag("do()", s)
      case Ok(rest, _) =>
        A.SuffixAppend("do()", rest);
        A.Ok(rest, Do)
      case Fail =>
        match A.Tag("don't()", s)
        case Ok(rest, _) =>
          A.SuffixAppend("don't()", rest);
          A.Ok(rest, Dont)
        case Fail => A.Fail
  }

  /** A part-one result seen as a part-two instruction. */
  function Lift(r: A.Parsed<(nat, nat)>): A.Parsed<Instruction>
  {
    match r
    case Fail => A.Fail
    case Ok(rest, p) => A.Ok(rest, Mul(p.0, p.1))
  }

  /** Skips one character at a time until an instruction matches. */
  function ParseOne(s: string): (r: A.Parsed<Instruction>)
    ensures r.Ok? ==> |r.rest| < |s| && A.SuffixOf(r.rest, s)
    decreases |s|
  {
    var m := ParseInstruction(s);
    if m.Ok? then m
    else if |s| == 0 then A.Fail
    else
      var r := ParseOne(s[1..]);
      if r.Fail? then r
      else
        A.SuffixAppend([s[0]], s[1..]);
        assert s == [s[0]] + s[1..];
        A.SuffixTrans(r.rest, s[1..], s);
        r
  }

  function ParseAll(s: string): seq<Instruction>
    decreases |s|
  {
    var r := ParseOne(s);
    if r.Fail? then [] else [r.value] + ParseAll(r.rest)
  }

  /** No instruction starts at position `j` of `s`. */
  predicate FailsAt(s: string, j: nat)
    requires j <= |s|
  {
    ParseInstruction(s[j..]).Fail?
  }

  /** No instruction starts at any of the first `k` positions of `s`. */
  predicate NoneBefore(s: string, k: nat)
    requires k <= |s| + 1
  {
    forall j :: 0 <= j < k ==> FailsAt(s, j)
  }

  /** The scan finds the first position where an instruction parses, and
      returns what parses there. */
  lemma {:induction false} ParseOneFirst(s: string, k: nat)
    requires k <= |s| && NoneBefore(s, k) && ParseInstruction(s[k..]).Ok?
    ensures ParseOne(s) == ParseInstruction(s[k..])
    decreases k
  {
    if k > 0 {
      assert FailsAt(s, 0);
      assert s[0..] == s;
      forall j | 0 <= j < k - 1 ensures FailsAt(s[1..], j) {
        assert FailsAt(s, j + 1);
        assert s[1..][j..] == s[j + 1..];
      }
      assert s[1..][k - 1..] == s[k..];
      ParseOneFirst(s[1..], k - 1);
    } else {
      assert s[0..] == s;
    }
  }

  /** The scan fails exactly when an instruction parses at no position. */
  lemma {:induction false} ParseOneNone(s: string)
    ensures ParseOne(s).Fail? <==> NoneBefore(s, |s| + 1)
    decreases |s|
  {
    assert s[0..] == s;
    if |s| > 0 {
      ParseOneNone(s[1..]);
      if ParseOne(s).Fail? {
        forall j | 0 <= j < |s| + 1 ensures FailsAt(s, j) {
          if j > 0 {
            assert FailsAt(s[1..], j - 1);
            assert s[1..][j - 1..] == s[j..];
          }
        }
      } else if NoneBefore(s, |s| + 1) {
        assert FailsAt(s, 0);
        forall j | 0 <= j < |s| ensures FailsAt(s[1..], j) {
          assert FailsAt(s, j + 1);
          assert s[1..][j..] == s[j + 1..];
        }
        assert false;
      }
    } else {
      assert A.Tag("mul(", s).Fail?;
      assert FailsAt(s, 0);
    }
  }

  /** Neither switch occurs anywhere in the text. */
  predicate NoSwitches(s: string)
  {
    forall k :: 0 <= k <= |s| ==> !("do()" <= s[k..]) && !("don't()" <= s[k..])
  }

  lemma SuffixNoSwitches(s: string, r: string)
    requires NoSwitches(s) && A.SuffixOf(r, s)
    ensures NoSwitches(r)
  {
    var d := |s| - |r|;
    forall j | 0 <= j <= |r|
      ensures !("do()" <= r[j..]) && !("don't()" <= r[j..])
    {
      assert r[j..] == s[d + j..];
    }
  }

  /** Without switches in the text, one scanning step finds what part one's
      step finds. */
  lemma {:induction false} OneSameAsPartOne(s: string)
    requires NoSwitches(s)
    ensures ParseOne(s) == Lift(A.ParseOne(s))
    decreases |s|
  {
    assert s[0..] == s;
    if A.ParseMul(s).Fail? && |s| > 0 {
      A.SuffixAppend([s[0]], s[1..]);
      assert s == [s[0]] + s[1..];
      SuffixNoSwitches(s, s[1..]);
      OneSameAsPartOne(s[1..]);
    }
  }

  /** Without switches in the text both scanners find the same
      multiplications, in the same order. */
  lemma {:induction false} SameAsPartOne(s: string)
    requires NoSwitches(s)
    ensures ParseAll(s) == LiftAll(A.ParseAll(s))
    decreases |s|
  {
    OneSameAsPartOne(s);
    var r := A.ParseOne(s);
    if r.Ok? {
      SuffixNoSwitches(s, r.rest);
      SameAsPartOne(r.rest);
    }
  }

  function LiftAll(ps: seq<(nat, nat)>): (instrs: seq<Instruction>)
    ensures |instrs| == |ps|
    ensures forall i :: 0 <= i < |ps| ==> instrs[i] == Mul(ps[i].0, ps[i].1)
  {
    if |ps| == 0 then [] else [Mul(ps[0].0, ps[0].1)] + LiftAll(ps[1..])
  }

  /** Runs the instructions in order: products are added while enabled,
      `do()` enables and `don't()` disables. The state after the run says
      whether multiplications are enabled, and the sum of the products of
      those that were enabled where they stood. */
  function Run(instrs: seq<Instruction>): (state: (bool, nat))
    ensures state.0 <==> Enabled(instrs, |instrs|)
    ensures state.1 == EnabledTotal(instrs, |instrs|)
  {
    if |instrs| == 0 then (true, 0)
    else
      var prev := Run(instrs[..|instrs| - 1]);
      var last := instrs[|instrs| - 1];
      EnabledPrefix(instrs);
      match last
      case Mul(x, y) => (prev.0, if prev.0 then prev.1 + x * y else prev.1)
      case Do => (true, prev.1)
      case Dont => (false, prev.1)
  }

  /** Multiplications are enabled at position `i` when no `don't()` comes
      before it, or a `do()` comes after the last `don't()` before it. */
  predicate Enabled(instrs: seq<Instruction>, i: nat)
    requires i <= |instrs|
  {
    (forall j :: 0 <= j < i ==> !instrs[j].Dont?) ||
    exists j :: 0 <= j < i && instrs[j].Do? && forall k :: j < k < i ==> !instrs[k].Dont?
  }

  /** Sum of the products of the multiplications among the first `n` that
      are enabled where they stand. */
  function EnabledTotal(instrs: seq<Instruction>, n: nat): nat
    requires n <= |instrs|
  {
    if n == 0 then 0
    else
      var i := instrs[n - 1];
      EnabledTotal(instrs, n - 1) + if i.Mul? && Enabled(instrs, n - 1) then i.x * i.y else 0
  }

  lemma EnabledPrefix(instrs: seq<Instruction>)
    requires |instrs| > 0
    ensures var n := |instrs| - 1; var p := instrs[..n];
      (Enabled(p, n) <==> Enabled(instrs, n)) &&
      EnabledTotal(p, n) == EnabledTotal(instrs, n) &&
      (instrs[n].Mul? ==> (Enabled(instrs, n + 1) <==> Enabled(instrs, n))) &&
      (instrs[n].Do? ==> Enabled(instrs, n + 1)) &&
      (instrs[n].Dont? ==> !Enabled(instrs, n + 1))
  {
    var n := |instrs| - 1;
    EnabledTotalPrefix(instrs, instrs[..n], n);
  }

  lemma {:induction false} EnabledTotalPrefix(instrs: seq<Instruction>, p: seq<Instruction>, n: nat)
    requires n <= |p| <= |instrs| && p == instrs[..|p|]
    ensures Enabled(p, n) <==> Enabled(instrs, n)
    ensures EnabledTotal(p, n) == EnabledTotal(instrs, n)
    decreases n
  {
    if n > 0 {
      EnabledTotalPrefix(instrs, p, n - 1);
    }
  }

  /** With no switch among the instructions, part two's total is part one's. */
  lemma {:induction false} NoSwitchesAllEnabled(ps: seq<(nat, nat)>)
    ensures Run(LiftAll(ps)).1 == A.Total(ps)
    decreases |ps|
  {
    if |ps| > 0 {
      var ps' := ps[..|ps| - 1];
      NoSwitchesAllEnabled(ps');
      assert LiftAll(ps)[..|ps| - 1] == LiftAll(ps');
    }
  }
}

=== FILE: day04.dfy ===
/** Day 4: a word search. Part one counts every `XMAS` in any of eight
    directions; part two counts the `A`s at the centre of two crossing
    `MAS` diagonals. Grids are rows of characters, `g[line][column]`. */

module Day04a {
  import opened Grids

  /** (line step, column step): right, down, left, up, then the diagonals
      down-right, down-left, up-right, up-left. */
  const Directions: seq<(int, int)> := [(0, 1), (1, 0), (0, -1), (-1, 0), (1, 1), (1, -1), (-1, 1), (-1, -1)]

  const Word: string := "XMAS"

  /** The cell at line `y`, column `x` exists and holds `ch`. */
  predicate Has(g: seq<seq<char>>, y: int, x: int, ch: char)
  {
    0 <= y < |g| && 0 <= x < |g[y]| && g[y][x] == ch
  }

  /** `XMAS` is spelled starting at (l, c) and stepping by `d`. */
  predicate XmasAt(g: seq<seq<char>>, l: int, c: int, d: (int, int))
  {
    forall i :: 0 <= i < 4 ==> Has(g, l + d.0 * i, c + d.1 * i, Word[i])
  }

  /** The quantified definition spelled out letter by letter. */
  lemma XmasAtUnrolled(g: seq<seq<char>>, l: int, c: int, d: (int, int))
    ensures XmasAt(g, l, c, d) <==>
      Has(g, l, c, 'X') && Has(g, l + d.0, c + d.1, 'M') &&
      Has(g, l + 2 * d.0, c + 2 * d.1, 'A') && Has(g, l + 3 * d.0, c + 3 * d.1, 'S')
  {
    assert d.0 * 0 == 0 && d.1 * 0 == 0 && d.0 * 1 == d.0 && d.1 * 1 == d.1;
    assert d.0 * 2 == 2 * d.0 && d.1 * 2 == 2 * d.1 && d.0 * 3 == 3 * d.0 && d.1 * 3 == 3 * d.1;
    if Has(g, l, c, 'X') && Has(g, l + d.0, c + d.1, 'M') &&
      Has(g, l + 2 * d.0, c + 2 * d.1, 'A') && Has(g, l + 3 * d.0, c + 3 * d.1, 'S')
    {
      forall i | 0 <= i < 4
        ensures Has(g, l + d.0 * i, c + d.1 * i, Word[i])
      {
        if i == 0 {} else if i == 1 {} else if i == 2 {} else {}
      }
    }
    if XmasAt(g, l, c, d) {
      assert Has(g, l + d.0 * 0, c + d.1 * 0, Word[0]);
      assert Has(g, l + d.0 * 1, c + d.1 * 1, Word[1]);
      assert Has(g, l + d.0 * 2, c + d.1 * 2, Word[2]);
      assert Has(g, l + d.0 * 3, c + d.1 * 3, Word[3]);
    }
  }

  /** Spelling `XMAS` from (l, c) in direction `d` is the same as spelling
      `SAMX` from the far end in the opposite direction. */
  lemma ReadBackwards(g: seq<seq<char>>, l: int, c: int, d: (int, int))
    ensures XmasAt(g, l, c, d) <==> SamxAt(g, l + 3 * d.0, c + 3 * d.1, (-d.0, -d.1))
  {
    XmasAtUnrolled(g, l, c, d);
    var e := (-d.0, -d.1);
    var l', c' := l + 3 * d.0, c + 3 * d.1;
    assert e.0 * 0 == 0 && e.1 * 0 == 0 && e.0 * 1 == e.0 && e.1 * 1 == e.1;
    assert e.0 * 2 == -2 * d.0 && e.1 * 2 == -2 * d.1 && e.0 * 3 == -3 * d.0 && e.1 * 3 == -3 * d.1;
    if SamxAt(g, l', c', e) {
      assert Has(g, l' + e.0 * 3, c' + e.1 * 3, "SAMX"[3]);
      assert Has(g, l' + e.0 * 2, c' + e.1 * 2, "SAMX"[2]);
      assert Has(g, l' + e.0 * 1, c' + e.1 * 1, "SAMX"[1]);
      assert Has(g, l' + e.0 * 0, c' + e.1 * 0, "SAMX"[0]);
    }
    if XmasAt(g, l, c, d) {
      forall i | 0 <= i < 4
        ensures Has(g, l' + e.0 * i, c' + e.1 * i, "SAMX"[i])
      {
        if i == 0 {} else if i == 1 {} else if i == 2 {} else {}
      }
    }
  }

  /** `SAMX` is spelled starting at (l, c) and stepping by `d`. */
  predicate SamxAt(g: seq<seq<char>>, l: int, c: int, d: (int, int))
  {
    forall i :: 0 <= i < 4 ==> Has(g, l + d.0 * i, c + d.1 * i, "SAMX"[i])
  }

  /** The inner loop: the letters after the `X`, checked one by one, giving
      up at the first one that is outside the grid or wrong. */
  method RestFollows(g: seq<seq<char>>, w: nat, h: nat, l: int, c: int, d: (int, int)) returns (found: bool)
    requires IsGrid(g, w, h)
    ensures found <==> forall i :: 1 <= i < 4 ==> Has(g, l + d.0 * i, c + d.1 * i, Word[i])
  {
    for i := 1 to 4
      invariant forall j :: 1 <= j < i ==> Has(g, l + d.0 * j, c + d.1 * j, Word[j])
    {
      var y, x := l + d.0 * i, c + d.1 * i;
      if x < 0 || y < 0 || x >= w || y >= h || g[y][x] != Word[i] {
        assert 0 <= y < h ==> |g[y]| == w;
        assert !Has(g, l + d.0 * i, c + d.1 * i, Word[i]);
        return false;
      }
    }
    return true;
  }

  /** Matches starting at (l, c) in the first `k` directions. */
  function FoundAt(g: seq<seq<char>>, l: int, c: int, k: nat): nat
    requires k <= |Directions|
  {
    if k == 0 then 0 else FoundAt(g, l, c, k - 1) + if XmasAt(g, l, c, Directions[k - 1]) then 1 else 0
  }

  /** Matches starting in the first `n` cells of line `l`. */
  function FoundInLine(g: seq<seq<char>>, l: int, n: nat): nat
  {
    if n == 0 then 0 else FoundInLine(g, l, n - 1) + FoundAt(g, l, n - 1, |Directions|)
  }

  /** Matches starting in the first `n` lines, `w` cells each. */
  function FoundInLines(g: seq<seq<char>>, w: nat, n: nat): nat
  {
    if n == 0 then 0 else FoundInLines(g, w, n - 1) + FoundInLine(g, n - 1, w)
  }

  /** Every (cell, direction) along which `XMAS` is spelled, counted once. */
  method CountXmas(g: seq<seq<char>>, w: nat, h: nat) returns (result: nat)
    requires IsGrid(g, w, h) && h > 0
    ensures result == FoundInLines(g, w, h)
  {
    result := 0;
    for l := 0 to h
      invariant result == FoundInLines(g, w, l)
    {
      for c := 0 to w
        invariant result == FoundInLines(g, w, l) + FoundInLine(g, l, c)
      {
        var n := CountAt(g, w, h, l, c);
        result := result + n;
      }
    }
  }

  /** The body of the column loop: nothing unless the cell holds an `X`,
      otherwise one for each direction the rest of the word follows in. */
  method CountAt(g: seq<seq<char>>, w: nat, h: nat, l: nat, c: nat) returns (n: nat)
    requires IsGrid(g, w, h) && l < h && c < w
    ensures n == FoundAt(g, l, c, |Directions|)
  {
    n := 0;
    if g[l][c] != 'X' {
      NoXNoMatch(g, l, c, |Directions|);
      return;
    }
    for k := 0 to |Directions|
      invariant n == FoundAt(g, l, c, k)
    {
      var found := RestFollows(g, w, h, l, c, Directions[k]);
      if found {
        assert XmasAt(g, l, c, Directions[k]) by {
          assert Directions[k].0 * 0 == 0 && Directions[k].1 * 0 == 0;
        }
        n := n + 1;
      } else {
        assert !XmasAt(g, l, c, Directions[k]);
      }
    }
  }

  lemma {:induction false} NoXNoMatch(g: seq<seq<char>>, l: int, c: int, k: nat)
    requires k <= |Directions|
    requires 0 <= l < |g| && 0 <= c < |g[l]| && g[l][c] != 'X'
    ensures FoundAt(g, l, c, k) == 0
  {
    if k > 0 {
      NoXNoMatch(g, l, c, k - 1);
      var d := Directions[k - 1];
      assert d.0 * 0 == 0 && d.1 * 0 == 0;
      assert !Has(g, l + d.0 * 0, c + d.1 * 0, Word[0]);
    }
  }
}

module Day04b {
  import opened Grids

  /** One diagonal of the cross reads `MAS` one way or the other. */
  predicate MasDiagonal(a: char, b: char)
  {
    (a == 'M' && b == 'S') || (a == 'S' && b == 'M')
  }

  /** (l, c) is a cell whose eight neighbours all exist. */
  predicate Interior(g: seq<seq<char>>, l: nat, c: nat)
  {
    1 <= l && l + 1 < |g| && 1 <= c && c + 1 < |g[l - 1]| && c < |g[l]| && c + 1 < |g[l + 1]|
  }

  /** An `A` at (l, c) with both diagonals through it reading `MAS`. */
  predicate CrossAt(g: seq<seq<char>>, l: nat, c: nat)
    requires Interior(g, l, c)
  {
    g[l][c] == 'A' &&
    MasDiagonal(g[l - 1][c - 1], g[l + 1][c + 1]) && MasDiagonal(g[l - 1][c + 1], g[l + 1][c - 1])
  }

  /** The four arrangements the program tests, in its order: both `M`s on
      top, both at the bottom, both on the left, both on the right. */
  predicate Arrangements(g: seq<seq<char>>, l: nat, c: nat)
    requires Interior(g, l, c)
  {
    var tl, tr, bl, br := g[l - 1][c - 1], g[l - 1][c + 1], g[l + 1][c - 1], g[l + 1][c + 1];
    (tl == 'M' && tr == 'M' && bl == 'S' && br == 'S') ||
    (tl == 'S' && tr == 'S' && bl == 'M' && br == 'M') ||
    (tl == 'M' && bl == 'M' && tr == 'S' && br == 'S') ||
    (tl == 'S' && bl == 'S' && tr == 'M' && br == 'M')
  }

  /** The four arrangements are exactly the crosses of two `MAS` diagonals. */
  lemma ArrangementsAreCrosses(g: seq<seq<char>>, l: nat, c: nat)
    requires Interior(g, l, c)
    requires g[l][c] == 'A'
    ensures Arrangements(g, l, c) <==> CrossAt(g, l, c)
  {
  }

  /** Crosses centred in columns 1 .. n-1 of interior line `l`. */
  function CrossesInLine(g: seq<seq<char>>, w: nat, h: nat, l: nat, n: nat): nat
    requires IsGrid(g, w, h) && 1 <= l && l + 1 < h && n + 1 <= w
  {
    if n <= 1 then 0
    else CrossesInLine(g, w, h, l, n - 1) + if CrossAt(g, l, n - 1) then 1 else 0
  }

  /** Crosses centred in interior lines 1 .. n-1. */
  function CrossesInLines(g: seq<seq<char>>, w: nat, h: nat, n: nat): nat
    requires IsGrid(g, w, h) && n + 1 <= h && w > 0
  {
    if n <= 1 then 0
    else CrossesInLines(g, w, h, n - 1) + CrossesInLine(g, w, h, n - 1, w - 1)
  }

  /** Visits every interior cell and counts it when one of the four
      arrangements surrounds an `A`; each cell counts at most once. */
  method CountCrosses(g: seq<seq<char>>, w: nat, h: nat) returns (result: nat)
    requires IsGrid(g, w, h) && h > 0 && w > 0
    ensures result == CrossesInLines(g, w, h, h - 1)
  {
    result := 0;
    if h < 2 || w < 2 {
      assert CrossesInLines(g, w, h, h - 1) == 0 by {
        if h >= 2 {
          CrossesInNarrowGrid(g, w, h, h - 1);
        }
      }
      return;
    }
    for l := 1 to h - 1
      invariant result == CrossesInLines(g, w, h, l)
    {
      for c := 1 to w - 1
        invariant result == CrossesInLines(g, w, h, l) + CrossesInLine(g, w, h, l, c)
      {
        if g[l][c] != 'A' {
          continue;
        }
        ArrangementsAreCrosses(g, l, c);
        if Arrangements(g, l, c) {
          result := result + 1;
        }
      }
    }
  }

  lemma {:induction false} CrossesInNarrowGrid(g: seq<seq<char>>, w: nat, h: nat, n: nat)
    requires IsGrid(g, w, h) && n + 1 <= h && w == 1
    ensures CrossesInLines(g, w, h, n) == 0
  {
    if n > 1 {
      CrossesInNarrowGrid(g, w, h, n - 1);
    }
  }
}

=== FILE: day05.dfy ===
/** Day 5: page ordering rules `X|Y` ("X must be printed before Y") and
    updates (lists of pages). Part one sums the middle pages of the updates
    that obey every rule; part two reorders the others by the rules and sums
    their middle pages. */

module Day05a {
  /** For each page, the pages that must come after it. */
  type Rules = map<nat, set<nat>>

  /** Collects the rules into a map from a page to the set of pages that
      must follow it. */
  function BuildRules(pairs: seq<(nat, nat)>): (rules: Rules)
    ensures forall l :: l in rules <==> exists i :: 0 <= i < |pairs| && pairs[i].0 == l
    ensures forall l, r :: l in rules ==> (r in rules[l] <==> (l, r) in pairs)
  {
    if |pairs| == 0 then map[]
    else
      var prev := BuildRules(pairs[..|pairs| - 1]);
      var (l, r) := pairs[|pairs| - 1];
      assert pairs == pairs[..|pairs| - 1] + [(l, r)];
      prev[l := (if l in prev then prev[l] else {}) + {r}]
  }

  /** The pages that must come after `x` (none when no rule names it first). */
  function After(rules: Rules, x: nat): set<nat>
  {
    if x in rules then rules[x] else {}
  }

  /** No page is preceded by a page that a rule says must come after it. */
  predicate Ordered(rules: Rules, pages: seq<nat>)
  {
    forall i, j :: 0 <= i < j < |pages| ==> pages[i] !in After(rules, pages[j])
  }

  /** Walks the update keeping the set of pages seen so far, and rejects it
      as soon as a page's followers include one already seen. */
  method CheckUpdate(rules: Rules, pages: seq<nat>) returns (ok: bool)
    ensures ok <==> Ordered(rules, pages)
  {
    var seen: set<nat> := {};
    for k := 0 to |pages|
      invariant seen == set i | 0 <= i < k :: pages[i]
      invariant forall i, j :: 0 <= i < j < k ==> pages[i] !in After(rules, pages[j])
    {
      var entry := pages[k];
      if entry in rules && !(seen !! rules[entry]) {
        var x :| x in seen && x in rules[entry];
        var i :| 0 <= i < k && pages[i] == x;
        assert pages[i] in After(rules, pages[k]);
        return false;
      }
      seen := seen + {entry};
    }
    return true;
  }

  /** Sum of the middle pages (index `len / 2`) of the ordered updates. */
  function OrderedMiddles(rules: Rules, updates: seq<seq<nat>>): nat
    requires forall u :: u in updates ==> |u| > 0
  {
    if |updates| == 0 then 0
    else
      var u := updates[|updates| - 1];
      OrderedMiddles(rules, updates[..|updates| - 1]) + if Ordered(rules, u) then u[|u| / 2] else 0
  }

  /** Checks every update in turn and adds up the middle pages of the
      correct ones. */
  method Solve(rules: Rules, updates: seq<seq<nat>>) returns (result: nat)
    requires forall u :: u in updates ==> |u| > 0
    ensures result == OrderedMiddles(rules, updates)
  {
    result := 0;
    for n := 0 to |updates|
      invariant result == OrderedMiddles(rules, updates[..n])
    {
      assert updates[..n + 1][..n] == updates[..n];
      var ok := CheckUpdate(rules, updates[n]);
      if ok {
        result := result + updates[n][|updates[n]| / 2];
      }
    }
    assert updates[..|updates|] == updates;
  }
}

module Day05b {
  import opened Day05a

  datatype Ordering = Less | Equal | Greater

  /** A page together with the pages that must follow it. */
  datatype Entry = Entry(value: nat, comesBefore: set<nat>)

  /** The comparison used for sorting: equal pages are equal, a page that
      must precede the other is less, one that must follow is greater, and
      pages no rule relates are treated as equal. */
  function Cmp(a: Entry, b: Entry): (o: Ordering)
    ensures o == Equal <==> a.value == b.value || (b.value !in a.comesBefore && a.value !in b.comesBefore)
    ensures o == Less ==> b.value in a.comesBefore
    ensures o == Greater ==> a.value in b.comesBefore
  {
    if a.value == b.value then Equal
    else if b.value in a.comesBefore then Less
    else if a.value in b.comesBefore then Greater
    else Equal
  }

  /** Swapping the arguments turns greater into less and keeps equal;
      less need not turn into greater, because two rules may contradict
      each other, and then both orders compare less. */
  lemma CmpSwap(a: Entry, b: Entry)
    ensures Cmp(a, b) == Greater ==> Cmp(b, a) == Less
    ensures Cmp(a, b) == Equal <==> Cmp(b, a) == Equal
    ensures a.value != b.value && b.value in a.comesBefore && a.value in b.comesBefore ==>
      Cmp(a, b) == Less && Cmp(b, a) == Less
  {
  }

  function ToEntry(rules: Rules, v: nat): (e: Entry)
    ensures e.value == v && e.comesBefore == After(rules, v)
  {
    Entry(v, After(rules, v))
  }

  /** Neighbours are never out of order. */
  predicate AdjacentSorted(s: seq<Entry>)
  {
    forall i :: 0 < i < |s| ==> Cmp(s[i - 1], s[i]) != Greater
  }

  /** Inserts `e` before the first entry it does not compare greater than. */
  function Insert(e: Entry, s: seq<Entry>): (r: seq<Entry>)
    requires AdjacentSorted(s)
    ensures AdjacentSorted(r)
    ensures multiset(r) == multiset(s) + multiset{e}
    ensures |r| == |s| + 1 && |r| > 0
    ensures r[0] == e || (|s| > 0 && r[0] == s[0])
  {
    if |s| == 0 then [e]
    else if Cmp(e, s[0]) != Greater then [e] + s
    else
      var rest := Insert(e, s[1..]);
      assert s == [s[0]] + s[1..];
      assert Cmp(s[0], e) == Less;
      [s[0]] + rest
  }

  /** Sorts the entries by `Cmp`: a permutation whose neighbours are in
      order. */
  function SortEntries(s: seq<Entry>): (r: seq<Entry>)
    ensures AdjacentSorted(r)
    ensures multiset(r) == multiset(s)
    ensures |r| == |s|
  {
    if |s| == 0 then []
    else
      assert s == s[..|s| - 1] + [s[|s| - 1]];
      Insert(s[|s| - 1], SortEntries(s[..|s| - 1]))
  }

  function Values(s: seq<Entry>): (vs: seq<nat>)
    ensures |vs| == |s|
    ensures forall i :: 0 <= i < |s| ==> vs[i] == s[i].value
  {
    if |s| == 0 then [] else [s[0].value] + Values(s[1..])
  }

  function Entries(rules: Rules, pages: seq<nat>): (es: seq<Entry>)
    ensures |es| == |pages|
    ensures forall i :: 0 <= i < |pages| ==> es[i] == ToEntry(rules, pages[i])
  {
    if |pages| == 0 then [] else [ToEntry(rules, pages[0])] + Entries(rules, pages[1..])
  }

  /** Reorders an update: each page becomes an entry carrying its followers,
      the entries are sorted, and their pages read off. */
  function Reorder(rules: Rules, pages: seq<nat>): (r: seq<nat>)
    ensures |r| == |pages|
    ensures multiset(r) == multiset(pages)
  {
    var es := Entries(rules, pages);
    var sorted := SortEntries(es);
    ValuesMultiset(sorted, es);
    EntriesValues(rules, pages);
    Values(sorted)
  }

  lemma EntriesValues(rules: Rules, pages: seq<nat>)
    ensures Values(Entries(rules, pages)) == pages
  {
  }

  lemma {:induction false} ValuesMultiset(a: seq<Entry>, b: seq<Entry>)
    requires multiset(a) == multiset(b)
    ensures multiset(Values(a)) == multiset(Values(b))
    decreases |a|
  {
    if |a| == 0 {
      assert |b| == |multiset(b)| == 0;
    } else {
      var x := a[0];
      assert x in multiset(b);
      var j :| 0 <= j < |b| && b[j] == x;
      var b' := b[..j] + b[j + 1..];
      assert b == b[..j] + [x] + b[j + 1..];
      assert a == [x] + a[1..];
      assert multiset(a[1..]) == multiset(b') by {
        assert multiset(a[1..]) == multiset(a) - multiset{x};
        assert multiset(b') == multiset(b) - multiset{x};
      }
      ValuesMultiset(a[1..], b');
      ValuesAppend([x], a[1..]);
      ValuesAppend(b[..j] + [x], b[j + 1..]);
      ValuesAppend(b[..j], [x]);
      ValuesAppend(b[..j], b[j + 1..]);
    }
  }

  lemma ValuesAppend(a: seq<Entry>, b: seq<Entry>)
    ensures Values(a + b) == Values(a) + Values(b)
  {
    assert forall i :: 0 <= i < |a + b| ==> Values(a + b)[i] == (Values(a) + Values(b))[i];
  }

  /** The rules restricted to the update's pages form a strict total order:
      no page must follow itself, of two different pages exactly one must
      come first, and "must come first" is transitive. */
  predicate Consistent(rules: Rules, pages: seq<nat>)
  {
    (forall a :: a in pages ==> a !in After(rules, a)) &&
    (forall a, b :: a in pages && b in pages && a != b ==> (b in After(rules, a) <==> a !in After(rules, b))) &&
    (forall a, b, c :: a in pages && b in pages && c in pages && b in After(rules, a) && c in After(rules, b) ==> c in After(rules, a))
  }

  /** Under consistent rules, reordering yields an update that obeys every
      rule, as part one's check would accept it. */
  lemma ReorderObeysRules(rules: Rules, pages: seq<nat>)
    requires Consistent(rules, pages)
    ensures Ordered(rules, Reorder(rules, pages))
  {
    var es := Entries(rules, pages);
    var sorted := SortEntries(es);
    var r := Reorder(rules, pages);
    assert r == Values(sorted);
    forall k | 0 <= k < |r|
      ensures r[k] in pages && sorted[k] == ToEntry(rules, r[k])
    {
      assert r[k] in multiset(r);
      assert sorted[k] in multiset(es);
      var i :| 0 <= i < |es| && es[i] == sorted[k];
    }
    forall i, j | 0 <= i < j < |r|
      ensures r[i] !in After(rules, r[j])
    {
      ChainOrdered(rules, pages, sorted, r, i, j);
    }
  }

  lemma {:induction false} ChainOrdered(rules: Rules, pages: seq<nat>, sorted: seq<Entry>, r: seq<nat>, i: nat, j: nat)
    requires Consistent(rules, pages)
    requires AdjacentSorted(sorted) && |r| == |sorted|
    requires forall k :: 0 <= k < |r| ==> r[k] in pages && sorted[k] == ToEntry(rules, r[k])
    requires i < j < |r|
    ensures r[i] == r[j] || r[j] in After(rules, r[i])
    ensures r[i] !in After(rules, r[j])
    decreases j - i
  {
    assert Cmp(sorted[j - 1], sorted[j]) != Greater;
    if i < j - 1 {
      ChainOrdered(rules, pages, sorted, r, i, j - 1);
    }
  }

  /** Sum of the middle pages of the updates that break a rule, each taken
      after reordering. */
  function FixedMiddles(rules: Rules, updates: seq<seq<nat>>): nat
    requires forall u :: u in updates ==> |u| > 0
  {
    if |updates| == 0 then 0
    else
      var u := updates[|updates| - 1];
      var fixed := Reorder(rules, u);
      FixedMiddles(rules, updates[..|updates| - 1]) + if Ordered(rules, u) then 0 else fixed[|fixed| / 2]
  }

  /** Detects the incorrect updates with part one's check, reorders them and
      adds up their middle pages. */
  method Solve(rules: Rules, updates: seq<seq<nat>>) returns (result: nat)
    requires forall u :: u in updates ==> |u| > 0
    ensures result == FixedMiddles(rules, updates)
  {
    result := 0;
    for n := 0 to |updates|
      invariant result == FixedMiddles(rules, updates[..n])
    {
      assert updates[..n + 1][..n] == updates[..n];
      var ok := CheckUpdate(rules, updates[n]);
      if !ok {
        var fixed := Reorder(rules, updates[n]);
        result := result + fixed[|fixed| / 2];
      }
    }
    assert updates[..|updates|] == updates;
  }
}

=== FILE: day06.dfy ===
/** Day 6: a guard walks a lab, turning right in front of obstacles, until
    leaving the mapped area. Part one counts the cells the guard visits;
    part two counts the cells where one extra obstacle traps the guard in a
    loop. Positions are (x, y) with y growing downwards. */

module Day06a {
  import opened Wrappers

  type Pos = (int, int)

  /** Facing up, right, down, left, as (dx, dy); index 0 is up. */
  const Directions: seq<(int, int)> := [(0, -1), (1, 0), (0, 1), (-1, 0)]

  /** The obstacles and the mapped area, `cols` wide and `lines` tall. */
  datatype Lab = Lab(obstacles: set<Pos>, cols: int, lines: int)

  /** Where the guard stands and the index of the direction it faces. */
  datatype Guard = Guard(pos: Pos, dir: nat)

  predicate ValidGuard(g: Guard)
  {
    g.dir < 4
  }

  predicate Inside(lab: Lab, p: Pos)
  {
    0 <= p.0 < lab.cols && 0 <= p.1 < lab.lines
  }

  /** The cell in front of the guard. */
  function Ahead(g: Guard): (p: Pos)
    requires ValidGuard(g)
    ensures p.0 - g.pos.0 == Directions[g.dir].0 && p.1 - g.pos.1 == Directions[g.dir].1
  {
    (g.pos.0 + Directions[g.dir].0, g.pos.1 + Directions[g.dir].1)
  }

  /** Turning right: up, right, down, left, up again. */
  function TurnRight(g: Guard): (t: Guard)
    requires ValidGuard(g)
    ensures ValidGuard(t) && t.pos == g.pos
    ensures t.dir == (g.dir + 1) % 4
  {
    Guard(g.pos, (g.dir + 1) % 4)
  }

  /** Four right turns face the guard the way it faced before. */
  lemma FourTurns(g: Guard)
    requires ValidGuard(g)
    ensures TurnRight(TurnRight(TurnRight(TurnRight(g)))) == g
  {
  }

  function Forward(g: Guard): (m: Guard)
    requires ValidGuard(g)
    ensures ValidGuard(m) && m.dir == g.dir && m.pos == Ahead(g)
  {
    Guard(Ahead(g), g.dir)
  }

  /** The patrol as the program counts it: a cell is counted when the guard
      first steps forward out of it, and once more when the guard walks
      off the map, without asking whether that last cell was already
      counted. `None` when `fuel` runs out first. */
  function PatrolAsWritten(lab: Lab, g: Guard, visited: set<Pos>, result: nat, fuel: nat): (r: Option<nat>)
    requires ValidGuard(g) && Inside(lab, g.pos)
    decreases fuel
  {
    if fuel == 0 then None
    else
      var next := Ahead(g);
      if !Inside(lab, next) then Some(result + 1)
      else if next in lab.obstacles then PatrolAsWritten(lab, TurnRight(g), visited, result, fuel - 1)
      else
        PatrolAsWritten(lab, Forward(g), visited + {g.pos}, if g.pos in visited then result else result + 1, fuel - 1)
  }

  /** The cells the guard steps forward out of, and the cell from which it
      walks off the map. */
  function Route(lab: Lab, g: Guard, left: set<Pos>, fuel: nat): (r: Option<(set<Pos>, Pos)>)
    requires ValidGuard(g) && Inside(lab, g.pos)
    requires forall p :: p in left ==> Inside(lab, p)
    ensures r.Some? ==> left <= r.value.0 && Inside(lab, r.value.1)
    ensures r.Some? ==> forall p :: p in r.value.0 ==> Inside(lab, p)
    ensures r.Some? ==> (g.pos == r.value.1 || g.pos in r.value.0)
    decreases fuel
  {
    if fuel == 0 then None
    else
      var next := Ahead(g);
      if !Inside(lab, next) then Some((left, g.pos))
      else if next in lab.obstacles then Route(lab, TurnRight(g), left, fuel - 1)
      else Route(lab, Forward(g), left + {g.pos}, fuel - 1)
  }

  /** The number of distinct cells the guard occupies before leaving the
      map, the guard's starting cell among them. */
  function Patrol(lab: Lab, g: Guard, fuel: nat): (r: Option<nat>)
    requires ValidGuard(g) && Inside(lab, g.pos)
    ensures r.Some? ==> r.value >= 1
  {
    match Route(lab, g, {}, fuel)
    case None => None
    case Some((left, exit)) => Some(|left + {exit}|)
  }

  /** The program's count agrees with the route: every cell stepped out of
      once, plus one for the cell the guard leaves the map from. */
  lemma {:induction false} AsWrittenCountsExitAgain(lab: Lab, g: Guard, visited: set<Pos>, fuel: nat)
    requires ValidGuard(g) && Inside(lab, g.pos)
    requires forall p :: p in visited ==> Inside(lab, p)
    ensures var r := Route(lab, g, visited, fuel);
      r.Some? <==> PatrolAsWritten(lab, g, visited, |visited|, fuel).Some?
    ensures var r := Route(lab, g, visited, fuel);
      r.Some? ==> PatrolAsWritten(lab, g, visited, |visited|, fuel) == Some(|r.value.0| + 1)
    decreases fuel
  {
    if fuel > 0 {
      var next := Ahead(g);
      if !Inside(lab, next) {
      } else if next in lab.obstacles {
        AsWrittenCountsExitAgain(lab, TurnRight(g), visited, fuel - 1);
      } else {
        AsWrittenCountsExitAgain(lab, Forward(g), visited + {g.pos}, fuel - 1);
        if g.pos in visited {
          assert visited + {g.pos} == visited;
        }
      }
    }
  }

  /** Hence the program overcounts by one exactly when the guard leaves the
      map from a cell it had already stepped out of. */
  lemma AsWrittenVersusDistinct(lab: Lab, g: Guard, fuel: nat)
    requires ValidGuard(g) && Inside(lab, g.pos)
    requires Route(lab, g, {}, fuel).Some?
    ensures var (left, exit) := Route(lab, g, {}, fuel).value;
      PatrolAsWritten(lab, g, {}, 0, fuel) ==
        Some(Patrol(lab, g, fuel).value + if exit in left then 1 else 0)
  {
    AsWrittenCountsExitAgain(lab, g, {}, fuel);
    var (left, exit) := Route(lab, g, {}, fuel).value;
    if exit in left {
      assert left + {exit} == left;
    }
  }

  lemma RouteForward(lab: Lab, g: Guard, left: set<Pos>, fuel: nat)
    requires ValidGuard(g) && Inside(lab, g.pos) && fuel > 0
    requires forall p :: p in left ==> Inside(lab, p)
    requires Inside(lab, Ahead(g)) && Ahead(g) !in lab.obstacles
    ensures Route(lab, g, left, fuel) == Route(lab, Forward(g), left + {g.pos}, fuel - 1)
  {
  }

  lemma RouteTurn(lab: Lab, g: Guard, left: set<Pos>, fuel: nat)
    requires ValidGuard(g) && Inside(lab, g.pos) && fuel > 0
    requires forall p :: p in left ==> Inside(lab, p)
    requires Inside(lab, Ahead(g)) && Ahead(g) in lab.obstacles
    ensures Route(lab, g, left, fuel) == Route(lab, TurnRight(g), left, fuel - 1)
  {
  }

  /** A lab two cells wide and three tall with obstacles at (0, 0), (0, 1)
      and (1, 2), the guard at (1, 0) facing down: it steps down, turns
      twice, steps back up and leaves the map from its starting cell. It
      occupies two cells, and the program reports three. */
  lemma ExitCountedTwice()
    ensures var lab := Lab({(0, 0), (0, 1), (1, 2)}, 2, 3);
      PatrolAsWritten(lab, Guard((1, 0), 2), {}, 0, 10) == Some(3) &&
      Patrol(lab, Guard((1, 0), 2), 10) == Some(2)
  {
    var lab := Lab({(0, 0), (0, 1), (1, 2)}, 2, 3);
    var l0: set<Pos> := {};
    RouteForward(lab, Guard((1, 0), 2), l0, 10);
    assert Forward(Guard((1, 0), 2)) == Guard((1, 1), 2);
    var l1 := l0 + {(1, 0)};
    RouteTurn(lab, Guard((1, 1), 2), l1, 9);
    assert TurnRight(Guard((1, 1), 2)) == Guard((1, 1), 3);
    RouteTurn(lab, Guard((1, 1), 3), l1, 8);
    assert TurnRight(Guard((1, 1), 3)) == Guard((1, 1), 0);
    RouteForward(lab, Guard((1, 1), 0), l1, 7);
    assert Forward(Guard((1, 1), 0)) == Guard((1, 0), 0);
    var l2 := l1 + {(1, 1)};
    assert Route(lab, Guard((1, 0), 0), l2, 6) == Some((l2, (1, 0)));
    assert Route(lab, Guard((1, 0), 2), l0, 10) == Some((l2, (1, 0)));
    AsWrittenVersusDistinct(lab, Guard((1, 0), 2), 10);
    assert |l2| == 2;
    assert l2 + {(1, 0)} == l2;
    assert Patrol(lab, Guard((1, 0), 2), 10) == Some(|l2|);
  }
}

module Day06b {
  import opened Wrappers
  import opened Day06a

  /** Part two walks the whole fixed-size field rather than the mapped area. */
  const FieldSize: int := 130

  function Field(obstacles: set<Pos>): Lab
  {
    Lab(obstacles, FieldSize, FieldSize)
  }

  /** One move of the guard: off the map, a right turn, or a step forward. */
  datatype Step = Exited | At(g: Guard)

  function StepOf(lab: Lab, g: Guard): (s: Step)
    requires ValidGuard(g)
    ensures s.At? ==> ValidGuard(s.g)
  {
    var next := Ahead(g);
    if !Inside(lab, next) then Exited
    else if next in lab.obstacles then At(TurnRight(g))
    else At(Forward(g))
  }

  /** Where the guard is after `n` moves from `g`; leaving the map is final. */
  function Walk(lab: Lab, g: Guard, n: nat): (s: Step)
    requires ValidGuard(g)
    ensures s.At? ==> ValidGuard(s.g)
  {
    if n == 0 then At(g)
    else
      match Walk(lab, g, n - 1)
      case Exited => Exited
      case At(h) => StepOf(lab, h)
  }

  /** Walking `a + b` moves is walking `a` moves and then `b` more. */
  lemma {:induction false} WalkSplit(lab: Lab, g: Guard, a: nat, b: nat)
    requires ValidGuard(g)
    ensures Walk(lab, g, a + b) == match Walk(lab, g, a) case Exited => Exited case At(h) => Walk(lab, h, b)
    decreases b
  {
    if b > 0 {
      WalkSplit(lab, g, a, b - 1);
    }
  }

  lemma {:induction false} ExitedStaysExited(lab: Lab, g: Guard, m: nat, n: nat)
    requires ValidGuard(g) && m <= n && Walk(lab, g, m) == Exited
    ensures Walk(lab, g, n) == Exited
    decreases n - m
  {
    if m < n {
      ExitedStaysExited(lab, g, m, n - 1);
    }
  }

  /** A guard that returns to a state it was in before never leaves the
      map: the walk is deterministic, so it repeats forever. */
  lemma RepeatNeverExits(lab: Lab, g: Guard, i: nat, j: nat)
    requires ValidGuard(g) && i < j
    requires Walk(lab, g, i) == Walk(lab, g, j) && Walk(lab, g, j).At?
    ensures forall n :: Walk(lab, g, n).At?
  {
    forall n
      ensures Walk(lab, g, n).At?
    {
      RepeatNeverExitsAt(lab, g, i, j, n);
    }
  }

  lemma {:induction false} RepeatNeverExitsAt(lab: Lab, g: Guard, i: nat, j: nat, n: nat)
    requires ValidGuard(g) && i < j
    requires Walk(lab, g, i) == Walk(lab, g, j) && Walk(lab, g, j).At?
    ensures Walk(lab, g, n).At?
    decreases n
  {
    if n <= j {
      if Walk(lab, g, n) == Exited {
        ExitedStaysExited(lab, g, n, j);
      }
    } else {
      WalkSplit(lab, g, i, n - j);
      WalkSplit(lab, g, j, n - j);
      assert i + (n - j) < n;
      RepeatNeverExitsAt(lab, g, i, j, i + (n - j));
    }
  }

  /** The loop test: replays the walk, remembering for each cell the last
      direction the guard stepped out of it in, and reports a loop when the
      guard is about to step out of a cell in the direction remembered
      there. `None` when `fuel` runs out first. */
  function Loops(lab: Lab, g: Guard, dirs: map<Pos, nat>, fuel: nat): Option<bool>
    requires ValidGuard(g)
    decreases fuel
  {
    if fuel == 0 then None
    else if !Inside(lab, g.pos) then Some(false)
    else
      var next := Ahead(g);
      if !Inside(lab, next) then Some(false)
      else if next in lab.obstacles then Loops(lab, TurnRight(g), dirs, fuel - 1)
      else if g.pos in dirs && dirs[g.pos] == g.dir then Some(true)
      else Loops(lab, Forward(g), dirs[g.pos := g.dir], fuel - 1)
  }

  /** What `dirs` remembers happened: each entry is a state the walk from
      `g0` was in before move `t`. */
  predicate Remembered(lab: Lab, g0: Guard, t: nat, dirs: map<Pos, nat>)
    requires ValidGuard(g0)
  {
    forall p :: p in dirs ==> exists k :: 0 <= k < t && Walk(lab, g0, k) == At(Guard(p, dirs[p]))
  }

  /** The walk from `g0` comes back to a state it was in before. */
  ghost predicate Revisits(lab: Lab, g0: Guard)
    requires ValidGuard(g0)
  {
    exists i, j :: 0 <= i < j && Walk(lab, g0, i) == Walk(lab, g0, j) && Walk(lab, g0, j).At?
  }

  /** The walk from `g0` leaves the map. */
  ghost predicate Leaves(lab: Lab, g0: Guard)
    requires ValidGuard(g0)
  {
    exists n :: Walk(lab, g0, n) == Exited
  }

  /** A reported loop is a real one: the walk from `g0` revisits a state.
      A reported exit is a real one too. */
  lemma {:induction false} LoopsSound(lab: Lab, g0: Guard, t: nat, g: Guard, dirs: map<Pos, nat>, fuel: nat)
    requires ValidGuard(g0) && ValidGuard(g) && Walk(lab, g0, t) == At(g)
    requires Remembered(lab, g0, t, dirs)
    ensures Loops(lab, g, dirs, fuel) == Some(true) ==> Revisits(lab, g0)
    ensures Loops(lab, g, dirs, fuel) == Some(false) ==> !Inside(lab, g.pos) || Leaves(lab, g0)
    decreases fuel, 1
  {
    if fuel > 0 && Inside(lab, g.pos) {
      var next := Ahead(g);
      if !Inside(lab, next) {
        WalkNext(lab, g0, t, g);
        assert Walk(lab, g0, t + 1) == Exited;
      } else if next in lab.obstacles {
        LoopsTurn(lab, g0, t, g, dirs, fuel);
      } else if g.pos in dirs && dirs[g.pos] == g.dir {
        Revisited(lab, g0, t, g, dirs);
      } else {
        LoopsForward(lab, g0, t, g, dirs, fuel);
      }
    }
  }

  /** The guard turns at an obstacle: the walk goes on from the turned guard. */
  lemma {:induction false} LoopsTurn(lab: Lab, g0: Guard, t: nat, g: Guard, dirs: map<Pos, nat>, fuel: nat)
    requires ValidGuard(g0) && ValidGuard(g) && Walk(lab, g0, t) == At(g)
    requires Remembered(lab, g0, t, dirs)
    requires fuel > 0 && Inside(lab, g.pos) && Inside(lab, Ahead(g)) && Ahead(g) in lab.obstacles
    ensures Loops(lab, g, dirs, fuel) == Some(true) ==> Revisits(lab, g0)
    ensures Loops(lab, g, dirs, fuel) == Some(false) ==> Leaves(lab, g0)
    decreases fuel, 0
  {
    WalkNext(lab, g0, t, g);
    RememberLonger(lab, g0, t, dirs);
    LoopsSound(lab, g0, t + 1, TurnRight(g), dirs, fuel - 1);
  }

  /** The guard steps forward out of a cell it does not remember leaving in
      this direction: the walk goes on from the cell ahead, remembering it. */
  lemma {:induction false} LoopsForward(lab: Lab, g0: Guard, t: nat, g: Guard, dirs: map<Pos, nat>, fuel: nat)
    requires ValidGuard(g0) && ValidGuard(g) && Walk(lab, g0, t) == At(g)
    requires Remembered(lab, g0, t, dirs)
    requires fuel > 0 && Inside(lab, g.pos) && Inside(lab, Ahead(g)) && Ahead(g) !in lab.obstacles
    requires !(g.pos in dirs && dirs[g.pos] == g.dir)
    ensures Loops(lab, g, dirs, fuel) == Some(true) ==> Revisits(lab, g0)
    ensures Loops(lab, g, dirs, fuel) == Some(false) ==> Leaves(lab, g0)
    decreases fuel, 0
  {
    WalkNext(lab, g0, t, g);
    RememberStep(lab, g0, t, g, dirs);
    LoopsSound(lab, g0, t + 1, Forward(g), dirs[g.pos := g.dir], fuel - 1);
  }

  /** The next state of the walk is one move on from the current one. */
  lemma WalkNext(lab: Lab, g0: Guard, t: nat, g: Guard)
    requires ValidGuard(g0) && Walk(lab, g0, t) == At(g)
    ensures Walk(lab, g0, t + 1) == StepOf(lab, g)
  {
  }

  /** What was remembered before move `t` was remembered before move `t + 1`. */
  lemma RememberLonger(lab: Lab, g0: Guard, t: nat, dirs: map<Pos, nat>)
    requires ValidGuard(g0) && Remembered(lab, g0, t, dirs)
    ensures Remembered(lab, g0, t + 1, dirs)
  {
    forall p | p in dirs
      ensures exists k :: 0 <= k < t + 1 && Walk(lab, g0, k) == At(Guard(p, dirs[p]))
    {
      var k :| 0 <= k < t && Walk(lab, g0, k) == At(Guard(p, dirs[p]));
    }
  }

  /** A guard in a remembered state has been there before. */
  lemma Revisited(lab: Lab, g0: Guard, t: nat, g: Guard, dirs: map<Pos, nat>)
    requires ValidGuard(g0) && Walk(lab, g0, t) == At(g)
    requires Remembered(lab, g0, t, dirs) && g.pos in dirs && dirs[g.pos] == g.dir
    ensures Revisits(lab, g0)
  {
    var k :| 0 <= k < t && Walk(lab, g0, k) == At(Guard(g.pos, dirs[g.pos]));
    assert Walk(lab, g0, k) == Walk(lab, g0, t) && Walk(lab, g0, t).At?;
  }

  /** Remembering the state the guard is in keeps the memory true. */
  lemma RememberStep(lab: Lab, g0: Guard, t: nat, g: Guard, dirs: map<Pos, nat>)
    requires ValidGuard(g0) && Walk(lab, g0, t) == At(g)
    requires Remembered(lab, g0, t, dirs)
    ensures Remembered(lab, g0, t + 1, dirs[g.pos := g.dir])
  {
    var dirs' := dirs[g.pos := g.dir];
    forall p | p in dirs'
      ensures exists k :: 0 <= k < t + 1 && Walk(lab, g0, k) == At(Guard(p, dirs'[p]))
    {
      if p == g.pos {
        assert Walk(lab, g0, t) == At(Guard(p, dirs'[p]));
      } else {
        var k :| 0 <= k < t && Walk(lab, g0, k) == At(Guard(p, dirs[p]));
      }
    }
  }

  /** An extra obstacle at `p` keeps the guard from `start` on the field
      forever. */
  ghost predicate Traps(obstacles: set<Pos>, start: Guard, p: Pos)
    requires ValidGuard(start)
  {
    forall n :: Walk(Field(obstacles + {p}), start, n).At?
  }

  /** The walk of part two: whenever the guard steps forward onto a cell
      other than its start that has not been counted yet, the walk is
      replayed from the start with an extra obstacle there, and the cell is
      counted when that replay loops. Every counted cell really traps the
      guard. `None` when a fuel bound runs out first. */
  function Search(obstacles: set<Pos>, start: Guard, g: Guard, found: set<Pos>, fuel: nat, loopFuel: nat): (r: Option<set<Pos>>)
    requires ValidGuard(start) && ValidGuard(g) && Inside(Field(obstacles), start.pos)
    ensures r.Some? ==> found <= r.value
    ensures r.Some? ==> forall p :: p in r.value && p !in found ==>
      p != start.pos && p !in obstacles && Inside(Field(obstacles), p) && Traps(obstacles, start, p)
    decreases fuel
  {
    var lab := Field(obstacles);
    if fuel == 0 then None
    else if !Inside(lab, g.pos) then Some(found)
    else
      var next := Ahead(g);
      if !Inside(lab, next) then Some(found)
      else if next in obstacles then Search(obstacles, start, TurnRight(g), found, fuel - 1, loopFuel)
      else if next != start.pos && next !in found then
        var blocked := Field(obstacles + {next});
        match Loops(blocked, start, map[], loopFuel)
        case None => None
        case Some(loops) =>
          if loops then
            LoopsSound(blocked, start, 0, start, map[], loopFuel);
            var i, j :| 0 <= i < j && Walk(blocked, start, i) == Walk(blocked, start, j) && Walk(blocked, start, j).At?;
            RepeatNeverExits(blocked, start, i, j);
            Search(obstacles, start, Forward(g), found + {next}, fuel - 1, loopFuel)
          else
            Search(obstacles, start, Forward(g), found, fuel - 1, loopFuel)
      else Search(obstacles, start, Forward(g), found, fuel - 1, loopFuel)
  }

  /** The answer: how many cells were counted. */
  function CountTraps(obstacles: set<Pos>, start: Guard, fuel: nat, loopFuel: nat): (r: Option<nat>)
    requires ValidGuard(start) && Inside(Field(obstacles), start.pos)
  {
    match Search(obstacles, start, start, {}, fuel, loopFuel)
    case None => None
    case Some(found) => Some(|found|)
  }
}

=== FILE: day07.dfy ===
/** Day 7: calibration equations. A test value is reachable when operators
    inserted between the numbers, evaluated strictly left to right, give
    it: `+` and `*` in part one, and also digit concatenation `||` in part
    two. */

module Day07a {
  import Arith
  /** Left-to-right value of the numbers with the given operators between
      them; `true` stands for `*` and `false` for `+`. */
  function Eval(nums: seq<nat>, muls: seq<bool>): nat
    requires |nums| >= 1 && |muls| == |nums| - 1
  {
    if |nums| == 1 then nums[0]
    else
      var v := Eval(nums[..|nums| - 1], muls[..|muls| - 1]);
      var last := nums[|nums| - 1];
      if muls[|muls| - 1] then v * last else v + last
  }

  /** Some choice of operators makes the equation true. */
  ghost predicate Solvable(target: nat, nums: seq<nat>)
    requires |nums| >= 1
  {
    exists muls :: |muls| == |nums| - 1 && Eval(nums, muls) == target
  }

  /** The program's test, working backwards from the last number: the last
      operator may have been `*` when the target divides evenly, or `+` when
      the target is at least the last number. */
  function Test(target: nat, nums: seq<nat>): (ok: bool)
    requires |nums| >= 1
    requires forall i :: 0 <= i < |nums| ==> nums[i] > 0
    ensures ok <==> Solvable(target, nums)
    decreases |nums|
  {
    if |nums| == 1 then
      SolvableSingle(target, nums);
      nums[0] == target
    else
      var rest, last := nums[..|nums| - 1], nums[|nums| - 1];
      var ok := (target % last == 0 && Test(target / last, rest)) || (target >= last && Test(target - last, rest));
      SolvableStep(target, nums);
      ok
  }

  lemma SolvableSingle(target: nat, nums: seq<nat>)
    requires |nums| == 1
    ensures Solvable(target, nums) <==> nums[0] == target
  {
    if nums[0] == target {
      assert Eval(nums, []) == target;
    }
  }

  /** Splitting off the last operator. */
  lemma SolvableStep(target: nat, nums: seq<nat>)
    requires |nums| >= 2 && nums[|nums| - 1] > 0
    ensures var rest, last := nums[..|nums| - 1], nums[|nums| - 1];
      Solvable(target, nums) <==>
        (target % last == 0 && Solvable(target / last, rest)) || (target >= last && Solvable(target - last, rest))
  {
    var rest, last := nums[..|nums| - 1], nums[|nums| - 1];
    if Solvable(target, nums) {
      LastOperator(target, nums);
    }
    if target % last == 0 && Solvable(target / last, rest) {
      ByMultiplying(target, nums);
    }
    if target >= last && Solvable(target - last, rest) {
      ByAdding(target, nums);
    }
  }

  lemma ByMultiplying(target: nat, nums: seq<nat>)
    requires |nums| >= 2 && nums[|nums| - 1] > 0
    requires target % nums[|nums| - 1] == 0 && Solvable(target / nums[|nums| - 1], nums[..|nums| - 1])
    ensures Solvable(target, nums)
  {
    var rest, last := nums[..|nums| - 1], nums[|nums| - 1];
    var muls :| |muls| == |rest| - 1 && Eval(rest, muls) == target / last;
    Arith.DivMod(target, last, target / last, 0);
    Extend(nums, muls, true);
  }

  lemma ByAdding(target: nat, nums: seq<nat>)
    requires |nums| >= 2
    requires target >= nums[|nums| - 1] && Solvable(target - nums[|nums| - 1], nums[..|nums| - 1])
    ensures Solvable(target, nums)
  {
    var rest, last := nums[..|nums| - 1], nums[|nums| - 1];
    var muls :| |muls| == |rest| - 1 && Eval(rest, muls) == target - last;
    Extend(nums, muls, false);
  }

  lemma LastOperator(target: nat, nums: seq<nat>)
    requires |nums| >= 2 && nums[|nums| - 1] > 0 && Solvable(target, nums)
    ensures var rest, last := nums[..|nums| - 1], nums[|nums| - 1];
      (target % last == 0 && Solvable(target / last, rest)) || (target >= last && Solvable(target - last, rest))
  {
    var rest, last := nums[..|nums| - 1], nums[|nums| - 1];
    var muls :| |muls| == |nums| - 1 && Eval(nums, muls) == target;
    var v := Eval(rest, muls[..|muls| - 1]);
    if muls[|muls| - 1] {
      Arith.DivMod(target, last, v, 0);
    }
  }

  lemma Extend(nums: seq<nat>, muls: seq<bool>, mul: bool)
    requires |nums| >= 2 && |muls| == |nums| - 2
    ensures var v, last := Eval(nums[..|nums| - 1], muls), nums[|nums| - 1];
      Eval(nums, muls + [mul]) == if mul then v * last else v + last
  {
    assert (muls + [mul])[..|muls|] == muls;
  }
}

module Day07b {
  import A = Day07a
  import Arith

  datatype Op = Add | Mul | Concat

  /** Writing the digits of `b` after those of `a`. */
  function Cat(a: nat, b: nat): nat
  {
    Arith.Pow(10, Arith.Digits(b)) * a + b
  }

  /** Dividing the concatenation by ten to the digit count of `b` gives
      back `a`, and the remainder gives back `b`. */
  lemma CatSplits(a: nat, b: nat)
    ensures Cat(a, b) / Arith.Pow(10, Arith.Digits(b)) == a && Cat(a, b) % Arith.Pow(10, Arith.Digits(b)) == b
  {
    var p := Arith.Pow(10, Arith.Digits(b));
    Arith.DigitsBounds(b);
    assert p * a == a * p;
    Arith.DivMod(a * p + b, p, a, b);
  }

  function Apply(v: nat, op: Op, x: nat): nat
  {
    match op
    case Add => v + x
    case Mul => v * x
    case Concat => Cat(v, x)
  }

  /** Left-to-right value with three kinds of operator. */
  function Eval(nums: seq<nat>, ops: seq<Op>): nat
    requires |nums| >= 1 && |ops| == |nums| - 1
  {
    if |nums| == 1 then nums[0]
    else Apply(Eval(nums[..|nums| - 1], ops[..|ops| - 1]), ops[|ops| - 1], nums[|nums| - 1])
  }

  ghost predicate Solvable(target: nat, nums: seq<nat>)
    requires |nums| >= 1
  {
    exists ops :: |ops| == |nums| - 1 && Eval(nums, ops) == target
  }

  /** The `k` operators a combination number selects: its base-3 digits,
      least significant first, 0 for `+`, 1 for `*` and 2 for `||`. */
  function OpsOf(c: nat, k: nat): (ops: seq<Op>)
    ensures |ops| == k
  {
    if k == 0 then [] else [DigitOp(c % 3)] + OpsOf(c / 3, k - 1)
  }

  function DigitOp(digit: nat): Op
  {
    if digit == 0 then Add else if digit == 1 then Mul else Concat
  }

  /** The first operator comes from the last base-3 digit, the rest from
      the others. */
  lemma OpsFront(c: nat, k: nat)
    requires k > 0
    ensures OpsOf(c, k)[0] == DigitOp(c % 3) && OpsOf(c, k)[1..] == OpsOf(c / 3, k - 1)
  {
  }

  /** The combination number selecting the given operators. */
  function Encode(ops: seq<Op>): (c: nat)
    ensures c < Arith.Pow(3, |ops|)
    ensures OpsOf(c, |ops|) == ops
  {
    if |ops| == 0 then 0
    else
      var d := match ops[0] case Add => 0 case Mul => 1 case Concat => 2;
      var rest := Encode(ops[1..]);
      var c := d + 3 * rest;
      assert c % 3 == d && c / 3 == rest;
      assert ops == [ops[0]] + ops[1..];
      c
  }

  /** Evaluates the numbers with the operators of combination `c`, taking
      one base-3 digit of `c` per number after the first. */
  method EvalCombination(nums: seq<nat>, c: nat) returns (sum: nat)
    requires |nums| >= 1
    ensures sum == Eval(nums, OpsOf(c, |nums| - 1))
  {
    ghost var ops := OpsOf(c, |nums| - 1);
    sum := nums[0];
    var combination := c;
    assert nums[..1] == [nums[0]];
    for i := 1 to |nums|
      invariant sum == Eval(nums[..i], ops[..i - 1])
      invariant ops[i - 1..] == OpsOf(combination, |nums| - i)
    {
      OpsFront(combination, |nums| - i);
      EvalSnoc(nums, ops, i);
      sum := Combine(sum, nums[i], combination % 3);
      combination := combination / 3;
      assert ops[i..] == ops[i - 1..][1..];
    }
    assert nums[..|nums|] == nums;
    assert ops[..|nums| - 1] == ops;
  }

  /** One step of the evaluation with the operator a base-3 digit selects. */
  method Combine(sum: nat, num: nat, digit: nat) returns (r: nat)
    ensures r == Apply(sum, DigitOp(digit), num)
  {
    if digit == 0 {
      r := sum + num;
    } else if digit == 1 {
      r := sum * num;
    } else {
      r := Arith.Pow(10, Arith.Digits(num)) * sum + num;
    }
  }

  lemma EvalSnoc(nums: seq<nat>, ops: seq<Op>, i: nat)
    requires |ops| == |nums| - 1 && 1 <= i < |nums|
    ensures Eval(nums[..i + 1], ops[..i]) == Apply(Eval(nums[..i], ops[..i - 1]), ops[i - 1], nums[i])
  {
    assert nums[..i + 1][..i] == nums[..i];
    assert ops[..i][..i - 1] == ops[..i - 1];
  }

  /** Tries the combinations in order and stops at the first that gives the
      target, so the equation counts once however many combinations work. */
  method Calibrates(target: nat, nums: seq<nat>) returns (ok: bool)
    requires |nums| >= 1
    ensures ok <==> Solvable(target, nums)
  {
    var k := |nums| - 1;
    var combinations := Arith.Pow(3, k);
    for c := 0 to combinations
      invariant forall c' :: 0 <= c' < c ==> Eval(nums, OpsOf(c', k)) != target
    {
      var sum := EvalCombination(nums, c);
      if sum == target {
        return true;
      }
    }
    forall ops | |ops| == k
      ensures Eval(nums, ops) != target
    {
      assert OpsOf(Encode(ops), k) == ops;
    }
    return false;
  }

  function ToOps(muls: seq<bool>): (ops: seq<Op>)
    ensures |ops| == |muls|
    ensures forall i :: 0 <= i < |muls| ==> ops[i] == if muls[i] then Mul else Add
  {
    if |muls| == 0 then [] else [if muls[0] then Mul else Add] + ToOps(muls[1..])
  }

  lemma {:induction false} EvalWithoutConcat(nums: seq<nat>, muls: seq<bool>)
    requires |nums| >= 1 && |muls| == |nums| - 1
    ensures Eval(nums, ToOps(muls)) == A.Eval(nums, muls)
    decreases |nums|
  {
    if |nums| > 1 {
      EvalWithoutConcat(nums[..|nums| - 1], muls[..|muls| - 1]);
      assert ToOps(muls)[..|muls| - 1] == ToOps(muls[..|muls| - 1]);
    }
  }

  /** Every equation part one accepts, part two accepts as well. */
  lemma PartOneIncluded(target: nat, nums: seq<nat>)
    requires |nums| >= 1 && A.Solvable(target, nums)
    ensures Solvable(target, nums)
  {
    var muls :| |muls| == |nums| - 1 && A.Eval(nums, muls) == target;
    EvalWithoutConcat(nums, muls);
  }
}

=== FILE: day08.dfy ===
/** Day 8: antinodes of antennas. Antennas are the non-`.` cells of the map;
    two antennas of the same frequency produce antinodes, and the answer is
    the number of distinct antinode cells inside the map. */

module Day08a {
  import Seqs
  import Grids

  datatype Point = Point(x: int, y: int)

  /** The map as the rectangle `0 <= x < w`, `0 <= y < h`. */
  predicate Contains(w: nat, h: nat, p: Point)
  {
    0 <= p.x < w && 0 <= p.y < h
  }

  /** `q` lies on the line through `a` and `b` with `a` twice as far from
      it as `b`: either beyond `b`, or between the two. */
  predicate TwiceAsFar(q: Point, a: Point, b: Point)
  {
    (q.x - a.x == 2 * (q.x - b.x) && q.y - a.y == 2 * (q.y - b.y)) ||
    (q.x - a.x == -2 * (q.x - b.x) && q.y - a.y == -2 * (q.y - b.y))
  }

  /** The antinodes the program inserts for one pair: one beyond each
      antenna, and the two points dividing the segment in thirds when both
      coordinate distances are multiples of three. */
  function PairAntinodes(w: nat, h: nat, p1: Point, p2: Point): set<Point>
  {
    var dx, dy := p2.x - p1.x, p2.y - p1.y;
    var q1 := Point(p2.x + dx, p2.y + dy);
    var q2 := Point(p1.x - dx, p1.y - dy);
    var outer := (if Contains(w, h, q1) then {q1} else {}) + (if Contains(w, h, q2) then {q2} else {});
    if Seqs.Abs(dx) % 3 == 0 && Seqs.Abs(dy) % 3 == 0 then
      var q3 := Point(p1.x + dx / 3, p1.y + dy / 3);
      var q4 := Point(p1.x + dx * 2 / 3, p1.y + dy * 2 / 3);
      outer + (if Contains(w, h, q3) then {q3} else {}) + (if Contains(w, h, q4) then {q4} else {})
    else outer
  }

  /** The pair's inserted points are exactly the cells of the map where
      one antenna is twice as far away as the other. */
  lemma PairAntinodesExact(w: nat, h: nat, p1: Point, p2: Point, q: Point)
    ensures q in PairAntinodes(w, h, p1, p2) <==>
      Contains(w, h, q) && (TwiceAsFar(q, p1, p2) || TwiceAsFar(q, p2, p1))
  {
    if q in PairAntinodes(w, h, p1, p2) {
      PairSound(w, h, p1, p2, q);
    }
    if Contains(w, h, q) && (TwiceAsFar(q, p1, p2) || TwiceAsFar(q, p2, p1)) {
      PairComplete(w, h, p1, p2, q);
    }
  }

  lemma PairSound(w: nat, h: nat, p1: Point, p2: Point, q: Point)
    requires q in PairAntinodes(w, h, p1, p2)
    ensures Contains(w, h, q) && (TwiceAsFar(q, p1, p2) || TwiceAsFar(q, p2, p1))
  {
    var dx, dy := p2.x - p1.x, p2.y - p1.y;
    if Seqs.Abs(dx) % 3 == 0 && Seqs.Abs(dy) % 3 == 0 {
      AbsMod3(dx);
      AbsMod3(dy);
      Thirds(p1.x, p2.x);
      Thirds(p1.y, p2.y);
    }
  }

  lemma PairComplete(w: nat, h: nat, p1: Point, p2: Point, q: Point)
    requires Contains(w, h, q) && (TwiceAsFar(q, p1, p2) || TwiceAsFar(q, p2, p1))
    ensures q in PairAntinodes(w, h, p1, p2)
  {
    var dx, dy := p2.x - p1.x, p2.y - p1.y;
    if q.x - p1.x == -2 * (q.x - p2.x) && q.y - p1.y == -2 * (q.y - p2.y) {
      // 3q = p1 + 2 p2: the far third of the segment
      AtThird(p1.x, p2.x, q.x);
      AtThird(p1.y, p2.y, q.y);
      AbsMod3(dx);
      AbsMod3(dy);
    } else if q.x - p2.x == -2 * (q.x - p1.x) && q.y - p2.y == -2 * (q.y - p1.y) {
      // 3q = 2 p1 + p2: the near third
      AtThird(p2.x, p1.x, q.x);
      AtThird(p2.y, p1.y, q.y);
      AbsMod3(dx);
      AbsMod3(dy);
    }
  }

  /** A point twice as far from `a` as from `b`, between them, splits the
      distance in thirds. */
  lemma AtThird(a: int, b: int, q: int)
    requires q - a == -2 * (q - b)
    ensures (b - a) % 3 == 0 && (a - b) % 3 == 0
    ensures q == a + (b - a) * 2 / 3 && q == b + (a - b) / 3
  {
    // q - a is even, and half of it is a third of b - a
    var t := (q - a) / 2;
    assert q - a == 2 * t;
    assert b - a == 3 * t;
    assert (b - a) * 2 / 3 == 2 * t;
    assert (a - b) / 3 == -t;
  }

  /** The points a third and two thirds along a distance divisible by
      three are twice as far from one end as from the other. */
  lemma Thirds(a: int, b: int)
    requires (b - a) % 3 == 0
    ensures var q3 := a + (b - a) / 3; q3 - b == -2 * (q3 - a)
    ensures var q4 := a + (b - a) * 2 / 3; q4 - a == -2 * (q4 - b)
  {
    var t := (b - a) / 3;
    assert b - a == 3 * t;
    assert (b - a) * 2 / 3 == 2 * t;
  }

  lemma AbsMod3(d: int)
    ensures Seqs.Abs(d) % 3 == 0 <==> d % 3 == 0
  {
  }

  /** Two different antennas tuned to the same frequency. */
  predicate Partners(grid: seq<string>, w: nat, h: nat, a: Point, b: Point)
    requires Grids.IsGrid(grid, w, h)
  {
    a != b && Contains(w, h, a) && Contains(w, h, b) && grid[a.y][a.x] != '.' && grid[a.y][a.x] == grid[b.y][b.x]
  }

  /** `m` lists, for every frequency on the map, each of its antennas once. */
  predicate Located(grid: seq<string>, w: nat, h: nat, m: map<char, seq<Point>>)
    requires Grids.IsGrid(grid, w, h)
  {
    (forall f :: f in m ==> f != '.') &&
    (forall f, k :: f in m && 0 <= k < |m[f]| ==> Contains(w, h, m[f][k]) && grid[m[f][k].y][m[f][k].x] == f) &&
    (forall y, x :: 0 <= y < h && 0 <= x < w && grid[y][x] != '.' ==> grid[y][x] in m && Point(x, y) in m[grid[y][x]]) &&
    (forall f :: f in m ==> Distinct(m[f]))
  }

  predicate Distinct(points: seq<Point>)
  {
    forall i, j :: 0 <= i < |points| && 0 <= j < |points| && i != j ==> points[i] != points[j]
  }

  predicate Before(p: Point, y: int, x: int)
  {
    p.y < y || (p.y == y && p.x < x)
  }

  /** Scans the map row by row and appends each antenna to the list of its
      frequency. */
  method Locate(grid: seq<string>, w: nat, h: nat) returns (m: map<char, seq<Point>>)
    requires Grids.IsGrid(grid, w, h)
    ensures Located(grid, w, h, m)
  {
    m := map[];
    for y := 0 to h
      invariant forall f :: f in m ==> f != '.'
      invariant forall f, k :: f in m && 0 <= k < |m[f]| ==>
        Contains(w, h, m[f][k]) && Before(m[f][k], y, 0) && grid[m[f][k].y][m[f][k].x] == f
      invariant forall y', x :: 0 <= y' < y && 0 <= x < w && grid[y'][x] != '.' ==> grid[y'][x] in m && Point(x, y') in m[grid[y'][x]]
      invariant forall f :: f in m ==> Distinct(m[f])
    {
      for x := 0 to w
        invariant forall f :: f in m ==> f != '.'
        invariant forall f, k :: f in m && 0 <= k < |m[f]| ==>
          Contains(w, h, m[f][k]) && Before(m[f][k], y, x) && grid[m[f][k].y][m[f][k].x] == f
        invariant forall y', x' :: 0 <= y' < y && 0 <= x' < w && grid[y'][x'] != '.' ==> grid[y'][x'] in m && Point(x', y') in m[grid[y'][x']]
        invariant forall x' :: 0 <= x' < x && grid[y][x'] != '.' ==> grid[y][x'] in m && Point(x', y) in m[grid[y][x']]
        invariant forall f :: f in m ==> Distinct(m[f])
      {
        var freq := grid[y][x];
        if freq != '.' {
          var old_list := if freq in m then m[freq] else [];
          m := m[freq := old_list + [Point(x, y)]];
        }
      }
    }
  }

  /** The antinodes of one frequency's antennas: every pair `j < i`. */
  function FrequencyAntinodes(w: nat, h: nat, points: seq<Point>): set<Point>
  {
    set i, j, q | 0 <= j < i < |points| && q in PairAntinodes(w, h, points[i], points[j]) :: q
  }

  /** Every frequency's antinodes together; the answer is its size. */
  function Antinodes(w: nat, h: nat, m: map<char, seq<Point>>): set<Point>
  {
    set f, q | f in m && q in FrequencyAntinodes(w, h, m[f]) :: q
  }

  /** The counted cells are exactly those of the map where one antenna is
      twice as far away as another antenna of the same frequency. */
  lemma AntinodesExact(grid: seq<string>, w: nat, h: nat, m: map<char, seq<Point>>, q: Point)
    requires Grids.IsGrid(grid, w, h) && Located(grid, w, h, m)
    ensures q in Antinodes(w, h, m) <==>
      Contains(w, h, q) && exists a, b :: Partners(grid, w, h, a, b) && TwiceAsFar(q, a, b)
  {
    if q in Antinodes(w, h, m) {
      var f :| f in m && q in FrequencyAntinodes(w, h, m[f]);
      var i, j :| 0 <= j < i < |m[f]| && q in PairAntinodes(w, h, m[f][i], m[f][j]);
      var a, b := m[f][i], m[f][j];
      PairAntinodesExact(w, h, a, b, q);
      assert Partners(grid, w, h, a, b) && Partners(grid, w, h, b, a);
    }
    if Contains(w, h, q) && exists a, b :: Partners(grid, w, h, a, b) && TwiceAsFar(q, a, b) {
      var a, b :| Partners(grid, w, h, a, b) && TwiceAsFar(q, a, b);
      var f := grid[a.y][a.x];
      assert a in m[f] && b in m[f];
      var i :| 0 <= i < |m[f]| && m[f][i] == a;
      var j :| 0 <= j < |m[f]| && m[f][j] == b;
      PairAntinodesExact(w, h, a, b, q);
      PairAntinodesExact(w, h, b, a, q);
      assert q in FrequencyAntinodes(w, h, m[f]);
    }
  }
}

module Day08b {
  import Seqs
  import Grids
  import Arith
  import opened Day08a

  /** Greatest common divisor by Euclid's algorithm; `num`'s `gcd` gives the
      same non-negative value for the magnitudes. */
  function Gcd(a: nat, b: nat): (g: nat)
    ensures g == 0 <==> a == 0 && b == 0
    ensures g > 0 ==> a % g == 0 && b % g == 0
    decreases b
  {
    if b == 0 then a
    else
      var g := Gcd(b, a % b);
      if g > 0 then
        RemainderStep(a, b, g);
        g
      else g
  }

  /** A divisor of `b` and of `a % b` divides `a`. */
  lemma RemainderStep(a: nat, b: nat, g: nat)
    requires b > 0 && g > 0 && b % g == 0 && (a % b) % g == 0
    ensures a % g == 0
  {
    assert a == a % b + (a / b) * b;
    ModOfSum(a % b, b, a / b, g);
  }

  /** Every common divisor divides the gcd, which is what makes it greatest. */
  lemma {:induction false} GcdGreatest(a: nat, b: nat, c: nat)
    requires c > 0 && a % c == 0 && b % c == 0
    ensures Gcd(a, b) % c == 0
    decreases b
  {
    if b > 0 {
      var q, r := a / b, a % b;
      assert r == a - q * b;
      ModOfDifference(a, b, q, c);
      GcdGreatest(b, r, c);
      assert Gcd(a, b) == Gcd(b, r);
    }
  }

  /** `a - q b` is a multiple of `c` when `a` and `b` are. */
  lemma ModOfDifference(a: int, b: int, q: int, c: int)
    requires c > 0 && a % c == 0 && b % c == 0
    ensures (a - q * b) % c == 0
  {
    var s, t := a / c, b / c;
    assert a - q * b == (s - q * t) * c;
    Arith.DivMod(a - q * b, c, s - q * t, 0);
  }

  /** `r + q b` is a multiple of `c` when `r` and `b` are. */
  lemma ModOfSum(r: int, b: int, q: int, c: int)
    requires c > 0 && r % c == 0 && b % c == 0
    ensures (r + q * b) % c == 0
  {
    ModOfDifference(r, b, -q, c);
  }

  /** Steps `k` times the vector `d` away from `p`. */
  function Step(p: Point, d: Point, k: int): Point
  {
    Point(p.x + k * d.x, p.y + k * d.y)
  }

  /** Divides a non-zero vector by the gcd of its coordinates. The division
      is exact, so Rust's truncating `/` and Dafny's agree. */
  function Normalize(v: Point): (d: Point)
    requires v != Point(0, 0)
    ensures d != Point(0, 0)
    ensures var g := Gcd(Seqs.Abs(v.x), Seqs.Abs(v.y));
      g > 0 && v == Point(g * d.x, g * d.y)
  {
    var g := Gcd(Seqs.Abs(v.x), Seqs.Abs(v.y));
    ExactDivision(v.x, g);
    ExactDivision(v.y, g);
    Point(v.x / g, v.y / g)
  }

  lemma ExactDivision(a: int, g: int)
    requires g > 0 && Seqs.Abs(a) % g == 0
    ensures g * (a / g) == a
  {
    if a < 0 {
      var t := -a / g;
      assert -a == g * t;
      Arith.DivMod(a, g, -t, 0);
    }
  }

  /** Measure for walking away from `cur` in direction `d`: how far it is to
      the edge of the map that the walk approaches. */
  function Room(w: nat, h: nat, cur: Point, d: Point): int
  {
    if d.x > 0 then w - cur.x
    else if d.x < 0 then cur.x + 1
    else if d.y > 0 then h - cur.y
    else cur.y + 1
  }

  /** How many of `start`, `start + d`, ... the `while field.contains(cur)`
      loop visits before it steps off the map. */
  function RayLength(w: nat, h: nat, start: Point, d: Point): (n: nat)
    requires d != Point(0, 0)
    ensures forall k :: 0 <= k < n ==> Contains(w, h, Step(start, d, k))
    ensures !Contains(w, h, Step(start, d, n))
    decreases if Contains(w, h, start) then Room(w, h, start, d) else 0
  {
    if !Contains(w, h, start) then
      assert Step(start, d, 0) == start;
      0
    else
      var next := Point(start.x + d.x, start.y + d.y);
      var n := RayLength(w, h, next, d);
      forall k | 1 <= k <= n + 1
        ensures Step(start, d, k) == Step(next, d, k - 1)
      {
        StepNext(start, d, k - 1);
      }
      assert Step(start, d, 0) == start;
      1 + n
  }

  lemma StepNext(p: Point, d: Point, k: int)
    ensures Step(Point(p.x + d.x, p.y + d.y), d, k) == Step(p, d, k + 1)
  {
    assert (k + 1) * d.x == k * d.x + d.x;
    assert (k + 1) * d.y == k * d.y + d.y;
  }

  /** The cells the loop inserts. */
  function Ray(w: nat, h: nat, start: Point, d: Point): set<Point>
    requires d != Point(0, 0)
  {
    set k | 0 <= k < RayLength(w, h, start, d) :: Step(start, d, k)
  }

  /** The map is a rectangle, so the steps of a line that are on it form an
      unbroken run. */
  lemma Convex(w: nat, h: nat, p: Point, d: Point, a: int, b: int, k: int)
    requires a <= k <= b
    requires Contains(w, h, Step(p, d, a)) && Contains(w, h, Step(p, d, b))
    ensures Contains(w, h, Step(p, d, k))
  {
    Between(p.x, d.x, a, b, k);
    Between(p.y, d.y, a, b, k);
  }

  lemma Between(c: int, dc: int, a: int, b: int, k: int)
    requires a <= k <= b
    ensures (c + a * dc <= c + k * dc <= c + b * dc) || (c + b * dc <= c + k * dc <= c + a * dc)
  {
    assert k * dc - a * dc == (k - a) * dc;
    assert b * dc - k * dc == (b - k) * dc;
    if dc >= 0 {
      assert (k - a) * dc >= 0 && (b - k) * dc >= 0;
    } else {
      assert (k - a) * dc <= 0 && (b - k) * dc <= 0;
    }
  }

  /** `q` is a whole number of steps `d` away from `p`, in either direction. */
  ghost predicate OnLine(q: Point, p: Point, d: Point)
  {
    exists k :: q == Step(p, d, k)
  }

  /** The reduced direction from `p1` to `p2`. */
  function Direction(p1: Point, p2: Point): Point
    requires p1 != p2
  {
    Normalize(Point(p2.x - p1.x, p2.y - p1.y))
  }

  /** Stepping back from the step before `p` is stepping back from `p`. */
  lemma StepBack(p: Point, d: Point, k: int)
    ensures Step(Point(p.x - d.x, p.y - d.y), Point(-d.x, -d.y), k) == Step(p, d, -(k + 1))
  {
    assert -(k + 1) * d.x == -d.x - k * d.x;
    assert -(k + 1) * d.y == -d.y - k * d.y;
  }

  /** The map cells the program inserts for direction `d` from `p`:
      forwards from `p`, then backwards from the step before it. */
  function Line(w: nat, h: nat, p: Point, d: Point): set<Point>
    requires d != Point(0, 0)
  {
    Ray(w, h, p, d) + Ray(w, h, Point(p.x - d.x, p.y - d.y), Point(-d.x, -d.y))
  }

  /** From a cell on the map, the two walks together reach exactly the
      map's cells on the line. */
  lemma LineExact(w: nat, h: nat, p: Point, d: Point, q: Point)
    requires d != Point(0, 0) && Contains(w, h, p)
    ensures q in Line(w, h, p, d) <==> Contains(w, h, q) && OnLine(q, p, d)
  {
    var back := Point(-d.x, -d.y);
    var start := Point(p.x - d.x, p.y - d.y);
    var n, m := RayLength(w, h, p, d), RayLength(w, h, start, back);
    if q in Ray(w, h, start, back) {
      var j :| 0 <= j < m && q == Step(start, back, j);
      StepBack(p, d, j);
    }
    if Contains(w, h, q) && OnLine(q, p, d) {
      var k :| q == Step(p, d, k);
      if k >= 0 {
        assert Step(p, d, 0) == p;
        Within(w, h, p, d, 0, n, k);
        assert q in Ray(w, h, p, d);
      } else {
        var j := -k - 1;
        StepBack(p, d, j);
        assert Step(start, back, -1) == p;
        Within(w, h, start, back, -1, m, j);
        assert q in Ray(w, h, start, back);
      }
    }
  }

  /** Once a line has left the map it does not come back: a step on the
      map beyond an `inside` step comes before the first `outside` one. */
  lemma Within(w: nat, h: nat, p: Point, d: Point, inside: int, outside: int, k: int)
    requires Contains(w, h, Step(p, d, inside)) && !Contains(w, h, Step(p, d, outside))
    requires inside <= outside && inside <= k && Contains(w, h, Step(p, d, k))
    ensures k < outside
  {
    if k >= outside {
      Convex(w, h, p, d, inside, k, outside);
    }
  }

  /** The resonant antinodes of one pair: the map cells on the line
      through both antennas reached by whole steps of the reduced
      direction, so both antennas count as well. */
  function PairAntinodes(w: nat, h: nat, p1: Point, p2: Point): (r: set<Point>)
    requires p1 != p2
  {
    Line(w, h, p1, Direction(p1, p2))
  }

  lemma PairAntinodesExact(w: nat, h: nat, p1: Point, p2: Point, q: Point)
    requires p1 != p2 && Contains(w, h, p1)
    ensures q in PairAntinodes(w, h, p1, p2) <==> Contains(w, h, q) && OnLine(q, p1, Direction(p1, p2))
  {
    LineExact(w, h, p1, Direction(p1, p2), q);
  }

  /** Both antennas are among the pair's antinodes. */
  lemma AntennasResonate(w: nat, h: nat, p1: Point, p2: Point)
    requires p1 != p2 && Contains(w, h, p1) && Contains(w, h, p2)
    ensures p1 in PairAntinodes(w, h, p1, p2) && p2 in PairAntinodes(w, h, p1, p2)
  {
    var delta := Direction(p1, p2);
    assert p1 == Step(p1, delta, 0);
    var g := Gcd(Seqs.Abs(p2.x - p1.x), Seqs.Abs(p2.y - p1.y));
    assert p2 == Step(p1, delta, g);
    LineExact(w, h, p1, delta, p1);
    LineExact(w, h, p1, delta, p2);
  }

  /** Reversing a pair reverses its reduced direction. */
  lemma DirectionReversed(a: Point, b: Point)
    requires a != b
    ensures Direction(b, a) == Point(-Direction(a, b).x, -Direction(a, b).y)
  {
    var v := Point(b.x - a.x, b.y - a.y);
    assert Point(a.x - b.x, a.y - b.y) == Point(-v.x, -v.y);
    NormalizeNegated(v);
  }

  lemma NormalizeNegated(v: Point)
    requires v != Point(0, 0)
    ensures Normalize(Point(-v.x, -v.y)) == Point(-Normalize(v).x, -Normalize(v).y)
  {
    var u := Point(-v.x, -v.y);
    assert Seqs.Abs(u.x) == Seqs.Abs(v.x) && Seqs.Abs(u.y) == Seqs.Abs(v.y);
    Opposite(Gcd(Seqs.Abs(v.x), Seqs.Abs(v.y)), v, Normalize(v), Normalize(u));
  }

  /** Vectors whose multiples by the same positive factor are opposite are
      themselves opposite. */
  lemma Opposite(g: int, v: Point, d: Point, e: Point)
    requires g > 0 && v == Point(g * d.x, g * d.y) && Point(-v.x, -v.y) == Point(g * e.x, g * e.y)
    ensures e == Point(-d.x, -d.y)
  {
    Cancel(g, e.x, -d.x);
    Cancel(g, e.y, -d.y);
  }

  lemma Cancel(g: int, x: int, y: int)
    requires g > 0 && g * x == g * y
    ensures x == y
  {
    if x < y {
      Arith.MulGap(y, x, g);
    } else if x > y {
      Arith.MulGap(x, y, g);
    }
  }

  /** The line through two antennas is the same seen from either end. */
  lemma OnLineSymmetric(a: Point, b: Point, q: Point)
    requires a != b && OnLine(q, a, Direction(a, b))
    ensures OnLine(q, b, Direction(b, a))
  {
    var d := Direction(a, b);
    DirectionReversed(a, b);
    var g := Gcd(Seqs.Abs(b.x - a.x), Seqs.Abs(b.y - a.y));
    assert b == Step(a, d, g);
    OnLineReversed(a, d, g, q);
  }

  /** A line seen from its step `g`, walking the other way. */
  lemma OnLineReversed(a: Point, d: Point, g: int, q: Point)
    requires OnLine(q, a, d)
    ensures OnLine(q, Step(a, d, g), Point(-d.x, -d.y))
  {
    var k :| q == Step(a, d, k);
    assert (g - k) * -d.x == k * d.x - g * d.x;
    assert (g - k) * -d.y == k * d.y - g * d.y;
    assert q == Step(Step(a, d, g), Point(-d.x, -d.y), g - k);
  }

  /** Every frequency's resonant antinodes together; the answer is its size. */
  function Antinodes(w: nat, h: nat, m: map<char, seq<Point>>): set<Point>
    requires forall f, i, j :: f in m && 0 <= j < i < |m[f]| ==> m[f][i] != m[f][j]
  {
    set f, i, j, q | f in m && 0 <= j < i < |m[f]| && q in PairAntinodes(w, h, m[f][i], m[f][j]) :: q
  }

  /** The counted cells are exactly the map cells in line with two
      antennas of the same frequency, at whole steps of their reduced
      direction. */
  lemma AntinodesExact(grid: seq<string>, w: nat, h: nat, m: map<char, seq<Point>>, q: Point)
    requires Grids.IsGrid(grid, w, h) && Located(grid, w, h, m)
    ensures q in Antinodes(w, h, m) <==>
      Contains(w, h, q) && exists a, b :: Partners(grid, w, h, a, b) && OnLine(q, a, Direction(a, b))
  {
    if q in Antinodes(w, h, m) {
      AntinodesSound(grid, w, h, m, q);
    }
    if Contains(w, h, q) && exists a, b :: Partners(grid, w, h, a, b) && OnLine(q, a, Direction(a, b)) {
      var a, b :| Partners(grid, w, h, a, b) && OnLine(q, a, Direction(a, b));
      AntinodesComplete(grid, w, h, m, q, a, b);
    }
  }

  lemma AntinodesSound(grid: seq<string>, w: nat, h: nat, m: map<char, seq<Point>>, q: Point)
    requires Grids.IsGrid(grid, w, h) && Located(grid, w, h, m)
    requires q in Antinodes(w, h, m)
    ensures Contains(w, h, q) && exists a, b :: Partners(grid, w, h, a, b) && OnLine(q, a, Direction(a, b))
  {
    var f, i, j :| f in m && 0 <= j < i < |m[f]| && q in PairAntinodes(w, h, m[f][i], m[f][j]);
    var a, b := m[f][i], m[f][j];
    PairAntinodesExact(w, h, a, b, q);
    assert Partners(grid, w, h, a, b);
  }

  lemma AntinodesComplete(grid: seq<string>, w: nat, h: nat, m: map<char, seq<Point>>, q: Point, a: Point, b: Point)
    requires Grids.IsGrid(grid, w, h) && Located(grid, w, h, m)
    requires Contains(w, h, q) && Partners(grid, w, h, a, b) && OnLine(q, a, Direction(a, b))
    ensures q in Antinodes(w, h, m)
  {
    var f := grid[a.y][a.x];
    assert a in m[f] && b in m[f];
    var i :| 0 <= i < |m[f]| && m[f][i] == a;
    var j :| 0 <= j < |m[f]| && m[f][j] == b;
    if j < i {
      PairAntinodesExact(w, h, a, b, q);
    } else {
      OnLineSymmetric(a, b, q);
      PairAntinodesExact(w, h, b, a, q);
    }
  }
}

=== FILE: day09.dfy ===
/** Day 9: compacting a disk. The dense format alternates file lengths and
    free-space lengths; file `i` gets id `i`. Part one moves single blocks
    from the end into the leftmost gap, part two moves whole files. The
    answer is the checksum: the sum of position times file id. */

module Day09a {
  import Seqs
  import opened Wrappers

  /** One block of the disk: free, or part of the file with the given id
      (the program's `Option<usize>`). */
  datatype Block = Free | File(id: nat)

  type Blocks = seq<Block>

  /** Occurrences of `x` in `s`; the same as `multiset(s)[x]`. */
  function Count(s: Blocks, x: Block): nat
  {
    if |s| == 0 then 0 else (if s[0] == x then 1 else 0) + Count(s[1..], x)
  }

  lemma {:induction false} CountMultiset(s: Blocks, x: Block)
    ensures Count(s, x) == multiset(s)[x]
    decreases |s|
  {
    if |s| > 0 {
      assert s == [s[0]] + s[1..];
      CountMultiset(s[1..], x);
    }
  }

  lemma {:induction false} CountAppend(a: Blocks, b: Blocks, x: Block)
    ensures Count(a + b, x) == Count(a, x) + Count(b, x)
    decreases |a|
  {
    if |a| == 0 {
      assert a + b == b;
    } else {
      assert (a + b)[0] == a[0] && (a + b)[1..] == a[1..] + b;
      CountAppend(a[1..], b, x);
    }
  }

  lemma {:induction false} CountRepeat(y: Block, n: nat, x: Block)
    ensures Count(Seqs.Repeat(y, n), x) == if x == y then n else 0
    decreases n
  {
    if n > 0 {
      CountRepeat(y, n - 1, x);
    }
  }

  /** Expands the dense format two digits at a time, the files taking ids
      `id`, `id + 1`, ... */
  function ParseFrom(compressed: seq<nat>, id: nat): (blocks: Blocks)
    ensures |blocks| == SumFrom(compressed)
    decreases |compressed|
  {
    if |compressed| == 0 then []
    else if |compressed| == 1 then Seqs.Repeat(File(id), compressed[0])
    else Seqs.Repeat(File(id), compressed[0]) + Seqs.Repeat(Free, compressed[1]) + ParseFrom(compressed[2..], id + 1)
  }

  function Files(compressed: seq<nat>): nat
  {
    (|compressed| + 1) / 2
  }

  /** Only the ids of the files listed occur. */
  lemma {:induction false} ParseIds(compressed: seq<nat>, id: nat, b: Block)
    requires b in ParseFrom(compressed, id) && b.File?
    ensures id <= b.id < id + Files(compressed)
    decreases |compressed|
  {
    if |compressed| >= 2 {
      var file, gap := Seqs.Repeat(File(id), compressed[0]), Seqs.Repeat(Free, compressed[1]);
      var rest := ParseFrom(compressed[2..], id + 1);
      assert ParseFrom(compressed, id) == file + gap + rest;
      if b in rest {
        ParseIds(compressed[2..], id + 1, b);
      } else if b in file {
        Seqs.RepeatOnly(File(id), compressed[0], b);
      } else {
        Seqs.RepeatOnly(Free, compressed[1], b);
      }
    } else {
      Seqs.RepeatOnly(File(id), compressed[0], b);
    }
  }

  /** File `k` occupies as many blocks as its digit says. */
  lemma {:induction false} ParseFileSize(compressed: seq<nat>, id: nat, k: nat)
    requires k < Files(compressed)
    ensures Count(ParseFrom(compressed, id), File(id + k)) == compressed[2 * k]
    decreases |compressed|
  {
    var x := File(id + k);
    if |compressed| >= 2 {
      var file, gap := Seqs.Repeat(File(id), compressed[0]), Seqs.Repeat(Free, compressed[1]);
      var rest := ParseFrom(compressed[2..], id + 1);
      assert ParseFrom(compressed, id) == file + gap + rest;
      CountAppend(file + gap, rest, x);
      CountAppend(file, gap, x);
      CountRepeat(File(id), compressed[0], x);
      CountRepeat(Free, compressed[1], x);
      if k == 0 {
        if x in rest {
          ParseIds(compressed[2..], id + 1, x);
        }
        CountMultiset(rest, x);
      } else {
        ParseFileSize(compressed[2..], id + 1, k - 1);
        assert compressed[2..][2 * (k - 1)] == compressed[2 * k];
      }
    } else {
      CountRepeat(File(id), compressed[0], x);
    }
  }

  function Parse(compressed: seq<nat>): Blocks
  {
    ParseFrom(compressed, 0)
  }

  /** All files come before all free space. */
  predicate Compact(blocks: Blocks)
  {
    forall i, j :: 0 <= i < j < |blocks| && blocks[i] == Free ==> blocks[j] == Free
  }

  function Swap<T>(s: seq<T>, i: nat, j: nat): (r: seq<T>)
    requires i < |s| && j < |s|
    ensures |r| == |s| && r[i] == s[j] && r[j] == s[i]
    ensures forall k :: 0 <= k < |s| && k != i && k != j ==> r[k] == s[k]
    ensures multiset(r) == multiset(s)
  {
    s[i := s[j]][j := s[i]]
  }

  /** Blocks before `left` hold files and blocks after `right` are free. */
  predicate Scanned(r: Blocks, left: nat, right: nat)
    requires left <= right < |r|
  {
    (forall k :: 0 <= k < left ==> r[k].File?) && (forall k :: right < k < |r| ==> r[k] == Free)
  }

  /** Files only ever land in blocks that were free, and the blocks they
      left are at or after `right`. */
  predicate OnlyGapsFilled(blocks: Blocks, r: Blocks, right: nat)
    requires |r| == |blocks|
  {
    (forall k :: 0 <= k < |r| && r[k].File? && r[k] != blocks[k] ==> blocks[k] == Free) &&
    (forall k :: 0 <= k < |r| && r[k] == Free && r[k] != blocks[k] ==> right <= k)
  }

  /** The compacted disk, defined from its two ends: trailing free space
      stays where it is, a leading file block stays where it is, and
      otherwise the last block, a file block, fills the leading gap, which
      moves to the end. */
  function Compacted(s: Blocks): Blocks
    decreases |s|
  {
    if |s| == 0 then []
    else if s[|s| - 1] == Free then Compacted(s[..|s| - 1]) + [Free]
    else if s[0].File? then [s[0]] + Compacted(s[1..])
    else [s[|s| - 1]] + Compacted(s[1..|s| - 1]) + [Free]
  }

  /** A leading file block stays in front, whatever the disk ends with. */
  lemma {:induction false} CompactedFront(s: Blocks)
    requires |s| > 0 && s[0].File?
    ensures Compacted(s) == [s[0]] + Compacted(s[1..])
    decreases |s|
  {
    if |s| > 1 && s[|s| - 1] == Free {
      CompactedFront(s[..|s| - 1]);
      assert s[..|s| - 1][1..] == s[1..][..|s[1..]| - 1];
    }
  }

  /** The disk during the scans: the part before `left` and after `right`
      as it stands, the part between still to compact. */
  function Framed(r: Blocks, left: nat, right: nat): Blocks
    requires left <= right < |r|
  {
    r[..left] + Compacted(r[left..right + 1]) + r[right + 1..]
  }

  lemma FramedStart(blocks: Blocks)
    requires |blocks| > 0
    ensures Framed(blocks, 0, |blocks| - 1) == Compacted(blocks)
  {
    assert blocks[0..|blocks|] == blocks;
  }

  lemma FramedDone(r: Blocks, left: nat)
    requires left < |r|
    ensures Framed(r, left, left) == r
  {
    assert r[left..left + 1] == [r[left]];
    if r[left].File? {
      assert Compacted([r[left]]) == [r[left]] + Compacted([]);
    } else {
      assert Compacted([r[left]]) == Compacted([]) + [Free];
    }
  }

  /** The left scan passing a file block keeps the frame. */
  lemma FramedLeft(r: Blocks, left: nat, right: nat)
    requires left < right < |r| && r[left].File?
    ensures Framed(r, left + 1, right) == Framed(r, left, right)
  {
    var mid := r[left..right + 1];
    CompactedFront(mid);
    assert mid[1..] == r[left + 1..right + 1];
    assert r[..left + 1] == r[..left] + [r[left]];
  }

  /** The right scan passing a free block keeps the frame. */
  lemma FramedRight(r: Blocks, left: nat, right: nat)
    requires left < right < |r| && r[right] == Free
    ensures Framed(r, left, right - 1) == Framed(r, left, right)
  {
    var mid := r[left..right + 1];
    assert mid[..|mid| - 1] == r[left..right];
    assert r[right..] == [Free] + r[right + 1..];
  }

  /** Swapping the leftmost gap with the rightmost file block keeps the
      frame. */
  lemma FramedSwap(r: Blocks, left: nat, right: nat)
    requires left < right < |r| && r[left] == Free && r[right].File?
    ensures Framed(Swap(r, left, right), left, right) == Framed(r, left, right)
  {
    var t := Swap(r, left, right);
    var mid, swapped := r[left..right + 1], t[left..right + 1];
    assert mid[1..|mid| - 1] == swapped[1..|swapped| - 1] == r[left + 1..right];
    assert swapped[..|swapped| - 1][1..] == r[left + 1..right];
    CompactedFront(swapped[..|swapped| - 1]);
    assert t[..left] == r[..left] && t[right + 1..] == r[right + 1..];
  }

  /** Moves blocks one at a time from the end of the disk into the leftmost
      free block until the two scans meet. */
  method Defrag(blocks: Blocks) returns (r: Blocks)
    requires |blocks| > 0
    ensures |r| == |blocks| && multiset(r) == multiset(blocks)
    ensures Compact(r)
    ensures forall k :: 0 <= k < |r| && r[k].File? && r[k] != blocks[k] ==> blocks[k] == Free
    ensures r == Compacted(blocks)
  {
    r := blocks;
    var left, right := 0, |r| - 1;
    FramedStart(blocks);
    while true
      invariant |r| == |blocks| && 0 <= left <= right < |r|
      invariant multiset(r) == multiset(blocks)
      invariant Scanned(r, left, right) && OnlyGapsFilled(blocks, r, right)
      invariant Framed(r, left, right) == Compacted(blocks)
      decreases right - left + (if r[left] == Free then 1 else 0)
    {
      left := SkipFiles(blocks, r, left, right);
      right := SkipGaps(blocks, r, left, right);
      if left >= right {
        break;
      }
      SwapKeeps(blocks, r, left, right);
      FramedSwap(r, left, right);
      r := Swap(r, left, right);
    }
    ScannedCompact(r, left, right);
    FramedDone(r, left);
  }

  /** The left scan of `defrag`: past file blocks, up to the right scan. */
  method SkipFiles(ghost blocks: Blocks, r: Blocks, left: nat, right: nat) returns (left': nat)
    requires left <= right < |r| && Scanned(r, left, right) && Framed(r, left, right) == Compacted(blocks)
    ensures left <= left' <= right && Scanned(r, left', right) && Framed(r, left', right) == Compacted(blocks)
    ensures left' < right ==> r[left'] == Free
    ensures forall k :: left <= k < left' ==> r[k].File?
  {
    left' := left;
    while r[left'].File? && left' < right
      invariant left <= left' <= right && Scanned(r, left', right) && Framed(r, left', right) == Compacted(blocks)
      invariant forall k :: left <= k < left' ==> r[k].File?
    {
      FramedLeft(r, left', right);
      left' := left' + 1;
    }
  }

  /** The right scan of `defrag`: back past free blocks, down to the left
      scan. */
  method SkipGaps(ghost blocks: Blocks, r: Blocks, left: nat, right: nat) returns (right': nat)
    requires |r| == |blocks| && left <= right < |r| && Scanned(r, left, right) && OnlyGapsFilled(blocks, r, right)
    requires Framed(r, left, right) == Compacted(blocks)
    ensures left <= right' <= right && Scanned(r, left, right') && OnlyGapsFilled(blocks, r, right')
    ensures Framed(r, left, right') == Compacted(blocks)
    ensures left < right' ==> r[right'].File?
    ensures forall k :: right' < k <= right ==> r[k] == Free
  {
    right' := right;
    while r[right'] == Free && left < right'
      invariant left <= right' <= right && Scanned(r, left, right') && OnlyGapsFilled(blocks, r, right')
      invariant Framed(r, left, right') == Compacted(blocks)
      invariant forall k :: right' < k <= right ==> r[k] == Free
    {
      FramedRight(r, left, right');
      right' := right' - 1;
    }
  }

  /** The disk of the source's example in miniature: the last file block
      fills the first gap and the one before it the second, so the order
      of the moved blocks is reversed. */
  lemma CompactedExample()
    ensures Compacted([File(0), Free, Free, File(1), File(2)]) == [File(0), File(2), File(1), Free, Free]
    ensures Checksum([File(0), File(2), File(1), Free, Free]) == 4
  {
    var s := [File(0), Free, Free, File(1), File(2)];
    CompactedFront(s);
    assert s[1..] == [Free, Free, File(1), File(2)];
    assert [Free, Free, File(1), File(2)][1..3] == [Free, File(1)];
    assert Compacted([Free, File(1)]) == [File(1)] + Compacted([]) + [Free];
    assert Compacted([Free, Free, File(1), File(2)]) == [File(2)] + Compacted([Free, File(1)]) + [Free];
  }

  /** `main` of part one: parse, compact and checksum. `None` for a disk
      without blocks, where the source's `len() - 1` underflows. */
  method Solve(compressed: seq<nat>) returns (r: Option<nat>)
    ensures r.None? <==> SumFrom(compressed) == 0
    ensures r.Some? ==> r.value == Checksum(Compacted(Parse(compressed)))
  {
    var blocks := Parse(compressed);
    if |blocks| == 0 {
      return None;
    }
    var compacted := Defrag(blocks);
    r := Some(Checksum(compacted));
  }

  /** Swapping the leftmost gap with the rightmost file keeps the scan
      invariants. */
  lemma SwapKeeps(blocks: Blocks, r: Blocks, left: nat, right: nat)
    requires |r| == |blocks| && left < right < |r|
    requires Scanned(r, left, right) && OnlyGapsFilled(blocks, r, right)
    requires r[left] == Free && r[right].File?
    ensures Scanned(Swap(r, left, right), left, right) && OnlyGapsFilled(blocks, Swap(r, left, right), right)
  {
  }

  lemma ScannedCompact(r: Blocks, left: nat, right: nat)
    requires left == right < |r| && Scanned(r, left, right)
    ensures Compact(r)
  {
  }

  /** Total of the digits, summed from the front. */
  function SumFrom(s: seq<nat>): nat
  {
    if |s| == 0 then 0 else s[0] + SumFrom(s[1..])
  }

  /** Sum of position times file id over the blocks, the first block
      sitting at position `offset`. */
  function ChecksumFrom(blocks: Blocks, offset: nat): nat
  {
    if |blocks| == 0 then 0
    else (match blocks[0] case File(id) => offset * id case Free => 0) + ChecksumFrom(blocks[1..], offset + 1)
  }

  function Checksum(blocks: Blocks): nat
  {
    ChecksumFrom(blocks, 0)
  }

  /** The checksum of a disk is that of its front plus that of its back at
      the back's own positions. */
  lemma {:induction false} ChecksumAppend(a: Blocks, b: Blocks, offset: nat)
    ensures ChecksumFrom(a + b, offset) == ChecksumFrom(a, offset) + ChecksumFrom(b, offset + |a|)
    decreases |a|
  {
    if |a| == 0 {
      assert a + b == b;
    } else {
      assert (a + b)[0] == a[0] && (a + b)[1..] == a[1..] + b;
      ChecksumAppend(a[1..], b, offset + 1);
    }
  }

  /** Free space contributes nothing to the checksum. */
  lemma FreeAddsNothing(blocks: Blocks, n: nat, offset: nat)
    ensures ChecksumFrom(blocks + Seqs.Repeat(Free, n), offset) == ChecksumFrom(blocks, offset)
  {
    ChecksumAppend(blocks, Seqs.Repeat(Free, n), offset);
    FreeChecksum(n, offset + |blocks|);
  }

  lemma {:induction false} FreeChecksum(n: nat, offset: nat)
    ensures ChecksumFrom(Seqs.Repeat(Free, n), offset) == 0
    decreases n
  {
    if n > 0 {
      assert Seqs.Repeat(Free, n)[1..] == Seqs.Repeat(Free, n - 1);
      FreeChecksum(n - 1, offset + 1);
    }
  }
}

module Day09b {
  import opened Day09a
  import Seqs

  /** A run of `length` blocks that all hold `block`. */
  datatype Sector = Sector(block: Block, length: nat)

  type Sectors = seq<Sector>

  /** The blocks a list of sectors stands for. */
  function Expand(s: Sectors): Blocks
  {
    if |s| == 0 then [] else Seqs.Repeat(s[0].block, s[0].length) + Expand(s[1..])
  }

  lemma {:induction false} ExpandAppend(a: Sectors, b: Sectors)
    ensures Expand(a + b) == Expand(a) + Expand(b)
    decreases |a|
  {
    if |a| == 0 {
      assert a + b == b;
    } else {
      assert (a + b)[0] == a[0] && (a + b)[1..] == a[1..] + b;
      ExpandAppend(a[1..], b);
    }
  }

  /** One sector per digit of the dense format, digit `i` being file
      `i / 2` when `i` is even and free space otherwise; empty sectors are
      dropped. */
  function ParseFrom(compressed: seq<nat>, i: nat): Sectors
    decreases |compressed|
  {
    if |compressed| == 0 then []
    else
      var sector := Sector(if i % 2 == 0 then File(i / 2) else Free, compressed[0]);
      (if compressed[0] > 0 then [sector] else []) + ParseFrom(compressed[1..], i + 1)
  }

  function Parse(compressed: seq<nat>): Sectors
  {
    ParseFrom(compressed, 0)
  }

  /** Both parts read the dense format into the same blocks. */
  lemma {:induction false} ParseAgrees(compressed: seq<nat>, id: nat)
    ensures Expand(ParseFrom(compressed, 2 * id)) == Day09a.ParseFrom(compressed, id)
    decreases |compressed|
  {
    if |compressed| == 1 {
      assert ParseFrom(compressed, 2 * id) == (if compressed[0] > 0 then [Sector(File(id), compressed[0])] else []) + [];
      ExpandOne(Sector(File(id), compressed[0]), compressed[0] > 0);
    } else if |compressed| >= 2 {
      ParseAgrees(compressed[2..], id + 1);
      PairAgrees(compressed, id);
    }
  }

  lemma PairAgrees(compressed: seq<nat>, id: nat)
    requires |compressed| >= 2
    requires Expand(ParseFrom(compressed[2..], 2 * (id + 1))) == Day09a.ParseFrom(compressed[2..], id + 1)
    ensures Expand(ParseFrom(compressed, 2 * id)) == Day09a.ParseFrom(compressed, id)
  {
    var file, gap, after := Seqs.Repeat(File(id), compressed[0]), Seqs.Repeat(Free, compressed[1]), Day09a.ParseFrom(compressed[2..], id + 1);
    calc {
      Expand(ParseFrom(compressed, 2 * id));
      { ExpandPair(compressed, id); }
      file + (gap + after);
      { Seqs.Associative(file, gap, after); }
      file + gap + after;
      Day09a.ParseFrom(compressed, id);
    }
  }

  lemma ExpandPair(compressed: seq<nat>, id: nat)
    requires |compressed| >= 2
    ensures Expand(ParseFrom(compressed, 2 * id)) ==
      Seqs.Repeat(File(id), compressed[0]) + (Seqs.Repeat(Free, compressed[1]) + Expand(ParseFrom(compressed[2..], 2 * (id + 1))))
  {
    var f, g, rest := ParsePair(compressed, id);
    ExpandAppend(f, g + rest);
    ExpandAppend(g, rest);
    ExpandOne(Sector(File(id), compressed[0]), compressed[0] > 0);
    ExpandOne(Sector(Free, compressed[1]), compressed[1] > 0);
  }

  /** The sectors for one file digit and the free-space digit after it. */
  lemma ParsePair(compressed: seq<nat>, id: nat) returns (f: Sectors, g: Sectors, rest: Sectors)
    requires |compressed| >= 2
    ensures f == if compressed[0] > 0 then [Sector(File(id), compressed[0])] else []
    ensures g == if compressed[1] > 0 then [Sector(Free, compressed[1])] else []
    ensures rest == ParseFrom(compressed[2..], 2 * (id + 1))
    ensures ParseFrom(compressed, 2 * id) == f + (g + rest)
  {
    f := if compressed[0] > 0 then [Sector(File(id), compressed[0])] else [];
    g := if compressed[1] > 0 then [Sector(Free, compressed[1])] else [];
    rest := ParseFrom(compressed[2..], 2 * (id + 1));
    assert compressed[1..][1..] == compressed[2..];
    assert (2 * id + 1) % 2 == 1 && (2 * id) / 2 == id && (2 * id) % 2 == 0;
    assert ParseFrom(compressed[1..], 2 * id + 1) == g + rest;
  }

  /** A sector expands to its run; a dropped empty sector to nothing. */
  lemma ExpandOne(sector: Sector, keep: bool)
    requires keep <==> sector.length > 0
    ensures Expand(if keep then [sector] else []) == Seqs.Repeat(sector.block, sector.length)
  {
    if keep {
      assert [sector][1..] == [];
    }
  }

  /** Every sector holds at least one block, as the parser leaves them. */
  predicate Positive(s: Sectors)
  {
    forall k :: 0 <= k < |s| ==> s[k].length > 0
  }

  /** How many blocks holding `x` the sectors stand for. */
  function Total(s: Sectors, x: Block): nat
  {
    if |s| == 0 then 0 else (if s[0].block == x then s[0].length else 0) + Total(s[1..], x)
  }

  /** `Total` counts the blocks of the expansion. */
  lemma {:induction false} TotalExpand(s: Sectors, x: Block)
    ensures multiset(Expand(s))[x] == Total(s, x)
    decreases |s|
  {
    if |s| > 0 {
      TotalExpand(s[1..], x);
      CountMultiset(Seqs.Repeat(s[0].block, s[0].length), x);
      CountRepeat(s[0].block, s[0].length, x);
    }
  }

  lemma {:induction false} TotalAppend(a: Sectors, b: Sectors, x: Block)
    ensures Total(a + b, x) == Total(a, x) + Total(b, x)
    decreases |a|
  {
    if |a| == 0 {
      assert a + b == b;
    } else {
      assert (a + b)[0] == a[0] && (a + b)[1..] == a[1..] + b;
      TotalAppend(a[1..], b, x);
    }
  }

  /** The count before `n` split around sector `i`. */
  lemma TotalAround(s: Sectors, i: nat, n: nat, x: Block)
    requires i < n <= |s|
    ensures Total(s[..n], x) == Total(s[..i], x) + (if s[i].block == x then s[i].length else 0) + Total(s[i + 1..n], x)
  {
    assert s[..n] == s[..i] + ([s[i]] + s[i + 1..n]);
    TotalAppend(s[..i], [s[i]] + s[i + 1..n], x);
    assert ([s[i]] + s[i + 1..n])[1..] == s[i + 1..n];
  }

  /** Free space before `n`: the scan from the right can only lower it. */
  lemma FreeBeforeShrinks(s: Sectors, n: nat)
    requires 0 < n <= |s|
    ensures Total(s[..n - 1], Free) <= Total(s[..n], Free)
  {
    TotalAround(s, n - 1, n, Free);
  }

  /** Cuts sector `i` into a first part of `at` blocks and the rest. */
  function Split(s: Sectors, i: nat, at: nat): (r: Sectors)
    requires i < |s| && at <= s[i].length
    ensures |r| == |s| + 1
    ensures r[i] == Sector(s[i].block, at) && r[i + 1] == Sector(s[i].block, s[i].length - at)
    ensures forall k :: 0 <= k < i ==> r[k] == s[k]
    ensures forall k :: i < k < |s| ==> r[k + 1] == s[k]
  {
    s[..i] + [Sector(s[i].block, at), Sector(s[i].block, s[i].length - at)] + s[i + 1..]
  }

  /** Splitting a sector before `n` keeps every count before the shifted
      `n`. */
  lemma SplitTotal(s: Sectors, i: nat, at: nat, n: nat, x: Block)
    requires i < n <= |s| && at <= s[i].length
    ensures Total(Split(s, i, at)[..n + 1], x) == Total(s[..n], x)
  {
    var r := Split(s, i, at);
    TotalAround(s, i, n, x);
    TotalAround(r, i, n + 1, x);
    TotalAround(r, i + 1, n + 1, x);
    assert r[..i + 1][..i] == r[..i];
    TotalAround(r[..i + 1], i, i + 1, x);
    assert r[..i] == s[..i];
    assert r[i + 2..n + 1] == s[i + 1..n];
  }

  /** Swapping two sectors keeps every count. */
  lemma SwapTotal(s: Sectors, i: nat, j: nat, x: Block)
    requires i < j < |s|
    ensures Total(Swap(s, i, j), x) == Total(s, x)
  {
    var r := Swap(s, i, j);
    assert s[..|s|] == s && r[..|r|] == r;
    TotalAround(s, j, |s|, x);
    TotalAround(s, i, j, x);
    TotalAround(r, j, |r|, x);
    TotalAround(r, i, j, x);
    assert r[..i] == s[..i] && r[i + 1..j] == s[i + 1..j] && r[j + 1..|r|] == s[j + 1..|s|];
  }

  /** Moving a file into a gap before `right` takes the gap's blocks out
      of the free space before `right`. */
  lemma SwapFree(s: Sectors, left: nat, right: nat)
    requires left < right < |s| && s[left].block == Free && s[right].block.File?
    ensures Total(Swap(s, left, right)[..right], Free) == Total(s[..right], Free) - s[left].length
  {
    var r := Swap(s, left, right);
    TotalAround(s, left, right, Free);
    TotalAround(r, left, right, Free);
    assert r[..left] == s[..left];
    assert r[left + 1..right] == s[left + 1..right];
  }

  /** The blocks of `r` are those of `s`, in some order. */
  ghost predicate SameBlocks(s: Sectors, r: Sectors)
  {
    forall x: Block :: Total(r, x) == Total(s, x)
  }

  /** The file sectors of `r` are those of `s`, each whole. */
  ghost predicate FilesKept(s: Sectors, r: Sectors)
  {
    forall sec: Sector :: sec.block.File? ==> multiset(r)[sec] == multiset(s)[sec]
  }

  /** Splitting a gap leaves the file sectors alone. */
  lemma SplitKeepsFiles(s: Sectors, i: nat, at: nat)
    requires i < |s| && at <= s[i].length && s[i].block == Free
    ensures FilesKept(s, Split(s, i, at))
  {
    var r := Split(s, i, at);
    assert s == s[..i] + [s[i]] + s[i + 1..];
  }

  lemma SplitKeepsBlocks(s: Sectors, i: nat, at: nat)
    requires i < |s| && at <= s[i].length
    ensures SameBlocks(s, Split(s, i, at))
  {
    var r := Split(s, i, at);
    forall x: Block
      ensures Total(r, x) == Total(s, x)
    {
      SplitTotal(s, i, at, |s|, x);
      assert r[..|s| + 1] == r && s[..|s|] == s;
    }
  }

  lemma SwapKeepsBlocks(s: Sectors, i: nat, j: nat)
    requires i < j < |s|
    ensures SameBlocks(s, Swap(s, i, j))
  {
    var r := Swap(s, i, j);
    forall x: Block
      ensures Total(r, x) == Total(s, x)
    {
      SwapTotal(s, i, j, x);
    }
  }

  /** Cutting a gap keeps what the defragmenter maintains and the free
      space before the file being moved. */
  lemma SplitStep(blocks: Sectors, r: Sectors, left: nat, at: nat, right: nat)
    requires left < right < |r| && 0 < at < r[left].length && r[left].block == Free
    requires Positive(r) && SameBlocks(blocks, r) && FilesKept(blocks, r)
    ensures Positive(Split(r, left, at)) && SameBlocks(blocks, Split(r, left, at)) && FilesKept(blocks, Split(r, left, at))
    ensures Total(Split(r, left, at)[..right + 1], Free) == Total(r[..right], Free)
  {
    SplitTotal(r, left, at, right, Free);
    SplitKeepsFiles(r, left, at);
    SplitKeepsBlocks(r, left, at);
  }

  /** Swapping a gap with a later file keeps what the defragmenter
      maintains and lowers the free space before the file's old place. */
  lemma SwapStep(blocks: Sectors, r: Sectors, left: nat, right: nat)
    requires left < right < |r| && r[left].block == Free && r[right].block.File?
    requires Positive(r) && SameBlocks(blocks, r) && FilesKept(blocks, r)
    ensures Positive(Swap(r, left, right)) && SameBlocks(blocks, Swap(r, left, right)) && FilesKept(blocks, Swap(r, left, right))
    ensures Total(Swap(r, left, right)[..right], Free) < Total(r[..right], Free)
  {
    SwapFree(r, left, right);
    SwapKeepsBlocks(r, left, right);
  }

  /** A gap that can take a file of `len` blocks. */
  predicate Fits(sector: Sector, len: nat)
  {
    sector.block == Free && sector.length >= len
  }

  /** Sector `left` is the leftmost gap before `right` that can take the
      file at `right`. */
  predicate Leftmost(r: Sectors, left: nat, right: nat)
    requires right < |r|
  {
    left < right && r[right].block.File? && Fits(r[left], r[right].length) &&
    forall k :: 0 <= k < left ==> !Fits(r[k], r[right].length)
  }

  /** Moves the file at `right` into the gap at `left`, first cutting off
      the part of the gap the file does not fill. */
  function Place(r: Sectors, left: nat, right: nat): (p: Sectors)
    requires left < right < |r| && Fits(r[left], r[right].length)
    ensures |p| == |r| + (if r[left].length > r[right].length then 1 else 0)
    ensures p[..left] == r[..left] && p[left] == r[right]
    ensures r[left].length > r[right].length ==> p[left + 1] == Sector(Free, r[left].length - r[right].length)
    ensures r[left].length == r[right].length ==> p[right] == Sector(Free, r[right].length)
    ensures r[left].length > r[right].length ==> p[right + 1] == Sector(Free, r[right].length)
    ensures r[left].length == r[right].length ==> forall k :: left < k < |r| && k != right ==> p[k] == r[k]
    ensures r[left].length > r[right].length ==> forall k :: left < k < |r| && k != right ==> p[k + 1] == r[k]
  {
    var len := r[right].length;
    if r[left].length > len then Swap(Split(r, left, len), left, right + 1) else Swap(r, left, right)
  }

  /** Cutting the gap and then swapping keeps what the defragmenter
      maintains. */
  lemma CutStep(blocks: Sectors, r: Sectors, left: nat, right: nat)
    requires left < right < |r| && r[left].block == Free && r[left].length > r[right].length && r[right].block.File?
    requires Positive(r) && SameBlocks(blocks, r) && FilesKept(blocks, r)
    ensures var q := Swap(Split(r, left, r[right].length), left, right + 1);
      Positive(q) && SameBlocks(blocks, q) && FilesKept(blocks, q) &&
      Total(q[..right + 1], Free) < Total(r[..right], Free)
  {
    var cut := Split(r, left, r[right].length);
    SplitStep(blocks, r, left, r[right].length, right);
    SwapAfterCut(blocks, r, cut, left, right);
  }

  lemma SwapAfterCut(blocks: Sectors, r: Sectors, cut: Sectors, left: nat, right: nat)
    requires left < right < |r| && |cut| == |r| + 1 && cut[left].block == Free && cut[right + 1].block.File?
    requires Positive(cut) && SameBlocks(blocks, cut) && FilesKept(blocks, cut)
    requires Total(cut[..right + 1], Free) == Total(r[..right], Free)
    ensures var q := Swap(cut, left, right + 1);
      Positive(q) && SameBlocks(blocks, q) && FilesKept(blocks, q) &&
      Total(q[..right + 1], Free) < Total(r[..right], Free)
  {
    SwapStep(blocks, cut, left, right + 1);
  }

  /** One round keeps what the defragmenter maintains and lowers the free
      space before the moved file's old place. */
  lemma PlaceStep(blocks: Sectors, r: Sectors, left: nat, right: nat)
    requires left < right < |r| && Fits(r[left], r[right].length) && r[right].block.File?
    requires Positive(r) && SameBlocks(blocks, r) && FilesKept(blocks, r)
    ensures var p := Place(r, left, right);
      Positive(p) && SameBlocks(blocks, p) && FilesKept(blocks, p)
    ensures r[left].length > r[right].length ==> Total(Place(r, left, right)[..right + 1], Free) < Total(r[..right], Free)
    ensures r[left].length == r[right].length ==> Total(Place(r, left, right)[..right], Free) < Total(r[..right], Free)
  {
    var len, p := r[right].length, Place(r, left, right);
    if r[left].length > len {
      CutStep(blocks, r, left, right);
      assert p == Swap(Split(r, left, len), left, right + 1);
    } else {
      SwapStep(blocks, r, left, right);
      assert p == Swap(r, left, right);
    }
  }

  /** `trace` is a run of rounds, round `i` moving the file at
      `at[i].1` of `trace[i]` into the leftmost gap that takes it,
      `at[i].0`. */
  ghost predicate Placements(trace: seq<Sectors>, at: seq<(nat, nat)>)
  {
    |trace| == |at| + 1 &&
    forall i :: 0 <= i < |at| ==>
      at[i].1 < |trace[i]| && Leftmost(trace[i], at[i].0, at[i].1) &&
      trace[i + 1] == Place(trace[i], at[i].0, at[i].1)
  }

  /** A trace extended by one more round. */
  lemma PlacementsAppend(trace: seq<Sectors>, at: seq<(nat, nat)>, left: nat, right: nat)
    requires Placements(trace, at) && right < |trace[|trace| - 1]|
    requires Leftmost(trace[|trace| - 1], left, right)
    ensures Placements(trace + [Place(trace[|trace| - 1], left, right)], at + [(left, right)])
  {
    var trace', at' := trace + [Place(trace[|trace| - 1], left, right)], at + [(left, right)];
    forall i | 0 <= i < |at'|
      ensures at'[i].1 < |trace'[i]| && Leftmost(trace'[i], at'[i].0, at'[i].1) &&
        trace'[i + 1] == Place(trace'[i], at'[i].0, at'[i].1)
    {
      if i < |at| {
        assert trace'[i] == trace[i] && trace'[i + 1] == trace[i + 1] && at'[i] == at[i];
      }
    }
  }

  /** What `Defrag` keeps from round to round: non-empty sectors, the
      same blocks, the whole files, and a trace of placements from the
      input to the current sectors. */
  ghost predicate Defragging(blocks: Sectors, r: Sectors, trace: seq<Sectors>, at: seq<(nat, nat)>)
  {
    Positive(r) && SameBlocks(blocks, r) && FilesKept(blocks, r) &&
    Placements(trace, at) && trace[0] == blocks && trace[|trace| - 1] == r
  }

  /** One round of `Defrag` for the file at `right`, cutting the gap at
      `left` first when it is longer than the file; `next` is where the
      scan goes on, the moved file's old place. */
  method Move(ghost blocks: Sectors, r: Sectors, ghost trace: seq<Sectors>, ghost at: seq<(nat, nat)>, left: nat, right: nat)
    returns (placed: Sectors, next: nat)
    requires Defragging(blocks, r, trace, at) && right < |r| && Leftmost(r, left, right)
    ensures next < |placed| && placed == Place(r, left, right)
    ensures Defragging(blocks, placed, trace + [placed], at + [(left, right)])
    ensures Total(placed[..next], Free) < Total(r[..right], Free)
  {
    PlaceStep(blocks, r, left, right);
    PlacementsAppend(trace, at, left, right);
    placed := Place(r, left, right);
    next := if r[left].length > r[right].length then right + 1 else right;
  }

  /** Moves whole files, from the last one down, into the leftmost gap
      before them that is long enough, splitting off what the file does not
      fill; `trace` and `at` record the rounds that moved a file. */
  method Defrag(blocks: Sectors) returns (r: Sectors, ghost trace: seq<Sectors>, ghost at: seq<(nat, nat)>)
    requires |blocks| > 0 && Positive(blocks)
    ensures Positive(r)
    ensures multiset(Expand(r)) == multiset(Expand(blocks))
    ensures FilesKept(blocks, r)
    ensures Placements(trace, at) && trace[0] == blocks && trace[|trace| - 1] == r
  {
    r := blocks;
    trace, at := [blocks], [];
    var right: nat := |r| - 1;
    while true
      invariant right < |r| && Defragging(blocks, r, trace, at)
      decreases Total(r[..right], Free), right
    {
      right := SkipFree(r, right);
      var fileLen := r[right].length;
      var left := FindGap(r, right);
      if left >= right {
        if right == 0 {
          break;
        }
        FreeBeforeShrinks(r, right);
        right := right - 1;
        continue;
      }
      trace, at := trace + [Place(r, left, right)], at + [(left, right)];
      r, right := Move(blocks, r, trace[..|trace| - 1], at[..|at| - 1], left, right);
    }
    SameExpand(blocks, r);
  }

  /** The scan from `right` down to the last file at or before it, or to
      the first sector when there is none; the free space before the place
      can only shrink. */
  method SkipFree(r: Sectors, right: nat) returns (file: nat)
    requires right < |r|
    ensures file <= right
    ensures file > 0 ==> r[file].block.File?
    ensures forall k :: file < k <= right ==> r[k].block == Free
    ensures Total(r[..file], Free) <= Total(r[..right], Free)
  {
    file := right;
    while file > 0 && r[file].block == Free
      invariant file <= right
      invariant forall k :: file < k <= right ==> r[k].block == Free
      invariant Total(r[..file], Free) <= Total(r[..right], Free)
    {
      FreeBeforeShrinks(r, file);
      file := file - 1;
    }
  }

  /** The scan for the leftmost gap before `right` long enough for the
      sector at `right`; `right` when there is none. */
  method FindGap(r: Sectors, right: nat) returns (left: nat)
    requires right < |r|
    ensures left <= right
    ensures left < right ==> Fits(r[left], r[right].length)
    ensures forall k :: 0 <= k < left ==> !Fits(r[k], r[right].length)
  {
    var fileLen := r[right].length;
    left := 0;
    while left < right && (r[left].block.File? || r[left].length < fileLen)
      invariant left <= right
      invariant forall k :: 0 <= k < left ==> !Fits(r[k], fileLen)
    {
      left := left + 1;
    }
  }

  /** Sectors with the same block counts stand for the same blocks in
      some order. */
  lemma SameExpand(blocks: Sectors, r: Sectors)
    requires SameBlocks(blocks, r)
    ensures multiset(Expand(r)) == multiset(Expand(blocks))
  {
    forall x: Block
      ensures multiset(Expand(r))[x] == multiset(Expand(blocks))[x]
    {
      TotalExpand(r, x);
      TotalExpand(blocks, x);
    }
  }

  /** Sum of position times `id` over a run of `n` blocks from `offset`. */
  function RunChecksum(id: nat, n: nat, offset: nat): nat
  {
    if n == 0 then 0 else offset * id + RunChecksum(id, n - 1, offset + 1)
  }

  /** A sector's share of the checksum is that of the blocks it stands
      for. */
  function SectorChecksum(sector: Sector, offset: nat): (c: nat)
    ensures c == Day09a.ChecksumFrom(Seqs.Repeat(sector.block, sector.length), offset)
  {
    match sector.block
    case Free =>
      FreeChecksum(sector.length, offset);
      0
    case File(id) =>
      RunAgrees(id, sector.length, offset);
      RunChecksum(id, sector.length, offset)
  }

  lemma {:induction false} RunAgrees(id: nat, n: nat, offset: nat)
    ensures RunChecksum(id, n, offset) == Day09a.ChecksumFrom(Seqs.Repeat(File(id), n), offset)
    decreases n
  {
    if n > 0 {
      RunAgrees(id, n - 1, offset + 1);
      assert Seqs.Repeat(File(id), n)[1..] == Seqs.Repeat(File(id), n - 1);
    }
  }

  /** Adds up the sectors' checksums, each at the position where it
      starts; the same as the checksum of the blocks. */
  method Checksum(s: Sectors) returns (ret: nat)
    ensures ret == Day09a.Checksum(Expand(s))
  {
    var offset := 0;
    ret := 0;
    for i := 0 to |s|
      invariant offset == |Expand(s[..i])| && ret == Day09a.Checksum(Expand(s[..i]))
    {
      ExpandSnoc(s, i);
      ChecksumAppend(Expand(s[..i]), Seqs.Repeat(s[i].block, s[i].length), 0);
      ret := ret + SectorChecksum(s[i], offset);
      offset := offset + s[i].length;
    }
    assert s[..|s|] == s;
  }

  lemma ExpandSnoc(s: Sectors, i: nat)
    requires i < |s|
    ensures Expand(s[..i + 1]) == Expand(s[..i]) + Seqs.Repeat(s[i].block, s[i].length)
  {
    assert s[..i + 1] == s[..i] + [s[i]];
    ExpandAppend(s[..i], [s[i]]);
    assert [s[i]][1..] == [];
  }
}

=== FILE: day10.dfy ===
/** Day 10: hiking trails on a height map. A trail climbs from height 0 to
    height 9 one level per step between side-by-side cells. The program
    works downhill from every top (height 9). Part one gives each bottom
    (height 0) a score: the number of tops that reach it. Part two gives it
    a rating: the number of distinct trails that reach it. */

module Day10a {
  import opened Wrappers
  import opened Grids
  import Seqs

  /** The map is a fixed field of `Size` by `Size` cells; cells the input
      does not cover stay empty. */
  const Size: nat := 64

  datatype Point = Point(x: int, y: int)

  /** Heights, `None` for an impassable cell, addressed `map[y][x]`. */
  type Map = seq<seq<Option<nat>>>

  predicate Valid(m: Map)
  {
    IsGrid(m, Size, Size)
  }

  predicate Inside(p: Point)
  {
    0 <= p.x < Size && 0 <= p.y < Size
  }

  function Get(m: Map, p: Point): Option<nat>
    requires Valid(m) && Inside(p)
  {
    m[p.y][p.x]
  }

  /** A cell that has a height. */
  predicate Passable(m: Map, p: Point)
  {
    Valid(m) && Inside(p) && Get(m, p).Some?
  }

  function Height(m: Map, p: Point): nat
    requires Passable(m, p)
  {
    Get(m, p).value
  }

  /** Right, left, down, up: the order in which neighbours are tried. */
  function Neighbours(p: Point): (ns: seq<Point>)
    ensures |ns| == 4
    ensures forall i :: 0 <= i < 4 ==> Seqs.Abs(ns[i].x - p.x) + Seqs.Abs(ns[i].y - p.y) == 1
  {
    [Point(p.x + 1, p.y), Point(p.x - 1, p.y), Point(p.x, p.y + 1), Point(p.x, p.y - 1)]
  }

  /** `n` is on the map and exactly one level below `p`. */
  predicate StepsDown(m: Map, p: Point, n: Point)
    requires Passable(m, p)
  {
    Inside(n) && Get(m, n).Some? && Height(m, p) > 0 && Height(m, n) == Height(m, p) - 1
  }

  /** Some trail of at least one step leads down from `p` to `q`. */
  predicate Reaches(m: Map, p: Point, q: Point)
    requires Passable(m, p)
    decreases Height(m, p)
  {
    exists i | 0 <= i < 4 :: StepsDown(m, p, Neighbours(p)[i]) &&
      (Neighbours(p)[i] == q || Reaches(m, Neighbours(p)[i], q))
  }

  /** Every cell a trail leads down to is lower. */
  lemma {:induction false} ReachesLower(m: Map, p: Point, q: Point)
    requires Passable(m, p) && Reaches(m, p, q)
    ensures Passable(m, q) && Height(m, q) < Height(m, p)
    decreases Height(m, p)
  {
    var i :| 0 <= i < 4 && StepsDown(m, p, Neighbours(p)[i]) &&
      (Neighbours(p)[i] == q || Reaches(m, Neighbours(p)[i], q));
    if Neighbours(p)[i] != q {
      ReachesLower(m, Neighbours(p)[i], q);
    }
  }

  /** The program's depth-first walk from `p`, trying its neighbours from
      index `i` on: a neighbour off the field or already visited is
      skipped, one exactly a level lower is marked visited and walked from
      in turn. The result is the visited set afterwards; each cell added to
      it is a cell whose score the walk raises by one. */
  function Visit(m: Map, p: Point, i: nat, visited: set<Point>): (r: set<Point>)
    requires Passable(m, p) && i <= 4
    ensures visited <= r
    decreases Height(m, p), 4 - i
  {
    if i == 4 then visited
    else
      var n := Neighbours(p)[i];
      if !Inside(n) || n in visited then Visit(m, p, i + 1, visited)
      else if StepsDown(m, p, n) then Visit(m, p, i + 1, Visit(m, n, 0, visited + {n}))
      else Visit(m, p, i + 1, visited)
  }

  /** Every visited cell below height `h` has all the cells one step down
      from it visited too. */
  ghost predicate Closed(m: Map, visited: set<Point>, h: nat)
  {
    forall c :: c in visited ==>
      Passable(m, c) &&
      (Height(m, c) < h ==> forall j :: 0 <= j < 4 && StepsDown(m, c, Neighbours(c)[j]) ==> Neighbours(c)[j] in visited)
  }

  /** A cell below `h` in a closed set has every cell it reaches in the
      set. */
  lemma {:induction false} ClosedReach(m: Map, visited: set<Point>, h: nat, c: Point, q: Point)
    requires Closed(m, visited, h) && c in visited
    requires Passable(m, c) && Height(m, c) < h && Reaches(m, c, q)
    ensures q in visited
    decreases Height(m, c)
  {
    var j :| 0 <= j < 4 && StepsDown(m, c, Neighbours(c)[j]) &&
      (Neighbours(c)[j] == q || Reaches(m, Neighbours(c)[j], q));
    var n := Neighbours(c)[j];
    if n != q {
      ClosedReach(m, visited, h, n, q);
    }
  }

  /** The walk from `p` adds only cells `p` reaches, and leaves every cell
      below `p`'s height, and `p` itself, with the cells one step down
      visited. */
  lemma {:induction false} VisitSpec(m: Map, p: Point, i: nat, visited: set<Point>)
    requires Passable(m, p) && i <= 4
    requires Closed(m, visited, Height(m, p))
    requires forall j :: 0 <= j < i && StepsDown(m, p, Neighbours(p)[j]) ==> Neighbours(p)[j] in visited
    ensures Closed(m, Visit(m, p, i, visited), Height(m, p))
    ensures forall j :: 0 <= j < 4 && StepsDown(m, p, Neighbours(p)[j]) ==> Neighbours(p)[j] in Visit(m, p, i, visited)
    ensures forall q :: q in Visit(m, p, i, visited) && q !in visited ==> Reaches(m, p, q)
    decreases Height(m, p), 4 - i
  {
    if i < 4 {
      var n := Neighbours(p)[i];
      if Inside(n) && n !in visited && StepsDown(m, p, n) {
        var inner := Visit(m, n, 0, visited + {n});
        DescendClosed(m, visited, p, n);
        VisitSpec(m, n, 0, visited + {n});
        GrowClosed(m, p, n, visited, inner);
        VisitSpec(m, p, i + 1, inner);
        ReachThrough(m, p, i, visited, inner, Visit(m, p, i + 1, inner));
      } else {
        VisitSpec(m, p, i + 1, visited);
      }
    }
  }

  /** Stepping down to a fresh cell keeps the closed part closed. */
  lemma DescendClosed(m: Map, visited: set<Point>, p: Point, n: Point)
    requires Passable(m, p) && Closed(m, visited, Height(m, p)) && StepsDown(m, p, n)
    ensures Closed(m, visited + {n}, Height(m, n))
  {
  }

  /** After the walk from the neighbour `n`, everything below `p` is closed
      again. */
  lemma GrowClosed(m: Map, p: Point, n: Point, visited: set<Point>, inner: set<Point>)
    requires Passable(m, p) && StepsDown(m, p, n) && n !in visited
    requires Closed(m, visited, Height(m, p)) && visited + {n} <= inner
    requires Closed(m, inner, Height(m, n))
    requires forall j :: 0 <= j < 4 && StepsDown(m, n, Neighbours(n)[j]) ==> Neighbours(n)[j] in inner
    requires forall q :: q in inner && q !in visited + {n} ==> Reaches(m, n, q)
    ensures Closed(m, inner, Height(m, p))
  {
    forall c | c in inner
      ensures Passable(m, c) && (Height(m, c) < Height(m, p) ==>
        forall j :: 0 <= j < 4 && StepsDown(m, c, Neighbours(c)[j]) ==> Neighbours(c)[j] in inner)
    {
      if c !in visited && c != n {
        ReachesLower(m, n, c);
      }
    }
  }

  /** The cells the later neighbours add are reached from `p` as well. */
  lemma ReachThrough(m: Map, p: Point, i: nat, visited: set<Point>, inner: set<Point>, r: set<Point>)
    requires Passable(m, p) && i < 4 && StepsDown(m, p, Neighbours(p)[i])
    requires forall q :: q in inner && q !in visited + {Neighbours(p)[i]} ==> Reaches(m, Neighbours(p)[i], q)
    requires forall q :: q in r && q !in inner ==> Reaches(m, p, q)
    ensures forall q :: q in r && q !in visited ==> Reaches(m, p, q)
  {
    forall q | q in r && q !in visited
      ensures Reaches(m, p, q)
    {
      if q in inner {
        assert StepsDown(m, p, Neighbours(p)[i]) && (Neighbours(p)[i] == q || Reaches(m, Neighbours(p)[i], q));
      }
    }
  }

  /** The walk from a top with a fresh visited field marks exactly the
      cells a trail leads down to. */
  lemma VisitExact(m: Map, top: Point, q: Point)
    requires Passable(m, top)
    ensures q in Visit(m, top, 0, {}) <==> Reaches(m, top, q)
  {
    var r := Visit(m, top, 0, {});
    VisitSpec(m, top, 0, {});
    if Reaches(m, top, q) {
      var j :| 0 <= j < 4 && StepsDown(m, top, Neighbours(top)[j]) &&
        (Neighbours(top)[j] == q || Reaches(m, Neighbours(top)[j], q));
      if Neighbours(top)[j] != q {
        ClosedReach(m, r, Height(m, top), Neighbours(top)[j], q);
      }
    }
  }

  /** The height a map character stands for: `.` is impassable; anything
      else must be a digit, as `to_digit(10).unwrap()` demands. */
  function Cell(c: char): (h: Option<nat>)
    requires c == '.' || '0' <= c <= '9'
    ensures h.None? <==> c == '.'
    ensures h.Some? ==> h.value <= 9 && h.value as char == c - '0'
  {
    if c == '.' then None else Some((c - '0') as nat)
  }

  predicate WellFormed(lines: seq<string>)
  {
    |lines| <= Size &&
    forall y :: 0 <= y < |lines| ==>
      |lines[y]| <= Size &&
      forall x :: 0 <= x < |lines[y]| ==> lines[y][x] == '.' || '0' <= lines[y][x] <= '9'
  }

  /** The input covers the cell. */
  predicate Covers(lines: seq<string>, p: Point)
  {
    0 <= p.y < |lines| && 0 <= p.x < |lines[p.y]|
  }

  /** The field the input lines fill in; the rest of the field stays
      empty. */
  function ParseMap(lines: seq<string>): (m: Map)
    requires WellFormed(lines)
    ensures Valid(m)
    ensures forall p :: Inside(p) ==> Get(m, p) == if Covers(lines, p) then Cell(lines[p.y][p.x]) else None
  {
    seq(Size, y => seq(Size, x => if 0 <= y < |lines| && 0 <= x < |lines[y]| then Cell(lines[y][x]) else None))
  }

  /** The cells holding `c`, in reading order. */
  function Find(lines: seq<string>, c: char, y: nat): (ps: seq<Point>)
    requires y <= |lines|
    ensures forall p :: p in ps <==> Covers(lines, p) && p.y >= y && lines[p.y][p.x] == c
    ensures forall i, j :: 0 <= i < j < |ps| ==> ps[i] != ps[j]
    decreases |lines| - y
  {
    if y == |lines| then [] else FindInRow(lines[y], c, y, 0) + Find(lines, c, y + 1)
  }

  function FindInRow(line: string, c: char, y: int, x: nat): (ps: seq<Point>)
    requires x <= |line|
    ensures forall p :: p in ps <==> p.y == y && x <= p.x < |line| && line[p.x] == c
    ensures forall i, j :: 0 <= i < j < |ps| ==> ps[i] != ps[j]
    decreases |line| - x
  {
    if x == |line| then []
    else (if line[x] == c then [Point(x, y)] else []) + FindInRow(line, c, y, x + 1)
  }

  /** Bottoms are the cells reading `0`, tops those reading `9`. */
  function Bottoms(lines: seq<string>): seq<Point>
  {
    Find(lines, '0', 0)
  }

  function Tops(lines: seq<string>): seq<Point>
  {
    Find(lines, '9', 0)
  }

  /** A cell's score once every top has been walked from: 1 to begin with
      on a top, plus one for every top whose walk marks it. */
  function Score(m: Map, tops: seq<Point>, c: Point): (n: nat)
    requires Valid(m)
    ensures n <= |tops| + 1
  {
    CountBound(tops, t => Passable(m, t) && c in Visit(m, t, 0, {}));
    (if c in tops then 1 else 0) + Seqs.CountIf(tops, t => Passable(m, t) && c in Visit(m, t, 0, {}))
  }

  lemma {:induction false} CountBound<T>(s: seq<T>, p: T -> bool)
    ensures Seqs.CountIf(s, p) <= |s|
    decreases |s|
  {
    if |s| > 0 {
      CountBound(s[..|s| - 1], p);
    }
  }

  /** The answer: the scores summed over the bottoms. */
  function TotalScore(m: Map, tops: seq<Point>, bottoms: seq<Point>): nat
    requires Valid(m)
  {
    if |bottoms| == 0 then 0
    else TotalScore(m, tops, bottoms[..|bottoms| - 1]) + Score(m, tops, bottoms[|bottoms| - 1])
  }

  /** A cell that is not a top scores one for each top a trail leads down
      from. */
  lemma ScoreExact(m: Map, tops: seq<Point>, c: Point)
    requires Valid(m) && c !in tops
    ensures Score(m, tops, c) == Seqs.CountIf(tops, t => Passable(m, t) && Reaches(m, t, c))
  {
    forall t | Passable(m, t)
      ensures c in Visit(m, t, 0, {}) <==> Reaches(m, t, c)
    {
      VisitExact(m, t, c);
    }
    CountIfSame(tops, t => Passable(m, t) && c in Visit(m, t, 0, {}), t => Passable(m, t) && Reaches(m, t, c));
  }

  lemma {:induction false} CountIfSame<T>(s: seq<T>, p: T -> bool, q: T -> bool)
    requires forall i :: 0 <= i < |s| ==> p(s[i]) == q(s[i])
    ensures Seqs.CountIf(s, p) == Seqs.CountIf(s, q)
    decreases |s|
  {
    if |s| > 0 {
      CountIfSame(s[..|s| - 1], p, q);
    }
  }

  /** For a parsed map, the answer counts the pairs of a bottom and a top
      with a trail between them. */
  lemma TotalScoreExact(lines: seq<string>, bottoms: seq<Point>)
    requires WellFormed(lines)
    requires forall i :: 0 <= i < |bottoms| ==> bottoms[i] in Bottoms(lines)
    ensures TotalScore(ParseMap(lines), Tops(lines), bottoms) ==
      TrailPairs(ParseMap(lines), Tops(lines), bottoms)
    decreases |bottoms|
  {
    if |bottoms| > 0 {
      var b := bottoms[|bottoms| - 1];
      assert b !in Tops(lines);
      ScoreExact(ParseMap(lines), Tops(lines), b);
      TotalScoreExact(lines, bottoms[..|bottoms| - 1]);
    }
  }

  /** Pairs of a bottom and a top a trail leads down from to it. */
  function TrailPairs(m: Map, tops: seq<Point>, bottoms: seq<Point>): nat
    requires Valid(m)
  {
    if |bottoms| == 0 then 0
    else
      var b := bottoms[|bottoms| - 1];
      TrailPairs(m, tops, bottoms[..|bottoms| - 1]) + Seqs.CountIf(tops, t => Passable(m, t) && Reaches(m, t, b))
  }
}

module Day10b {
  import opened Wrappers
  import opened Day10a
  import Seqs

  /** How much the program's rating walk from `p`, trying neighbours from
      index `i` on, adds to the rating of `q`: each neighbour a level lower
      gains one and is walked from in turn, with no visited field. */
  function Rate(m: Map, p: Point, i: nat, q: Point): nat
    requires Passable(m, p) && i <= 4
    decreases Height(m, p), 4 - i
  {
    if i == 4 then 0
    else
      var n := Neighbours(p)[i];
      (if Inside(n) && StepsDown(m, p, n) then (if n == q then 1 else 0) + Rate(m, n, 0, q) else 0) +
      Rate(m, p, i + 1, q)
  }

  /** A walk raises a cell's rating exactly when a trail leads down to it. */
  lemma {:induction false} RatePositive(m: Map, p: Point, i: nat, q: Point)
    requires Passable(m, p) && i <= 4
    ensures Rate(m, p, i, q) > 0 <==>
      exists j | i <= j < 4 :: StepsDown(m, p, Neighbours(p)[j]) &&
        (Neighbours(p)[j] == q || Reaches(m, Neighbours(p)[j], q))
    decreases Height(m, p), 4 - i
  {
    if i < 4 {
      var n := Neighbours(p)[i];
      RatePositive(m, p, i + 1, q);
      if StepsDown(m, p, n) {
        RatePositive(m, n, 0, q);
      }
    }
  }

  /** The rating a top gives a cell is positive exactly when the top's
      scoring walk marks it. */
  lemma RatedIffScored(m: Map, top: Point, q: Point)
    requires Passable(m, top)
    ensures Rate(m, top, 0, q) > 0 <==> q in Visit(m, top, 0, {})
  {
    RatePositive(m, top, 0, q);
    VisitExact(m, top, q);
  }

  /** A cell's rating once every top has been walked from: 1 to begin with
      on a top, plus what each top's walk adds. */
  function Rating(m: Map, tops: seq<Point>, c: Point): nat
    requires Valid(m)
  {
    (if c in tops then 1 else 0) + RateSum(m, tops, c)
  }

  function RateSum(m: Map, tops: seq<Point>, c: Point): nat
    requires Valid(m)
  {
    if |tops| == 0 then 0
    else
      var t := tops[|tops| - 1];
      RateSum(m, tops[..|tops| - 1], c) + (if Passable(m, t) then Rate(m, t, 0, c) else 0)
  }

  /** The answer: the ratings summed over the bottoms. */
  function TotalRating(m: Map, tops: seq<Point>, bottoms: seq<Point>): nat
    requires Valid(m)
  {
    if |bottoms| == 0 then 0
    else TotalRating(m, tops, bottoms[..|bottoms| - 1]) + Rating(m, tops, bottoms[|bottoms| - 1])
  }

  /** Every top that scores a cell rates it at least one. */
  lemma {:induction false} ScoreAtMostRating(m: Map, tops: seq<Point>, c: Point)
    requires Valid(m)
    ensures Score(m, tops, c) <= Rating(m, tops, c)
    decreases |tops|
  {
    if |tops| > 0 {
      var t := tops[|tops| - 1];
      var rest := tops[..|tops| - 1];
      ScoreAtMostRating(m, rest, c);
      if Passable(m, t) {
        RatedIffScored(m, t, c);
      }
      assert c in tops <==> c in rest || c == t;
    }
  }
}

=== FILE: day11.dfy ===
/** Day 11: stones that change on every blink. A stone engraved 0 becomes
    1; a stone with an even number of digits splits into its left and right
    halves; any other stone is multiplied by 2024. Part one counts the
    stones after 25 blinks, part two after 75. */

module Day11a {
  import Arith
  import Seqs

  const Iterations: nat := 25

  /** What one stone becomes after a blink (part two's `Next`). */
  datatype Next = Single(first: nat) | Double(first: nat, second: nat)

  /** The blink rule, `next` in part two and inlined in part one. */
  function Successor(num: nat): Next
  {
    if num == 0 then Single(1)
    else
      var digits := Arith.Digits(num);
      if digits % 2 == 0 then
        var mask := Arith.Pow(10, digits / 2);
        Double(num / mask, num % mask)
      else Single(num * 2024)
  }

  /** Zero becomes one; a number with an even count of digits splits into
      a left half with half the digits and a right half below the matching
      power of ten that rebuild it; any other number is multiplied by 2024. */
  lemma SuccessorRule(num: nat)
    ensures num == 0 ==> Successor(num) == Single(1)
    ensures num > 0 && Arith.Digits(num) % 2 == 0 ==>
      var half := Arith.Digits(num) / 2;
      var n := Successor(num);
      n.Double? && n.first * Arith.Pow(10, half) + n.second == num && n.second < Arith.Pow(10, half) &&
      Arith.Digits(n.first) == half
    ensures num > 0 && Arith.Digits(num) % 2 == 1 ==> Successor(num) == Single(num * 2024)
  {
    if num > 0 && Arith.Digits(num) % 2 == 0 {
      Halves(num, Arith.Digits(num) / 2);
    }
  }

  /** Cutting a number with `2 * half` digits `half` digits from the
      right: the halves rebuild it and the left one has `half` digits. */
  lemma Halves(num: nat, half: nat)
    requires half >= 1 && Arith.Digits(num) == 2 * half
    ensures var mask := Arith.Pow(10, half);
      (num / mask) * mask + num % mask == num && num % mask < mask && Arith.Digits(num / mask) == half
  {
    var mask := Arith.Pow(10, half);
    Arith.DigitsBounds(num);
    Arith.Rebuild(num, mask);
    Arith.PowAdd(10, half, half);
    Arith.PowAdd(10, half - 1, half);
    Arith.DivBounds(num, mask, Arith.Pow(10, half - 1), mask);
    Arith.DigitsExact(num / mask, half);
  }

  /** The stones one stone turns into, left to right. */
  function Out(num: nat): seq<nat>
  {
    match Successor(num)
    case Single(a) => [a]
    case Double(a, b) => [a, b]
  }

  /** One blink of a whole row: every stone is replaced in place. */
  function Blink(stones: seq<nat>): seq<nat>
  {
    if |stones| == 0 then [] else Out(stones[0]) + Blink(stones[1..])
  }

  /** The row after `k` blinks. */
  function Stones(stones: seq<nat>, k: nat): seq<nat>
    decreases k
  {
    if k == 0 then stones else Stones(Blink(stones), k - 1)
  }

  lemma {:induction false} BlinkAppend(a: seq<nat>, b: seq<nat>)
    ensures Blink(a + b) == Blink(a) + Blink(b)
    decreases |a|
  {
    if |a| == 0 {
      assert a + b == b;
    } else {
      assert (a + b)[0] == a[0] && (a + b)[1..] == a[1..] + b;
      BlinkAppend(a[1..], b);
    }
  }

  /** Stones never interact: a row evolves as its parts do. */
  lemma {:induction false} StonesAppend(a: seq<nat>, b: seq<nat>, k: nat)
    ensures Stones(a + b, k) == Stones(a, k) + Stones(b, k)
    decreases k
  {
    if k > 0 {
      BlinkAppend(a, b);
      StonesAppend(Blink(a), Blink(b), k - 1);
    }
  }

  /** The stones `num` turns into by the end, when this is blink number
      `iteration`: one or two on the last blink, otherwise the counts for
      what it turns into. The program's cache is only ever read, never
      filled, so the lookups always miss and are left out. */
  function Simulate(num: nat, iteration: nat): nat
    requires 1 <= iteration <= Iterations
    decreases Iterations - iteration
  {
    match Successor(num)
    case Single(a) => if iteration == Iterations then 1 else Simulate(a, iteration + 1)
    case Double(a, b) =>
      if iteration == Iterations then 2 else Simulate(a, iteration + 1) + Simulate(b, iteration + 1)
  }

  /** The recursive count is the length of the row a single stone grows
      into over the blinks left. */
  lemma {:induction false} SimulateCounts(num: nat, iteration: nat)
    requires 1 <= iteration <= Iterations
    ensures Simulate(num, iteration) == |Stones([num], Iterations - iteration + 1)|
    decreases Iterations - iteration
  {
    match Successor(num)
    case Single(a) =>
      if iteration < Iterations {
        SimulateCounts(a, iteration + 1);
      }
      CountSingle(num, a, iteration);
    case Double(a, b) =>
      if iteration < Iterations {
        SimulateCounts(a, iteration + 1);
        SimulateCounts(b, iteration + 1);
      }
      CountDouble(num, a, b, iteration);
  }

  /** One level of the count for a stone that stays one stone. */
  lemma CountSingle(num: nat, a: nat, iteration: nat)
    requires 1 <= iteration <= Iterations && Successor(num) == Single(a)
    requires iteration < Iterations ==> Simulate(a, iteration + 1) == |Stones([a], Iterations - iteration)|
    ensures Simulate(num, iteration) == |Stones([num], Iterations - iteration + 1)|
  {
    StonesOne(num, Iterations - iteration);
    assert Out(num) == [a];
  }

  /** One level of the count for a stone that splits in two. */
  lemma CountDouble(num: nat, a: nat, b: nat, iteration: nat)
    requires 1 <= iteration <= Iterations && Successor(num) == Double(a, b)
    requires iteration < Iterations ==>
      Simulate(a, iteration + 1) == |Stones([a], Iterations - iteration)| &&
      Simulate(b, iteration + 1) == |Stones([b], Iterations - iteration)|
    ensures Simulate(num, iteration) == |Stones([num], Iterations - iteration + 1)|
  {
    var k := Iterations - iteration;
    StonesOne(num, k);
    assert Out(num) == [a, b];
    StonesPair(a, b, k);
  }

  lemma StonesPair(a: nat, b: nat, k: nat)
    ensures |Stones([a, b], k)| == |Stones([a], k)| + |Stones([b], k)|
  {
    StonesAppend([a], [b], k);
    assert [a] + [b] == [a, b];
  }

  lemma {:induction false} StonesEmpty(k: nat)
    ensures Stones([], k) == []
    decreases k
  {
    if k > 0 {
      assert Blink([]) == [];
      StonesEmpty(k - 1);
    }
  }

  /** After one blink a stone is the stones it turned into. */
  lemma StonesOne(num: nat, k: nat)
    ensures Stones([num], k + 1) == Stones(Out(num), k)
  {
    BlinkOne(num);
  }

  lemma BlinkOne(num: nat)
    ensures Blink([num]) == Out(num)
  {
    var out := Out(num);
    assert [num][1..] == [];
    assert Blink([num]) == out + Blink([]);
  }

  /** The answer: the counts for each engraved number summed. */
  function Total(numbers: seq<nat>): nat
  {
    if |numbers| == 0 then 0 else Total(numbers[..|numbers| - 1]) + Simulate(numbers[|numbers| - 1], 1)
  }

  /** The answer is the number of stones after all the blinks. */
  lemma {:induction false} TotalCounts(numbers: seq<nat>)
    ensures Total(numbers) == |Stones(numbers, Iterations)|
    decreases |numbers|
  {
    if |numbers| == 0 {
      StonesEmpty(Iterations);
    } else {
      var front, last := numbers[..|numbers| - 1], numbers[|numbers| - 1];
      TotalCounts(front);
      SimulateCounts(last, 1);
      Seqs.Snoc(numbers);
      StonesAppend(front, [last], Iterations);
      assert Stones(numbers, Iterations) == Stones(front, Iterations) + Stones([last], Iterations);
      assert Total(numbers) == Total(front) + Simulate(last, 1);
    }
  }
}

module Day11b {
  import opened Wrappers
  import Seqs
  import A = Day11a

  const Iterations: nat := 75

  /** The blink rule for every number met so far. */
  type Lookup = map<nat, A.Next>

  /** Every entry holds the rule's answer for its number. */
  predicate Correct(lookup: Lookup)
  {
    forall k :: k in lookup ==> lookup[k] == A.Successor(k)
  }

  /** The numbers an entry leads to. */
  function Targets(next: A.Next): set<nat>
  {
    match next
    case Single(a) => {a}
    case Double(a, b) => {a, b}
  }

  /** Everything an entry leads to has an entry. */
  ghost predicate Closed(lookup: Lookup)
  {
    forall k, t :: k in lookup && t in Targets(lookup[k]) ==> t in lookup
  }

  /** Every engraved number has an entry or is pending. */
  ghost predicate Covered(numbers: seq<nat>, lookup: Lookup, pending: set<nat>)
  {
    forall i :: 0 <= i < |numbers| ==> numbers[i] in lookup || numbers[i] in pending
  }

  /** Everything an entry leads to has an entry or is pending. */
  ghost predicate Frontier(lookup: Lookup, pending: set<nat>)
  {
    forall k, t :: k in lookup && t in Targets(lookup[k]) ==> t in lookup || t in pending
  }

  /** Entering the number on the chain keeps the invariants, with what it
      leads to pending in its place. */
  lemma Enter(numbers: seq<nat>, lookup: Lookup, todos: set<nat>, current: nat, todos': set<nat>, current': nat)
    requires current !in lookup
    requires Covered(numbers, lookup, todos + {current}) && Frontier(lookup, todos + {current})
    requires todos' + {current'} == todos + Targets(A.Successor(current))
    ensures Covered(numbers, lookup[current := A.Successor(current)], todos' + {current'})
    ensures Frontier(lookup[current := A.Successor(current)], todos' + {current'})
  {
  }

  /** Taking a number out of the pending set and following it keeps the
      invariants. */
  lemma Pop(numbers: seq<nat>, lookup: Lookup, todos: set<nat>, current: nat)
    requires current in todos
    requires Covered(numbers, lookup, todos) && Frontier(lookup, todos)
    ensures Covered(numbers, lookup, (todos - {current}) + {current})
    ensures Frontier(lookup, (todos - {current}) + {current})
  {
    assert (todos - {current}) + {current} == todos;
  }

  /** A chain that meets an entered number leaves nothing new pending. */
  lemma Leave(numbers: seq<nat>, lookup: Lookup, todos: set<nat>, current: nat)
    requires current in lookup
    requires Covered(numbers, lookup, todos + {current}) && Frontier(lookup, todos + {current})
    ensures Covered(numbers, lookup, todos) && Frontier(lookup, todos)
  {
  }

  /** Fills the lookup from the engraved numbers: a pending number is
      taken, and the chain from it is followed, adding an entry for each
      new number, until it meets a number already entered; the right half
      of a split is left pending. The set of pending numbers is a
      `BTreeSet` taken from its least element; any order gives the same
      table, so the order is left open here. `done` is false only when
      `fuel` steps were not enough. */
  method BuildLookup(numbers: seq<nat>, fuel: nat) returns (lookup: Lookup, done: bool)
    ensures Correct(lookup)
    ensures done ==> Closed(lookup) && forall i :: 0 <= i < |numbers| ==> numbers[i] in lookup
  {
    lookup := map[];
    var todos := set i | 0 <= i < |numbers| :: numbers[i];
    var steps := fuel;
    while todos != {}
      invariant Correct(lookup) && Covered(numbers, lookup, todos) && Frontier(lookup, todos)
      decreases steps, |todos|
    {
      var current :| current in todos;
      Pop(numbers, lookup, todos, current);
      todos := todos - {current};
      ghost var steps0, todos0 := steps, todos;
      while current !in lookup
        invariant Correct(lookup) && Covered(numbers, lookup, todos + {current}) && Frontier(lookup, todos + {current})
        invariant steps <= steps0 && (steps == steps0 ==> todos == todos0)
        decreases steps
      {
        if steps == 0 {
          return lookup, false;
        }
        steps := steps - 1;
        var entry := A.Successor(current);
        var todos', current' := todos, entry.first;
        if entry.Double? {
          todos' := todos + {entry.second};
        }
        Enter(numbers, lookup, todos, current, todos', current');
        lookup := lookup[current := entry];
        todos, current := todos', current';
      }
      Leave(numbers, lookup, todos, current);
    }
    done := true;
  }

  /** A blink never loses a stone: each becomes one or two. */
  lemma {:induction false} BlinkGrows(stones: seq<nat>)
    ensures |A.Blink(stones)| >= |stones|
    decreases |stones|
  {
    if |stones| > 0 {
      BlinkGrows(stones[1..]);
    }
  }

  /** `count` copies of each number `entry` names. */
  function Spread(entry: A.Next, count: nat): multiset<nat>
  {
    match entry
    case Single(a) => multiset(Seqs.Repeat(a, count))
    case Double(a, b) => multiset(Seqs.Repeat(a, count)) + multiset(Seqs.Repeat(b, count))
  }

  /** `count` equal stones blink into `count` copies of what one of them
      becomes. */
  lemma {:induction false} BlinkRepeat(num: nat, count: nat)
    ensures multiset(A.Blink(Seqs.Repeat(num, count))) == Spread(A.Successor(num), count)
    decreases count
  {
    if count > 0 {
      var rest := Seqs.Repeat(num, count - 1);
      var e := A.Successor(num);
      BlinkRepeat(num, count - 1);
      BlinkFront(num, count);
      SpreadStep(e, count);
      assert A.Out(num) == match e case Single(a) => [a] case Double(a, b) => [a, b];
      assert multiset(A.Out(num) + A.Blink(rest)) == multiset(A.Out(num)) + multiset(A.Blink(rest));
    }
  }

  /** The first of `count` equal stones blinks before the others. */
  lemma BlinkFront(num: nat, count: nat)
    requires count > 0
    ensures A.Blink(Seqs.Repeat(num, count)) == A.Out(num) + A.Blink(Seqs.Repeat(num, count - 1))
  {
    A.BlinkAppend([num], Seqs.Repeat(num, count - 1));
    A.BlinkOne(num);
  }

  /** One more copy of an entry adds the numbers it names once. */
  lemma SpreadStep(entry: A.Next, count: nat)
    requires count > 0
    ensures Spread(entry, count) ==
      multiset(match entry case Single(a) => [a] case Double(a, b) => [a, b]) + Spread(entry, count - 1)
  {
    match entry
    case Single(a) =>
      assert Seqs.Repeat(a, count) == [a] + Seqs.Repeat(a, count - 1);
    case Double(a, b) =>
      assert Seqs.Repeat(a, count) == [a] + Seqs.Repeat(a, count - 1);
      assert Seqs.Repeat(b, count) == [b] + Seqs.Repeat(b, count - 1);
  }

  /** What a row blinks into depends only on which stones it holds, not on
      their order. */
  lemma {:induction false} BlinkPermutation(a: seq<nat>, b: seq<nat>)
    requires multiset(a) == multiset(b)
    ensures multiset(A.Blink(a)) == multiset(A.Blink(b))
    decreases |a|
  {
    if |a| == 0 {
      assert |b| == |multiset(b)| == 0;
    } else {
      assert a[0] in multiset(b);
      var j :| 0 <= j < |b| && b[j] == a[0];
      RemoveBoth(a, b, j);
      BlinkPermutation(a[1..], b[..j] + b[j + 1..]);
      BlinkAround(a, 0);
      assert a[..0] + a[1..] == a[1..];
      BlinkAround(b, j);
    }
  }

  /** Taking the same stone out of two arrangements of one row leaves two
      arrangements of one row. */
  lemma RemoveBoth(a: seq<nat>, b: seq<nat>, j: nat)
    requires |a| > 0 && j < |b| && b[j] == a[0] && multiset(a) == multiset(b)
    ensures multiset(a[1..]) == multiset(b[..j] + b[j + 1..])
  {
    Seqs.Remove(a, 0);
    Seqs.Remove(b, j);
    assert a[..0] + a[1..] == a[1..];
    Cancel(multiset(a[1..]), multiset(b[..j] + b[j + 1..]), a[0]);
  }

  lemma Cancel(m: multiset<nat>, n: multiset<nat>, x: nat)
    requires m + multiset{x} == n + multiset{x}
    ensures m == n
  {
    assert forall y :: m[y] == (m + multiset{x})[y] - multiset{x}[y];
  }

  /** Blinking a row blinks the stone at `i` and the others. */
  lemma BlinkAround(s: seq<nat>, i: nat)
    requires i < |s|
    ensures multiset(A.Blink(s)) == multiset(A.Blink(s[..i] + s[i + 1..])) + multiset(A.Out(s[i]))
  {
    Seqs.Around(s, i);
    A.BlinkAppend(s[..i], [s[i]] + s[i + 1..]);
    A.BlinkAppend([s[i]], s[i + 1..]);
    A.BlinkAppend(s[..i], s[i + 1..]);
    A.BlinkOne(s[i]);
  }

  /** Adding `count` to the entry for `x` adds `count` copies of `x`. */
  lemma AddCount(counts: multiset<nat>, x: nat, count: nat)
    ensures counts[x := counts[x] + count] == counts + multiset(Seqs.Repeat(x, count))
  {
    Seqs.RepeatCount(x, count);
  }

  /** Adds `count` to the count of each number `entry` leads to. */
  function Credit(counts: multiset<nat>, entry: A.Next, count: nat): multiset<nat>
  {
    match entry
    case Single(a) => counts[a := counts[a] + count]
    case Double(a, b) =>
      var first := counts[a := counts[a] + count];
      first[b := first[b] + count]
  }

  /** Crediting what `count` copies of `num` become extends the blinked
      row by those copies. */
  lemma CreditStep(next: multiset<nat>, done: seq<nat>, num: nat, count: nat)
    requires next == multiset(A.Blink(done))
    ensures Credit(next, A.Successor(num), count) == multiset(A.Blink(done + Seqs.Repeat(num, count)))
  {
    var copies := Seqs.Repeat(num, count);
    BlinkRepeat(num, count);
    A.BlinkAppend(done, copies);
    assert multiset(A.Blink(done + copies)) == next + multiset(A.Blink(copies));
    CreditAdds(next, A.Successor(num), count);
  }

  /** Crediting an entry adds `count` copies of each number it names. */
  lemma CreditAdds(next: multiset<nat>, entry: A.Next, count: nat)
    ensures Credit(next, entry, count) == next + Spread(entry, count)
  {
    match entry
    case Single(a) =>
      AddCount(next, a, count);
    case Double(a, b) =>
      CreditTwo(next, a, b, count);
  }

  lemma CreditTwo(next: multiset<nat>, a: nat, b: nat, count: nat)
    ensures Credit(next, A.Double(a, b), count) == next + Spread(A.Double(a, b), count)
  {
    var ma, mb := multiset(Seqs.Repeat(a, count)), multiset(Seqs.Repeat(b, count));
    var first := next[a := next[a] + count];
    AddCount(next, a, count);
    AddCount(first, b, count);
    calc {
      Credit(next, A.Double(a, b), count);
      first[b := first[b] + count];
      first + mb;
      (next + ma) + mb;
      { MultisetAssociative(next, ma, mb); }
      next + (ma + mb);
    }
  }

  lemma MultisetAssociative(x: multiset<nat>, y: multiset<nat>, z: multiset<nat>)
    ensures (x + y) + z == x + (y + z)
  {
  }

  /** Moving all copies of `num` from the rest to the done part. */
  lemma Drain(counts: multiset<nat>, rest: multiset<nat>, done: seq<nat>, num: nat)
    requires multiset(done) + rest == counts
    ensures multiset(done + Seqs.Repeat(num, rest[num])) + rest[num := 0] == counts
  {
    Seqs.RepeatCount(num, rest[num]);
  }

  /** One round of the simulation (the body of step 3): every number adds
      its count to each number it turns into. `row` is any arrangement of
      the stones the counts describe. */
  method Step(counts: multiset<nat>, lookup: Lookup, ghost row: seq<nat>) returns (next: multiset<nat>)
    requires Correct(lookup) && forall num :: num in counts ==> num in lookup
    requires multiset(row) == counts
    ensures next == multiset(A.Blink(row))
  {
    next := multiset{};
    var rest := counts;
    ghost var done: seq<nat> := [];
    while rest != multiset{}
      invariant multiset(done) + rest == counts
      invariant next == multiset(A.Blink(done))
      decreases |rest|
    {
      var num :| num in rest;
      var count := rest[num];
      CreditStep(next, done, num, count);
      Drain(counts, rest, done, num);
      next := Credit(next, lookup[num], count);
      rest := rest[num := 0];
      done := done + Seqs.Repeat(num, count);
    }
    BlinkPermutation(done, row);
  }

  /** Blinking once more after `i` blinks. */
  lemma {:induction false} StonesNext(stones: seq<nat>, i: nat)
    ensures A.Stones(stones, i + 1) == A.Blink(A.Stones(stones, i))
    decreases i
  {
    if i > 0 {
      StonesNext(A.Blink(stones), i - 1);
    }
  }

  /** A closed lookup that holds every stone of a row holds every stone of
      the row after a blink. */
  lemma {:induction false} BlinkClosed(lookup: Lookup, stones: seq<nat>)
    requires Correct(lookup) && Closed(lookup)
    requires forall i :: 0 <= i < |stones| ==> stones[i] in lookup
    ensures forall x :: x in A.Blink(stones) ==> x in lookup
    decreases |stones|
  {
    if |stones| > 0 {
      BlinkClosed(lookup, stones[1..]);
      var num := stones[0];
      assert num in lookup && Targets(lookup[num]) == set x | x in A.Out(num);
    }
  }

  /** Step 2 of the program: the count of each engraved number. */
  method CountNumbers(numbers: seq<nat>) returns (counts: multiset<nat>)
    ensures counts == multiset(numbers)
  {
    counts := multiset{};
    for i := 0 to |numbers|
      invariant counts == multiset(numbers[..i])
    {
      assert numbers[..i + 1] == numbers[..i] + [numbers[i]];
      counts := counts[numbers[i] := counts[numbers[i]] + 1];
    }
    assert numbers[..|numbers|] == numbers;
  }

  /** The whole program: build the lookup, count the engraved numbers, run
      the rounds and sum the counts. The answer, when the lookup was
      finished within `fuel` entries, is the number of stones after all the
      blinks. */
  method Solve(numbers: seq<nat>, fuel: nat) returns (r: Option<nat>)
    ensures r.Some? ==> r.value == |A.Stones(numbers, Iterations)|
  {
    var lookup, done := BuildLookup(numbers, fuel);
    if !done {
      return None;
    }
    var counts := CountNumbers(numbers);
    ghost var row := numbers;
    for i := 0 to Iterations
      invariant row == A.Stones(numbers, i) && counts == multiset(row)
      invariant forall x :: x in counts ==> x in lookup
    {
      BlinkClosed(lookup, row);
      StonesNext(numbers, i);
      counts := Step(counts, lookup, row);
      row := A.Blink(row);
    }
    r := Some(|counts|);
  }
}

=== FILE: day12.dfy ===
/** Day 12: a field of garden plots, each growing one plant. Plots of the
    same plant joined by a side form a region; the fence price of a region
    is its area times its perimeter (part one) or times its number of
    sides, counted as corners (part two). Both parts flood-fill the regions
    the same way and differ only in what each plot adds to the region. */

module Garden {
  import Grids
  import Seqs

  datatype Point = Point(x: int, y: int)

  /** The field, addressed `g[y][x]`. */
  type Plots = seq<seq<char>>

  /** `h` rows of `w` plots; the width is read from the first row, so there
      is at least one. */
  predicate Valid(g: Plots, w: nat, h: nat)
  {
    h > 0 && Grids.IsGrid(g, w, h)
  }

  predicate Inside(w: nat, h: nat, p: Point)
  {
    Grids.InBounds(w, h, p.x, p.y)
  }

  function Plant(g: Plots, w: nat, h: nat, p: Point): char
    requires Valid(g, w, h) && Inside(w, h, p)
  {
    g[p.y][p.x]
  }

  /** Every plot of the field. */
  function Cells(w: nat, h: nat): set<Point>
  {
    set x, y | 0 <= x < w && 0 <= y < h :: Point(x, y)
  }

  /** The four plots sharing a side, in the order the fill follows them:
      left, right, up, down. */
  function Sides(p: Point): (r: seq<Point>)
    ensures |r| == 4
    ensures forall i :: 0 <= i < 4 ==> Seqs.Abs(r[i].x - p.x) + Seqs.Abs(r[i].y - p.y) == 1
  {
    [Point(p.x - 1, p.y), Point(p.x + 1, p.y), Point(p.x, p.y - 1), Point(p.x, p.y + 1)]
  }

  lemma SidesSymmetric(p: Point, q: Point)
    requires q in Sides(p)
    ensures p in Sides(q)
  {
  }

  /** `q` is in the field and grows the same plant as `p` (part two's
      `is_same`; part one asks the same question inline). */
  predicate Joins(g: Plots, w: nat, h: nat, p: Point, q: Point)
    requires Valid(g, w, h) && Inside(w, h, p)
  {
    Inside(w, h, q) && Plant(g, w, h, q) == Plant(g, w, h, p)
  }

  /** What a region has counted so far: its plots and the part's measure
      (perimeter in part one, corners in part two). */
  datatype Region = Region(area: nat, score: nat)

  function Weights(cells: seq<Point>, weight: Point -> nat): nat
  {
    if |cells| == 0 then 0 else Weights(cells[..|cells| - 1], weight) + weight(cells[|cells| - 1])
  }

  lemma {:induction false} WeightsAppend(a: seq<Point>, b: seq<Point>, weight: Point -> nat)
    ensures Weights(a + b, weight) == Weights(a, weight) + Weights(b, weight)
    decreases |b|
  {
    if |b| == 0 {
      assert a + b == a;
    } else {
      assert (a + b)[..|a + b| - 1] == a + b[..|b| - 1];
      WeightsAppend(a, b[..|b| - 1], weight);
    }
  }

  /** `cells` are the plots newly visited, going from `visited` to
      `visited'`: all distinct, in the field, of plant `plant`. */
  ghost predicate Fresh(g: Plots, w: nat, h: nat, plant: char, visited: set<Point>, visited': set<Point>, cells: seq<Point>)
    requires Valid(g, w, h)
  {
    visited' == visited + (set c | c in cells) &&
    (forall i :: 0 <= i < |cells| ==> cells[i] !in visited && Inside(w, h, cells[i]) && Plant(g, w, h, cells[i]) == plant) &&
    (forall i, j :: 0 <= i < j < |cells| ==> cells[i] != cells[j])
  }

  /** Every plot of the same plant beside one of `cells` is in `visited`. */
  ghost predicate Closed(g: Plots, w: nat, h: nat, cells: seq<Point>, visited: set<Point>)
    requires Valid(g, w, h)
  {
    forall i, k :: 0 <= i < |cells| && 0 <= k < 4 && Inside(w, h, cells[i]) && Joins(g, w, h, cells[i], Sides(cells[i])[k]) ==>
      Sides(cells[i])[k] in visited
  }

  lemma FreshAppend(g: Plots, w: nat, h: nat, plant: char, v0: set<Point>, v1: set<Point>, v2: set<Point>, a: seq<Point>, b: seq<Point>)
    requires Valid(g, w, h)
    requires Fresh(g, w, h, plant, v0, v1, a) && Fresh(g, w, h, plant, v1, v2, b)
    ensures Fresh(g, w, h, plant, v0, v2, a + b)
  {
    var ab := a + b;
    assert (set c | c in ab) == (set c | c in a) + (set c | c in b);
    forall i, j | 0 <= i < j < |ab|
      ensures ab[i] != ab[j]
    {
      if j >= |a| && i < |a| {
        assert ab[i] in v1;
      }
    }
  }

  lemma ClosedAppend(g: Plots, w: nat, h: nat, a: seq<Point>, b: seq<Point>, v1: set<Point>, v2: set<Point>)
    requires Valid(g, w, h)
    requires Closed(g, w, h, a, v1) && Closed(g, w, h, b, v2) && v1 <= v2
    ensures Closed(g, w, h, a + b, v2)
  {
    var ab := a + b;
    forall i, k | 0 <= i < |ab| && 0 <= k < 4 && Inside(w, h, ab[i]) && Joins(g, w, h, ab[i], Sides(ab[i])[k])
      ensures Sides(ab[i])[k] in v2
    {
      if i >= |a| {
        assert ab[i] == b[i - |a|];
      }
    }
  }

  /** Plot `j` is beside an earlier one. */
  predicate Beside(cells: seq<Point>, j: int)
    requires 0 <= j < |cells|
  {
    exists i :: 0 <= i < j && cells[j] in Sides(cells[i])
  }

  /** Each plot after the first is beside an earlier one, so the plots
      hang together from the first. */
  predicate Linked(cells: seq<Point>)
  {
    forall j :: 0 < j < |cells| ==> Beside(cells, j)
  }

  /** The plots a side of `p` added, hung after `p` and what its earlier
      sides added. */
  lemma LinkedAppend(p: Point, rest: seq<Point>, more: seq<Point>)
    requires Linked([p] + rest) && Linked(more)
    requires |more| > 0 ==> more[0] in Sides(p)
    ensures Linked([p] + (rest + more))
  {
    var a := [p] + rest;
    var all := [p] + (rest + more);
    assert all == a + more;
    forall j | 0 < j < |all|
      ensures Beside(all, j)
    {
      if j < |a| {
        assert Beside(a, j);
        var i :| 0 <= i < j && a[j] in Sides(a[i]);
        assert all[i] == a[i] && all[j] == a[j];
      } else if j == |a| {
        assert all[0] == p && all[j] == more[0];
      } else {
        assert Beside(more, j - |a|);
        var i :| 0 <= i < j - |a| && more[j - |a|] in Sides(more[i]);
        assert all[|a| + i] == more[i] && all[j] == more[j - |a|];
      }
    }
  }

  lemma {:induction false} SubsetCard<T>(a: set<T>, b: set<T>)
    requires a <= b
    ensures |a| <= |b|
    decreases |a|
  {
    if a != {} {
      var x :| x in a;
      SubsetCard(a - {x}, b - {x});
    }
  }

  /** Entering a plot leaves fewer plots to enter. */
  lemma Shrinks(all: set<Point>, visited: set<Point>, acc: set<Point>, p: Point)
    requires p in all && p !in visited && visited + {p} <= acc
    ensures |all - acc| < |all - visited|
  {
    SubsetCard(all - acc, (all - visited) - {p});
  }

  /** One plot of the region (`trace_region`): marks it visited, adds one
      to the area and the plot's own measure to the score, then follows
      the sides left, right, up and down into unvisited plots of the same
      plant. Part one adds each fence as it checks the side; the sum is the
      same. `cells` are the plots this call visited, first `p`. */
  method Trace(g: Plots, w: nat, h: nat, weight: Point -> nat, plant: char, p: Point, visited: set<Point>, region: Region)
    returns (visited': set<Point>, region': Region, ghost cells: seq<Point>)
    requires Valid(g, w, h) && Inside(w, h, p) && Plant(g, w, h, p) == plant
    requires p !in visited && visited <= Cells(w, h)
    ensures visited' <= Cells(w, h)
    ensures |cells| > 0 && cells[0] == p && Linked(cells)
    ensures Fresh(g, w, h, plant, visited, visited', cells) && Closed(g, w, h, cells, visited')
    ensures region'.area == region.area + |cells| && region'.score == region.score + Weights(cells, weight)
    decreases |Cells(w, h) - visited|, 1
  {
    visited' := visited + {p};
    region' := Region(region.area + 1, region.score + weight(p));
    ghost var rest: seq<Point> := [];
    assert (set c | c in rest) == {};
    for k := 0 to 4
      invariant visited + {p} <= visited' <= Cells(w, h)
      invariant Fresh(g, w, h, plant, visited + {p}, visited', rest) && Closed(g, w, h, rest, visited')
      invariant Linked([p] + rest)
      invariant SidesIn(g, w, h, p, k, visited')
      invariant region'.area == region.area + 1 + |rest| && region'.score == region.score + weight(p) + Weights(rest, weight)
    {
      Shrinks(Cells(w, h), visited, visited', p);
      var v, r, more := Follow(g, w, h, weight, plant, Sides(p)[k], visited', region');
      FreshAppend(g, w, h, plant, visited + {p}, visited', v, rest, more);
      ClosedAppend(g, w, h, rest, more, visited', v);
      WeightsAppend(rest, more, weight);
      SidesStep(g, w, h, p, k, visited', v);
      LinkedAppend(p, rest, more);
      visited', region', rest := v, r, rest + more;
    }
    cells := [p] + rest;
    Enter(g, w, h, plant, p, visited, visited', rest, weight);
  }

  /** The sides of `p` before `k` that join it are visited. */
  ghost predicate SidesIn(g: Plots, w: nat, h: nat, p: Point, k: nat, visited: set<Point>)
    requires Valid(g, w, h) && Inside(w, h, p)
  {
    forall j :: 0 <= j < k && j < 4 && Joins(g, w, h, p, Sides(p)[j]) ==> Sides(p)[j] in visited
  }

  lemma SidesStep(g: Plots, w: nat, h: nat, p: Point, k: nat, visited: set<Point>, visited': set<Point>)
    requires Valid(g, w, h) && Inside(w, h, p) && k < 4
    requires SidesIn(g, w, h, p, k, visited) && visited <= visited'
    requires Inside(w, h, Sides(p)[k]) && Plant(g, w, h, Sides(p)[k]) == Plant(g, w, h, p) ==> Sides(p)[k] in visited'
    ensures SidesIn(g, w, h, p, k + 1, visited')
  {
  }

  /** The plot a call starts from, followed by what its sides added. */
  lemma Enter(g: Plots, w: nat, h: nat, plant: char, p: Point, visited: set<Point>, visited': set<Point>, rest: seq<Point>, weight: Point -> nat)
    requires Valid(g, w, h) && Inside(w, h, p) && Plant(g, w, h, p) == plant && p !in visited
    requires Fresh(g, w, h, plant, visited + {p}, visited', rest) && Closed(g, w, h, rest, visited')
    requires SidesIn(g, w, h, p, 4, visited')
    ensures Fresh(g, w, h, plant, visited, visited', [p] + rest) && Closed(g, w, h, [p] + rest, visited')
    ensures Weights([p] + rest, weight) == weight(p) + Weights(rest, weight)
  {
    assert (set c | c in [p]) == {p};
    FreshAppend(g, w, h, plant, visited, visited + {p}, visited', [p], rest);
    ClosedAppend(g, w, h, [p], rest, visited', visited');
    WeightsAppend([p], rest, weight);
    assert Weights([p], weight) == weight(p);
  }

  /** One side of a plot: entered when it is in the field, unvisited and of
      the same plant; otherwise nothing changes. */
  method Follow(g: Plots, w: nat, h: nat, weight: Point -> nat, plant: char, q: Point, visited: set<Point>, region: Region)
    returns (visited': set<Point>, region': Region, ghost cells: seq<Point>)
    requires Valid(g, w, h) && visited <= Cells(w, h)
    ensures visited <= visited' <= Cells(w, h)
    ensures Inside(w, h, q) && Plant(g, w, h, q) == plant ==> q in visited'
    ensures Linked(cells) && (|cells| > 0 ==> cells[0] == q)
    ensures Fresh(g, w, h, plant, visited, visited', cells) && Closed(g, w, h, cells, visited')
    ensures region'.area == region.area + |cells| && region'.score == region.score + Weights(cells, weight)
    decreases |Cells(w, h) - visited| + 1, 0
  {
    if Inside(w, h, q) && q !in visited && Plant(g, w, h, q) == plant {
      visited', region', cells := Trace(g, w, h, weight, plant, q, visited, region);
    } else {
      visited', region', cells := visited, region, [];
      assert (set c | c in cells) == {};
    }
  }

  /** Every plot of every part. */
  ghost function Union(parts: seq<seq<Point>>): set<Point>
  {
    set i, j | 0 <= i < |parts| && 0 <= j < |parts[i]| :: parts[i][j]
  }

  /** No plot appears twice, in one part or in two. */
  ghost predicate Unique(parts: seq<seq<Point>>)
  {
    forall i, i', j, j' ::
      0 <= i < |parts| && 0 <= i' < |parts| && 0 <= j < |parts[i]| && 0 <= j' < |parts[i']| && (i != i' || j != j') ==>
        parts[i][j] != parts[i'][j']
  }

  /** A part holds every plot of its plant beside one of its plots. */
  ghost predicate Maximal(g: Plots, w: nat, h: nat, part: seq<Point>)
    requires Valid(g, w, h)
  {
    forall c, q :: c in part && q in Sides(c) && Inside(w, h, c) && Joins(g, w, h, c, q) ==> q in part
  }

  /** Each part is a nonempty run of plots of one plant, each after the
      first beside an earlier one, closed under joining sides: a region. */
  ghost predicate Regions(g: Plots, w: nat, h: nat, parts: seq<seq<Point>>)
    requires Valid(g, w, h)
  {
    Unique(parts) &&
    forall i :: 0 <= i < |parts| ==>
      |parts[i]| > 0 && Maximal(g, w, h, parts[i]) && Linked(parts[i]) &&
      forall j :: 0 <= j < |parts[i]| ==>
        Inside(w, h, parts[i][j]) && Inside(w, h, parts[i][0]) && Plant(g, w, h, parts[i][j]) == Plant(g, w, h, parts[i][0])
  }

  /** The regions cover the field: every plot is in exactly one. */
  ghost predicate Partition(g: Plots, w: nat, h: nat, parts: seq<seq<Point>>)
    requires Valid(g, w, h)
  {
    Regions(g, w, h, parts) && Union(parts) == Cells(w, h)
  }

  /** Each counted region matches its part. */
  ghost predicate Counted(regions: seq<Region>, parts: seq<seq<Point>>, weight: Point -> nat)
  {
    |regions| == |parts| &&
    forall i :: 0 <= i < |parts| ==> regions[i].area == |parts[i]| && regions[i].score == Weights(parts[i], weight)
  }

  lemma AddUnique(visited: set<Point>, parts: seq<seq<Point>>, cells: seq<Point>)
    requires Unique(parts) && visited == Union(parts)
    requires forall i :: 0 <= i < |cells| ==> cells[i] !in visited
    requires forall i, j :: 0 <= i < j < |cells| ==> cells[i] != cells[j]
    ensures Unique(parts + [cells])
  {
    var parts' := parts + [cells];
    forall i, i', j, j' |
      0 <= i < |parts'| && 0 <= i' < |parts'| && 0 <= j < |parts'[i]| && 0 <= j' < |parts'[i']| && (i != i' || j != j')
      ensures parts'[i][j] != parts'[i'][j']
    {
      if i < |parts| {
        assert parts'[i][j] == parts[i][j] && parts[i][j] in visited;
      }
      if i' < |parts| {
        assert parts'[i'][j'] == parts[i'][j'] && parts[i'][j'] in visited;
      }
    }
  }

  lemma AddRegion(g: Plots, w: nat, h: nat, plant: char, parts: seq<seq<Point>>, cells: seq<Point>)
    requires Valid(g, w, h) && Regions(g, w, h, parts) && Unique(parts + [cells])
    requires |cells| > 0 && Maximal(g, w, h, cells) && Linked(cells)
    requires forall i :: 0 <= i < |cells| ==> Inside(w, h, cells[i]) && Plant(g, w, h, cells[i]) == plant
    ensures Regions(g, w, h, parts + [cells])
  {
    var parts' := parts + [cells];
    assert forall i :: 0 <= i < |parts| ==> parts'[i] == parts[i];
    assert parts'[|parts|] == cells;
  }

  lemma AddCounted(regions: seq<Region>, parts: seq<seq<Point>>, region: Region, cells: seq<Point>, weight: Point -> nat)
    requires Counted(regions, parts, weight)
    requires region.area == |cells| && region.score == Weights(cells, weight)
    ensures Counted(regions + [region], parts + [cells], weight)
  {
  }

  lemma UnionAppend(parts: seq<seq<Point>>, cells: seq<Point>)
    ensures Union(parts + [cells]) == Union(parts) + (set c | c in cells)
  {
    var parts' := parts + [cells];
    forall q | q in Union(parts')
      ensures q in Union(parts) + (set c | c in cells)
    {
      var i, j :| 0 <= i < |parts'| && 0 <= j < |parts'[i]| && parts'[i][j] == q;
      if i < |parts| {
        assert parts[i][j] == q;
      }
    }
    forall q | q in Union(parts) + (set c | c in cells)
      ensures q in Union(parts')
    {
      if q in Union(parts) {
        var i, j :| 0 <= i < |parts| && 0 <= j < |parts[i]| && parts[i][j] == q;
        assert parts'[i][j] == q;
      } else {
        var j :| 0 <= j < |cells| && cells[j] == q;
        assert parts'[|parts|][j] == q;
      }
    }
  }

  /** A traced region cannot reach into an earlier region: that one would
      have taken the plot it came from. */
  lemma NewMaximal(g: Plots, w: nat, h: nat, plant: char, visited: set<Point>, visited': set<Point>, parts: seq<seq<Point>>, cells: seq<Point>)
    requires Valid(g, w, h)
    requires Regions(g, w, h, parts) && visited == Union(parts)
    requires Fresh(g, w, h, plant, visited, visited', cells) && Closed(g, w, h, cells, visited')
    ensures Maximal(g, w, h, cells)
  {
    UnionMaximal(g, w, h, parts);
    forall c, q | c in cells && q in Sides(c) && Inside(w, h, c) && Joins(g, w, h, c, q)
      ensures q in cells
    {
      var i :| 0 <= i < |cells| && cells[i] == c;
      var k :| 0 <= k < 4 && Sides(c)[k] == q;
      assert q in visited';
      SidesSymmetric(c, q);
      assert c !in visited;
    }
  }

  /** No plot outside the regions joins a plot inside them. */
  lemma UnionMaximal(g: Plots, w: nat, h: nat, parts: seq<seq<Point>>)
    requires Valid(g, w, h) && Regions(g, w, h, parts)
    ensures forall q, c :: q in Union(parts) && c in Sides(q) && Inside(w, h, q) && Joins(g, w, h, q, c) ==> c in Union(parts)
  {
    forall q, c | q in Union(parts) && c in Sides(q) && Inside(w, h, q) && Joins(g, w, h, q, c)
      ensures c in Union(parts)
    {
      var n, j :| 0 <= n < |parts| && 0 <= j < |parts[n]| && parts[n][j] == q;
      assert Maximal(g, w, h, parts[n]);
      var j' :| 0 <= j' < |parts[n]| && parts[n][j'] == c;
    }
  }

  /** What the scan knows after each plot. */
  ghost predicate Scanned(g: Plots, w: nat, h: nat, visited: set<Point>, parts: seq<seq<Point>>)
    requires Valid(g, w, h)
  {
    Regions(g, w, h, parts) && visited == Union(parts) && visited <= Cells(w, h)
  }

  /** A freshly traced region joins the regions found before it. */
  lemma Grow(g: Plots, w: nat, h: nat, p: Point, visited: set<Point>, visited': set<Point>, parts: seq<seq<Point>>, cells: seq<Point>)
    requires Valid(g, w, h) && Inside(w, h, p)
    requires Scanned(g, w, h, visited, parts) && visited' <= Cells(w, h)
    requires |cells| > 0 && cells[0] == p && Linked(cells)
    requires Fresh(g, w, h, Plant(g, w, h, p), visited, visited', cells) && Closed(g, w, h, cells, visited')
    ensures Scanned(g, w, h, visited', parts + [cells]) && visited + {p} <= visited'
  {
    assert cells[0] in (set c | c in cells);
    UnionAppend(parts, cells);
    NewMaximal(g, w, h, Plant(g, w, h, p), visited, visited', parts, cells);
    AddUnique(visited, parts, cells);
    AddRegion(g, w, h, Plant(g, w, h, p), parts, cells);
  }

  /** Every plot of the rows above `y`, and of row `y` left of `x`, is
      visited. */
  ghost predicate Before(w: nat, x: nat, y: nat, visited: set<Point>)
  {
    forall x', y' :: 0 <= x' < w && 0 <= y' && (y' < y || (y' == y && x' < x)) ==> Point(x', y') in visited
  }

  lemma BeforeStep(w: nat, x: nat, y: nat, visited: set<Point>, visited': set<Point>)
    requires Before(w, x, y, visited) && visited <= visited' && Point(x, y) in visited'
    ensures Before(w, x + 1, y, visited')
  {
  }

  lemma NextRow(w: nat, y: nat, visited: set<Point>)
    requires Before(w, w, y, visited)
    ensures Before(w, 0, y + 1, visited)
  {
  }

  /** The scan of `main`: row by row, every plot not yet in a region
      starts a new one. The parts are the regions' plots. */
  method FindRegions(g: Plots, w: nat, h: nat, weight: Point -> nat) returns (regions: seq<Region>, ghost parts: seq<seq<Point>>)
    requires Valid(g, w, h)
    ensures Partition(g, w, h, parts) && Counted(regions, parts, weight)
  {
    var visited: set<Point> := {};
    regions, parts := [], [];
    for y := 0 to h
      invariant Scanned(g, w, h, visited, parts) && Counted(regions, parts, weight)
      invariant Before(w, 0, y, visited)
    {
      for x := 0 to w
        invariant Scanned(g, w, h, visited, parts) && Counted(regions, parts, weight)
        invariant Before(w, x, y, visited)
      {
        var p := Point(x, y);
        if p in visited {
          BeforeStep(w, x, y, visited, visited);
          continue;
        }
        var v, region, cells := Trace(g, w, h, weight, g[y][x], p, visited, Region(0, 0));
        Grow(g, w, h, p, visited, v, parts, cells);
        BeforeStep(w, x, y, visited, v);
        AddCounted(regions, parts, region, cells, weight);
        visited, regions, parts := v, regions + [region], parts + [cells];
      }
      NextRow(w, y, visited);
    }
    assert visited == Cells(w, h);
  }

  /** The price of every region, summed. */
  function Total(regions: seq<Region>): nat
  {
    if |regions| == 0 then 0 else Total(regions[..|regions| - 1]) + regions[|regions| - 1].area * regions[|regions| - 1].score
  }

  /** The price of each region's plots, area times measure, summed. */
  ghost function Price(parts: seq<seq<Point>>, weight: Point -> nat): nat
  {
    if |parts| == 0 then 0 else Price(parts[..|parts| - 1], weight) + |parts[|parts| - 1]| * Weights(parts[|parts| - 1], weight)
  }

  /** Summing the counted regions' prices prices the regions' plots. */
  lemma {:induction false} TotalPrice(regions: seq<Region>, parts: seq<seq<Point>>, weight: Point -> nat)
    requires Counted(regions, parts, weight)
    ensures Total(regions) == Price(parts, weight)
    decreases |parts|
  {
    if |parts| > 0 {
      var n := |parts| - 1;
      assert Counted(regions[..n], parts[..n], weight);
      TotalPrice(regions[..n], parts[..n], weight);
    }
  }

  /** The whole program with the part's measure: the sum of the prices of
      the field's regions. */
  method Solve(g: Plots, w: nat, h: nat, weight: Point -> nat) returns (price: nat, ghost parts: seq<seq<Point>>)
    requires Valid(g, w, h)
    ensures Partition(g, w, h, parts) && price == Price(parts, weight)
  {
    var regions;
    regions, parts := FindRegions(g, w, h, weight);
    TotalPrice(regions, parts, weight);
    price := Total(regions);
  }
}

module Day12a {
  import opened Garden

  /** A side of `p` needs a fence when it faces the field's edge or
      another plant. */
  predicate Fence(g: Plots, w: nat, h: nat, p: Point, q: Point)
  {
    Valid(g, w, h) && Inside(w, h, p) && !Joins(g, w, h, p, q)
  }

  function Count(b: bool): nat
  {
    if b then 1 else 0
  }

  /** What one plot adds to its region's perimeter: one for each side
      facing the edge or another plant. */
  function Fences(g: Plots, w: nat, h: nat, p: Point): (n: nat)
    ensures n <= 4
  {
    var s := Sides(p);
    Count(Fence(g, w, h, p, s[0])) + Count(Fence(g, w, h, p, s[1])) + Count(Fence(g, w, h, p, s[2])) + Count(Fence(g, w, h, p, s[3]))
  }

  /** The fences of a plot are the sides it does not share with its
      region. */
  lemma FencesAreSides(g: Plots, w: nat, h: nat, p: Point)
    requires Valid(g, w, h) && Inside(w, h, p)
    ensures Fences(g, w, h, p) == |set q | q in Sides(p) && !Joins(g, w, h, p, q)|
  {
    var fenced := set q | q in Sides(p) && !Joins(g, w, h, p, q);
    var s := Sides(p);
    MembersCard(s, fenced);
    var s1 := s[1..];
    var s2 := s1[1..];
    var s3 := s2[1..];
    assert s1[0] == s[1] && s2[0] == s[2] && s3[0] == s[3] && s3[1..] == [];
    assert Members(s3, fenced) == Count(s[3] in fenced);
    assert Members(s2, fenced) == Count(s[2] in fenced) + Count(s[3] in fenced);
    assert Members(s, fenced) == Count(s[0] in fenced) + Count(s[1] in fenced) + Count(s[2] in fenced) + Count(s[3] in fenced);
    assert forall k :: 0 <= k < 4 ==> (s[k] in fenced <==> Fence(g, w, h, p, s[k]));
    assert (set q | q in s && q in fenced) == fenced;
  }

  /** How many of `s` are in `keep`. */
  function Members(s: seq<Point>, keep: set<Point>): nat
  {
    if |s| == 0 then 0 else Count(s[0] in keep) + Members(s[1..], keep)
  }

  lemma {:induction false} MembersCard(s: seq<Point>, keep: set<Point>)
    requires forall i, j :: 0 <= i < j < |s| ==> s[i] != s[j]
    ensures |set q | q in s && q in keep| == Members(s, keep)
    decreases |s|
  {
    if |s| > 0 {
      MembersCard(s[1..], keep);
      var rest := set q | q in s[1..] && q in keep;
      var here := if s[0] in keep then {s[0]} else {};
      assert s[0] !in rest;
      assert (set q | q in s && q in keep) == here + rest;
    }
  }

  /** Part one: the sum over the regions of area times perimeter. */
  method Solve(g: Plots, w: nat, h: nat) returns (price: nat, ghost parts: seq<seq<Point>>)
    requires Valid(g, w, h)
    ensures Partition(g, w, h, parts) && price == Price(parts, p => Fences(g, w, h, p))
  {
    price, parts := Garden.Solve(g, w, h, p => Fences(g, w, h, p));
  }
}

module Day12b {
  import opened Garden

  function Count(b: bool): nat
  {
    if b then 1 else 0
  }

  /** `is_corner`: whether `p` has a corner towards the diagonal
      `(dx, dy)`, judged by how many of the two plots beside it in that
      direction and the one across the diagonal grow the same plant. */
  predicate IsCorner(g: Plots, w: nat, h: nat, p: Point, dx: int, dy: int)
    requires Valid(g, w, h) && Inside(w, h, p)
  {
    var across := Joins(g, w, h, p, Point(p.x + dx, p.y));
    var along := Joins(g, w, h, p, Point(p.x, p.y + dy));
    var diagonal := Joins(g, w, h, p, Point(p.x + dx, p.y + dy));
    var total := Count(across) + Count(along) + Count(diagonal);
    var direct := Count(across) + Count(along);
    match total
    case 0 => true
    case 2 => direct == 2
    case 3 => false
    case _ => direct == 0
  }

  /** The usual corner rule: an outer corner when neither side plot
      joins, an inner corner when both do but the diagonal does not. */
  lemma CornerRule(g: Plots, w: nat, h: nat, p: Point, dx: int, dy: int)
    requires Valid(g, w, h) && Inside(w, h, p)
    ensures var across := Joins(g, w, h, p, Point(p.x + dx, p.y));
      var along := Joins(g, w, h, p, Point(p.x, p.y + dy));
      var diagonal := Joins(g, w, h, p, Point(p.x + dx, p.y + dy));
      IsCorner(g, w, h, p, dx, dy) <==> (!across && !along) || (across && along && !diagonal)
  {
  }

  /** What one plot adds to its region's corner count: top left, bottom
      left, top right, bottom right. */
  function Corners(g: Plots, w: nat, h: nat, p: Point): (n: nat)
    ensures n <= 4
  {
    if Valid(g, w, h) && Inside(w, h, p) then
      Count(IsCorner(g, w, h, p, -1, -1)) + Count(IsCorner(g, w, h, p, -1, 1)) +
      Count(IsCorner(g, w, h, p, 1, -1)) + Count(IsCorner(g, w, h, p, 1, 1))
    else 0
  }

  /** A plot with no neighbour of its plant has all four corners. */
  lemma LoneCorners(g: Plots, w: nat, h: nat, p: Point)
    requires Valid(g, w, h) && Inside(w, h, p)
    requires forall q :: q in Sides(p) ==> !Joins(g, w, h, p, q)
    ensures Corners(g, w, h, p) == 4
  {
    var s := Sides(p);
    assert s[0] in s && s[1] in s && s[2] in s && s[3] in s;
  }

  /** Part two: the sum over the regions of area times corners. */
  method Solve(g: Plots, w: nat, h: nat) returns (price: nat, ghost parts: seq<seq<Point>>)
    requires Valid(g, w, h)
    ensures Partition(g, w, h, parts) && price == Price(parts, p => Corners(g, w, h, p))
  {
    price, parts := Garden.Solve(g, w, h, p => Corners(g, w, h, p));
  }
}


=== FILE: day13.dfy ===
/** Day 13, part two: claw machines with two buttons. Button A moves the
    claw by (dx_a, dy_a) for 3 tokens, button B by (dx_b, dy_b) for 1; the
    prize is at (x, y), moved 10000000000000 further along both axes. A
    machine is won with exactly one positive combination of presses when
    the two moves are not parallel; the answer is the fewest tokens over
    the machines that can be won. */

module Day13b {
  import opened Wrappers
  import Arith

  /** How far the prizes are moved when the machines are read. */
  const Offset: nat := 10000000000000

  datatype Equation = Equation(dx_a: nat, dy_a: nat, dx_b: nat, dy_b: nat, x: nat, y: nat)

  /** The prize moved by `Offset`, as the reader does. */
  function Moved(eq: Equation): (r: Equation)
    ensures r.x == eq.x + Offset && r.y == eq.y + Offset
    ensures r.dx_a == eq.dx_a && r.dy_a == eq.dy_a && r.dx_b == eq.dx_b && r.dy_b == eq.dy_b
  {
    eq.(x := eq.x + Offset, y := eq.y + Offset)
  }

  /** `a` presses of A and `b` of B land the claw on the prize. */
  predicate Wins(eq: Equation, a: int, b: int)
  {
    a * eq.dx_a + b * eq.dx_b == eq.x && a * eq.dy_a + b * eq.dy_b == eq.y
  }

  /** Cramer's rule on the two unsigned cross products: no answer for
      parallel moves, otherwise the quotients when both numerators lie
      strictly on the determinant's side and divide exactly. */
  function Solve(eq: Equation): Option<(nat, nat)>
  {
    var n0 := eq.dy_b * eq.x;
    var n1 := eq.dx_b * eq.y;
    var m0 := eq.dx_a * eq.y;
    var m1 := eq.dy_a * eq.x;
    var det0 := eq.dx_a * eq.dy_b;
    var det1 := eq.dx_b * eq.dy_a;
    if det1 == det0 then None
    else if det0 > det1 && n0 > n1 && m0 > m1 then
      var det, n, m := det0 - det1, n0 - n1, m0 - m1;
      if n % det == 0 && m % det == 0 then Some((n / det, m / det)) else None
    else if det1 > det0 && n1 > n0 && m1 > m0 then
      var det, n, m := det1 - det0, n1 - n0, m1 - m0;
      if n % det == 0 && m % det == 0 then Some((n / det, m / det)) else None
    else None
  }

  /** The signed determinant and numerators of Cramer's rule. */
  function Det(eq: Equation): int
  {
    eq.dx_a * eq.dy_b - eq.dx_b * eq.dy_a
  }

  /** A win multiplies out to the numerators: `a * Det` and `b * Det`. */
  lemma Cramer(eq: Equation, a: int, b: int)
    requires Wins(eq, a, b)
    ensures eq.dy_b * eq.x - eq.dx_b * eq.y == a * Det(eq)
    ensures eq.dx_a * eq.y - eq.dy_a * eq.x == b * Det(eq)
  {
    calc {
      eq.dy_b * eq.x - eq.dx_b * eq.y;
      eq.dy_b * (a * eq.dx_a + b * eq.dx_b) - eq.dx_b * (a * eq.dy_a + b * eq.dy_b);
      a * (eq.dx_a * eq.dy_b - eq.dx_b * eq.dy_a);
    }
    calc {
      eq.dx_a * eq.y - eq.dy_a * eq.x;
      eq.dx_a * (a * eq.dy_a + b * eq.dy_b) - eq.dy_a * (a * eq.dx_a + b * eq.dx_b);
      b * (eq.dx_a * eq.dy_b - eq.dx_b * eq.dy_a);
    }
  }

  /** The other direction: numerators that are multiples `a * Det` and
      `b * Det` of a nonzero determinant give a win. */
  lemma Uncramer(eq: Equation, a: int, b: int)
    requires Det(eq) != 0
    requires eq.dy_b * eq.x - eq.dx_b * eq.y == a * Det(eq)
    requires eq.dx_a * eq.y - eq.dy_a * eq.x == b * Det(eq)
    ensures Wins(eq, a, b)
  {
    var d := Det(eq);
    calc {
      (a * eq.dx_a + b * eq.dx_b) * d;
      eq.dx_a * (a * d) + eq.dx_b * (b * d);
      eq.dx_a * (eq.dy_b * eq.x - eq.dx_b * eq.y) + eq.dx_b * (eq.dx_a * eq.y - eq.dy_a * eq.x);
      eq.x * d;
    }
    calc {
      (a * eq.dy_a + b * eq.dy_b) * d;
      eq.dy_a * (a * d) + eq.dy_b * (b * d);
      eq.dy_a * (eq.dy_b * eq.x - eq.dx_b * eq.y) + eq.dy_b * (eq.dx_a * eq.y - eq.dy_a * eq.x);
      eq.y * d;
    }
    Cancel(a * eq.dx_a + b * eq.dx_b, eq.x, d);
    Cancel(a * eq.dy_a + b * eq.dy_b, eq.y, d);
  }

  lemma Cancel(u: int, v: int, d: int)
    requires d != 0 && u * d == v * d
    ensures u == v
  {
    assert (u - v) * d == 0;
  }

  /** An answer wins the machine with positive presses of both buttons. */
  lemma SolveSound(eq: Equation)
    requires Solve(eq).Some?
    ensures var (a, b) := Solve(eq).value; a > 0 && b > 0 && Wins(eq, a, b)
  {
    var (a, b) := Solve(eq).value;
    var det0, det1 := eq.dx_a * eq.dy_b, eq.dx_b * eq.dy_a;
    var n0, n1 := eq.dy_b * eq.x, eq.dx_b * eq.y;
    var m0, m1 := eq.dx_a * eq.y, eq.dy_a * eq.x;
    if det0 > det1 {
      assert n0 > n1 && m0 > m1;
      Exact(n0 - n1, det0 - det1);
      Exact(m0 - m1, det0 - det1);
    } else {
      assert n1 > n0 && m1 > m0;
      Exact(n1 - n0, det1 - det0);
      Exact(m1 - m0, det1 - det0);
    }
    Uncramer(eq, a, b);
  }

  /** An exact positive quotient. */
  lemma Exact(n: int, d: int)
    requires n > 0 && d > 0 && n % d == 0
    ensures n == (n / d) * d && n / d > 0
  {
  }

  /** A machine that can be won with positive presses and non-parallel
      moves gets that answer. */
  lemma SolveComplete(eq: Equation, a: nat, b: nat)
    requires a > 0 && b > 0 && Wins(eq, a, b) && Det(eq) != 0
    ensures Solve(eq) == Some((a, b))
  {
    Cramer(eq, a, b);
    var d := Det(eq);
    if d > 0 {
      QuotientOf(a, d);
      QuotientOf(b, d);
      MulPositive(a, d);
      MulPositive(b, d);
    } else {
      QuotientOf(a, -d);
      QuotientOf(b, -d);
      MulPositive(a, -d);
      MulPositive(b, -d);
      assert eq.dx_b * eq.y - eq.dy_b * eq.x == a * -d;
      assert eq.dy_a * eq.x - eq.dx_a * eq.y == b * -d;
    }
  }

  lemma QuotientOf(q: int, d: int)
    requires d > 0
    ensures (q * d) % d == 0 && (q * d) / d == q
  {
    Arith.DivMod(q * d, d, q, 0);
  }

  lemma MulPositive(q: int, d: int)
    requires q > 0 && d > 0
    ensures q * d > 0
  {
  }

  /** Parallel moves have no answer. */
  lemma SolveParallel(eq: Equation)
    requires Det(eq) == 0
    ensures Solve(eq) == None
  {
  }

  /** Tokens spent: 3 per press of A, 1 per press of B. */
  function Cost(presses: (nat, nat)): nat
  {
    presses.0 * 3 + presses.1
  }

  /** The answer: the tokens of every machine that has an answer. */
  function Tokens(eqs: seq<Equation>): nat
  {
    if |eqs| == 0 then 0
    else Tokens(eqs[..|eqs| - 1]) + match Solve(eqs[|eqs| - 1]) case Some(p) => Cost(p) case None => 0
  }

  /** Machines are independent: the tokens of two lists add up. */
  lemma {:induction false} TokensAppend(a: seq<Equation>, b: seq<Equation>)
    ensures Tokens(a + b) == Tokens(a) + Tokens(b)
    decreases |b|
  {
    if |b| == 0 {
      assert a + b == a;
    } else {
      assert (a + b)[..|a + b| - 1] == a + b[..|b| - 1];
      TokensAppend(a, b[..|b| - 1]);
    }
  }
}

=== FILE: day14.dfy ===
/** Day 14: robots moving on a 101 by 103 field whose edges wrap around.
    Part one counts the robots in the four quadrants after 100 seconds;
    part two keeps a count per cell, measures how clustered the robots
    are, and plots the most clustered moment. */

/** The robots and their movement, shared by both parts. */
module Robots {
  import Arith

  const Width: int := 101
  const Height: int := 103

  datatype Vector = Vector(x: int, y: int)
  datatype Robot = Robot(pos: Vector, dir: Vector)

  predicate InField(p: Vector)
  {
    0 <= p.x < Width && 0 <= p.y < Height
  }

  /** Velocities the wrap handles: less than one field in either direction. */
  predicate Bounded(d: Vector)
  {
    -Width < d.x < Width && -Height < d.y < Height
  }

  /** Robots the simulation can index: in the field, bounded velocity. */
  predicate Valid(rs: seq<Robot>)
  {
    forall i :: 0 <= i < |rs| ==> InField(rs[i].pos) && Bounded(rs[i].dir)
  }

  /** `pos + dir`: each coordinate moved and wrapped back into the field. */
  function Add(a: Vector, b: Vector): Vector
  {
    Vector(Arith.Rem(a.x + b.x + Width, Width), Arith.Rem(a.y + b.y + Height, Height))
  }

  lemma Shift(c: int, m: int)
    requires m > 0
    ensures (c + m) % m == c % m
  {
    Arith.DivMod(c + m, m, c / m + 1, c % m);
  }

  lemma ModAdd(a: int, b: int, m: int)
    requires m > 0
    ensures (a % m + b) % m == (a + b) % m
  {
    var t := a % m + b;
    Arith.DivMod(a + b, m, a / m + t / m, t % m);
  }

  /** For an in-field position and a bounded velocity the wrap is the
      mathematical modulo, so the robot stays in the field. */
  lemma AddWraps(a: Vector, b: Vector)
    requires InField(a) && Bounded(b)
    ensures Add(a, b) == Vector((a.x + b.x) % Width, (a.y + b.y) % Height)
    ensures InField(Add(a, b))
  {
    Shift(a.x + b.x, Width);
    Shift(a.y + b.y, Height);
  }

  /** One second of movement. */
  function Step(r: Robot): Robot
  {
    Robot(Add(r.pos, r.dir), r.dir)
  }

  function Steps(r: Robot, n: nat): Robot
  {
    if n == 0 then r else Step(Steps(r, n - 1))
  }

  /** After `n` seconds a robot is at its start plus `n` times its
      velocity, modulo the field, and its velocity is unchanged. */
  lemma {:induction false} StepsClosed(r: Robot, n: nat)
    requires InField(r.pos) && Bounded(r.dir)
    ensures Steps(r, n).dir == r.dir
    ensures Steps(r, n).pos == Vector((r.pos.x + n * r.dir.x) % Width, (r.pos.y + n * r.dir.y) % Height)
  {
    if n > 0 {
      StepsClosed(r, n - 1);
      var p := Steps(r, n - 1).pos;
      AddWraps(p, r.dir);
      ModAdd(r.pos.x + (n - 1) * r.dir.x, r.dir.x, Width);
      ModAdd(r.pos.y + (n - 1) * r.dir.y, r.dir.y, Height);
      assert (n - 1) * r.dir.x + r.dir.x == n * r.dir.x;
      assert (n - 1) * r.dir.y + r.dir.y == n * r.dir.y;
    }
  }

  /** Every robot moved once. */
  function Move(rs: seq<Robot>): seq<Robot>
  {
    seq(|rs|, i requires 0 <= i < |rs| => Step(rs[i]))
  }

  /** Every robot moved `n` times. */
  function After(rs: seq<Robot>, n: nat): seq<Robot>
  {
    seq(|rs|, i requires 0 <= i < |rs| => Steps(rs[i], n))
  }

  lemma AfterNext(rs: seq<Robot>, n: nat)
    ensures Move(After(rs, n)) == After(rs, n + 1)
  {
  }

  /** Moving keeps every robot in the field with its velocity. */
  lemma StaysValid(rs: seq<Robot>, n: nat)
    requires Valid(rs)
    ensures Valid(After(rs, n))
  {
    forall i | 0 <= i < |rs|
      ensures InField(After(rs, n)[i].pos) && Bounded(After(rs, n)[i].dir)
    {
      StepsClosed(rs[i], n);
    }
  }

  /** `robot.step()` for every robot, in place and in order. */
  method MoveAll(rs: seq<Robot>) returns (moved: seq<Robot>)
    ensures moved == Move(rs)
  {
    moved := rs;
    for j := 0 to |rs|
      invariant |moved| == |rs|
      invariant forall i :: 0 <= i < j ==> moved[i] == Step(rs[i])
      invariant forall i :: j <= i < |rs| ==> moved[i] == rs[i]
    {
      moved := moved[j := Step(moved[j])];
    }
  }

  /** `n` rounds of moving every robot: each robot moved `n` times. */
  method Simulate(robots: seq<Robot>, n: nat) returns (rs: seq<Robot>)
    ensures rs == After(robots, n)
  {
    rs := robots;
    assert rs == After(robots, 0);
    for t := 0 to n
      invariant rs == After(robots, t)
    {
      rs := MoveAll(rs);
      AfterNext(robots, t);
    }
  }
}

/** Part one: the product of the robots per quadrant after 100 seconds. */
module Day14a {
  import opened Robots
  import Seqs

  const Seconds: nat := 100

  datatype Quadrant = TopLeft | TopRight | BottomLeft | BottomRight

  /** Strict comparisons: the middle row and column belong to no quadrant. */
  predicate In(p: Vector, q: Quadrant)
  {
    match q
    case TopLeft => p.x < Width / 2 && p.y < Height / 2
    case TopRight => p.x > Width / 2 && p.y < Height / 2
    case BottomLeft => p.x < Width / 2 && p.y > Height / 2
    case BottomRight => p.x > Width / 2 && p.y > Height / 2
  }

  function Inside(q: Quadrant): Robot -> bool
  {
    (r: Robot) => In(r.pos, q)
  }

  function OffCentre(r: Robot): bool
  {
    r.pos.x != Width / 2 && r.pos.y != Height / 2
  }

  function Count(rs: seq<Robot>, q: Quadrant): nat
  {
    Seqs.CountIf(rs, Inside(q))
  }

  function Factor(rs: seq<Robot>): nat
  {
    Count(rs, TopLeft) * Count(rs, TopRight) * Count(rs, BottomLeft) * Count(rs, BottomRight)
  }

  /** A position lies in some quadrant exactly when it is off the middle
      row and column, and then in only one. */
  lemma Quadrants(p: Vector)
    ensures (exists q :: In(p, q)) <==> p.x != Width / 2 && p.y != Height / 2
    ensures forall q, q' :: In(p, q) && In(p, q') ==> q == q'
  {
    if p.x != Width / 2 && p.y != Height / 2 {
      if p.x < Width / 2 {
        if p.y < Height / 2 { assert In(p, TopLeft); } else { assert In(p, BottomLeft); }
      } else {
        if p.y < Height / 2 { assert In(p, TopRight); } else { assert In(p, BottomRight); }
      }
    }
  }

  /** The four counts together are the robots off the middle lines. */
  lemma {:induction false} CountsAdd(rs: seq<Robot>)
    ensures Count(rs, TopLeft) + Count(rs, TopRight) + Count(rs, BottomLeft) + Count(rs, BottomRight)
         == Seqs.CountIf(rs, OffCentre)
    decreases |rs|
  {
    if |rs| > 0 {
      CountsAdd(rs[..|rs| - 1]);
      Quadrants(rs[|rs| - 1].pos);
    }
  }

  /** The safety factor after 100 seconds. */
  method Solve(robots: seq<Robot>) returns (result: nat)
    ensures result == Factor(After(robots, Seconds))
  {
    var rs := Simulate(robots, Seconds);
    var q1 := Seqs.CountIf(rs, Inside(TopLeft));
    var q2 := Seqs.CountIf(rs, Inside(TopRight));
    var q3 := Seqs.CountIf(rs, Inside(BottomLeft));
    var q4 := Seqs.CountIf(rs, Inside(BottomRight));
    result := q1 * q2 * q3 * q4;
  }
}

/** Part two: per-cell counts kept up to date while the robots move, the
    sum of differences between neighbouring counts as a measure of
    scatter, and the first moment where it is smallest. */
module Day14b {
  import opened Robots
  import Seqs
  import Arith

  const Cells: int := Width * Height
  const U32Max: int := 0xFFFF_FFFF

  /** Row-major index of a cell. */
  function Index(p: Vector): int
  {
    p.y * Width + p.x
  }

  function Cell(k: int): Vector
  {
    Vector(k % Width, k / Width)
  }

  /** Indexing is a bijection between the field and `0..Cells`. */
  lemma IndexCell(p: Vector)
    requires InField(p)
    ensures 0 <= Index(p) < Cells && Cell(Index(p)) == p
  {
    Arith.DivMod(Index(p), Width, p.y, p.x);
  }

  lemma CellIndex(k: int)
    requires 0 <= k < Cells
    ensures InField(Cell(k)) && Index(Cell(k)) == k
  {
  }

  function At(k: int): Robot -> bool
  {
    (r: Robot) => Index(r.pos) == k
  }

  /** The robots standing on cell `k`. */
  function Tally(rs: seq<Robot>, k: int): nat
  {
    Seqs.CountIf(rs, At(k))
  }

  function Tallies(rs: seq<Robot>): seq<int>
  {
    seq(Cells, k => Tally(rs, k))
  }

  /** `counts` holds the number of robots on every cell. */
  ghost predicate Tallied(counts: seq<int>, rs: seq<Robot>)
  {
    |counts| == Cells && forall k :: 0 <= k < Cells ==> counts[k] == Tally(rs, k)
  }

  lemma TalliedIs(counts: seq<int>, rs: seq<Robot>)
    requires Tallied(counts, rs)
    ensures counts == Tallies(rs)
  {
  }

  /** One more robot adds one to its cell. */
  lemma Arrive(counts: seq<int>, rs: seq<Robot>, r: Robot)
    requires Tallied(counts, rs) && InField(r.pos)
    ensures Index(r.pos) < |counts|
    ensures Tallied(counts[Index(r.pos) := counts[Index(r.pos)] + 1], rs + [r])
    ensures Seqs.Sum(counts[Index(r.pos) := counts[Index(r.pos)] + 1]) == Seqs.Sum(counts) + 1
  {
    IndexCell(r.pos);
    assert (rs + [r])[..|rs|] == rs;
    Seqs.SumUpdate(counts, Index(r.pos), counts[Index(r.pos)] + 1);
  }

  /** A robot moving from one cell to another: one less on the first, one
      more on the second. */
  lemma Relocate(counts: seq<int>, rs: seq<Robot>, j: nat, v: Robot)
    requires Tallied(counts, rs) && j < |rs| && InField(rs[j].pos) && InField(v.pos)
    ensures Index(rs[j].pos) < |counts| && Index(v.pos) < |counts|
    ensures var left := counts[Index(rs[j].pos) := counts[Index(rs[j].pos)] - 1];
      Tallied(left[Index(v.pos) := left[Index(v.pos)] + 1], rs[j := v]) &&
      Seqs.Sum(left[Index(v.pos) := left[Index(v.pos)] + 1]) == Seqs.Sum(counts)
  {
    var a, b := Index(rs[j].pos), Index(v.pos);
    IndexCell(rs[j].pos);
    IndexCell(v.pos);
    var left := counts[a := counts[a] - 1];
    var counts', rs' := left[b := left[b] + 1], rs[j := v];
    forall k | 0 <= k < Cells
      ensures counts'[k] == Tally(rs', k)
    {
      Seqs.CountIfUpdate(rs, j, v, At(k));
    }
    Seqs.SumUpdate(counts, a, counts[a] - 1);
    Seqs.SumUpdate(left, b, left[b] + 1);
  }

  /** The initial census: one count per robot on its cell. */
  method Census(robots: seq<Robot>) returns (counts: seq<int>)
    requires Valid(robots)
    ensures Tallied(counts, robots) && Seqs.Sum(counts) == |robots|
  {
    counts := seq(Cells, _ => 0);
    Zeros(counts);
    for j := 0 to |robots|
      invariant Tallied(counts, robots[..j]) && Seqs.Sum(counts) == j
    {
      Arrive(counts, robots[..j], robots[j]);
      assert robots[..j + 1] == robots[..j] + [robots[j]];
      counts := counts[Index(robots[j].pos) := counts[Index(robots[j].pos)] + 1];
    }
    assert robots[..|robots|] == robots;
  }

  lemma {:induction false} Zeros(s: seq<int>)
    requires forall i :: 0 <= i < |s| ==> s[i] == 0
    ensures Seqs.Sum(s) == 0
    decreases |s|
  {
    if |s| > 0 {
      Zeros(s[..|s| - 1]);
    }
  }

  /** One second for every robot, taking each off its old cell and onto
      its new one; the counts stay the tally and keep their total. */
  method StepAll(rs: seq<Robot>, counts: seq<int>) returns (moved: seq<Robot>, counts': seq<int>)
    requires Valid(rs) && Tallied(counts, rs)
    ensures moved == Move(rs) && Tallied(counts', moved)
    ensures Seqs.Sum(counts') == Seqs.Sum(counts)
  {
    moved, counts' := rs, counts;
    for j := 0 to |rs|
      invariant |moved| == |rs|
      invariant forall i :: 0 <= i < j ==> moved[i] == Step(rs[i])
      invariant forall i :: j <= i < |rs| ==> moved[i] == rs[i]
      invariant Tallied(counts', moved) && Seqs.Sum(counts') == Seqs.Sum(counts)
    {
      var r := moved[j];
      var r' := Step(r);
      AddWraps(r.pos, r.dir);
      Relocate(counts', moved, j, r');
      counts' := counts'[Index(r.pos) := counts'[Index(r.pos)] - 1];
      counts' := counts'[Index(r'.pos) := counts'[Index(r'.pos)] + 1];
      moved := moved[j := r'];
    }
  }

  /** Sum of the differences between neighbouring counts. */
  function DeltaSum(c: seq<int>): int
  {
    if |c| < 2 then 0 else DeltaSum(c[..|c| - 1]) + Seqs.Abs(c[|c| - 1] - c[|c| - 2])
  }

  /** For non-negative counts the differences add up to at most twice the
      total, less the two end counts. */
  lemma {:induction false} DeltaBound(c: seq<int>)
    requires |c| >= 1 && forall i :: 0 <= i < |c| ==> c[i] >= 0
    ensures DeltaSum(c) + c[0] + c[|c| - 1] <= 2 * Seqs.Sum(c)
    decreases |c|
  {
    if |c| >= 2 {
      DeltaBound(c[..|c| - 1]);
    } else {
      assert c[..0] == [];
    }
  }

  /** How scattered the robots are. */
  function Spread(rs: seq<Robot>): int
  {
    DeltaSum(Tallies(rs))
  }

  /** The spread after iteration `t` of the search, which numbers the
      seconds from zero: the robots have moved `t + 1` times. */
  function SpreadAt(robots: seq<Robot>, t: nat): int
  {
    Spread(After(robots, t + 1))
  }

  /** The search state after `i` iterations: `minSum` is below every
      spread seen, and unless it is still the initial `U32Max` it is the
      spread of `minState` at `minIter`, the first iteration reaching it. */
  ghost predicate Best(robots: seq<Robot>, i: nat, minSum: int, minIter: int, minState: seq<Robot>)
  {
    0 <= minIter < Cells && minSum <= U32Max &&
    (forall t :: 0 <= t < i ==> minSum <= SpreadAt(robots, t)) &&
    (minSum < U32Max ==>
      minIter < i && minState == After(robots, minIter + 1) && minSum == SpreadAt(robots, minIter) &&
      forall t :: 0 <= t < minIter ==> minSum < SpreadAt(robots, t))
  }

  /** A new spread replaces the minimum only when strictly smaller. */
  lemma Improve(robots: seq<Robot>, i: nat, minSum: int, minIter: int, minState: seq<Robot>, rs: seq<Robot>, delta: int)
    requires Best(robots, i, minSum, minIter, minState) && i < Cells
    requires rs == After(robots, i + 1) && delta == SpreadAt(robots, i)
    ensures delta < minSum ==> Best(robots, i + 1, delta, i, rs)
    ensures delta >= minSum ==> Best(robots, i + 1, minSum, minIter, minState)
  {
  }

  /** The iteration at which the robots are least scattered: the first of
      the `Cells` iterations whose spread is the minimum, and the robots
      at that moment. */
  method Search(robots: seq<Robot>) returns (minSum: int, minIter: int, minState: seq<Robot>)
    requires Valid(robots)
    ensures 0 <= minIter < Cells && minSum <= U32Max
    ensures forall t :: 0 <= t < Cells ==> minSum <= SpreadAt(robots, t)
    ensures minSum < U32Max ==> minState == After(robots, minIter + 1) && minSum == SpreadAt(robots, minIter)
    ensures minSum < U32Max ==> forall t :: 0 <= t < minIter ==> minSum < SpreadAt(robots, t)
    ensures 2 * |robots| < U32Max ==> minSum < U32Max
  {
    var rs := robots;
    var counts := Census(robots);
    assert rs == After(robots, 0);
    minSum, minIter, minState := U32Max, 0, [];
    for i := 0 to Cells
      invariant rs == After(robots, i) && Valid(rs)
      invariant Tallied(counts, rs) && Seqs.Sum(counts) == |robots|
      invariant Best(robots, i, minSum, minIter, minState)
      invariant 2 * |robots| < U32Max && i > 0 ==> minSum < U32Max
    {
      rs, counts := StepAll(rs, counts);
      AfterNext(robots, i);
      StaysValid(robots, i + 1);
      TalliedIs(counts, rs);
      DeltaBound(counts);
      var delta := DeltaSum(counts);
      Improve(robots, i, minSum, minIter, minState, rs, delta);
      if delta < minSum {
        minSum, minIter, minState := delta, i, rs;
      }
    }
  }

  /** One line of the plot: `X` where a robot stands, blank elsewhere. */
  function Line(ps: set<Vector>, y: int): (r: seq<char>)
    ensures |r| == Width + 1 && r[Width] == '\n'
    ensures forall x :: 0 <= x < Width ==> (r[x] == 'X' <==> Vector(x, y) in ps)
    ensures forall x :: 0 <= x < Width ==> r[x] in {'X', ' '}
  {
    seq(Width, x => if Vector(x, y) in ps then 'X' else ' ') + ['\n']
  }

  function Rows(ps: set<Vector>, n: nat): (r: seq<char>)
    ensures |r| == n * (Width + 1)
  {
    if n == 0 then [] else Rows(ps, n - 1) + Line(ps, n - 1)
  }

  function Positions(rs: seq<Robot>): set<Vector>
  {
    set r | r in rs :: r.pos
  }

  /** The picture of the robots, row by row. */
  function Plot(rs: seq<Robot>): seq<char>
  {
    Rows(Positions(rs), Height)
  }

  lemma {:induction false} RowsCell(ps: set<Vector>, n: nat, x: int, y: int)
    requires 0 <= y < n && 0 <= x <= Width
    ensures Rows(ps, n)[y * (Width + 1) + x] == Line(ps, y)[x]
    decreases n
  {
    if y < n - 1 {
      RowsCell(ps, n - 1, x, y);
    }
  }

  /** The plot has `Height` lines of `Width` cells and a line break; a
      cell shows `X` exactly when some robot stands on it. */
  lemma PlotCell(rs: seq<Robot>, x: int, y: int)
    requires 0 <= x < Width && 0 <= y < Height
    ensures |Plot(rs)| == Height * (Width + 1)
    ensures Plot(rs)[y * (Width + 1) + Width] == '\n'
    ensures Plot(rs)[y * (Width + 1) + x] == 'X' <==> exists i :: 0 <= i < |rs| && rs[i].pos == Vector(x, y)
  {
    RowsCell(Positions(rs), Height, x, y);
    RowsCell(Positions(rs), Height, Width, y);
    if Vector(x, y) in Positions(rs) {
      var r :| r in rs && r.pos == Vector(x, y);
      var i :| 0 <= i < |rs| && rs[i] == r;
    }
  }
}

=== FILE: day15.dfy ===
/** Day 15, part two: a robot pushing boxes two cells wide through a
    warehouse. The map is widened, parsed, the robot follows the moves,
    and the answer sums `100 * y + x` over the left halves of the boxes. */

module Day15b {
  import opened Wrappers
  import Seqs
  import Grids

  datatype Tile = Robot | Empty | Wall | BoxL | BoxR
  datatype DirectionH = Left | Right
  datatype DirectionV = Up | Down
  datatype Direction = Horizontal(h: DirectionH) | Vertical(v: DirectionV)

  datatype Pos = Pos(x: int, y: int)

  type Grid = seq<seq<Tile>>

  /** The warehouse: its tiles, where the robot stands, and its size. */
  datatype Map = Map(tiles: Grid, robot: Pos, width: nat, height: nat)

  /** The character each tile is drawn with in the input. */
  function Symbol(t: Tile): char
  {
    match t
    case Robot => '@'
    case Empty => '.'
    case Wall => '#'
    case BoxL => '['
    case BoxR => ']'
  }

  /** `Tile::from`; `None` where the source panics on an unknown character. */
  function TileOf(c: char): Option<Tile>
  {
    match c
    case '@' => Some(Robot)
    case '.' => Some(Empty)
    case '#' => Some(Wall)
    case '[' => Some(BoxL)
    case ']' => Some(BoxR)
    case _ => None
  }

  /** Reading a character and drawing a tile are inverse. */
  lemma TileSymbol(c: char, t: Tile)
    ensures TileOf(c) == Some(t) <==> Symbol(t) == c
  {
  }

  /** The character each move is written with. */
  function Arrow(d: Direction): char
  {
    match d
    case Vertical(Up) => '^'
    case Vertical(Down) => 'v'
    case Horizontal(Left) => '<'
    case Horizontal(Right) => '>'
  }

  /** `Direction::from_char`: the four arrows, nothing else. */
  function DirectionOf(c: char): Option<Direction>
  {
    match c
    case '^' => Some(Vertical(Up))
    case 'v' => Some(Vertical(Down))
    case '<' => Some(Horizontal(Left))
    case '>' => Some(Horizontal(Right))
    case _ => None
  }

  lemma DirectionArrow(c: char, d: Direction)
    ensures DirectionOf(c) == Some(d) <==> Arrow(d) == c
  {
  }

  /** The moves of the move list; other characters, line breaks among
      them, are skipped. */
  function Directions(s: seq<char>): (r: seq<Direction>)
    ensures |r| <= |s|
  {
    if |s| == 0 then []
    else
      Directions(s[..|s| - 1]) + match DirectionOf(s[|s| - 1]) case Some(d) => [d] case None => []
  }

  function Arrows(ds: seq<Direction>): (r: seq<char>)
  {
    if |ds| == 0 then [] else Arrows(ds[..|ds| - 1]) + [Arrow(ds[|ds| - 1])]
  }

  /** Writing moves down and reading them back gives the same moves. */
  lemma {:induction false} DirectionsArrows(ds: seq<Direction>)
    ensures Directions(Arrows(ds)) == ds
    decreases |ds|
  {
    if |ds| > 0 {
      DirectionsArrows(ds[..|ds| - 1]);
      var s := Arrows(ds);
      assert s[..|s| - 1] == Arrows(ds[..|ds| - 1]);
      DirectionArrow(s[|s| - 1], ds[|ds| - 1]);
    }
  }

  /** Reading a move list in two pieces gives the moves of both. */
  lemma {:induction false} DirectionsAppend(a: seq<char>, b: seq<char>)
    ensures Directions(a + b) == Directions(a) + Directions(b)
    decreases |b|
  {
    if |b| == 0 {
      assert a + b == a;
    } else {
      assert (a + b)[..|a + b| - 1] == a + b[..|b| - 1];
      DirectionsAppend(a, b[..|b| - 1]);
    }
  }

  // ---- Widening the map ----

  /** What each input character becomes in the wide warehouse. */
  function Wide(c: char): (r: seq<char>)
    ensures Narrow(c) ==> |r| == 2
  {
    match c
    case '#' => "##"
    case 'O' => "[]"
    case '.' => ".."
    case '@' => "@."
    case _ => [c]
  }

  function Widen(s: seq<char>): seq<char>
  {
    if |s| == 0 then [] else Widen(s[..|s| - 1]) + Wide(s[|s| - 1])
  }

  predicate Narrow(c: char)
  {
    c == '#' || c == 'O' || c == '.' || c == '@'
  }

  lemma {:induction false} WidenLength(s: seq<char>)
    requires forall k :: 0 <= k < |s| ==> Narrow(s[k])
    ensures |Widen(s)| == 2 * |s|
    decreases |s|
  {
    if |s| > 0 {
      WidenLength(s[..|s| - 1]);
    }
  }

  /** A line of map characters doubles in width, each character becoming
      the two cells at `2 * i` and `2 * i + 1`. */
  lemma {:induction false} WidenAt(s: seq<char>, i: nat)
    requires forall k :: 0 <= k < |s| ==> Narrow(s[k])
    requires i < |s|
    ensures |Widen(s)| == 2 * |s|
    ensures Widen(s)[2 * i] == Wide(s[i])[0] && Widen(s)[2 * i + 1] == Wide(s[i])[1]
    decreases |s|
  {
    var t := s[..|s| - 1];
    WidenLength(s);
    WidenLength(t);
    if i < |t| {
      WidenAt(t, i);
      assert s[i] == t[i];
    }
  }

  // ---- Parsing ----

  /** One line of tiles; `None` when a character is not a tile. */
  function DecodeRow(line: seq<char>): (r: Option<seq<Tile>>)
    ensures r.Some? ==> |r.value| == |line| && forall i :: 0 <= i < |line| ==> Symbol(r.value[i]) == line[i]
    ensures r.None? <==> exists i :: 0 <= i < |line| && TileOf(line[i]).None?
  {
    if |line| == 0 then Some([])
    else
      var last := line[|line| - 1];
      match (DecodeRow(line[..|line| - 1]), TileOf(last))
      case (Some(row), Some(t)) =>
        TileSymbol(last, t);
        Some(row + [t])
      case _ => None
  }

  function DecodeRows(lines: seq<seq<char>>): (r: Option<Grid>)
    ensures r.Some? ==> |r.value| == |lines| && forall y :: 0 <= y < |lines| ==> DecodeRow(lines[y]) == Some(r.value[y])
    ensures r.None? <==> exists y :: 0 <= y < |lines| && DecodeRow(lines[y]).None?
  {
    if |lines| == 0 then Some([])
    else
      match (DecodeRows(lines[..|lines| - 1]), DecodeRow(lines[|lines| - 1]))
      case (Some(g), Some(row)) => Some(g + [row])
      case _ => None
  }

  /** The first robot in a row. */
  function FindInRow(row: seq<Tile>): (r: Option<nat>)
    ensures r.Some? ==> r.value < |row| && row[r.value] == Robot && forall x :: 0 <= x < r.value ==> row[x] != Robot
    ensures r.None? ==> forall x :: 0 <= x < |row| ==> row[x] != Robot
  {
    if |row| == 0 then None
    else if row[0] == Robot then Some(0)
    else match FindInRow(row[1..]) case Some(x) => Some(x + 1) case None => None
  }

  /** The first robot reading row by row from row `y`. */
  function FindRobot(g: Grid, y: nat): (r: Option<Pos>)
    requires y <= |g|
    ensures r.Some? ==> y <= r.value.y < |g| && 0 <= r.value.x < |g[r.value.y]| && g[r.value.y][r.value.x] == Robot
    ensures r.Some? ==> forall j, x :: y <= j < r.value.y && 0 <= x < |g[j]| ==> g[j][x] != Robot
    ensures r.Some? ==> forall x :: 0 <= x < r.value.x ==> g[r.value.y][x] != Robot
    ensures r.None? ==> forall j, x :: y <= j < |g| && 0 <= x < |g[j]| ==> g[j][x] != Robot
    decreases |g| - y
  {
    if y == |g| then None
    else match FindInRow(g[y])
      case Some(x) => Some(Pos(x, y))
      case None => FindRobot(g, y + 1)
  }

  /** `Map::parse`: the tiles, the first robot, the width of the first
      row. `None` where the source panics (no line, an unknown character,
      no robot) and for a warehouse whose rows differ in length. */
  function Parse(lines: seq<seq<char>>): (r: Option<Map>)
    ensures r.Some? ==> Valid(r.value) && r.value.tiles[r.value.robot.y][r.value.robot.x] == Robot
  {
    if |lines| == 0 then None
    else match DecodeRows(lines)
      case None => None
      case Some(g) =>
        match FindRobot(g, 0)
        case None => None
        case Some(p) =>
          if Grids.IsGrid(g, |g[0]|, |g|) then Some(Map(g, p, |g[0]|, |g|)) else None
  }

  // ---- Tiles and their counts ----

  /** A map the moves can work on: rectangular, robot inside. */
  predicate Valid(m: Map)
  {
    Grids.IsGrid(m.tiles, m.width, m.height) && Grids.InBounds(m.width, m.height, m.robot.x, m.robot.y)
  }

  /** `Map::get`, reading anything off the map as a wall (the source
      never reads there on a well-formed warehouse). */
  function Get(g: Grid, w: nat, h: nat, x: int, y: int): Tile
    requires Grids.IsGrid(g, w, h)
  {
    if Grids.InBounds(w, h, x, y) then g[y][x] else Wall
  }

  /** `Map::swap`: the two addressed tiles trade places. */
  function Swap(g: Grid, w: nat, h: nat, x1: int, y1: int, x2: int, y2: int): (r: Grid)
    requires Grids.IsGrid(g, w, h) && Grids.InBounds(w, h, x1, y1) && Grids.InBounds(w, h, x2, y2)
    ensures Grids.IsGrid(r, w, h)
    ensures r[y1][x1] == g[y2][x2] && r[y2][x2] == g[y1][x1]
    ensures forall y, x :: 0 <= y < h && 0 <= x < w && (x != x1 || y != y1) && (x != x2 || y != y2) ==> r[y][x] == g[y][x]
    ensures SameTiles(r, g)
  {
    var tmp := g[y1][x1];
    var g1 := Grids.Set(g, x1, y1, g[y2][x2]);
    SetCount(g, x1, y1, g[y2][x2]);
    SetCount(g1, x2, y2, tmp);
    Grids.Set(g1, x2, y2, tmp)
  }

  function Is(t: Tile): Tile -> bool
  {
    u => u == t
  }

  function RowCounts(g: Grid, t: Tile): seq<int>
  {
    seq(|g|, y requires 0 <= y < |g| => Seqs.CountIf(g[y], Is(t)))
  }

  /** How many tiles of kind `t` the grid holds. */
  function Count(g: Grid, t: Tile): int
  {
    Seqs.Sum(RowCounts(g, t))
  }

  ghost predicate SameTiles(a: Grid, b: Grid)
  {
    forall t :: Count(a, t) == Count(b, t)
  }

  /** Overwriting a tile removes one of the old kind and adds one of the
      new. */
  lemma SetCount(g: Grid, x: nat, y: nat, v: Tile)
    requires y < |g| && x < |g[y]|
    ensures forall t :: Count(Grids.Set(g, x, y, v), t) + (if g[y][x] == t then 1 else 0) == Count(g, t) + (if v == t then 1 else 0)
  {
    forall t
      ensures Count(Grids.Set(g, x, y, v), t) + (if g[y][x] == t then 1 else 0) == Count(g, t) + (if v == t then 1 else 0)
    {
      var r := Grids.Set(g, x, y, v);
      Seqs.CountIfUpdate(g[y], x, v, Is(t));
      assert RowCounts(r, t) == RowCounts(g, t)[y := Seqs.CountIf(g[y][x := v], Is(t))];
      Seqs.SumUpdate(RowCounts(g, t), y, Seqs.CountIf(g[y][x := v], Is(t)));
    }
  }

  // ---- Horizontal pushes ----

  function StepH(x: int, d: DirectionH): int
  {
    match d
    case Left => x - 1
    case Right => x + 1
  }

  /** `try_move_horizontal`: push the tile at `(x, y)` one cell along the
      row, pushing any boxes in the way. A tile that cannot move (border,
      wall, a chain of boxes ending in either) leaves the grid unchanged;
      the robot as obstacle is modelled as blocking. */
  function TryMoveH(g: Grid, w: nat, h: nat, x: int, y: int, d: DirectionH): (r: (Option<Pos>, Grid))
    requires Grids.IsGrid(g, w, h) && Grids.InBounds(w, h, x, y)
    ensures Grids.IsGrid(r.1, w, h) && SameTiles(r.1, g)
    ensures r.0.None? ==> r.1 == g
    ensures r.0.Some? ==> r.0.value == Pos(StepH(x, d), y) && Grids.InBounds(w, h, StepH(x, d), y)
    decreases if d == Left then x else w - x
  {
    if x == 0 && d == Left then (None, g)
    else if x == w - 1 && d == Right then (None, g)
    else
      var x1 := StepH(x, d);
      match g[y][x1]
      case Robot => (None, g)
      case Empty => (Some(Pos(x1, y)), Swap(g, w, h, x, y, x1, y))
      case Wall => (None, g)
      case _ =>
        var (moved, g') := TryMoveH(g, w, h, x1, y, d);
        if moved.Some? then (Some(Pos(x1, y)), Swap(g', w, h, x, y, x1, y)) else (None, g')
  }

  /** The first cell past `x` along the row that is not a box half, when
      it is empty: where a push from `x` ends. */
  function Reach(g: Grid, w: nat, h: nat, x: int, y: int, d: DirectionH): (r: Option<int>)
    requires Grids.IsGrid(g, w, h) && Grids.InBounds(w, h, x, y)
    ensures r.Some? ==> Grids.InBounds(w, h, r.value, y) && g[y][r.value] == Empty
    ensures r.Some? ==> Between(r.value, x, r.value, d)
    decreases if d == Left then x else w - x
  {
    if x == 0 && d == Left then None
    else if x == w - 1 && d == Right then None
    else
      var x1 := StepH(x, d);
      match g[y][x1]
      case Empty => Some(x1)
      case BoxL => Reach(g, w, h, x1, y, d)
      case BoxR => Reach(g, w, h, x1, y, d)
      case _ => None
  }

  /** `i` lies past `x` up to and including `e` along direction `d`. */
  predicate Between(i: int, x: int, e: int, d: DirectionH)
  {
    if d == Right then x < i <= e else e <= i < x
  }

  /** The cell before `i` when moving along `d`. */
  function Back(i: int, d: DirectionH): int
  {
    match d
    case Left => i + 1
    case Right => i - 1
  }

  /** `r` is `g` with the run from `x` to `e` in row `y` shifted one cell
      along `d`: the tile at `e` reappears at `x`, every other cell of
      the run holds what stood before it, and nothing else changes. */
  ghost predicate Shifted(g: Grid, r: Grid, w: nat, h: nat, x: int, y: int, e: int, d: DirectionH)
    requires Grids.IsGrid(g, w, h) && Grids.IsGrid(r, w, h)
    requires Grids.InBounds(w, h, x, y) && Grids.InBounds(w, h, e, y)
  {
    r[y][x] == g[y][e] &&
    (forall i :: 0 <= i < w && Between(i, x, e, d) ==> 0 <= Back(i, d) < w && r[y][i] == g[y][Back(i, d)]) &&
    (forall i :: 0 <= i < w && i != x && !Between(i, x, e, d) ==> r[y][i] == g[y][i]) &&
    (forall j :: 0 <= j < h && j != y ==> r[j] == g[j])
  }

  /** A push succeeds exactly when the row holds an empty cell past the
      boxes, and then it shifts the run up to that cell by one. */
  lemma {:induction false} PushShifts(g: Grid, w: nat, h: nat, x: int, y: int, d: DirectionH)
    requires Grids.IsGrid(g, w, h) && Grids.InBounds(w, h, x, y)
    ensures TryMoveH(g, w, h, x, y, d).0.Some? <==> Reach(g, w, h, x, y, d).Some?
    ensures Reach(g, w, h, x, y, d).Some? ==>
      Shifted(g, TryMoveH(g, w, h, x, y, d).1, w, h, x, y, Reach(g, w, h, x, y, d).value, d)
    decreases if d == Left then x else w - x
  {
    if (x == 0 && d == Left) || (x == w - 1 && d == Right) {
    } else {
      var x1 := StepH(x, d);
      if g[y][x1] == Empty {
        PushEnd(g, w, h, x, y, d);
      } else if g[y][x1] == BoxL || g[y][x1] == BoxR {
        PushShifts(g, w, h, x1, y, d);
        var inner := TryMoveH(g, w, h, x1, y, d);
        if inner.0.Some? {
          PushStep(g, inner.1, w, h, x, y, d, Reach(g, w, h, x1, y, d).value);
        }
      }
    }
  }

  /** The last link: the tile moves into the empty cell next to it. */
  lemma PushEnd(g: Grid, w: nat, h: nat, x: int, y: int, d: DirectionH)
    requires Grids.IsGrid(g, w, h) && Grids.InBounds(w, h, x, y)
    requires Grids.InBounds(w, h, StepH(x, d), y)
    ensures Shifted(g, Swap(g, w, h, x, y, StepH(x, d), y), w, h, x, y, StepH(x, d), d)
  {
    var r := Swap(g, w, h, x, y, StepH(x, d), y);
    forall j | 0 <= j < h && j != y
      ensures r[j] == g[j]
    {
      assert forall i :: 0 <= i < w ==> r[j][i] == g[j][i];
    }
  }

  /** One link of the chain: the run past `x` has shifted already, and
      the tile at `x` moves into the cell that became free next to it. */
  lemma PushStep(g: Grid, g1: Grid, w: nat, h: nat, x: int, y: int, d: DirectionH, e: int)
    requires Grids.IsGrid(g, w, h) && Grids.IsGrid(g1, w, h) && Grids.InBounds(w, h, x, y)
    requires Grids.InBounds(w, h, StepH(x, d), y) && Grids.InBounds(w, h, e, y)
    requires Between(e, x, e, d) && Shifted(g, g1, w, h, StepH(x, d), y, e, d)
    ensures Shifted(g, Swap(g1, w, h, x, y, StepH(x, d), y), w, h, x, y, e, d)
  {
    var x1 := StepH(x, d);
    var r := Swap(g1, w, h, x, y, x1, y);
    forall i | 0 <= i < w && Between(i, x, e, d)
      ensures 0 <= Back(i, d) < w && r[y][i] == g[y][Back(i, d)]
    {
      if i != x1 {
        assert Between(i, x1, e, d);
      }
    }
    forall i | 0 <= i < w && i != x && !Between(i, x, e, d)
      ensures r[y][i] == g[y][i]
    {
      assert i != x1 && !Between(i, x1, e, d);
    }
    forall j | 0 <= j < h && j != y
      ensures r[j] == g[j]
    {
      assert forall i :: 0 <= i < w ==> r[j][i] == g1[j][i];
    }
  }

  // ---- Vertical pushes ----

  /** Row `yy` lies behind row `y` when pushing in direction `d`. */
  predicate Behind(yy: int, y: int, d: DirectionV)
  {
    match d
    case Up => yy > y
    case Down => yy < y
  }

  function StepV(y: int, d: DirectionV): int
  {
    match d
    case Up => y - 1
    case Down => y + 1
  }

  /** `can_move_vertical`: whether the tile at `(x, y)` can move one row
      up or down, a box half needing both halves movable. It only reads
      the grid. */
  function CanMoveV(g: Grid, w: nat, h: nat, x: int, y: int, d: DirectionV): bool
    requires Grids.IsGrid(g, w, h) && 0 <= y < h
    decreases if d == Up then y else h - y
  {
    if y == 0 && d == Up then false
    else if y == h - 1 && d == Down then false
    else
      var y1 := StepV(y, d);
      match Get(g, w, h, x, y1)
      case Robot => false
      case Empty => true
      case Wall => false
      case BoxL => CanMoveV(g, w, h, x, y1, d) && CanMoveV(g, w, h, x + 1, y1, d)
      case BoxR => CanMoveV(g, w, h, x, y1, d) && CanMoveV(g, w, h, x - 1, y1, d)
  }

  /** The basic cases of `can_move_vertical`: the border, a wall or the
      robot block, an empty cell lets through, a box needs both halves. */
  lemma CanMoveCases(g: Grid, w: nat, h: nat, x: int, y: int, d: DirectionV)
    requires Grids.IsGrid(g, w, h) && 0 <= y < h
    ensures CanMoveV(g, w, h, x, y, d) ==> 0 <= StepV(y, d) < h && 0 <= x < w
    ensures CanMoveV(g, w, h, x, y, d) ==> Get(g, w, h, x, StepV(y, d)) in {Empty, BoxL, BoxR}
    ensures 0 <= StepV(y, d) < h && Get(g, w, h, x, StepV(y, d)) == Empty ==> CanMoveV(g, w, h, x, y, d)
    ensures 0 <= StepV(y, d) < h && Get(g, w, h, x, StepV(y, d)) == BoxL ==>
      (CanMoveV(g, w, h, x, y, d) <==> CanMoveV(g, w, h, x, StepV(y, d), d) && CanMoveV(g, w, h, x + 1, StepV(y, d), d))
    ensures 0 <= StepV(y, d) < h && Get(g, w, h, x, StepV(y, d)) == BoxR ==>
      (CanMoveV(g, w, h, x, y, d) <==> CanMoveV(g, w, h, x, StepV(y, d), d) && CanMoveV(g, w, h, x - 1, StepV(y, d), d))
  {
  }

  /** `move_vertical`: push the tile at `(x, y)` one row along, pushing
      both halves of any box in the way first. The branches the source
      marks unreachable (a wall, the robot, a cell off the map) leave the
      grid unchanged. */
  function MoveV(g: Grid, w: nat, h: nat, x: int, y: int, d: DirectionV): (r: Grid)
    requires Grids.IsGrid(g, w, h) && Grids.InBounds(w, h, x, y)
    ensures Grids.IsGrid(r, w, h) && SameTiles(r, g)
    ensures forall yy, xx :: 0 <= yy < h && 0 <= xx < w && Behind(yy, y, d) ==> r[yy][xx] == g[yy][xx]
    ensures forall xx :: 0 <= xx < w && xx != x ==> r[y][xx] == g[y][xx]
    ensures CanMoveV(g, w, h, x, y, d) ==> r[y][x] == Empty && r[StepV(y, d)][x] == g[y][x]
    decreases if d == Up then y else h - y
  {
    var y1 := StepV(y, d);
    if !Grids.InBounds(w, h, x, y1) then g
    else match g[y1][x]
      case Empty => Swap(g, w, h, x, y, x, y1)
      case BoxL =>
        var g1 := MoveV(g, w, h, x, y1, d);
        var g2 := if x + 1 < w then MoveV(g1, w, h, x + 1, y1, d) else g1;
        Swap(g2, w, h, x, y, x, y1)
      case BoxR =>
        var g1 := MoveV(g, w, h, x, y1, d);
        var g2 := if x >= 1 then MoveV(g1, w, h, x - 1, y1, d) else g1;
        Swap(g2, w, h, x, y, x, y1)
      case _ => g
  }

  /** `try_move_vertical`: move only after `can_move_vertical` agrees. */
  function TryMoveV(g: Grid, w: nat, h: nat, x: int, y: int, d: DirectionV): (r: (Option<Pos>, Grid))
    requires Grids.IsGrid(g, w, h) && Grids.InBounds(w, h, x, y)
    ensures Grids.IsGrid(r.1, w, h) && SameTiles(r.1, g)
    ensures r.0.None? ==> r.1 == g
    ensures r.0.Some? ==> r.0.value == Pos(x, StepV(y, d)) && Grids.InBounds(w, h, x, StepV(y, d))
    ensures r.0.Some? ==> r.1[y][x] == Empty && r.1[StepV(y, d)][x] == g[y][x]
    ensures r.0.None? <==> !CanMoveV(g, w, h, x, y, d)
  {
    if !CanMoveV(g, w, h, x, y, d) then (None, g)
    else
      CanMoveCases(g, w, h, x, y, d);
      (Some(Pos(x, StepV(y, d))), MoveV(g, w, h, x, y, d))
  }

  // ---- The robot ----

  /** The cell one step from `p` in direction `d`. */
  function Neighbour(p: Pos, d: Direction): Pos
  {
    match d
    case Horizontal(dh) => Pos(StepH(p.x, dh), p.y)
    case Vertical(dv) => Pos(p.x, StepV(p.y, dv))
  }

  /** `try_move_robot`: the robot's position changes, to the neighbouring
      cell, only when the move succeeds; a failed move changes nothing.
      Every move keeps the number of tiles of each kind. */
  function TryMoveRobot(m: Map, d: Direction): (r: Map)
    requires Valid(m)
    ensures Valid(r) && r.width == m.width && r.height == m.height
    ensures r.robot == m.robot || r.robot == Neighbour(m.robot, d)
    ensures r.robot == m.robot ==> r.tiles == m.tiles
    ensures SameTiles(r.tiles, m.tiles)
  {
    var (moved, g) := match d
      case Horizontal(dh) => TryMoveH(m.tiles, m.width, m.height, m.robot.x, m.robot.y, dh)
      case Vertical(dv) => TryMoveV(m.tiles, m.width, m.height, m.robot.x, m.robot.y, dv);
    match moved
    case Some(p) => Map(g, p, m.width, m.height)
    case None => m.(tiles := g)
  }

  /** All the moves in order. */
  function Run(m: Map, ds: seq<Direction>): (r: Map)
    requires Valid(m)
    ensures Valid(r) && r.width == m.width && r.height == m.height
    decreases |ds|
  {
    if |ds| == 0 then m else Run(TryMoveRobot(m, ds[0]), ds[1..])
  }

  /** No move creates or destroys a tile: the warehouse ends with as many
      tiles of each kind as it started with. */
  lemma {:induction false} RunKeepsTiles(m: Map, ds: seq<Direction>)
    requires Valid(m)
    ensures SameTiles(Run(m, ds).tiles, m.tiles)
    decreases |ds|
  {
    if |ds| > 0 {
      RunKeepsTiles(TryMoveRobot(m, ds[0]), ds[1..]);
    }
  }

  // ---- GPS coordinates ----

  /** `100 * y + x` for the left half of every box in a row. */
  function RowGps(row: seq<Tile>, y: int): seq<int>
  {
    if |row| == 0 then []
    else RowGps(row[..|row| - 1], y) + if row[|row| - 1] == BoxL then [y * 100 + |row| - 1] else []
  }

  /** `gps`: the coordinates of every box, row by row. */
  function Gps(g: Grid): seq<int>
  {
    if |g| == 0 then [] else Gps(g[..|g| - 1]) + RowGps(g[|g| - 1], |g| - 1)
  }

  lemma {:induction false} RowGpsMembers(row: seq<Tile>, y: int, v: int)
    ensures v in RowGps(row, y) <==> exists x :: 0 <= x < |row| && row[x] == BoxL && v == y * 100 + x
    ensures |RowGps(row, y)| == Seqs.CountIf(row, Is(BoxL))
    decreases |row|
  {
    if |row| > 0 {
      var t := row[..|row| - 1];
      RowGpsMembers(t, y, v);
      assert forall x :: 0 <= x < |t| ==> t[x] == row[x];
    }
  }

  /** Every left box half contributes its coordinate, and nothing else
      does: one coordinate per box. */
  lemma {:induction false} GpsMembers(g: Grid, v: int)
    ensures v in Gps(g) <==> exists y, x :: 0 <= y < |g| && 0 <= x < |g[y]| && g[y][x] == BoxL && v == y * 100 + x
    ensures |Gps(g)| == Count(g, BoxL)
    decreases |g|
  {
    if |g| > 0 {
      var t := g[..|g| - 1];
      GpsMembers(t, v);
      RowGpsMembers(g[|g| - 1], |g| - 1, v);
      assert forall y :: 0 <= y < |t| ==> t[y] == g[y];
      assert RowCounts(g, BoxL)[..|g| - 1] == RowCounts(t, BoxL);
    }
  }

  // ---- The whole puzzle ----

  /** Widen the map, run the moves, sum the coordinates. `None` where the
      source panics while parsing. */
  function Solve(mapLines: seq<seq<char>>, moves: seq<char>): Option<int>
  {
    match Parse(seq(|mapLines|, i requires 0 <= i < |mapLines| => Widen(mapLines[i])))
    case None => None
    case Some(m) => Some(Seqs.Sum(Gps(Run(m, Directions(moves)).tiles)))
  }

  /** The answer sums exactly one coordinate per box of the starting
      warehouse. */
  lemma SolveBoxes(mapLines: seq<seq<char>>, moves: seq<char>)
    requires Solve(mapLines, moves).Some?
    ensures var m := Parse(seq(|mapLines|, i requires 0 <= i < |mapLines| => Widen(mapLines[i]))).value;
      var end := Run(m, Directions(moves)).tiles;
      Solve(mapLines, moves).value == Seqs.Sum(Gps(end)) && |Gps(end)| == Count(m.tiles, BoxL)
  {
    var m := Parse(seq(|mapLines|, i requires 0 <= i < |mapLines| => Widen(mapLines[i]))).value;
    RunKeepsTiles(m, Directions(moves));
    GpsMembers(Run(m, Directions(moves)).tiles, 0);
  }
}

=== FILE: day16.dfy ===
/** Day 16: the reindeer maze. A priority-queue search from the start,
    facing East, where stepping forward costs 1 and turning left or right
    and stepping costs 1001, keeping the best cost and arrival direction
    per tile; then a backward trace collects the tiles on best paths. */

module Day16 {
  import opened Wrappers
  import Seqs
  import Grids
  import Heaps

  /** `usize::MAX`, the cost of a tile not reached yet. */
  const Max: nat := 0xFFFF_FFFF_FFFF_FFFF

  datatype TileKind = Start | Empty | Wall | End
  datatype Direction = North | East | South | West

  datatype Tile = Tile(kind: TileKind, cost: nat, dir: Option<Direction>)
  datatype Point = Point(x: int, y: int)
  datatype Node = Node(pos: Point, cost: nat, dir: Direction)

  type Grid = seq<seq<Tile>>

  datatype Map = Map(tiles: Grid, start: Point, end: Point)

  // ---- Directions and points ----

  function RotateCw(d: Direction): Direction
  {
    match d
    case North => East
    case East => South
    case South => West
    case West => North
  }

  function RotateCcw(d: Direction): Direction
  {
    match d
    case North => West
    case East => North
    case South => East
    case West => South
  }

  /** The two rotations undo each other, and four quarter turns are none. */
  lemma Rotations(d: Direction)
    ensures RotateCw(RotateCcw(d)) == d && RotateCcw(RotateCw(d)) == d
    ensures RotateCw(RotateCw(RotateCw(RotateCw(d)))) == d
    ensures RotateCcw(RotateCcw(d)) == RotateCw(RotateCw(d)) != d
  {
  }

  /** `Point + Direction`: one cell north (up), east, south or west. */
  function Add(p: Point, d: Direction): (q: Point)
    ensures Seqs.Abs(q.x - p.x) + Seqs.Abs(q.y - p.y) == 1
  {
    match d
    case North => Point(p.x, p.y - 1)
    case East => Point(p.x + 1, p.y)
    case South => Point(p.x, p.y + 1)
    case West => Point(p.x - 1, p.y)
  }

  /** Turning round and stepping back returns to the cell. */
  lemma StepBack(p: Point, d: Direction)
    ensures Add(Add(p, d), RotateCcw(RotateCcw(d))) == p
  {
  }

  // ---- Parsing ----

  function KindOf(c: char): Option<TileKind>
  {
    match c
    case 'S' => Some(Start)
    case '.' => Some(Empty)
    case '#' => Some(Wall)
    case 'E' => Some(End)
    case _ => None
  }

  function Symbol(k: TileKind): char
  {
    match k
    case Start => 'S'
    case Empty => '.'
    case Wall => '#'
    case End => 'E'
  }

  lemma KindSymbol(c: char, k: TileKind)
    ensures KindOf(c) == Some(k) <==> Symbol(k) == c
  {
  }

  /** A tile as parsed: the start costs 0 facing East, everything else
      costs `Max` with no direction. */
  function Fresh(k: TileKind): Tile
  {
    if k == Start then Tile(Start, 0, Some(East)) else Tile(k, Max, None)
  }

  function DecodeRow(line: seq<char>): (r: Option<seq<Tile>>)
    ensures r.Some? ==> |r.value| == |line|
    ensures r.Some? ==> forall i :: 0 <= i < |line| ==> r.value[i] == Fresh(r.value[i].kind) && Symbol(r.value[i].kind) == line[i]
    ensures r.None? <==> exists i :: 0 <= i < |line| && KindOf(line[i]).None?
  {
    if |line| == 0 then Some([])
    else
      var last := line[|line| - 1];
      match (DecodeRow(line[..|line| - 1]), KindOf(last))
      case (Some(row), Some(k)) =>
        KindSymbol(last, k);
        Some(row + [Fresh(k)])
      case _ => None
  }

  function DecodeRows(lines: seq<seq<char>>): (r: Option<Grid>)
    ensures r.Some? ==> |r.value| == |lines| && forall y :: 0 <= y < |lines| ==> DecodeRow(lines[y]) == Some(r.value[y])
    ensures r.None? <==> exists y :: 0 <= y < |lines| && DecodeRow(lines[y]).None?
  {
    if |lines| == 0 then Some([])
    else
      match (DecodeRows(lines[..|lines| - 1]), DecodeRow(lines[|lines| - 1]))
      case (Some(g), Some(row)) => Some(g + [row])
      case _ => None
  }

  /** The last tile of kind `k` in a row. */
  function LastInRow(row: seq<Tile>, k: TileKind): (r: Option<nat>)
    ensures r.Some? ==> r.value < |row| && row[r.value].kind == k && forall x :: r.value < x < |row| ==> row[x].kind != k
    ensures r.None? ==> forall x :: 0 <= x < |row| ==> row[x].kind != k
  {
    if |row| == 0 then None
    else if row[|row| - 1].kind == k then Some(|row| - 1)
    else LastInRow(row[..|row| - 1], k)
  }

  /** The position the parser remembers for kind `k`: each occurrence
      overwrites the last, so the last one in reading order wins, and
      the default `(0, 0)` stays when there is none. */
  function LastOf(g: Grid, k: TileKind): (r: Point)
    ensures (exists y, x :: 0 <= y < |g| && 0 <= x < |g[y]| && g[y][x].kind == k) ==>
      0 <= r.y < |g| && 0 <= r.x < |g[r.y]| && g[r.y][r.x].kind == k &&
      (forall y, x :: 0 <= y < |g| && 0 <= x < |g[y]| && g[y][x].kind == k ==> y < r.y || (y == r.y && x <= r.x))
    ensures (forall y, x :: 0 <= y < |g| && 0 <= x < |g[y]| ==> g[y][x].kind != k) ==> r == Point(0, 0)
  {
    if |g| == 0 then Point(0, 0)
    else match LastInRow(g[|g| - 1], k)
      case Some(x) => Point(x, |g| - 1)
      case None =>
        var r := LastOf(g[..|g| - 1], k);
        assert forall y :: 0 <= y < |g| - 1 ==> g[..|g| - 1][y] == g[y];
        r
  }

  /** `Map::parse`; `None` on a character the source panics on. */
  function Parse(lines: seq<seq<char>>): (r: Option<Map>)
    ensures r.None? <==> exists y, x :: 0 <= y < |lines| && 0 <= x < |lines[y]| && KindOf(lines[y][x]).None?
    ensures r.Some? ==> |r.value.tiles| == |lines| && forall y :: 0 <= y < |lines| ==> |r.value.tiles[y]| == |lines[y]|
    ensures r.Some? ==> forall y, x :: 0 <= y < |r.value.tiles| && 0 <= x < |r.value.tiles[y]| ==>
      r.value.tiles[y][x] == Fresh(r.value.tiles[y][x].kind) && Symbol(r.value.tiles[y][x].kind) == lines[y][x]
    ensures r.Some? && (exists y, x :: 0 <= y < |lines| && 0 <= x < |lines[y]| && lines[y][x] == 'S') ==>
      var p := r.value.start;
      0 <= p.y < |lines| && 0 <= p.x < |lines[p.y]| && r.value.tiles[p.y][p.x] == Tile(Start, 0, Some(East))
  {
    match DecodeRows(lines)
    case None => None
    case Some(g) =>
      forall y, x | 0 <= y < |lines| && 0 <= x < |lines[y]| && lines[y][x] == 'S'
        ensures g[y][x].kind == Start
      {
        KindSymbol('S', g[y][x].kind);
      }
      Some(Map(g, LastOf(g, Start), LastOf(g, End)))
  }

  // ---- The maze ----

  /** A rectangular maze whose outer ring is wall, so every step from a
      non-wall tile stays inside. */
  predicate Bordered(g: Grid, w: nat, h: nat)
  {
    Grids.IsGrid(g, w, h) &&
    forall y, x :: 0 <= y < h && 0 <= x < w && (x == 0 || y == 0 || x == w - 1 || y == h - 1) ==> g[y][x].kind == Wall
  }

  function KindAt(g: Grid, p: Point): TileKind
  {
    if 0 <= p.y < |g| && 0 <= p.x < |g[p.y]| then g[p.y][p.x].kind else Wall
  }

  lemma Interior(g: Grid, w: nat, h: nat, p: Point, d: Direction)
    requires Bordered(g, w, h) && KindAt(g, p) != Wall
    ensures Grids.InBounds(w, h, p.x, p.y) && Grids.InBounds(w, h, Add(p, d).x, Add(p, d).y)
  {
  }

  // ---- Routes ----

  datatype Move = Forward | TurnLeft | TurnRight

  function Turn(d: Direction, m: Move): Direction
  {
    match m
    case Forward => d
    case TurnLeft => RotateCcw(d)
    case TurnRight => RotateCw(d)
  }

  /** A forward step costs 1, a turn with its step 1001. */
  function Price(m: Move): nat
  {
    if m == Forward then 1 else 1001
  }

  /** One move of a route, refused into a wall. */
  function Advance(g: Grid, n: Node, m: Move): Option<Node>
  {
    var d := Turn(n.dir, m);
    var q := Add(n.pos, d);
    if KindAt(g, q) == Wall then None else Some(Node(q, n.cost + Price(m), d))
  }

  function Walk(g: Grid, s: Node, ms: seq<Move>): Option<Node>
  {
    if |ms| == 0 then Some(s)
    else match Walk(g, s, ms[..|ms| - 1])
      case Some(n) => Advance(g, n, ms[|ms| - 1])
      case None => None
  }

  /** Some route from the start, facing East at cost 0, ends on `n`'s
      cell facing its direction at its cost. */
  ghost predicate Achievable(g: Grid, start: Point, n: Node)
  {
    exists ms :: Walk(g, Node(start, 0, East), ms) == Some(n)
  }

  lemma Extend(g: Grid, start: Point, n: Node, m: Move)
    requires Achievable(g, start, n) && Advance(g, n, m).Some?
    ensures Achievable(g, start, Advance(g, n, m).value)
  {
    var ms :| Walk(g, Node(start, 0, East), ms) == Some(n);
    assert (ms + [m])[..|ms|] == ms;
    assert Walk(g, Node(start, 0, East), ms + [m]) == Advance(g, n, m);
  }

  // ---- The heap ----

  /** `Node::cmp` reverses the cost order, so the heap's greatest node
      is a cheapest one. */
  function Rank(n: Node): int
  {
    -(n.cost as int)
  }

  lemma RankCheapest(a: Node, b: Node)
    ensures Rank(a) <= Rank(b) <==> b.cost <= a.cost
  {
  }

  // ---- The search ----

  /** The search state against the parsed maze `g0`: same kinds, costs
      never above the parsed ones nor `Max`, walls untouched. */
  ghost predicate Frame(g0: Grid, g: Grid, w: nat, h: nat)
  {
    Grids.IsGrid(g0, w, h) && Grids.IsGrid(g, w, h) &&
    forall y, x :: 0 <= y < h && 0 <= x < w ==>
      g[y][x].kind == g0[y][x].kind && g[y][x].cost <= g0[y][x].cost && g[y][x].cost <= Max &&
      (g0[y][x].kind == Wall ==> g[y][x] == g0[y][x])
  }

  /** Every reached tile records a route that arrives there: its cost and
      direction, unless it is a start tile still as parsed. */
  ghost predicate Sound(g0: Grid, start: Point, g: Grid, w: nat, h: nat)
    requires Grids.IsGrid(g, w, h)
  {
    forall y, x :: 0 <= y < h && 0 <= x < w && g[y][x].cost < Max ==>
      g[y][x].dir.Some? &&
      (g[y][x] == Tile(Start, 0, Some(East)) || Achievable(g0, start, Node(Point(x, y), g[y][x].cost, g[y][x].dir.value)))
  }

  /** Every queued node stands on a reachable non-wall, non-end tile. */
  ghost predicate Queued(g0: Grid, start: Point, todos: multiset<Node>)
  {
    forall n :: n in todos ==> KindAt(g0, n.pos) != Wall && KindAt(g0, n.pos) != End && Achievable(g0, start, n)
  }

  /** `result` is the least cost recorded on an end tile, or `Max`. */
  ghost predicate Best(g: Grid, w: nat, h: nat, result: nat)
    requires Grids.IsGrid(g, w, h)
  {
    result <= Max &&
    (forall y, x :: 0 <= y < h && 0 <= x < w && g[y][x].kind == End ==> result <= g[y][x].cost) &&
    (result < Max ==> exists y, x :: 0 <= y < h && 0 <= x < w && g[y][x].kind == End && g[y][x].cost == result)
  }

  function Costs(row: seq<Tile>): seq<int>
  {
    seq(|row|, i requires 0 <= i < |row| => row[i].cost)
  }

  /** The sum of all tile costs, which every improvement lowers. */
  function Total(g: Grid): int
  {
    Seqs.Sum(seq(|g|, y requires 0 <= y < |g| => Seqs.Sum(Costs(g[y]))))
  }

  lemma TotalNonNegative(g: Grid)
    ensures Total(g) >= 0
  {
    var rows := seq(|g|, y requires 0 <= y < |g| => Seqs.Sum(Costs(g[y])));
    forall y | 0 <= y < |g|
      ensures rows[y] >= 0
    {
      Seqs.SumNonNegative(Costs(g[y]));
    }
    Seqs.SumNonNegative(rows);
  }

  lemma TotalSet(g: Grid, x: nat, y: nat, t: Tile)
    requires y < |g| && x < |g[y]|
    ensures Total(Grids.Set(g, x, y, t)) == Total(g) - g[y][x].cost + t.cost
  {
    var rows := seq(|g|, j requires 0 <= j < |g| => Seqs.Sum(Costs(g[j])));
    var r := Grids.Set(g, x, y, t);
    assert Costs(r[y]) == Costs(g[y])[x := t.cost];
    Seqs.SumUpdate(Costs(g[y]), x, t.cost);
    assert seq(|r|, j requires 0 <= j < |r| => Seqs.Sum(Costs(r[j]))) == rows[y := Seqs.Sum(Costs(r[y]))];
    Seqs.SumUpdate(rows, y, Seqs.Sum(Costs(r[y])));
  }

  /** The neighbour a move from `from` looks at, and the candidate node
      arriving there. */
  function Candidate(from: Node, m: Move): Node
  {
    Node(Add(from.pos, Turn(from.dir, m)), from.cost + Price(m), Turn(from.dir, m))
  }

  /** The tiles with the candidate's cost and direction recorded on its
      cell. */
  function Updated(tiles: Grid, n: Node): Grid
    requires 0 <= n.pos.y < |tiles| && 0 <= n.pos.x < |tiles[n.pos.y]|
  {
    Grids.Set(tiles, n.pos.x, n.pos.y, Tile(tiles[n.pos.y][n.pos.x].kind, n.cost, Some(n.dir)))
  }

  /** A candidate improves a tile when the tile is no wall and the
      candidate is strictly cheaper. */
  predicate Improves(tiles: Grid, n: Node)
  {
    0 <= n.pos.y < |tiles| && 0 <= n.pos.x < |tiles[n.pos.y]| &&
    tiles[n.pos.y][n.pos.x].kind != Wall && n.cost < tiles[n.pos.y][n.pos.x].cost
  }

  /** One of the three neighbours of a popped node: the tile is improved
      only when it is not a wall and the candidate is strictly cheaper;
      an improved end tile lowers `result`, any other improved tile is
      queued. */
  method Visit(ghost g0: Grid, w: nat, h: nat, ghost start: Point, tiles: Grid, todos: multiset<Node>, result: nat, from: Node, m: Move)
    returns (tiles': Grid, todos': multiset<Node>, result': nat)
    requires Bordered(g0, w, h) && Frame(g0, tiles, w, h)
    requires Sound(g0, start, tiles, w, h) && Queued(g0, start, todos) && Best(tiles, w, h, result)
    requires KindAt(g0, from.pos) != Wall && Achievable(g0, start, from)
    ensures Frame(g0, tiles', w, h) && Sound(g0, start, tiles', w, h) && Queued(g0, start, todos') && Best(tiles', w, h, result')
    ensures 4 * Total(tiles') + |todos'| <= 4 * Total(tiles) + |todos|
    ensures Improves(tiles, Candidate(from, m)) ==> tiles' == Updated(tiles, Candidate(from, m))
    ensures !Improves(tiles, Candidate(from, m)) ==> tiles' == tiles && todos' == todos && result' == result
    ensures todos <= todos'
    ensures var n := Candidate(from, m); Improves(tiles, n) && tiles[n.pos.y][n.pos.x].kind != End ==> n in todos'
  {
    var n := Candidate(from, m);
    Interior(g0, w, h, from.pos, n.dir);
    var t := tiles[n.pos.y][n.pos.x];
    tiles', todos', result' := tiles, todos, result;
    if t.kind != Wall && t.cost > n.cost {
      tiles' := Updated(tiles, n);
      if t.kind == End {
        result' := if result < n.cost then result else n.cost;
      } else {
        todos' := todos + multiset{n};
      }
      Improve(g0, w, h, start, tiles, todos, result, from, m);
    }
  }

  /** The invariants after an improvement, one concern per helper. */
  lemma Improve(g0: Grid, w: nat, h: nat, start: Point, tiles: Grid, todos: multiset<Node>, result: nat, from: Node, m: Move)
    requires Bordered(g0, w, h) && Frame(g0, tiles, w, h)
    requires Sound(g0, start, tiles, w, h) && Queued(g0, start, todos) && Best(tiles, w, h, result)
    requires Achievable(g0, start, from) && Improves(tiles, Candidate(from, m))
    ensures Frame(g0, Updated(tiles, Candidate(from, m)), w, h)
    ensures Sound(g0, start, Updated(tiles, Candidate(from, m)), w, h)
    ensures Total(Updated(tiles, Candidate(from, m))) < Total(tiles)
    ensures var n := Candidate(from, m);
      tiles[n.pos.y][n.pos.x].kind == End ==> Best(Updated(tiles, n), w, h, if result < n.cost then result else n.cost)
    ensures var n := Candidate(from, m);
      tiles[n.pos.y][n.pos.x].kind != End ==> Best(Updated(tiles, n), w, h, result) && Queued(g0, start, todos + multiset{n})
  {
    var n := Candidate(from, m);
    var q, c, d := n.pos, n.cost, n.dir;
    var t := tiles[q.y][q.x];
    TotalSet(tiles, q.x, q.y, Tile(t.kind, c, Some(d)));
    Arrives(g0, w, h, start, tiles, from, m);
    Improved(g0, w, h, start, tiles, q, n);
    if t.kind == End {
      EndImproved(tiles, w, h, result, q, c, d);
    } else {
      OtherImproved(tiles, w, h, result, q, c, d);
      Enqueued(g0, start, todos, n);
    }
  }

  /** The improving candidate is the end of a route one move longer. */
  lemma Arrives(g0: Grid, w: nat, h: nat, start: Point, tiles: Grid, from: Node, m: Move)
    requires Frame(g0, tiles, w, h) && Achievable(g0, start, from)
    requires Improves(tiles, Candidate(from, m))
    ensures Achievable(g0, start, Candidate(from, m))
  {
    Extend(g0, start, from, m);
  }

  lemma Enqueued(g0: Grid, start: Point, todos: multiset<Node>, n: Node)
    requires Queued(g0, start, todos)
    requires KindAt(g0, n.pos) != Wall && KindAt(g0, n.pos) != End && Achievable(g0, start, n)
    ensures Queued(g0, start, todos + multiset{n})
  {
  }

  lemma Improved(g0: Grid, w: nat, h: nat, start: Point, tiles: Grid, q: Point, n: Node)
    requires Frame(g0, tiles, w, h) && Sound(g0, start, tiles, w, h)
    requires Grids.InBounds(w, h, q.x, q.y) && n.pos == q && n.cost < tiles[q.y][q.x].cost
    requires tiles[q.y][q.x].kind != Wall && Achievable(g0, start, n)
    ensures var t := tiles[q.y][q.x];
      Frame(g0, Grids.Set(tiles, q.x, q.y, Tile(t.kind, n.cost, Some(n.dir))), w, h) &&
      Sound(g0, start, Grids.Set(tiles, q.x, q.y, Tile(t.kind, n.cost, Some(n.dir))), w, h)
  {
  }

  lemma EndImproved(tiles: Grid, w: nat, h: nat, result: nat, q: Point, c: nat, d: Direction)
    requires Grids.IsGrid(tiles, w, h) && Best(tiles, w, h, result)
    requires Grids.InBounds(w, h, q.x, q.y) && c < tiles[q.y][q.x].cost <= Max && tiles[q.y][q.x].kind == End
    ensures Best(Grids.Set(tiles, q.x, q.y, Tile(End, c, Some(d))), w, h, if result < c then result else c)
  {
    var r: Grid := Grids.Set(tiles, q.x, q.y, Tile(End, c, Some(d)));
    var best := if result < c then result else c;
    if best < Max {
      if best == c {
        assert r[q.y][q.x].kind == End && r[q.y][q.x].cost == best;
      } else {
        var y, x :| 0 <= y < h && 0 <= x < w && tiles[y][x].kind == End && tiles[y][x].cost == result;
        assert r[y][x].kind == End && r[y][x].cost == best;
      }
    }
  }

  lemma OtherImproved(tiles: Grid, w: nat, h: nat, result: nat, q: Point, c: nat, d: Direction)
    requires Grids.IsGrid(tiles, w, h) && Best(tiles, w, h, result)
    requires Grids.InBounds(w, h, q.x, q.y) && tiles[q.y][q.x].kind != End
    ensures Best(Grids.Set(tiles, q.x, q.y, Tile(tiles[q.y][q.x].kind, c, Some(d))), w, h, result)
  {
    var r: Grid := Grids.Set(tiles, q.x, q.y, Tile(tiles[q.y][q.x].kind, c, Some(d)));
    if result < Max {
      var y, x :| 0 <= y < h && 0 <= x < w && tiles[y][x].kind == End && tiles[y][x].cost == result;
      assert r[y][x].kind == End && r[y][x].cost == result;
    }
  }

  // ---- The fixpoint ----

  /** A reached tile the search expands: neither wall nor end, and a
      start tile only at the remembered start, since any other start tile
      is never queued. */
  predicate Expandable(tiles: Grid, start: Point, x: nat, y: nat)
    requires y < |tiles| && x < |tiles[y]|
  {
    var t := tiles[y][x];
    t.kind != Wall && t.kind != End && t.cost < Max && t.dir.Some? && (t.kind == Start ==> Point(x, y) == start)
  }

  /** The node a reached tile records: its cell, cost and direction. */
  function Recorded(tiles: Grid, x: nat, y: nat): Node
    requires y < |tiles| && x < |tiles[y]| && tiles[y][x].dir.Some?
  {
    Node(Point(x, y), tiles[y][x].cost, tiles[y][x].dir.value)
  }

  /** None of the three moves out of `n` improves a tile any more. */
  predicate Relaxed(tiles: Grid, n: Node)
  {
    !Improves(tiles, Candidate(n, Forward)) && !Improves(tiles, Candidate(n, TurnLeft)) && !Improves(tiles, Candidate(n, TurnRight))
  }

  /** The loop invariant behind the fixpoint: every expandable tile's
      node is still queued, is the node being expanded (`skip`), or has
      been relaxed. */
  ghost predicate Closed(tiles: Grid, w: nat, h: nat, start: Point, todos: multiset<Node>, skip: Option<Node>)
    requires Grids.IsGrid(tiles, w, h)
  {
    forall y, x :: 0 <= y < h && 0 <= x < w && Expandable(tiles, start, x, y) ==>
      Recorded(tiles, x, y) in todos || skip == Some(Recorded(tiles, x, y)) || Relaxed(tiles, Recorded(tiles, x, y))
  }

  /** The state the search ends in: no move out of any expandable tile's
      node improves a tile. */
  predicate Expanded(tiles: Grid, w: nat, h: nat, start: Point)
    requires Grids.IsGrid(tiles, w, h)
  {
    forall y, x :: 0 <= y < h && 0 <= x < w && Expandable(tiles, start, x, y) ==> Relaxed(tiles, Recorded(tiles, x, y))
  }

  /** An update only lowers a tile, so it creates no new improvement. */
  lemma UpdatedLowers(tiles: Grid, n: Node)
    requires Improves(tiles, n)
    ensures forall c :: Improves(Updated(tiles, n), c) ==> Improves(tiles, c)
  {
  }

  /** One move keeps the invariant: an improved non-end tile has its new
      node queued, every other tile keeps its node, and relaxed nodes stay
      relaxed. Afterwards the move's candidate improves nothing. */
  lemma VisitClosed(tiles: Grid, tiles': Grid, w: nat, h: nat, start: Point, todos: multiset<Node>, todos': multiset<Node>, skip: Option<Node>, n: Node)
    requires Grids.IsGrid(tiles, w, h) && Closed(tiles, w, h, start, todos, skip) && todos <= todos'
    requires Improves(tiles, n) ==> tiles' == Updated(tiles, n) && (tiles[n.pos.y][n.pos.x].kind != End ==> n in todos')
    requires !Improves(tiles, n) ==> tiles' == tiles
    ensures Grids.IsGrid(tiles', w, h) && Closed(tiles', w, h, start, todos', skip) && !Improves(tiles', n)
    ensures forall c :: !Improves(tiles, c) ==> !Improves(tiles', c)
  {
    if Improves(tiles, n) {
      UpdatedLowers(tiles, n);
      forall y, x | 0 <= y < h && 0 <= x < w && Expandable(tiles', start, x, y)
        ensures Recorded(tiles', x, y) in todos' || skip == Some(Recorded(tiles', x, y)) || Relaxed(tiles', Recorded(tiles', x, y))
      {
        if Point(x, y) == n.pos {
          assert Recorded(tiles', x, y) == n;
        } else {
          assert tiles'[y][x] == tiles[y][x];
          assert Expandable(tiles, start, x, y) && Recorded(tiles', x, y) == Recorded(tiles, x, y);
        }
      }
    }
  }

  /** Removing the popped node from the queue makes it the one skipped. */
  lemma Popped(tiles: Grid, w: nat, h: nat, start: Point, todos: multiset<Node>, todo: Node)
    requires Grids.IsGrid(tiles, w, h) && Closed(tiles, w, h, start, todos, None) && todo in todos
    ensures Closed(tiles, w, h, start, todos - multiset{todo}, Some(todo))
  {
  }

  /** Once the skipped node is relaxed it needs no exception. */
  lemma Unskip(tiles: Grid, w: nat, h: nat, start: Point, todos: multiset<Node>, todo: Node)
    requires Grids.IsGrid(tiles, w, h) && Closed(tiles, w, h, start, todos, Some(todo)) && Relaxed(tiles, todo)
    ensures Closed(tiles, w, h, start, todos, None)
  {
  }

  /** One popped node: the three moves of the loop body in `main`, after
      which the popped node is relaxed. */
  method Expand(ghost g0: Grid, w: nat, h: nat, ghost start: Point, tiles: Grid, todos: multiset<Node>, result: nat, todo: Node)
    returns (tiles': Grid, todos': multiset<Node>, result': nat)
    requires Bordered(g0, w, h) && Frame(g0, tiles, w, h)
    requires Sound(g0, start, tiles, w, h) && Queued(g0, start, todos) && Best(tiles, w, h, result)
    requires KindAt(g0, todo.pos) != Wall && Achievable(g0, start, todo)
    requires Closed(tiles, w, h, start, todos, Some(todo))
    ensures Frame(g0, tiles', w, h) && Sound(g0, start, tiles', w, h) && Queued(g0, start, todos') && Best(tiles', w, h, result')
    ensures Closed(tiles', w, h, start, todos', None)
    ensures 4 * Total(tiles') + |todos'| <= 4 * Total(tiles) + |todos|
  {
    var t1, q1, r1 := Visit(g0, w, h, start, tiles, todos, result, todo, Forward);
    VisitClosed(tiles, t1, w, h, start, todos, q1, Some(todo), Candidate(todo, Forward));
    var t2, q2, r2 := Visit(g0, w, h, start, t1, q1, r1, todo, TurnLeft);
    VisitClosed(t1, t2, w, h, start, q1, q2, Some(todo), Candidate(todo, TurnLeft));
    tiles', todos', result' := Visit(g0, w, h, start, t2, q2, r2, todo, TurnRight);
    VisitClosed(t2, tiles', w, h, start, q2, todos', Some(todo), Candidate(todo, TurnRight));
    Unskip(tiles', w, h, start, todos', todo);
  }

  /** A parsed maze ready for the search: bordered by walls, every tile
      as parsed, the start position on a start tile. */
  predicate Ready(g: Grid, w: nat, h: nat, start: Point)
  {
    Bordered(g, w, h) && Grids.InBounds(w, h, start.x, start.y) && g[start.y][start.x].kind == Start &&
    forall y, x :: 0 <= y < h && 0 <= x < w ==> g[y][x] == Fresh(g[y][x].kind)
  }

  /** Part one: the search loop of `main`. It ends with every tile's cost
      at most its parsed cost, walls untouched, every reached tile holding
      the cost and direction of a real route, and `result` the least cost
      recorded on an end tile, `Max` when none was reached. */
  method Search(g0: Grid, w: nat, h: nat, start: Point) returns (result: nat, tiles: Grid)
    requires Ready(g0, w, h, start)
    ensures Frame(g0, tiles, w, h) && Sound(g0, start, tiles, w, h) && Best(tiles, w, h, result)
    ensures result < Max ==> exists d :: Achievable(g0, start, Node(LastEnd(tiles, w, h, result), result, d))
    ensures Expanded(tiles, w, h, start)
  {
    tiles := g0;
    var todos := multiset{Node(start, 0, East)};
    result := Max;
    assert Walk(g0, Node(start, 0, East), []) == Some(Node(start, 0, East));
    TotalNonNegative(tiles);
    while todos != multiset{}
      invariant Frame(g0, tiles, w, h) && Sound(g0, start, tiles, w, h)
      invariant Queued(g0, start, todos) && Best(tiles, w, h, result)
      invariant Closed(tiles, w, h, start, todos, None)
      invariant Total(tiles) >= 0
      decreases 4 * Total(tiles) + |todos|
    {
      var todo := Heaps.PopMax(todos, Rank);
      Popped(tiles, w, h, start, todos, todo);
      todos := todos - multiset{todo};
      tiles, todos, result := Expand(g0, w, h, start, tiles, todos, result, todo);
      TotalNonNegative(tiles);
    }
    if result < Max {
      EndRoute(g0, w, h, start, tiles, result);
    }
  }

  /** An end tile carrying cost `result`, when there is one. */
  ghost function LastEnd(g: Grid, w: nat, h: nat, result: nat): Point
    requires Grids.IsGrid(g, w, h)
  {
    if exists y, x :: 0 <= y < h && 0 <= x < w && g[y][x].kind == End && g[y][x].cost == result then
      var y, x :| 0 <= y < h && 0 <= x < w && g[y][x].kind == End && g[y][x].cost == result;
      Point(x, y)
    else Point(0, 0)
  }

  lemma EndRoute(g0: Grid, w: nat, h: nat, start: Point, tiles: Grid, result: nat)
    requires Frame(g0, tiles, w, h) && Sound(g0, start, tiles, w, h) && Best(tiles, w, h, result) && result < Max
    ensures exists d :: Achievable(g0, start, Node(LastEnd(tiles, w, h, result), result, d))
  {
    var p := LastEnd(tiles, w, h, result);
    assert tiles[p.y][p.x].kind == End;
    var d := tiles[p.y][p.x].dir.value;
    assert Achievable(g0, start, Node(p, result, d));
  }

  // ---- Tracing the best paths ----

  /** A finished search: bordered, costs at most `Max`, walls at `Max`. */
  predicate Settled(g: Grid, w: nat, h: nat)
  {
    Bordered(g, w, h) &&
    forall y, x :: 0 <= y < h && 0 <= x < w ==> g[y][x].cost <= Max && (g[y][x].kind == Wall ==> g[y][x].cost == Max)
  }

  lemma SearchSettles(g0: Grid, w: nat, h: nat, start: Point, tiles: Grid)
    requires Ready(g0, w, h, start) && Frame(g0, tiles, w, h)
    ensures Settled(tiles, w, h)
  {
  }

  /** `cost == cur - k` in `usize`, read as no match when the subtraction
      would underflow; a release build wraps to a huge value there and a
      debug build panics. */
  predicate Below(cost: nat, cur: nat, k: nat)
  {
    cur >= k && cost == cur - k
  }

  function CostAt(g: Grid, p: Point): nat
  {
    if 0 <= p.y < |g| && 0 <= p.x < |g[p.y]| then g[p.y][p.x].cost else Max
  }

  /** The tracing links: `p` is one step from `q` in direction `d` and 1
      or 1001 cheaper, or two steps straight on and 2 cheaper. */
  predicate Feeds(g: Grid, q: Point, p: Point, d: Direction)
  {
    (p == Add(q, d) && (Below(CostAt(g, p), CostAt(g, q), 1) || Below(CostAt(g, p), CostAt(g, q), 1001))) ||
    (p == Add(Add(q, d), d) && Below(CostAt(g, p), CostAt(g, q), 2))
  }

  /** Every position of `paths` outside `seen` is linked to from some
      position of `paths`. */
  ghost predicate Fed(g: Grid, seen: set<Point>, paths: set<Point>)
  {
    forall p :: p in paths && p !in seen ==> exists q, d :: q in paths && Feeds(g, q, p, d)
  }

  lemma FedTrans(g: Grid, a: set<Point>, b: set<Point>, c: set<Point>)
    requires a <= b <= c && Fed(g, a, b) && Fed(g, b, c)
    ensures Fed(g, a, c)
  {
    forall p | p in c && p !in a
      ensures exists q, d :: q in c && Feeds(g, q, p, d)
    {
      if p in b {
        var q, d :| q in b && Feeds(g, q, p, d);
        assert q in c;
      }
    }
  }

  /** `trace_path`: walk back from `pos` through tiles whose cost is 1,
      1001 or 2 lower, adding each visited position. Every added position
      is a non-wall tile no dearer than `pos`; the start tile is added but
      not expanded. The recursion ends because the cost strictly falls. */
  method Trace(g: Grid, w: nat, h: nat, paths: set<Point>, pos: Point, dir: Direction) returns (paths': set<Point>)
    requires Settled(g, w, h) && KindAt(g, pos) != Wall
    ensures paths + {pos} <= paths'
    ensures forall p :: p in paths' && p !in paths ==> KindAt(g, p) != Wall && CostAt(g, p) <= CostAt(g, pos)
    ensures KindAt(g, pos) == Start ==> paths' == paths + {pos}
    ensures Fed(g, paths + {pos}, paths')
    decreases CostAt(g, pos)
  {
    paths' := paths + {pos};
    ghost var seen := paths';
    if KindAt(g, pos) == Start {
      return;
    }
    Interior(g, w, h, pos, dir);
    var cur := CostAt(g, pos);
    var forward := dir;
    var forwardPos := Add(pos, forward);
    if forwardPos in paths' {
      return;
    }
    var forwardCost := CostAt(g, forwardPos);
    if Below(forwardCost, cur, 1) {
      paths' := Traced(g, w, h, seen, paths', pos, forwardPos, forward, forward);
    } else if Below(forwardCost, cur, 1001) {
      paths' := Traced(g, w, h, seen, paths', pos, forwardPos, RotateCcw(forward), forward);
      paths' := Traced(g, w, h, seen, paths', pos, forwardPos, RotateCw(forward), forward);
      Interior(g, w, h, forwardPos, forward);
      var forwardTwice := Add(forwardPos, forward);
      if Below(CostAt(g, forwardTwice), cur, 2) {
        paths' := Traced(g, w, h, seen, paths', pos, forwardTwice, forward, forward);
      }
    }
    var left := RotateCcw(dir);
    var leftPos := Add(pos, left);
    if Below(CostAt(g, leftPos), cur, 1001) {
      paths' := Traced(g, w, h, seen, paths', pos, leftPos, left, left);
    }
    var right := RotateCw(dir);
    var rightPos := Add(pos, right);
    if Below(CostAt(g, rightPos), cur, 1001) {
      paths' := Traced(g, w, h, seen, paths', pos, rightPos, right, right);
    }
  }

  /** A recursive call of `Trace` on a tile `next` that `pos` links to
      in direction `step`, its result stated relative to `pos`; `seen` is
      what the trace of `pos` started from. */
  method Traced(g: Grid, w: nat, h: nat, ghost seen: set<Point>, paths: set<Point>, pos: Point, next: Point, dir: Direction, ghost step: Direction)
    returns (paths': set<Point>)
    requires Settled(g, w, h) && KindAt(g, pos) != Wall && Feeds(g, pos, next, step)
    requires pos in seen && seen <= paths && Fed(g, seen, paths)
    ensures paths + {next} <= paths'
    ensures forall p :: p in paths' && p !in paths ==> KindAt(g, p) != Wall && CostAt(g, p) < CostAt(g, pos)
    ensures Fed(g, seen, paths')
    decreases CostAt(g, pos), 0
  {
    assert CostAt(g, next) < CostAt(g, pos) <= Max;
    paths' := Trace(g, w, h, paths, next, dir);
    assert Fed(g, paths, paths + {next});
    FedTrans(g, paths, paths + {next}, paths');
    FedTrans(g, seen, paths, paths');
  }

  /** The tiles part two counts from `end`: the end itself, only non-wall
      tiles no dearer than it, and every other one linked to from a
      counted tile. */
  ghost predicate Counted(g: Grid, end: Point, paths: set<Point>)
  {
    end in paths && Fed(g, {end}, paths) &&
    forall p :: p in paths ==> KindAt(g, p) != Wall && CostAt(g, p) <= CostAt(g, end)
  }

  /** Part two: trace back from the end tile, facing away from the
      direction it was reached in, and count the positions. `None` where
      the source panics: the end tile was never reached. */
  method Part2(g: Grid, w: nat, h: nat, end: Point) returns (r: Option<nat>, ghost paths: set<Point>)
    requires Settled(g, w, h) && KindAt(g, end) == End
    ensures r.Some? <==> g[end.y][end.x].dir.Some?
    ensures r.Some? ==> r.value >= 1
    ensures r.Some? ==> r.value == |paths| && Counted(g, end, paths)
  {
    paths := {};
    match g[end.y][end.x].dir
    case None =>
      r := None;
    case Some(endDir) =>
      var traced := Trace(g, w, h, {}, end, RotateCcw(RotateCcw(endDir)));
      paths := traced;
      r := Some(|traced|);
  }

  /** What part one's search establishes about its final tiles: the frame,
      real routes, the fixpoint, and `result` the least end cost. */
  ghost predicate Searched(g0: Grid, w: nat, h: nat, start: Point, tiles: Grid, result: nat)
  {
    Frame(g0, tiles, w, h) && Sound(g0, start, tiles, w, h) && Expanded(tiles, w, h, start) && Best(tiles, w, h, result)
  }

  /** Both parts on the puzzle text: the least cost of reaching an end
      tile and the number of tiles on the traced best paths. `None` when
      the text does not parse, is not a rectangular wall-bordered maze
      with a start tile at the remembered start (where the source would
      index outside the grid or misread the maze), or the end tile is
      never reached (where part two unwraps no direction). */
  method Solve(lines: seq<seq<char>>) returns (r: Option<(nat, nat)>)
    ensures r.Some? ==> Parse(lines).Some? && var m := Parse(lines).value;
      |lines| > 0 && Ready(m.tiles, |lines[0]|, |lines|, m.start) && r.value.0 < Max && r.value.1 >= 1
    ensures r.Some? ==> var m := Parse(lines).value;
      exists p, d :: KindAt(m.tiles, p) == End && Achievable(m.tiles, m.start, Node(p, r.value.0, d))
    ensures r.Some? ==> var m := Parse(lines).value;
      exists tiles, paths :: Searched(m.tiles, |lines[0]|, |lines|, m.start, tiles, r.value.0) &&
        Counted(tiles, m.end, paths) && |paths| == r.value.1
  {
    var parsed := Parse(lines);
    if parsed.None? || |lines| == 0 {
      return None;
    }
    var m := parsed.value;
    var w, h := |lines[0]|, |lines|;
    if !Ready(m.tiles, w, h, m.start) || KindAt(m.tiles, m.end) != End {
      return None;
    }
    var best, tiles := Search(m.tiles, w, h, m.start);
    SearchSettles(m.tiles, w, h, m.start, tiles);
    if best == Max {
      return None;
    }
    var count, paths := Part2(tiles, w, h, m.end);
    if count.None? {
      return None;
    }
    r := Some((best, count.value));
    var p := LastEnd(tiles, w, h, best);
    assert KindAt(m.tiles, p) == End;
    assert Searched(m.tiles, w, h, m.start, tiles, best);
  }
}

=== FILE: day17.dfy ===
/** Day 17: a 3-bit computer with three registers, eight instructions
    and an output list; part two searches the octal digits of register A
    that make the program print itself. Both parts share the machine. */

module Vm {
  import opened Wrappers
  import Arith

  datatype Register = A | B | C

  /** A combo operand: a literal 0 to 3, or a register. */
  datatype Combo = Literal(v: nat) | Reg(r: Register)

  datatype Instruction =
    | Adv(combo: Combo)
    | Bxl(literal: nat)
    | Bst(combo: Combo)
    | Jnz(literal: nat)
    | Bxc
    | Out(combo: Combo)
    | Bdv(combo: Combo)
    | Cdv(combo: Combo)

  // ---- Bits ----

  /** Bitwise exclusive or of two naturals. */
  function Xor(x: nat, y: nat): nat
    decreases x + y
  {
    if x == 0 && y == 0 then 0
    else 2 * Xor(x / 2, y / 2) + (if x % 2 == y % 2 then 0 else 1)
  }

  /** Exclusive or is commutative, has 0 as identity and undoes itself. */
  lemma {:induction false} XorLaws(x: nat, y: nat)
    ensures Xor(x, y) == Xor(y, x)
    ensures Xor(x, 0) == x
    ensures Xor(Xor(x, y), y) == x
    decreases x + y
  {
    if x == 0 && y == 0 {
    } else {
      XorLaws(x / 2, y / 2);
      var q := Xor(x / 2, y / 2);
      var bit := if x % 2 == y % 2 then 0 else 1;
      assert Xor(x, y) == 2 * q + bit;
      Arith.DivMod(2 * q + bit, 2, q, bit);
      if x == 0 {
        assert Xor(Xor(x, y), y) == 2 * Xor(q, y / 2) + 0;
      }
    }
  }

  /** Exclusive or never needs more bits than its operands. */
  lemma {:induction false} XorBits(x: nat, y: nat, k: nat)
    requires x < Arith.Pow(2, k) && y < Arith.Pow(2, k)
    ensures Xor(x, y) < Arith.Pow(2, k)
    decreases k
  {
    if k == 0 || (x == 0 && y == 0) {
    } else {
      XorBits(x / 2, y / 2, k - 1);
    }
  }

  /** `x >> k`, as division by 2 to the `k`. */
  function Shr(x: nat, k: nat): nat
  {
    x / Arith.Pow(2, k)
  }

  // ---- Decoding ----

  /** A combo operand code: 0-3 literal, 4-6 registers A-C, 7 and above
      invalid (the source panics). */
  function ComboOf(v: nat): (r: Option<Combo>)
    ensures r.Some? <==> v < 7
  {
    if v < 4 then Some(Literal(v))
    else if v == 4 then Some(Reg(A))
    else if v == 5 then Some(Reg(B))
    else if v == 6 then Some(Reg(C))
    else None
  }

  function ComboCode(c: Combo): nat
  {
    match c
    case Literal(v) => v
    case Reg(r) => match r case A => 4 case B => 5 case C => 6
  }

  /** The codes and the operands correspond one to one. */
  lemma ComboCodes(v: nat, c: Combo)
    requires c.Literal? ==> c.v < 4
    ensures ComboOf(v) == Some(c) <==> ComboCode(c) == v
  {
  }

  /** An opcode and its operand; `None` where the source panics. */
  function Decode(op: nat, arg: nat): Option<Instruction>
  {
    if op == 1 then Some(Bxl(arg))
    else if op == 3 then Some(Jnz(arg))
    else if op == 4 then Some(Bxc)
    else match ComboOf(arg)
      case None => None
      case Some(c) =>
        if op == 0 then Some(Adv(c))
        else if op == 2 then Some(Bst(c))
        else if op == 5 then Some(Out(c))
        else if op == 6 then Some(Bdv(c))
        else if op == 7 then Some(Cdv(c))
        else None
  }

  function Encode(i: Instruction): (nat, nat)
  {
    match i
    case Adv(c) => (0, ComboCode(c))
    case Bxl(l) => (1, l)
    case Bst(c) => (2, ComboCode(c))
    case Jnz(l) => (3, l)
    case Bxc => (4, 0)
    case Out(c) => (5, ComboCode(c))
    case Bdv(c) => (6, ComboCode(c))
    case Cdv(c) => (7, ComboCode(c))
  }

  predicate WellFormed(i: Instruction)
  {
    (i.Adv? || i.Bst? || i.Out? || i.Bdv? || i.Cdv?) && i.combo.Literal? ==> i.combo.v < 4
  }

  /** Decoding inverts encoding, and a decoded instruction encodes back to
      its opcode and, except for `bxc` which ignores it, its operand. */
  lemma DecodeEncode(i: Instruction, op: nat, arg: nat)
    ensures WellFormed(i) ==> Decode(Encode(i).0, Encode(i).1) == Some(i)
    ensures Decode(op, arg) == Some(i) ==> WellFormed(i) && Encode(i).0 == op && (i != Bxc ==> Encode(i).1 == arg)
    ensures Decode(op, arg).Some? <==> op < 8 && (op == 1 || op == 3 || op == 4 || arg < 7)
  {
  }

  /** The first `n` pairs of numbers, decoded. */
  function Pairs(raw: seq<nat>, n: nat): (r: Option<seq<Instruction>>)
    requires 2 * n <= |raw|
    ensures r.Some? ==> |r.value| == n && forall k :: 0 <= k < n ==> Decode(raw[2 * k], raw[2 * k + 1]) == Some(r.value[k])
    ensures r.None? <==> exists k :: 0 <= k < n && Decode(raw[2 * k], raw[2 * k + 1]).None?
  {
    if n == 0 then Some([])
    else match (Pairs(raw, n - 1), Decode(raw[2 * (n - 1)], raw[2 * (n - 1) + 1]))
      case (Some(init), Some(i)) => Some(init + [i])
      case _ => None
  }

  /** The program in pairs of numbers; an odd trailing number is dropped
      as by `chunks_exact(2)`. */
  function Program(raw: seq<nat>): (r: Option<seq<Instruction>>)
    ensures r.Some? ==> |r.value| == |raw| / 2 && forall k :: 0 <= k < |raw| / 2 ==> Decode(raw[2 * k], raw[2 * k + 1]) == Some(r.value[k])
    ensures r.None? <==> exists k :: 0 <= k < |raw| / 2 && Decode(raw[2 * k], raw[2 * k + 1]).None?
  {
    Pairs(raw, |raw| / 2)
  }

  // ---- Running ----

  datatype Computer = Computer(a: nat, b: nat, c: nat, pc: nat, output: seq<nat>)

  function Get(s: Computer, r: Register): nat
  {
    match r case A => s.a case B => s.b case C => s.c
  }

  function Value(s: Computer, op: Combo): nat
  {
    match op
    case Literal(v) => v
    case Reg(r) => Get(s, r)
  }

  predicate Halted(prog: seq<Instruction>, s: Computer)
  {
    s.pc >= 2 * |prog|
  }

  /** One instruction at `pc / 2`. */
  function Step(prog: seq<Instruction>, s: Computer): Computer
    requires !Halted(prog, s)
  {
    var next := s.(pc := s.pc + 2);
    match prog[s.pc / 2]
    case Bxl(l) => next.(b := Xor(s.b, l))
    case Bst(op) => next.(b := Value(s, op) % 8)
    case Jnz(l) => if s.a != 0 then s.(pc := l) else next
    case Bxc => next.(b := Xor(s.b, s.c))
    case Out(op) => next.(output := s.output + [Value(s, op) % 8])
    case Adv(op) => next.(a := Shr(s.a, Value(s, op)))
    case Bdv(op) => next.(b := Shr(s.a, Value(s, op)))
    case Cdv(op) => next.(c := Shr(s.a, Value(s, op)))
  }

  /** Control flow: only a `jnz` with A nonzero jumps, to its literal;
      every other step moves on by 2. */
  lemma StepPc(prog: seq<Instruction>, s: Computer)
    requires !Halted(prog, s)
    ensures prog[s.pc / 2].Jnz? && s.a != 0 ==> Step(prog, s).pc == prog[s.pc / 2].literal
    ensures !(prog[s.pc / 2].Jnz? && s.a != 0) ==> Step(prog, s).pc == s.pc + 2
  {
  }

  /** Which register each instruction writes: `adv` only A; `bxl`, `bst`,
      `bxc` and `bdv` only B; `cdv` only C; `jnz` and `out` none. Only
      `out` writes output, one value below 8. */
  lemma StepWrites(prog: seq<Instruction>, s: Computer)
    requires !Halted(prog, s)
    ensures var i, t := prog[s.pc / 2], Step(prog, s);
      (t.a != s.a ==> i.Adv?) && (t.b != s.b ==> i.Bxl? || i.Bst? || i.Bxc? || i.Bdv?) && (t.c != s.c ==> i.Cdv?) &&
      (i.Out? ==> |t.output| == |s.output| + 1 && t.output[..|s.output|] == s.output && t.output[|s.output|] < 8) &&
      (!i.Out? ==> t.output == s.output)
    ensures var i, t := prog[s.pc / 2], Step(prog, s);
      (i.Adv? ==> t.a == Shr(s.a, Value(s, i.combo))) &&
      (i.Bdv? ==> t.b == Shr(s.a, Value(s, i.combo))) &&
      (i.Cdv? ==> t.c == Shr(s.a, Value(s, i.combo))) &&
      (i.Bxl? ==> t.b == Xor(s.b, i.literal)) &&
      (i.Bxc? ==> t.b == Xor(s.b, s.c)) &&
      (i.Bst? ==> t.b < 8)
  {
  }

  /** `Computer::run` with at most `fuel` steps: `Some` with the halted
      machine, or `None` when it is still running (the source would keep
      going, possibly forever). */
  function Run(prog: seq<Instruction>, s: Computer, fuel: nat): (r: Option<Computer>)
    ensures r.Some? ==> Halted(prog, r.value)
    ensures Halted(prog, s) ==> r == Some(s)
    decreases fuel
  {
    if Halted(prog, s) then Some(s)
    else if fuel == 0 then None
    else Run(prog, Step(prog, s), fuel - 1)
  }

  predicate Octal(output: seq<nat>)
  {
    forall k :: 0 <= k < |output| ==> output[k] < 8
  }

  /** A run only appends to the output, and only values below 8. */
  lemma {:induction false} RunOutput(prog: seq<Instruction>, s: Computer, fuel: nat)
    requires Run(prog, s, fuel).Some?
    ensures var t := Run(prog, s, fuel).value;
      |s.output| <= |t.output| && t.output[..|s.output|] == s.output &&
      (Octal(s.output) ==> Octal(t.output))
    decreases fuel
  {
    if !Halted(prog, s) {
      StepWrites(prog, s);
      var s' := Step(prog, s);
      RunOutput(prog, s', fuel - 1);
      var t := Run(prog, s, fuel).value;
      assert t.output[..|s'.output|][..|s.output|] == t.output[..|s.output|];
    }
  }

  /** More fuel does not change a finished run. */
  lemma {:induction false} RunMoreFuel(prog: seq<Instruction>, s: Computer, fuel: nat, more: nat)
    requires Run(prog, s, fuel).Some? && fuel <= more
    ensures Run(prog, s, more) == Run(prog, s, fuel)
    decreases fuel
  {
    if !Halted(prog, s) {
      RunMoreFuel(prog, Step(prog, s), fuel - 1, more - 1);
    }
  }

  /** The machine with A = `a`, the other registers zero, nothing
      printed yet, run to completion. */
  function Outputs(prog: seq<Instruction>, a: nat, b: nat, c: nat, fuel: nat): (r: Option<seq<nat>>)
    ensures r.Some? ==> Octal(r.value)
  {
    match Run(prog, Computer(a, b, c, 0, []), fuel)
    case None => None
    case Some(t) =>
      RunOutput(prog, Computer(a, b, c, 0, []), fuel);
      Some(t.output)
  }
}

/** Part one: run the program and print its output joined by commas. */
module Day17a {
  import opened Wrappers
  import Vm

  /** The outputs as digits separated by commas. */
  function Join(out: seq<nat>): (r: seq<char>)
    requires Vm.Octal(out)
    ensures |out| == 0 ==> r == []
    ensures |out| > 0 ==> |r| == 2 * |out| - 1
    ensures forall k :: 0 <= k < |out| ==> r[2 * k] == '0' + out[k] as char
    ensures forall k :: 0 <= k < |out| - 1 ==> r[2 * k + 1] == ','
  {
    if |out| == 0 then []
    else if |out| == 1 then ['0' + out[0] as char]
    else
      var rest := Join(out[..|out| - 1]);
      rest + [',', '0' + out[|out| - 1] as char]
  }

  /** The joined text has the outputs at its even positions. */
  lemma JoinDigits(out: seq<nat>)
    requires Vm.Octal(out)
    ensures var r := Join(out); forall k :: 0 <= k < |out| ==> (r[2 * k] as int) - ('0' as int) == out[k]
  {
  }

  /** The answer to part one for registers `a`, `b`, `c` and the program
      `raw`; `None` when an instruction does not decode or the program
      has not halted within `fuel` steps. */
  function Solve(raw: seq<nat>, a: nat, b: nat, c: nat, fuel: nat): (r: Option<seq<char>>)
    ensures r.Some? ==> Vm.Program(raw).Some? && Vm.Outputs(Vm.Program(raw).value, a, b, c, fuel).Some?
    ensures r.Some? ==> var out := Vm.Outputs(Vm.Program(raw).value, a, b, c, fuel).value;
      r.value == Join(out)
  {
    match Vm.Program(raw)
    case None => None
    case Some(prog) =>
      match Vm.Outputs(prog, a, b, c, fuel)
      case None => None
      case Some(out) => Some(Join(out))
  }
}

/** Part two: find the value of A, digit by octal digit from the most
    significant, that makes the program print its own code. */
module Day17b {
  import opened Wrappers
  import Arith
  import Vm

  /** `fold(0, |acc, x| acc * 8 + x)`: the digits as a base-8 number,
      most significant first. */
  function Fold(ds: seq<nat>): nat
  {
    if |ds| == 0 then 0 else Fold(ds[..|ds| - 1]) * 8 + ds[|ds| - 1]
  }

  /** The `k` lowest octal digits of `n`, most significant first. */
  function Digits(n: nat, k: nat): (r: seq<nat>)
    ensures |r| == k && Vm.Octal(r)
  {
    if k == 0 then [] else Digits(n / 8, k - 1) + [n % 8]
  }

  /** `Digits` inverts `Fold` on octal digits, and `Fold` inverts
      `Digits` below 8 to the `k`. */
  lemma {:induction false} FoldDigits(ds: seq<nat>)
    requires Vm.Octal(ds)
    ensures Digits(Fold(ds), |ds|) == ds
    ensures Fold(ds) < Arith.Pow(8, |ds|)
  {
    if |ds| > 0 {
      var init := ds[..|ds| - 1];
      FoldDigits(init);
      Arith.DivMod(Fold(ds), 8, Fold(init), ds[|ds| - 1]);
      assert Digits(Fold(ds), |ds|) == Digits(Fold(init), |init|) + [ds[|ds| - 1]];
    }
  }

  lemma {:induction false} DigitsFold(n: nat, k: nat)
    requires n < Arith.Pow(8, k)
    ensures Fold(Digits(n, k)) == n
  {
    if k > 0 {
      Arith.DivBounds(n, 8, 0, Arith.Pow(8, k - 1));
      DigitsFold(n / 8, k - 1);
      var ds := Digits(n, k);
      assert ds[..k - 1] == Digits(n / 8, k - 1);
    }
  }

  /** With a nonzero leading digit the number has exactly `|ds|` octal
      digits. */
  lemma {:induction false} FoldLeading(ds: seq<nat>)
    requires Vm.Octal(ds) && |ds| > 0 && ds[0] != 0
    ensures Arith.Pow(8, |ds| - 1) <= Fold(ds)
  {
    if |ds| > 1 {
      var init := ds[..|ds| - 1];
      FoldLeading(init);
    }
  }

  function Zeros(n: nat): (r: seq<nat>)
    ensures |r| == n && Vm.Octal(r) && forall k :: 0 <= k < n ==> r[k] == 0
  {
    seq(n, k => 0)
  }

  /** Digit `digit` of the candidate makes the program print the matching
      number of its own code, counted from the end: the run halts within
      `fuel` steps and prints as many numbers as the program has. */
  predicate Matches(prog: seq<Vm.Instruction>, raw: seq<nat>, ds: seq<nat>, digit: nat, fuel: nat)
    requires digit < |raw|
  {
    match Vm.Outputs(prog, Fold(ds), 0, 0, fuel)
    case None => false
    case Some(out) => |out| == |raw| && out[|raw| - digit - 1] == raw[|raw| - digit - 1]
  }

  /** `solve_digit`: try the values 0 to 7 for `digit` (never 0 as the
      leading digit), each with all later digits reset to 0; on a match,
      look ahead `depth` more digits. `None` where the source panics on an
      output of the wrong length, or where a run does not halt within
      `fuel` steps. */
  method SolveDigit(prog: seq<Vm.Instruction>, raw: seq<nat>, result: seq<nat>, digit: nat, depth: nat, fuel: nat)
    returns (ok: Option<bool>, result': seq<nat>)
    requires |result| == |raw| && digit < |raw| && Vm.Octal(result)
    ensures |result'| == |result| && Vm.Octal(result') && result'[..digit] == result[..digit]
    ensures ok == Some(true) ==>
      (digit == 0 ==> result'[0] != 0) && Matches(prog, raw, result'[..digit + 1] + Zeros(|raw| - digit - 1), digit, fuel)
    decreases depth
  {
    var n := |raw|;
    result' := result;
    for value := 0 to 8
      invariant |result'| == n && Vm.Octal(result') && result'[..digit] == result[..digit]
    {
      if value == 0 && digit == 0 {
        continue;
      }
      var candidate := result'[..digit] + [value] + Zeros(n - digit - 1);
      assert candidate[..digit] == result[..digit];
      result' := candidate;
      var out := Vm.Outputs(prog, Fold(candidate), 0, 0, fuel);
      if out.None? || |out.value| != n {
        return None, result';
      }
      if out.value[n - digit - 1] == raw[n - digit - 1] {
        assert candidate[..digit + 1] + Zeros(n - digit - 1) == candidate;
        if depth == 0 || digit == n - 1 {
          return Some(true), result';
        }
        var sub, next := SolveDigit(prog, raw, candidate, digit + 1, depth - 1, fuel);
        result' := next;
        assert next[..digit + 1] == candidate[..digit + 1];
        assert next[..digit] == next[..digit + 1][..digit];
        if sub.None? {
          return None, result';
        }
        if sub == Some(true) {
          assert result'[0] == candidate[0];
          return Some(true), result';
        }
      }
    }
    ok := Some(false);
  }

  /** `main`: settle the digits one by one with a lookahead of one, then
      check that the program prints itself. The answer has as many octal
      digits as the program has numbers. */
  method Solve(raw: seq<nat>, fuel: nat) returns (r: Option<nat>)
    ensures r.Some? ==> Vm.Program(raw).Some? && Vm.Outputs(Vm.Program(raw).value, r.value, 0, 0, fuel) == Some(raw)
    ensures r.Some? && |raw| > 0 ==> Arith.Pow(8, |raw| - 1) <= r.value < Arith.Pow(8, |raw|)
  {
    var program := Vm.Program(raw);
    if program.None? {
      return None;
    }
    var settled := Settle(program.value, raw, fuel);
    if settled.None? {
      return None;
    }
    r := Confirm(program.value, raw, settled.value, fuel);
  }

  /** The loop of `main`: every digit settled in turn, from the most
      significant one. */
  method Settle(prog: seq<Vm.Instruction>, raw: seq<nat>, fuel: nat) returns (r: Option<seq<nat>>)
    ensures r.Some? ==> |r.value| == |raw| && Vm.Octal(r.value) && (|raw| > 0 ==> r.value[0] != 0)
  {
    var n := |raw|;
    var result := Zeros(n);
    for digit := 0 to n
      invariant |result| == n && Vm.Octal(result)
      invariant digit > 0 ==> result[0] != 0
    {
      var ok, next := SolveDigit(prog, raw, result, digit, 1, fuel);
      if ok != Some(true) {
        return None;
      }
      if digit > 0 {
        assert next[0] == next[..digit][0] == result[..digit][0];
      }
      result := next;
    }
    r := Some(result);
  }

  /** The final check of `main`: the settled digits make the program
      print itself. */
  method Confirm(prog: seq<Vm.Instruction>, raw: seq<nat>, result: seq<nat>, fuel: nat) returns (r: Option<nat>)
    requires |result| == |raw| && Vm.Octal(result) && (|raw| > 0 ==> result[0] != 0)
    ensures r.Some? ==> Vm.Outputs(prog, r.value, 0, 0, fuel) == Some(raw)
    ensures r.Some? && |raw| > 0 ==> Arith.Pow(8, |raw| - 1) <= r.value < Arith.Pow(8, |raw|)
  {
    var input := Fold(result);
    var out := Vm.Outputs(prog, input, 0, 0, fuel);
    if out != Some(raw) {
      return None;
    }
    if |raw| > 0 {
      FoldDigits(result);
      FoldLeading(result);
    }
    r := Some(input);
  }
}

=== FILE: day18.dfy ===
/** Day 18: bytes fall onto a 71 by 71 memory grid and become walls; a
    unit-cost priority-queue search looks for a path from the top left to
    the bottom right corner. Part one reports the cost after the first
    1024 bytes, part two the first byte after which no path is left. */

module RamRun {
  import opened Wrappers
  import Seqs
  import Grids
  import Heaps

  const Size: nat := 71
  const NumBytes: nat := 1024

  datatype Tile = Tile(wall: bool, cost: Option<nat>)
  datatype Point = Point(x: nat, y: nat)
  datatype Node = Node(pos: Point, cost: nat)

  type Grid = seq<seq<Tile>>

  const Start: Point := Point(0, 0)
  const End: Point := Point(Size - 1, Size - 1)

  predicate Valid(g: Grid)
  {
    Grids.IsGrid(g, Size, Size)
  }

  predicate In(p: Point)
  {
    p.x < Size && p.y < Size
  }

  function At(g: Grid, p: Point): Tile
    requires Valid(g) && In(p)
  {
    g[p.y][p.x]
  }

  /** On the grid and one step up, down, left or right of `p`. */
  predicate Adjacent(p: Point, q: Point)
  {
    In(q) && Seqs.Abs(q.x - p.x) + Seqs.Abs(q.y - p.y) == 1
  }

  /** The neighbours the search looks at, in its order: right, below,
      left, above, each only when it stays on the grid. */
  function Neighbours(p: Point): (r: seq<Point>)
    requires In(p)
    ensures forall q :: q in r <==> Adjacent(p, q)
  {
    (if p.x < Size - 1 then [Point(p.x + 1, p.y)] else []) +
    (if p.y < Size - 1 then [Point(p.x, p.y + 1)] else []) +
    (if p.x > 0 then [Point(p.x - 1, p.y)] else []) +
    (if p.y > 0 then [Point(p.x, p.y - 1)] else [])
  }

  /** Being neighbours is symmetric. */
  lemma NeighboursSymmetric(p: Point, q: Point)
    requires In(p) && In(q)
    ensures q in Neighbours(p) <==> p in Neighbours(q)
    ensures Adjacent(p, q) <==> Adjacent(q, p)
  {
  }

  /** The grid with tile `t` at `p`. */
  function Put(g: Grid, p: Point, t: Tile): (r: Grid)
    requires Valid(g) && In(p)
    ensures Valid(r) && forall q :: In(q) ==> At(r, q) == if q == p then t else At(g, q)
  {
    Grids.Set(g, p.x, p.y, t)
  }

  /** Grids with the same tiles are equal. */
  lemma Same(a: Grid, b: Grid)
    requires Valid(a) && Valid(b) && forall q :: In(q) ==> At(a, q) == At(b, q)
    ensures a == b
  {
    forall y | 0 <= y < Size
      ensures a[y] == b[y]
    {
      forall x | 0 <= x < Size
        ensures a[y][x] == b[y][x]
      {
        assert At(a, Point(x, y)) == At(b, Point(x, y));
      }
    }
  }

  // ---- Paths ----

  /** One step of a path: to a neighbour that is not a wall. */
  predicate Link(g: Grid, a: Point, b: Point)
    requires Valid(g)
  {
    Adjacent(a, b) && !At(g, b).wall
  }

  /** A path from the start (which may itself be a wall). */
  predicate Path(g: Grid, ps: seq<Point>)
    requires Valid(g)
    decreases |ps|
  {
    |ps| >= 1 && In(ps[|ps| - 1]) &&
    if |ps| == 1 then ps[0] == Start
    else Path(g, ps[..|ps| - 1]) && Link(g, ps[|ps| - 2], ps[|ps| - 1])
  }

  ghost predicate Reaches(g: Grid, p: Point, c: nat)
    requires Valid(g)
  {
    exists ps :: Path(g, ps) && |ps| == c + 1 && ps[|ps| - 1] == p
  }

  ghost predicate Reachable(g: Grid, p: Point)
    requires Valid(g)
  {
    exists ps :: Path(g, ps) && ps[|ps| - 1] == p
  }

  lemma Extend(g: Grid, ps: seq<Point>, q: Point)
    requires Valid(g) && Path(g, ps) && Link(g, ps[|ps| - 1], q)
    ensures Path(g, ps + [q])
  {
    assert (ps + [q])[..|ps|] == ps;
  }

  // ---- Building the map ----

  /** The empty grid: no walls, no costs. */
  function Blank(): (g: Grid)
    ensures Valid(g) && forall q :: In(q) ==> At(g, q) == Tile(false, None)
  {
    seq(Size, y => seq(Size, x => Tile(false, None)))
  }

  function SetWall(g: Grid, p: Point): (r: Grid)
    requires Valid(g) && In(p)
    ensures Valid(r)
  {
    Put(g, p, At(g, p).(wall := true))
  }

  /** `get_mut(coord).wall = true` for each coordinate in turn; `None`
      where a coordinate lies off the grid and the source panics. */
  function Drop(g: Grid, cs: seq<(nat, nat)>): (r: Option<Grid>)
    requires Valid(g)
    ensures r.Some? <==> forall k :: 0 <= k < |cs| ==> In(Point(cs[k].0, cs[k].1))
    ensures r.Some? ==> Valid(r.value) && forall q :: In(q) ==>
      At(r.value, q).cost == At(g, q).cost && (At(r.value, q).wall <==> At(g, q).wall || (q.x, q.y) in cs)
  {
    if |cs| == 0 then Some(g)
    else
      var c := cs[|cs| - 1];
      match Drop(g, cs[..|cs| - 1])
      case None => None
      case Some(g') =>
        assert forall k :: 0 <= k < |cs| - 1 ==> cs[..|cs| - 1][k] == cs[k];
        if In(Point(c.0, c.1)) then
          assert forall e :: e in cs <==> e in cs[..|cs| - 1] || e == c;
          Some(SetWall(g', Point(c.0, c.1)))
        else None
  }

  /** The start tile with cost `Some(0)`, its wall flag kept. */
  function WithStart(g: Grid): (r: Grid)
    requires Valid(g)
    ensures Valid(r)
  {
    Put(g, Start, At(g, Start).(cost := Some(0)))
  }

  /** The grid before a search: the start costs 0, every other tile has
      no cost yet. */
  ghost predicate Ready(g: Grid)
  {
    Valid(g) && forall q :: In(q) ==> At(g, q).cost == if q == Start then Some(0) else None
  }

  /** The map with the walls `cs` and the start cost set. */
  function Layout(cs: seq<(nat, nat)>): (r: Option<Grid>)
    ensures r.Some? <==> forall k :: 0 <= k < |cs| ==> In(Point(cs[k].0, cs[k].1))
    ensures r.Some? ==> Ready(r.value)
    ensures r.Some? ==> forall q :: In(q) ==> (At(r.value, q).wall <==> (q.x, q.y) in cs)
  {
    match Drop(Blank(), cs)
    case None => None
    case Some(g) => Some(WithStart(g))
  }

  /** Dropping one more wall on the prepared map gives the layout of the
      longer list: setting the start cost and the walls commute. */
  lemma LayoutStep(cs: seq<(nat, nat)>, c: (nat, nat))
    requires Layout(cs).Some? && In(Point(c.0, c.1))
    ensures Layout(cs + [c]) == Some(SetWall(Layout(cs).value, Point(c.0, c.1)))
  {
    assert (cs + [c])[..|cs|] == cs;
    var g := Drop(Blank(), cs).value;
    var p := Point(c.0, c.1);
    assert Drop(Blank(), cs + [c]) == Some(SetWall(g, p));
    Same(WithStart(SetWall(g, p)), SetWall(WithStart(g), p));
  }

  // ---- The search ----

  /** `Node::cmp` reverses the cost order: the heap's greatest node is a
      cheapest one. */
  function Rank(n: Node): int
  {
    -(n.cost as int)
  }

  lemma RankCheapest(a: Node, b: Node)
    ensures Rank(a) <= Rank(b) <==> b.cost <= a.cost
  {
  }

  function Unset1(t: Tile): int
  {
    if t.cost.None? then 1 else 0
  }

  function Spent1(t: Tile): int
  {
    match t.cost case Some(c) => c case None => 0
  }

  /** Fewer tiles without a cost, or as many and a smaller cost sum: the
      search's progress measure. */
  ghost predicate Progress(a: Grid, b: Grid)
  {
    Grids.Measure(a, Unset1) < Grids.Measure(b, Unset1) ||
    (Grids.Measure(a, Unset1) == Grids.Measure(b, Unset1) && Grids.Measure(a, Spent1) < Grids.Measure(b, Spent1))
  }

  /** The search state against the grid `g0` it started on: the same
      walls, and every cost the length of a path to its tile. */
  ghost predicate Recorded(g0: Grid, tiles: Grid)
  {
    Valid(g0) && Valid(tiles) &&
    forall p :: In(p) ==>
      At(tiles, p).wall == At(g0, p).wall &&
      (At(tiles, p).cost.Some? ==> Reaches(g0, p, At(tiles, p).cost.value))
  }

  /** Walls stay, and costs once set stay set and never grow. */
  ghost predicate Keeps(tiles: Grid, tiles': Grid)
    requires Valid(tiles) && Valid(tiles')
  {
    forall p :: In(p) ==>
      At(tiles', p).wall == At(tiles, p).wall &&
      (At(tiles, p).cost.Some? ==> At(tiles', p).cost.Some? && At(tiles', p).cost.value <= At(tiles, p).cost.value)
  }

  ghost predicate Pending(todos: multiset<Node>, p: Point)
  {
    exists n :: n in todos && n.pos == p
  }

  /** A node for `p` at cost `c` is queued. */
  ghost predicate Fresh(todos: multiset<Node>, p: Point, c: nat)
  {
    Node(p, c) in todos
  }

  /** Every queued node stands on a costed tile, at no less than the
      tile's cost: a node is stale once its tile got cheaper. */
  ghost predicate Queued(tiles: Grid, todos: multiset<Node>)
    requires Valid(tiles)
  {
    forall n :: n in todos ==> In(n.pos) && At(tiles, n.pos).cost.Some? && At(tiles, n.pos).cost.value <= n.cost
  }

  /** Every neighbour of the costed tile `p` is a wall or costs at most
      one more than `p`. */
  ghost predicate Relaxed(tiles: Grid, p: Point)
    requires Valid(tiles) && In(p) && At(tiles, p).cost.Some?
  {
    forall q :: q in Neighbours(p) ==>
      At(tiles, q).wall || (At(tiles, q).cost.Some? && At(tiles, q).cost.value <= At(tiles, p).cost.value + 1)
  }

  /** Every costed tile is queued at its cost or relaxed, except `skip`. */
  ghost predicate Closed(tiles: Grid, todos: multiset<Node>, skip: Option<Point>)
    requires Valid(tiles)
  {
    forall p :: In(p) && At(tiles, p).cost.Some? ==>
      Fresh(todos, p, At(tiles, p).cost.value) || Relaxed(tiles, p) || skip == Some(p)
  }

  /** Tiles whose cost `tiles'` set or lowered are queued at the new cost. */
  ghost predicate Announced(tiles: Grid, tiles': Grid, todos: multiset<Node>)
    requires Valid(tiles) && Valid(tiles')
  {
    forall p :: In(p) && At(tiles', p).cost.Some? && At(tiles, p).cost != At(tiles', p).cost ==>
      Fresh(todos, p, At(tiles', p).cost.value)
  }

  /** The test of `check_pos`: no wall, and no cost or a larger one. */
  predicate Better(t: Tile, next: nat)
  {
    !t.wall && (t.cost.None? || t.cost.value > next)
  }

  /** `check_pos`: a better neighbour gets the cost `next` and is queued;
      otherwise nothing changes. */
  method CheckPos(ghost g0: Grid, tiles: Grid, todos: multiset<Node>, from: Point, q: Point, next: nat)
    returns (tiles': Grid, todos': multiset<Node>)
    requires Recorded(g0, tiles) && Queued(tiles, todos) && In(from) && q in Neighbours(from)
    requires next >= 1 && Reaches(g0, from, next - 1)
    ensures Recorded(g0, tiles') && Queued(tiles', todos') && Keeps(tiles, tiles') && todos <= todos'
    ensures Announced(tiles, tiles', todos')
    ensures At(tiles', q).wall || (At(tiles', q).cost.Some? && At(tiles', q).cost.value <= next)
    ensures Better(At(tiles, q), next) ==>
      tiles' == Put(tiles, q, Tile(false, Some(next))) && todos' == todos + multiset{Node(q, next)} && Progress(tiles', tiles)
    ensures !Better(At(tiles, q), next) ==> tiles' == tiles && todos' == todos
  {
    if Better(At(tiles, q), next) {
      tiles' := Put(tiles, q, Tile(false, Some(next)));
      todos' := todos + multiset{Node(q, next)};
      UpdateRecorded(g0, tiles, from, q, next);
      UpdateProgress(tiles, q, next);
      assert Node(q, next) in todos';
    } else {
      tiles', todos' := tiles, todos;
    }
  }

  lemma UpdateRecorded(g0: Grid, tiles: Grid, from: Point, q: Point, next: nat)
    requires Recorded(g0, tiles) && In(from) && q in Neighbours(from) && !At(tiles, q).wall
    requires next >= 1 && Reaches(g0, from, next - 1)
    ensures Recorded(g0, Put(tiles, q, Tile(false, Some(next))))
  {
    var ps :| Path(g0, ps) && |ps| == next && ps[|ps| - 1] == from;
    Extend(g0, ps, q);
    assert Reaches(g0, q, next);
  }

  lemma UpdateProgress(tiles: Grid, q: Point, next: nat)
    requires Valid(tiles) && In(q) && Better(At(tiles, q), next)
    ensures Progress(Put(tiles, q, Tile(false, Some(next))), tiles)
  {
    Grids.MeasureSet(tiles, q.x, q.y, Tile(false, Some(next)), Unset1);
    Grids.MeasureSet(tiles, q.x, q.y, Tile(false, Some(next)), Spent1);
  }

  /** Closure survives a `check_pos`: a tile whose cost changed is queued
      at the new cost; one whose cost did not stays queued, or stays
      relaxed because its neighbours only got cheaper. */
  lemma ClosedStep(before: Grid, after: Grid, queued: multiset<Node>, todos: multiset<Node>, pos: Point)
    requires Valid(before) && Valid(after) && Closed(before, queued, Some(pos))
    requires Keeps(before, after) && queued <= todos && Announced(before, after, todos)
    ensures Closed(after, todos, Some(pos))
  {
    forall p | In(p) && At(after, p).cost.Some?
      ensures Fresh(todos, p, At(after, p).cost.value) || Relaxed(after, p) || Some(pos) == Some(p)
    {
      if At(before, p).cost == At(after, p).cost {
        if Fresh(queued, p, At(before, p).cost.value) {
          assert Node(p, At(before, p).cost.value) in todos;
        } else if Relaxed(before, p) {
          assert Relaxed(after, p);
        }
      }
    }
  }

  /** The state of the neighbour loop of `Expand` after `i` neighbours of
      `pos`, against the state `tiles`, `todos` it started from. */
  ghost predicate Expanding(g0: Grid, tiles: Grid, todos: multiset<Node>, pos: Point, ns: seq<Point>, i: nat,
                            tiles': Grid, todos': multiset<Node>)
  {
    Recorded(g0, tiles) && Recorded(g0, tiles') && In(pos) && ns == Neighbours(pos) && i <= |ns| &&
    At(tiles, pos).cost.Some? && At(tiles', pos) == At(tiles, pos) &&
    Queued(tiles', todos') && Keeps(tiles, tiles') && todos <= todos' &&
    (At(tiles', End).cost.Some? ==> Pending(todos', End)) &&
    Closed(tiles', todos', Some(pos)) && Covers(tiles', ns[..i], At(tiles, pos).cost.value) &&
    ((tiles' == tiles && todos' == todos) || Progress(tiles', tiles))
  }

  /** One round of the neighbour loop: `check_pos` on `ns[i]` at one more
      than the cost of `pos`. */
  method ExpandOne(ghost g0: Grid, ghost tiles: Grid, ghost todos: multiset<Node>, pos: Point, ns: seq<Point>, i: nat,
                   cur: Grid, queue: multiset<Node>)
    returns (tiles': Grid, todos': multiset<Node>)
    requires Expanding(g0, tiles, todos, pos, ns, i, cur, queue) && i < |ns|
    ensures Expanding(g0, tiles, todos, pos, ns, i + 1, tiles', todos')
  {
    var c := At(cur, pos).cost.value;
    tiles', todos' := CheckPos(g0, cur, queue, pos, ns[i], c + 1);
    ClosedStep(cur, tiles', queue, todos', pos);
    EndPending(cur, tiles', queue, todos');
    CoversStep(cur, tiles', ns, i, c);
    KeepsTrans(tiles, cur, tiles');
  }

  /** The start costs 0 for good: costs never grow. */
  lemma StartStays(tiles: Grid, tiles': Grid)
    requires Valid(tiles) && Valid(tiles') && Keeps(tiles, tiles') && At(tiles, Start).cost == Some(0)
    ensures At(tiles', Start).cost == Some(0)
  {
    assert In(Start);
  }

  lemma KeepsTrans(a: Grid, b: Grid, c: Grid)
    requires Valid(a) && Valid(b) && Valid(c) && Keeps(a, b) && Keeps(b, c)
    ensures Keeps(a, c)
  {
  }

  /** One popped node that is not the end: `check_pos` on each neighbour
      at one more than the node's tile cost, which leaves the tile
      relaxed. */
  method Expand(ghost g0: Grid, tiles: Grid, todos: multiset<Node>, pos: Point)
    returns (tiles': Grid, todos': multiset<Node>)
    requires Recorded(g0, tiles) && Queued(tiles, todos) && In(pos) && At(tiles, pos).cost.Some?
    requires At(tiles, End).cost.Some? ==> Pending(todos, End)
    requires Closed(tiles, todos, Some(pos))
    ensures Recorded(g0, tiles') && Queued(tiles', todos') && Keeps(tiles, tiles')
    ensures At(tiles', End).cost.Some? ==> Pending(todos', End)
    ensures Closed(tiles', todos', None)
    ensures (tiles' == tiles && todos' == todos) || Progress(tiles', tiles)
  {
    var ns := Neighbours(pos);
    tiles', todos' := tiles, todos;
    for i := 0 to |ns|
      invariant Expanding(g0, tiles, todos, pos, ns, i, tiles', todos')
    {
      tiles', todos' := ExpandOne(g0, tiles, todos, pos, ns, i, tiles', todos');
    }
    assert ns[..|ns|] == ns;
    assert Relaxed(tiles', pos);
  }

  /** Every tile of `qs` is a wall or costs at most `c + 1`. */
  ghost predicate Covers(tiles: Grid, qs: seq<Point>, c: nat)
    requires Valid(tiles)
  {
    forall q :: q in qs ==> In(q) && (At(tiles, q).wall || (At(tiles, q).cost.Some? && At(tiles, q).cost.value <= c + 1))
  }

  lemma CoversStep(before: Grid, after: Grid, qs: seq<Point>, i: nat, c: nat)
    requires Valid(before) && Valid(after) && i < |qs| && Keeps(before, after) && Covers(before, qs[..i], c)
    requires In(qs[i]) && (At(after, qs[i]).wall || (At(after, qs[i]).cost.Some? && At(after, qs[i]).cost.value <= c + 1))
    ensures Covers(after, qs[..i + 1], c)
  {
    assert forall q :: q in qs[..i + 1] ==> q in qs[..i] || q == qs[i];
  }

  lemma EndPending(before: Grid, after: Grid, queued: multiset<Node>, todos: multiset<Node>)
    requires Valid(before) && Valid(after) && queued <= todos && Announced(before, after, todos)
    requires At(before, End).cost.Some? ==> Pending(queued, End)
    ensures At(after, End).cost.Some? ==> Pending(todos, End)
  {
    if At(before, End).cost.Some? {
      var n :| n in queued && n.pos == End;
      assert n in todos;
    } else if At(after, End).cost.Some? {
      assert Node(End, At(after, End).cost.value) in todos;
    }
  }

  /** The invariant of the main loop. */
  ghost predicate Searching(g0: Grid, tiles: Grid, todos: multiset<Node>)
  {
    Recorded(g0, tiles) && Queued(tiles, todos) && At(tiles, Start).cost == Some(0) &&
    (At(tiles, End).cost.Some? ==> Pending(todos, End)) && Closed(tiles, todos, None)
  }

  /** The main loop: pop a cheapest node; stop when it is the end,
      otherwise expand it. `found` is true exactly when the end can be
      reached, and then `cost` is the length of a shortest path to it. */
  method Search(g0: Grid) returns (found: bool, cost: nat)
    requires Ready(g0)
    ensures found ==> Reaches(g0, End, cost)
    ensures found ==> forall c :: Reaches(g0, End, c) ==> cost <= c
    ensures found <==> Reachable(g0, End)
  {
    var tiles := g0;
    var todos := multiset{Node(Start, 0)};
    assert Path(g0, [Start]);
    Start0(g0);
    Grids.MeasureNonNegative(tiles, Unset1);
    Grids.MeasureNonNegative(tiles, Spent1);
    while todos != multiset{}
      invariant Searching(g0, tiles, todos)
      invariant Grids.Measure(tiles, Unset1) >= 0 && Grids.Measure(tiles, Spent1) >= 0
      decreases Grids.Measure(tiles, Unset1), Grids.Measure(tiles, Spent1), |todos|
    {
      var todo := Heaps.PopMax(todos, Rank);
      var pos := todo.pos;
      if pos == End {
        Shortest(g0, tiles, todos, todo);
        return true, At(tiles, pos).cost.value;
      }
      ghost var queued := todos;
      todos := todos - multiset{todo};
      Popped(tiles, queued, todos, todo);
      ghost var before := tiles;
      tiles, todos := Expand(g0, tiles, todos, pos);
      StartStays(before, tiles);
      Grids.MeasureNonNegative(tiles, Unset1);
      Grids.MeasureNonNegative(tiles, Spent1);
    }
    Unreachable(g0, tiles);
    return false, 0;
  }

  /** The initial state satisfies the loop invariants. */
  lemma Start0(g0: Grid)
    requires Ready(g0)
    ensures Recorded(g0, g0) && Queued(g0, multiset{Node(Start, 0)}) && Closed(g0, multiset{Node(Start, 0)}, None)
    ensures At(g0, End).cost.None?
  {
    assert Path(g0, [Start]);
    assert Reaches(g0, Start, 0);
    assert Fresh(multiset{Node(Start, 0)}, Start, 0);
  }

  lemma Popped(tiles: Grid, todos: multiset<Node>, rest: multiset<Node>, todo: Node)
    requires Valid(tiles) && todo in todos && rest == todos - multiset{todo}
    requires Queued(tiles, todos) && Closed(tiles, todos, None) && todo.pos != End
    requires At(tiles, End).cost.Some? ==> Pending(todos, End)
    ensures Queued(tiles, rest) && Closed(tiles, rest, Some(todo.pos))
    ensures At(tiles, End).cost.Some? ==> Pending(rest, End)
  {
    forall p | Pending(todos, p) && p != todo.pos
      ensures Pending(rest, p)
    {
      var n :| n in todos && n.pos == p;
      assert n in rest;
    }
    forall p, c | Fresh(todos, p, c) && p != todo.pos
      ensures Fresh(rest, p, c)
    {
      assert Node(p, c) != todo;
    }
  }

  /** Tile `p`, `j` steps along a path, is queued at its cost, which is at
      most `j`. */
  ghost predicate QueuedBy(tiles: Grid, todos: multiset<Node>, p: Point, j: nat)
    requires Valid(tiles)
  {
    In(p) && At(tiles, p).cost.Some? && At(tiles, p).cost.value <= j && Fresh(todos, p, At(tiles, p).cost.value)
  }

  /** Along a path from the start, either some tile is queued at no more
      than its distance along the path, or the last tile costs at most
      the path's length: each tile not queued is relaxed. */
  lemma {:induction false} Along(g0: Grid, tiles: Grid, todos: multiset<Node>, ps: seq<Point>)
    requires Recorded(g0, tiles) && At(tiles, Start).cost == Some(0) && Closed(tiles, todos, None)
    requires Path(g0, ps)
    ensures (exists j :: 0 <= j < |ps| && QueuedBy(tiles, todos, ps[j], j)) ||
      (At(tiles, ps[|ps| - 1]).cost.Some? && At(tiles, ps[|ps| - 1]).cost.value <= |ps| - 1)
    decreases |ps|
  {
    if |ps| > 1 {
      var init := ps[..|ps| - 1];
      Along(g0, tiles, todos, init);
      var k := |init| - 1;
      var p := init[k];
      var q := ps[|ps| - 1];
      if exists j :: 0 <= j < |init| && QueuedBy(tiles, todos, init[j], j) {
        var j :| 0 <= j < |init| && QueuedBy(tiles, todos, init[j], j);
        assert ps[j] == init[j];
      } else {
        assert !QueuedBy(tiles, todos, init[k], k);
        assert Relaxed(tiles, p);
        assert q in Neighbours(p) && !At(tiles, q).wall;
      }
    }
  }

  /** A cheapest queued node on the end: no path to the end is shorter
      than the end's cost. */
  lemma Shortest(g0: Grid, tiles: Grid, todos: multiset<Node>, todo: Node)
    requires Searching(g0, tiles, todos) && todo in todos && todo.pos == End
    requires forall m :: m in todos ==> Rank(m) <= Rank(todo)
    ensures At(tiles, End).cost.Some?
    ensures forall c :: Reaches(g0, End, c) ==> At(tiles, End).cost.value <= c
  {
    forall c: nat | Reaches(g0, End, c)
      ensures At(tiles, End).cost.value <= c
    {
      var ps :| Path(g0, ps) && |ps| == c + 1 && ps[|ps| - 1] == End;
      Along(g0, tiles, todos, ps);
      if exists j :: 0 <= j < |ps| && QueuedBy(tiles, todos, ps[j], j) {
        var j :| 0 <= j < |ps| && QueuedBy(tiles, todos, ps[j], j);
        var m := Node(ps[j], At(tiles, ps[j]).cost.value);
        assert m in todos;
        RankCheapest(m, todo);
      }
    }
  }

  /** With the queue empty every costed tile is relaxed, so every tile a
      path reaches has a cost; the end has none, so no path reaches it. */
  lemma Unreachable(g0: Grid, tiles: Grid)
    requires Recorded(g0, tiles) && At(tiles, Start).cost.Some?
    requires At(tiles, End).cost.Some? ==> Pending(multiset{}, End)
    requires Closed(tiles, multiset{}, None)
    ensures !Reachable(g0, End)
  {
    if Reachable(g0, End) {
      var ps :| Path(g0, ps) && ps[|ps| - 1] == End;
      Covered(g0, tiles, ps);
    }
  }

  lemma {:induction false} Covered(g0: Grid, tiles: Grid, ps: seq<Point>)
    requires Recorded(g0, tiles) && At(tiles, Start).cost.Some? && Closed(tiles, multiset{}, None)
    requires Path(g0, ps)
    ensures At(tiles, ps[|ps| - 1]).cost.Some?
    decreases |ps|
  {
    if |ps| > 1 {
      var init := ps[..|ps| - 1];
      Covered(g0, tiles, init);
      var p := init[|init| - 1];
      assert !Fresh(multiset{}, p, At(tiles, p).cost.value);
      assert Relaxed(tiles, p);
      assert ps[|ps| - 1] in Neighbours(p);
    }
  }
}

/** Part one: the cost of reaching the end after the first 1024 bytes. */
module Day18a {
  import opened Wrappers
  import RamRun

  /** `usize::MAX`, reported when the end is never reached. */
  const Max: nat := 0xFFFF_FFFF_FFFF_FFFF

  function Take(cs: seq<(nat, nat)>, n: nat): seq<(nat, nat)>
  {
    if |cs| <= n then cs else cs[..n]
  }

  /** The answer: the length of a shortest path to the end, or `Max`
      exactly when the end cannot be reached; `None` where a byte lies off
      the grid. */
  method Solve(coords: seq<(nat, nat)>) returns (r: Option<nat>)
    ensures r.Some? <==> RamRun.Layout(Take(coords, RamRun.NumBytes)).Some?
    ensures r.Some? ==> var g := RamRun.Layout(Take(coords, RamRun.NumBytes)).value;
      (RamRun.Reachable(g, RamRun.End) ==> RamRun.Reaches(g, RamRun.End, r.value)) &&
      (RamRun.Reachable(g, RamRun.End) ==> forall c :: RamRun.Reaches(g, RamRun.End, c) ==> r.value <= c) &&
      (!RamRun.Reachable(g, RamRun.End) ==> r.value == Max)
  {
    var layout := RamRun.Layout(Take(coords, RamRun.NumBytes));
    if layout.None? {
      return None;
    }
    var found, cost := RamRun.Search(layout.value);
    r := Some(if found then cost else Max);
  }
}

/** Part two: the first byte after which the end cannot be reached. */
module Day18b {
  import opened Wrappers
  import RamRun

  /** After the bytes up to `k` have fallen the end can be reached. */
  ghost predicate Open(coords: seq<(nat, nat)>, k: nat)
    requires k < |coords|
  {
    RamRun.Layout(coords[..k + 1]).Some? && RamRun.Reachable(RamRun.Layout(coords[..k + 1]).value, RamRun.End)
  }

  /** After the bytes up to `k` have fallen the end cannot be reached. */
  ghost predicate Blocked(coords: seq<(nat, nat)>, k: nat)
    requires k < |coords|
  {
    RamRun.Layout(coords[..k + 1]).Some? && !RamRun.Reachable(RamRun.Layout(coords[..k + 1]).value, RamRun.End)
  }

  /** The end stays reachable after each byte from the 1024th up to `k`. */
  ghost predicate OpenUntil(coords: seq<(nat, nat)>, k: nat)
  {
    forall j :: RamRun.NumBytes <= j < k && j < |coords| ==> Open(coords, j)
  }

  /** Byte `k` is the first after the 1024th that blocks the end. */
  ghost predicate FirstBlock(coords: seq<(nat, nat)>, k: nat)
  {
    RamRun.NumBytes <= k < |coords| && Blocked(coords, k) && OpenUntil(coords, k)
  }

  /** The grid after one more byte is the layout of the longer prefix. */
  lemma Fall(coords: seq<(nat, nat)>, k: nat, grid: RamRun.Grid)
    requires k < |coords| && RamRun.Layout(coords[..k]) == Some(grid)
    requires RamRun.In(RamRun.Point(coords[k].0, coords[k].1))
    ensures RamRun.Layout(coords[..k + 1]) == Some(RamRun.SetWall(grid, RamRun.Point(coords[k].0, coords[k].1)))
  {
    RamRun.LayoutStep(coords[..k], coords[k]);
    assert coords[..k] + [coords[k]] == coords[..k + 1];
  }

  /** A search on the layout of the prefix up to `k` decides `Open` and
      `Blocked`. */
  lemma Judge(coords: seq<(nat, nat)>, k: nat, grid: RamRun.Grid, open: bool)
    requires RamRun.NumBytes <= k < |coords| && RamRun.Layout(coords[..k + 1]) == Some(grid)
    requires open <==> RamRun.Reachable(grid, RamRun.End)
    requires OpenUntil(coords, k)
    ensures open ==> OpenUntil(coords, k + 1)
    ensures !open ==> FirstBlock(coords, k)
  {
    if open {
      assert Open(coords, k);
      forall j | RamRun.NumBytes <= j < k + 1 && j < |coords|
        ensures Open(coords, j)
      {
        if j < k {
          assert Open(coords, j);
        } else {
          assert j == k;
        }
      }
    } else {
      assert Blocked(coords, k);
    }
  }

  /** A byte off the grid leaves the whole list without a layout. */
  lemma OffGrid(coords: seq<(nat, nat)>, k: nat)
    requires k < |coords| && !RamRun.In(RamRun.Point(coords[k].0, coords[k].1))
    ensures RamRun.Layout(coords).None?
  {
  }

  lemma PrefixOffGrid(coords: seq<(nat, nat)>, n: nat)
    requires n <= |coords| && RamRun.Layout(coords[..n]).None?
    ensures RamRun.Layout(coords).None?
  {
    var k :| 0 <= k < n && !RamRun.In(RamRun.Point(coords[..n][k].0, coords[..n][k].1));
    OffGrid(coords, k);
  }

  /** After the first 1024 bytes, drop one byte at a time and search a
      copy of the map; report the first byte that blocks every path.
      `None` exactly when no byte does, or a byte lies off the grid. */
  method Solve(coords: seq<(nat, nat)>) returns (r: Option<(nat, nat)>)
    ensures r.Some? ==> exists k: nat :: FirstBlock(coords, k) && coords[k] == r.value
    ensures r.None? ==> OpenUntil(coords, |coords|) || RamRun.Layout(coords).None?
  {
    if |coords| <= RamRun.NumBytes {
      return None;
    }
    var layout := RamRun.Layout(coords[..RamRun.NumBytes]);
    if layout.None? {
      PrefixOffGrid(coords, RamRun.NumBytes);
      return None;
    }
    var grid := layout.value;
    for k := RamRun.NumBytes to |coords|
      invariant RamRun.Layout(coords[..k]) == Some(grid)
      invariant OpenUntil(coords, k)
    {
      var c := coords[k];
      if !RamRun.In(RamRun.Point(c.0, c.1)) {
        OffGrid(coords, k);
        return None;
      }
      Fall(coords, k, grid);
      grid := RamRun.SetWall(grid, RamRun.Point(c.0, c.1));
      var open, _ := RamRun.Search(grid);
      Judge(coords, k, grid, open);
      if !open {
        return Some(c);
      }
    }
    r := None;
  }
}

=== FILE: day19.dfy ===
/** Day 19: towel patterns. A design is possible when it can be cut into
    a sequence of one or more available patterns; part one counts the
    possible designs, part two adds up the number of ways to cut each.
    The pattern hash set is modelled as the sequence of its elements in
    iteration order. */
module Towels {
  /** `word.strip_prefix(pat)` succeeds. */
  predicate IsPrefix(pat: string, word: string)
  {
    |pat| <= |word| && word[..|pat|] == pat
  }

  /** The patterns are the elements of a hash set, so no two are equal,
      and none is empty: `strip_prefix("")` would hand `check_word` the
      same word again and the recursion would never end. */
  predicate Usable(pats: seq<string>)
  {
    (forall i :: 0 <= i < |pats| ==> |pats[i]| > 0) &&
    (forall i, j :: 0 <= i < j < |pats| ==> pats[i] != pats[j])
  }

  function Concat(ps: seq<string>): string
  {
    if ps == [] then "" else ps[0] + Concat(ps[1..])
  }

  /** `ps` cuts `word` into one or more available patterns. */
  ghost predicate Cuts(pats: seq<string>, ps: seq<string>, word: string)
  {
    |ps| >= 1 && (forall i :: 0 <= i < |ps| ==> ps[i] in pats) && Concat(ps) == word
  }

  ghost predicate Possible(pats: seq<string>, word: string)
  {
    exists ps :: Cuts(pats, ps, word)
  }

  /** The number of ways of part two: one if the word is itself a pattern,
      plus the ways of every suffix left by a pattern it starts with. */
  function Ways(pats: seq<string>, word: string): nat
    requires Usable(pats)
    decreases |word|, |pats| + 1
  {
    (if word in pats then 1 else 0) + WaysFrom(pats, word, 0)
  }

  /** The ways contributed by the patterns from index `i` on. */
  function WaysFrom(pats: seq<string>, word: string, i: nat): nat
    requires Usable(pats) && i <= |pats|
    decreases |word|, |pats| - i
  {
    if i == |pats| then 0
    else (if IsPrefix(pats[i], word) then Ways(pats, word[|pats[i]|..]) else 0) + WaysFrom(pats, word, i + 1)
  }

  /** A pattern is a possible design on its own. */
  lemma Single(pats: seq<string>, word: string)
    requires word in pats
    ensures Possible(pats, word)
  {
    assert Concat([word]) == word + Concat([]);
    assert Cuts(pats, [word], word);
  }

  /** A pattern followed by a possible design is possible. */
  lemma Joined(pats: seq<string>, pat: string, word: string)
    requires pat in pats && IsPrefix(pat, word) && Possible(pats, word[|pat|..])
    ensures Possible(pats, word)
  {
    var ps :| Cuts(pats, ps, word[|pat|..]);
    var qs := [pat] + ps;
    assert qs[1..] == ps;
    assert word == pat + word[|pat|..];
    assert Cuts(pats, qs, word);
  }

  /** A possible design is a pattern, or starts with a pattern whose
      suffix is possible. */
  lemma Split(pats: seq<string>, word: string)
    requires Usable(pats) && Possible(pats, word)
    ensures word in pats || exists j :: 0 <= j < |pats| && IsPrefix(pats[j], word) && Possible(pats, word[|pats[j]|..])
  {
    var ps :| Cuts(pats, ps, word);
    if |ps| == 1 {
      assert ps[1..] == [];
      assert Concat(ps) == ps[0] + Concat([]);
      assert ps[0] + "" == ps[0];
    } else {
      var rest := ps[1..];
      assert Cuts(pats, rest, Concat(rest));
      var j :| 0 <= j < |pats| && pats[j] == ps[0];
      assert word == ps[0] + Concat(rest);
      assert word[..|ps[0]|] == ps[0] && word[|ps[0]|..] == Concat(rest);
    }
  }

  lemma {:induction false} WaysFromSome(pats: seq<string>, word: string, i: nat)
    requires Usable(pats) && i <= |pats| && WaysFrom(pats, word, i) > 0
    ensures exists j :: i <= j < |pats| && IsPrefix(pats[j], word) && Ways(pats, word[|pats[j]|..]) > 0
    decreases |pats| - i
  {
    if !(IsPrefix(pats[i], word) && Ways(pats, word[|pats[i]|..]) > 0) {
      WaysFromSome(pats, word, i + 1);
    }
  }

  lemma {:induction false} WaysFromAt(pats: seq<string>, word: string, i: nat, j: nat)
    requires Usable(pats) && i <= j < |pats| && IsPrefix(pats[j], word)
    ensures WaysFrom(pats, word, i) >= Ways(pats, word[|pats[j]|..])
    decreases j - i
  {
    if i < j {
      WaysFromAt(pats, word, i + 1, j);
    }
  }

  /** Part two counts a design at least once exactly when part one calls
      it possible. */
  lemma {:induction false} WaysPossible(pats: seq<string>, word: string)
    requires Usable(pats)
    ensures Ways(pats, word) > 0 <==> Possible(pats, word)
    decreases |word|
  {
    if Ways(pats, word) > 0 {
      if word in pats {
        Single(pats, word);
      } else {
        WaysFromSome(pats, word, 0);
        var j :| 0 <= j < |pats| && IsPrefix(pats[j], word) && Ways(pats, word[|pats[j]|..]) > 0;
        WaysPossible(pats, word[|pats[j]|..]);
        Joined(pats, pats[j], word);
      }
    }
    if Possible(pats, word) {
      Split(pats, word);
      if word !in pats {
        var j :| 0 <= j < |pats| && IsPrefix(pats[j], word) && Possible(pats, word[|pats[j]|..]);
        WaysPossible(pats, word[|pats[j]|..]);
        WaysFromAt(pats, word, 0, j);
      }
    }
  }
}

/** Part one: `check_word` with a cache of verdicts. */
module Day19a {
  import opened Towels

  /** Every cached verdict is right. */
  ghost predicate Known(pats: seq<string>, cache: map<string, bool>)
  {
    forall k :: k in cache ==> (cache[k] <==> Possible(pats, k))
  }

  /** `check_word`: a cached verdict is returned as it is; a pattern is
      cached as possible; otherwise the suffix after each pattern the word
      starts with is checked, and the word is cached as impossible only
      after every one has failed. */
  method Check(pats: seq<string>, word: string, cache: map<string, bool>)
    returns (ok: bool, cache': map<string, bool>)
    requires Usable(pats) && Known(pats, cache)
    ensures ok <==> Possible(pats, word)
    ensures Known(pats, cache') && cache.Keys <= cache'.Keys
    ensures word in cache ==> ok == cache[word] && cache' == cache
    ensures !ok ==> word in cache' && !cache'[word]
    decreases |word|
  {
    if word in cache {
      return cache[word], cache;
    }
    if word in pats {
      Single(pats, word);
      return true, cache[word := true];
    }
    cache' := cache;
    for i := 0 to |pats|
      invariant Known(pats, cache') && cache.Keys <= cache'.Keys
      invariant forall j :: 0 <= j < i && IsPrefix(pats[j], word) ==> !Possible(pats, word[|pats[j]|..])
    {
      if IsPrefix(pats[i], word) {
        var found;
        found, cache' := Check(pats, word[|pats[i]|..], cache');
        if found {
          Joined(pats, pats[i], word);
          return true, cache';
        }
      }
    }
    assert !Possible(pats, word) by {
      if Possible(pats, word) {
        Split(pats, word);
      }
    }
    ok := false;
    cache' := cache'[word := false];
  }

  /** The number of possible designs among `words`. */
  ghost function Possibles(pats: seq<string>, words: seq<string>): nat
  {
    if words == [] then 0
    else Possibles(pats, words[..|words| - 1]) + (if Possible(pats, words[|words| - 1]) then 1 else 0)
  }

  /** The answer: the possible designs, checked in order with one cache
      shared by all of them. */
  method Solve(pats: seq<string>, words: seq<string>) returns (r: nat)
    requires Usable(pats)
    ensures r == Possibles(pats, words)
  {
    var cache: map<string, bool> := map[];
    r := 0;
    for i := 0 to |words|
      invariant Known(pats, cache)
      invariant r == Possibles(pats, words[..i])
    {
      var ok;
      ok, cache := Check(pats, words[i], cache);
      assert words[..i + 1][..i] == words[..i];
      if ok {
        r := r + 1;
      }
    }
    assert words[..|words|] == words;
  }
}

/** Part two: `check_word` counting the ways, with a cache of counts. */
module Day19b {
  import opened Towels

  /** Every cached count is right. */
  ghost predicate Memo(pats: seq<string>, cache: map<string, nat>)
    requires Usable(pats)
  {
    forall k :: k in cache ==> cache[k] == Ways(pats, k)
  }

  /** `check_word`: a cached count is returned as it is; otherwise one for
      the word itself being a pattern plus the count of each suffix, and
      the total is cached. */
  method Count(pats: seq<string>, word: string, cache: map<string, nat>)
    returns (n: nat, cache': map<string, nat>)
    requires Usable(pats) && Memo(pats, cache)
    ensures n == Ways(pats, word)
    ensures Memo(pats, cache') && cache.Keys <= cache'.Keys
    ensures word in cache ==> n == cache[word] && cache' == cache
    ensures word in cache' && cache'[word] == n
    decreases |word|
  {
    if word in cache {
      return cache[word], cache;
    }
    n := if word in pats then 1 else 0;
    cache' := cache;
    for i := 0 to |pats|
      invariant Memo(pats, cache') && cache.Keys <= cache'.Keys
      invariant n + WaysFrom(pats, word, i) == Ways(pats, word)
    {
      if IsPrefix(pats[i], word) {
        var m;
        m, cache' := Count(pats, word[|pats[i]|..], cache');
        n := n + m;
      }
    }
    cache' := cache'[word := n];
  }

  /** The sum of the ways over `words`. */
  function Total(pats: seq<string>, words: seq<string>): nat
    requires Usable(pats)
  {
    if words == [] then 0 else Total(pats, words[..|words| - 1]) + Ways(pats, words[|words| - 1])
  }

  /** The answer: the counts of all designs, with one shared cache. */
  method Solve(pats: seq<string>, words: seq<string>) returns (r: nat)
    requires Usable(pats)
    ensures r == Total(pats, words)
    ensures r > 0 <==> exists i :: 0 <= i < |words| && Possible(pats, words[i])
  {
    var cache: map<string, nat> := map[];
    r := 0;
    for i := 0 to |words|
      invariant Memo(pats, cache)
      invariant r == Total(pats, words[..i])
    {
      var n;
      n, cache := Count(pats, words[i], cache);
      assert words[..i + 1][..i] == words[..i];
      r := r + n;
    }
    assert words[..|words|] == words;
    TotalPositive(pats, words);
  }

  /** The total is positive exactly when some design is possible. */
  lemma {:induction false} TotalPositive(pats: seq<string>, words: seq<string>)
    requires Usable(pats)
    ensures Total(pats, words) > 0 <==> exists i :: 0 <= i < |words| && Possible(pats, words[i])
  {
    if words != [] {
      var init := words[..|words| - 1];
      TotalPositive(pats, init);
      WaysPossible(pats, words[|words| - 1]);
      if exists i :: 0 <= i < |init| && Possible(pats, init[i]) {
        var i :| 0 <= i < |init| && Possible(pats, init[i]);
        assert words[i] == init[i];
      }
      if exists i :: 0 <= i < |words| && Possible(pats, words[i]) {
        var i :| 0 <= i < |words| && Possible(pats, words[i]);
        if i < |init| {
          assert init[i] == words[i];
        }
      }
    }
  }
}

=== FILE: day20.dfy ===
/** Day 20: a race track on a grid. A unit-cost priority-queue search
    costs the tiles from the start until it pops the end, the path is
    traced back along costs that drop by one, and from every tile of the
    path a "cheat" may jump through walls to any tile 2 to 20 steps away
    by Manhattan distance; the answer counts the cheats that save at
    least 100 picoseconds. */
module Race {
  import opened Wrappers
  import Seqs
  import Grids
  import Heaps

  /** The longest cheat, in picoseconds. */
  const CheatDuration: nat := 20
  /** The least saving the answer counts. */
  const Threshold: nat := 100

  datatype TileKind = Start | Empty | Wall | End
  datatype Tile = Tile(kind: TileKind, cost: Option<nat>)
  datatype Point = Point(x: int, y: int)
  datatype Node = Node(pos: Point, cost: nat)

  type Grid = seq<seq<Tile>>

  datatype Map = Map(tiles: Grid, start: Point, end: Point, width: nat, height: nat)

  /** `TileKind::from(char)`; `None` where the source panics. */
  function KindOf(c: char): Option<TileKind>
  {
    match c
    case 'S' => Some(Start)
    case '.' => Some(Empty)
    case '#' => Some(Wall)
    case 'E' => Some(End)
    case _ => None
  }

  /** The character a tile kind prints as. */
  function Symbol(k: TileKind): char
  {
    match k
    case Start => 'S'
    case Empty => '.'
    case Wall => '#'
    case End => 'E'
  }

  /** Printing and parsing a tile kind are inverse. */
  lemma KindSymbol(c: char, k: TileKind)
    ensures KindOf(Symbol(k)) == Some(k)
    ensures KindOf(c) == Some(k) ==> Symbol(k) == c
  {
  }

  /** The tile the parser makes: the start costs 0, nothing else has a
      cost yet. */
  function Fresh(k: TileKind): Tile
  {
    Tile(k, if k == Start then Some(0) else None)
  }

  // ---- Parsing ----

  function DecodeRow(line: string): (r: Option<seq<Tile>>)
    ensures r.Some? <==> forall i :: 0 <= i < |line| ==> KindOf(line[i]).Some?
    ensures r.Some? ==> |r.value| == |line| && forall i :: 0 <= i < |line| ==> r.value[i] == Fresh(KindOf(line[i]).value)
  {
    if |line| == 0 then Some([])
    else
      match (DecodeRow(line[..|line| - 1]), KindOf(line[|line| - 1]))
      case (Some(row), Some(k)) => Some(row + [Fresh(k)])
      case (None, _) =>
        assert forall i :: 0 <= i < |line| - 1 ==> line[..|line| - 1][i] == line[i];
        None
      case _ => None
  }

  function DecodeRows(lines: seq<string>): (r: Option<Grid>)
    ensures r.Some? <==> forall y :: 0 <= y < |lines| ==> DecodeRow(lines[y]).Some?
    ensures r.Some? ==> |r.value| == |lines| && forall y :: 0 <= y < |lines| ==> DecodeRow(lines[y]) == Some(r.value[y])
  {
    if |lines| == 0 then Some([])
    else
      match (DecodeRows(lines[..|lines| - 1]), DecodeRow(lines[|lines| - 1]))
      case (Some(g), Some(row)) => Some(g + [row])
      case (None, _) =>
        assert forall y :: 0 <= y < |lines| - 1 ==> lines[..|lines| - 1][y] == lines[y];
        None
      case _ => None
  }

  /** The last tile of kind `k` in a row. */
  function LastInRow(row: seq<Tile>, k: TileKind): (r: Option<nat>)
    ensures r.Some? ==> r.value < |row| && row[r.value].kind == k && forall x :: r.value < x < |row| ==> row[x].kind != k
    ensures r.None? ==> forall x :: 0 <= x < |row| ==> row[x].kind != k
  {
    if |row| == 0 then None
    else if row[|row| - 1].kind == k then Some(|row| - 1)
    else LastInRow(row[..|row| - 1], k)
  }

  /** The position the parser remembers for kind `k`: each occurrence
      overwrites the last, so the last one in reading order wins, and the
      default `(0, 0)` stays when there is none. */
  function LastOf(g: Grid, k: TileKind): (r: Point)
    ensures (exists y, x :: 0 <= y < |g| && 0 <= x < |g[y]| && g[y][x].kind == k) ==>
      0 <= r.y < |g| && 0 <= r.x < |g[r.y]| && g[r.y][r.x].kind == k &&
      (forall y, x :: 0 <= y < |g| && 0 <= x < |g[y]| && g[y][x].kind == k ==> y < r.y || (y == r.y && x <= r.x))
    ensures (forall y, x :: 0 <= y < |g| && 0 <= x < |g[y]| ==> g[y][x].kind != k) ==> r == Point(0, 0)
  {
    if |g| == 0 then Point(0, 0)
    else match LastInRow(g[|g| - 1], k)
      case Some(x) => Point(x, |g| - 1)
      case None =>
        var r := LastOf(g[..|g| - 1], k);
        assert forall y :: 0 <= y < |g| - 1 ==> g[..|g| - 1][y] == g[y];
        r
  }

  predicate Valid(m: Map)
  {
    Grids.IsGrid(m.tiles, m.width, m.height)
  }

  predicate In(m: Map, p: Point)
  {
    0 <= p.x < m.width && 0 <= p.y < m.height
  }

  function At(m: Map, p: Point): Tile
    requires Valid(m) && In(m, p)
  {
    m.tiles[p.y][p.x]
  }

  /** A map as the parser leaves it: every start tile costs 0 and no other
      tile has a cost. */
  ghost predicate Prepared(m: Map)
  {
    Valid(m) && forall p :: In(m, p) ==> At(m, p) == Fresh(At(m, p).kind)
  }

  /** `Map::parse`: the width is the first row's length and the height the
      number of rows. `None` where the source panics (an unknown
      character, no rows at all) and for rows of different lengths. */
  function Parse(lines: seq<string>): (r: Option<Map>)
    ensures r.Some? <==>
      (|lines| > 0 && (forall y :: 0 <= y < |lines| ==> |lines[y]| == |lines[0]|) &&
       forall y :: 0 <= y < |lines| ==> forall x :: 0 <= x < |lines[y]| ==> KindOf(lines[y][x]).Some?)
    ensures r.Some? ==> r.value.width == |lines[0]| && r.value.height == |lines| && Prepared(r.value)
    ensures r.Some? ==> forall p :: In(r.value, p) ==> At(r.value, p).kind == KindOf(lines[p.y][p.x]).value
    ensures r.Some? ==> r.value.start == LastOf(r.value.tiles, Start) && r.value.end == LastOf(r.value.tiles, End)
  {
    if |lines| == 0 || exists y :: 0 <= y < |lines| && |lines[y]| != |lines[0]| then None
    else match DecodeRows(lines)
      case None => None
      case Some(g) =>
        var m := Map(g, LastOf(g, Start), LastOf(g, End), |lines[0]|, |lines|);
        assert forall p :: In(m, p) ==> At(m, p) == Fresh(KindOf(lines[p.y][p.x]).value) by {
          forall p | In(m, p)
            ensures At(m, p) == Fresh(KindOf(lines[p.y][p.x]).value)
          {
            assert DecodeRow(lines[p.y]) == Some(g[p.y]);
          }
        }
        Some(m)
  }

  // ---- Neighbours ----

  function Dist(p: Point, q: Point): nat
  {
    Seqs.Abs(q.x - p.x) + Seqs.Abs(q.y - p.y)
  }

  /** On the map and one step up, down, left or right of `p`. */
  predicate Adjacent(m: Map, p: Point, q: Point)
  {
    In(m, q) && Dist(p, q) == 1
  }

  /** `Point::neighbors`: above, below, left, right. At the top row or the
      left column the source's `usize` subtraction underflows; here the
      point simply lies off the map. */
  function Around(p: Point): seq<Point>
  {
    [Point(p.x, p.y - 1), Point(p.x, p.y + 1), Point(p.x - 1, p.y), Point(p.x + 1, p.y)]
  }

  /** The four neighbours are exactly the points one step away. */
  lemma AroundUnit(p: Point, q: Point)
    ensures |Around(p)| == 4
    ensures q in Around(p) <==> Dist(p, q) == 1
  {
  }

  /** The neighbours the search tries, in its order: right, below, left,
      above, each only when its bounds check passes. */
  function Steps(m: Map, p: Point): (r: seq<Point>)
    requires In(m, p)
    ensures forall q :: q in r <==> Adjacent(m, p, q)
  {
    (if p.x < m.width - 1 then [Point(p.x + 1, p.y)] else []) +
    (if p.y < m.height - 1 then [Point(p.x, p.y + 1)] else []) +
    (if p.x > 0 then [Point(p.x - 1, p.y)] else []) +
    (if p.y > 0 then [Point(p.x, p.y - 1)] else [])
  }

  /** The map with tile `t` at `p`. */
  function Put(m: Map, p: Point, t: Tile): (r: Map)
    requires Valid(m) && In(m, p)
    ensures Valid(r) && r.width == m.width && r.height == m.height && r.start == m.start && r.end == m.end
    ensures forall q :: In(m, q) ==> At(r, q) == if q == p then t else At(m, q)
  {
    m.(tiles := Grids.Set(m.tiles, p.x, p.y, t))
  }

  // ---- Routes ----

  /** A route on `m`: it begins at the start, and each step goes to a
      neighbour that is not a wall. */
  predicate Path(m: Map, ps: seq<Point>)
    requires Valid(m)
    decreases |ps|
  {
    |ps| >= 1 && In(m, ps[|ps| - 1]) &&
    if |ps| == 1 then ps[0] == m.start
    else Path(m, ps[..|ps| - 1]) && Adjacent(m, ps[|ps| - 2], ps[|ps| - 1]) && At(m, ps[|ps| - 1]).kind != Wall
  }

  ghost predicate Reachable(m: Map, p: Point)
    requires Valid(m)
  {
    exists ps :: Path(m, ps) && ps[|ps| - 1] == p
  }

  /** Consecutive tiles one step apart whose costs go up by exactly one. */
  predicate Chain(m: Map, ps: seq<Point>)
    requires Valid(m)
    decreases |ps|
  {
    |ps| >= 1 && In(m, ps[|ps| - 1]) && At(m, ps[|ps| - 1]).cost.Some? &&
    (|ps| > 1 ==>
      Chain(m, ps[..|ps| - 1]) && Dist(ps[|ps| - 2], ps[|ps| - 1]) == 1 &&
      At(m, ps[|ps| - 1]).cost.value == At(m, ps[|ps| - 2]).cost.value + 1)
  }

  /** Along a chain the cost of the `i`-th tile is the first cost plus `i`. */
  lemma {:induction false} ChainCosts(m: Map, ps: seq<Point>)
    requires Valid(m) && Chain(m, ps)
    ensures In(m, ps[0]) && At(m, ps[0]).cost.Some?
    ensures forall i :: 0 <= i < |ps| ==> In(m, ps[i]) && At(m, ps[i]).cost == Some(At(m, ps[0]).cost.value + i)
    decreases |ps|
  {
    if |ps| > 1 {
      var init := ps[..|ps| - 1];
      ChainCosts(m, init);
      assert forall i :: 0 <= i < |init| ==> init[i] == ps[i];
    }
  }

  // ---- The search ----

  /** `Node::cmp` reverses the cost order: the heap's greatest node is a
      cheapest one. */
  function Rank(n: Node): int
  {
    -(n.cost as int)
  }

  lemma RankCheapest(a: Node, b: Node)
    ensures Rank(a) <= Rank(b) <==> b.cost <= a.cost
  {
  }

  /** The test of `check_pos`: not a wall, and no cost or a larger one. */
  predicate Better(t: Tile, next: nat)
  {
    t.kind != Wall && (t.cost.None? || t.cost.value > next)
  }

  function Unset1(t: Tile): int
  {
    if t.cost.None? then 1 else 0
  }

  function Spent1(t: Tile): int
  {
    match t.cost case Some(c) => c case None => 0
  }

  lemma Measured(m: Map)
    ensures Grids.Measure(m.tiles, Unset1) >= 0 && Grids.Measure(m.tiles, Spent1) >= 0
  {
    Grids.MeasureNonNegative(m.tiles, Unset1);
    Grids.MeasureNonNegative(m.tiles, Spent1);
  }

  /** Fewer tiles without a cost, or as many and a smaller cost sum: the
      search's progress measure. */
  ghost predicate Progress(a: Map, b: Map)
  {
    Grids.Measure(a.tiles, Unset1) < Grids.Measure(b.tiles, Unset1) ||
    (Grids.Measure(a.tiles, Unset1) == Grids.Measure(b.tiles, Unset1) && Grids.Measure(a.tiles, Spent1) < Grids.Measure(b.tiles, Spent1))
  }

  /** From `a` to `b`: the same shape and kinds, walls untouched, and costs
      once set only ever lowered. */
  ghost predicate Keeps(a: Map, b: Map)
  {
    Valid(a) && Valid(b) && a.width == b.width && a.height == b.height && a.start == b.start && a.end == b.end &&
    forall p :: In(a, p) ==>
      At(b, p).kind == At(a, p).kind && (At(a, p).kind == Wall ==> At(b, p).cost == At(a, p).cost) &&
      (At(a, p).cost.Some? ==> At(b, p).cost.Some? && At(b, p).cost.value <= At(a, p).cost.value)
  }

  /** `check_pos`: a better neighbour gets the cost `next` and a node with
      exactly that cost comes back; otherwise nothing changes. */
  function CheckPos(m: Map, q: Point, next: nat): (r: (Map, Option<Node>))
    requires Valid(m) && In(m, q)
    ensures Keeps(m, r.0) && At(r.0, q).kind == At(m, q).kind
    ensures r.1.Some? <==> Better(At(m, q), next)
    ensures r.1.Some? ==> r.1.value == Node(q, next) && At(r.0, q).cost == Some(next) && Progress(r.0, m)
    ensures r.1.None? ==> r.0 == m
    ensures forall p :: In(m, p) && p != q ==> At(r.0, p) == At(m, p)
  {
    var t := At(m, q);
    if Better(t, next) then
      var m' := Put(m, q, t.(cost := Some(next)));
      Grids.MeasureSet(m.tiles, q.x, q.y, t.(cost := Some(next)), Unset1);
      Grids.MeasureSet(m.tiles, q.x, q.y, t.(cost := Some(next)), Spent1);
      (m', Some(Node(q, next)))
    else (m, None)
  }

  ghost predicate Pending(todos: multiset<Node>, p: Point)
  {
    exists n :: n in todos && n.pos == p
  }

  /** Every queued node stands on a tile that has a cost. */
  ghost predicate Queued(m: Map, todos: multiset<Node>)
    requires Valid(m)
  {
    forall n :: n in todos ==> In(m, n.pos) && At(m, n.pos).cost.Some?
  }

  /** Every end tile with a cost is still queued. */
  ghost predicate EndsQueued(m: Map, todos: multiset<Node>)
    requires Valid(m)
  {
    forall p :: In(m, p) && At(m, p).kind == End && At(m, p).cost.Some? ==> Pending(todos, p)
  }

  /** A tile whose neighbours are all walls or already costed. */
  ghost predicate Settled(m: Map, p: Point)
    requires Valid(m) && In(m, p)
  {
    forall q :: q in Steps(m, p) ==> At(m, q).kind == Wall || At(m, q).cost.Some?
  }

  /** Every costed tile is still queued or settled, except `skip`. */
  ghost predicate Closed(m: Map, todos: multiset<Node>, skip: Option<Point>)
    requires Valid(m)
  {
    forall p :: In(m, p) && At(m, p).cost.Some? ==> Pending(todos, p) || Settled(m, p) || skip == Some(p)
  }

  /** Tiles costed in `b` but not in `a` are queued. */
  ghost predicate Announced(a: Map, b: Map, todos: multiset<Node>)
    requires Valid(a) && Valid(b)
  {
    forall p :: In(a, p) && In(b, p) && At(b, p).cost.Some? && At(a, p).cost.None? ==> Pending(todos, p)
  }

  /** A map with a single start tile, which is on the map. */
  ghost predicate Ready(m: Map)
  {
    Prepared(m) && In(m, m.start) && forall p :: In(m, p) && At(m, p).kind == Start ==> p == m.start
  }

  /** `check_pos` and the push of the node it returns. */
  method Visit(ghost m0: Map, m: Map, todos: multiset<Node>, q: Point, next: nat)
    returns (m': Map, todos': multiset<Node>)
    requires Valid(m) && Queued(m, todos) && In(m, q)
    ensures Valid(m') && Queued(m', todos') && Keeps(m, m') && todos <= todos' && Announced(m, m', todos')
    ensures At(m', q).kind == Wall || At(m', q).cost.Some?
    ensures (m' == m && todos' == todos) || Progress(m', m)
  {
    var r := CheckPos(m, q, next);
    m', todos' := r.0, todos;
    if r.1.Some? {
      todos' := todos + multiset{r.1.value};
      assert r.1.value in todos';
    }
  }

  /** Closure survives a `check_pos`: queued tiles stay queued, settled
      tiles stay settled, new tiles are queued. */
  lemma ClosedStep(before: Map, after: Map, queued: multiset<Node>, todos: multiset<Node>, pos: Point)
    requires Valid(before) && Valid(after) && Closed(before, queued, Some(pos))
    requires Keeps(before, after) && queued <= todos && Announced(before, after, todos)
    ensures Closed(after, todos, Some(pos))
  {
    forall p | In(after, p) && At(after, p).cost.Some?
      ensures Pending(todos, p) || Settled(after, p) || Some(pos) == Some(p)
    {
      if At(before, p).cost.Some? {
        if Pending(queued, p) {
          var n :| n in queued && n.pos == p;
          assert n in todos;
        } else if Settled(before, p) {
          assert Settled(after, p);
        }
      }
    }
  }

  lemma EndsStep(before: Map, after: Map, queued: multiset<Node>, todos: multiset<Node>)
    requires Valid(before) && Valid(after) && Keeps(before, after) && queued <= todos && Announced(before, after, todos)
    requires EndsQueued(before, queued)
    ensures EndsQueued(after, todos)
  {
    forall p | In(after, p) && At(after, p).kind == End && At(after, p).cost.Some?
      ensures Pending(todos, p)
    {
      if At(before, p).cost.Some? {
        var n :| n in queued && n.pos == p;
        assert n in todos;
      }
    }
  }

  /** Every tile of `qs` is on the map and a wall or costed. */
  ghost predicate Covers(m: Map, qs: seq<Point>)
    requires Valid(m)
  {
    forall q :: q in qs ==> In(m, q) && (At(m, q).kind == Wall || At(m, q).cost.Some?)
  }

  lemma CoversStep(before: Map, after: Map, qs: seq<Point>, i: nat)
    requires Valid(before) && Valid(after) && i < |qs| && Keeps(before, after) && Covers(before, qs[..i])
    requires In(after, qs[i]) && (At(after, qs[i]).kind == Wall || At(after, qs[i]).cost.Some?)
    ensures Covers(after, qs[..i + 1])
  {
    forall q | q in qs[..i + 1]
      ensures In(after, q) && (At(after, q).kind == Wall || At(after, q).cost.Some?)
    {
      if q != qs[i] {
        assert q in qs[..i];
        assert In(before, q);
      }
    }
  }

  lemma KeepsTrans(a: Map, b: Map, c: Map)
    requires Keeps(a, b) && Keeps(b, c)
    ensures Keeps(a, c)
  {
  }

  /** The state of the neighbour loop after `i` of the neighbours `ns` of
      `pos`, against the state `m`, `todos` it started from. */
  ghost predicate Expanding(m0: Map, m: Map, todos: multiset<Node>, pos: Point, ns: seq<Point>, i: nat,
                            m': Map, todos': multiset<Node>)
  {
    Keeps(m, m') && In(m, pos) && ns == Steps(m, pos) && i <= |ns| && At(m, pos).cost.Some? &&
    Queued(m', todos') && todos <= todos' && EndsQueued(m', todos') &&
    (Ready(m0) ==> Closed(m', todos', Some(pos))) && Covers(m', ns[..i]) &&
    ((m' == m && todos' == todos) || Progress(m', m))
  }

  /** One round of the neighbour loop: `check_pos` on `ns[i]` at one more
      than the current cost of `pos`. */
  method ExpandOne(ghost m0: Map, ghost m: Map, ghost todos: multiset<Node>, pos: Point, ns: seq<Point>, i: nat,
                   cur: Map, queue: multiset<Node>)
    returns (m': Map, todos': multiset<Node>)
    requires Expanding(m0, m, todos, pos, ns, i, cur, queue) && i < |ns|
    ensures Expanding(m0, m, todos, pos, ns, i + 1, m', todos')
  {
    var c := At(cur, pos).cost.value;
    m', todos' := Visit(m0, cur, queue, ns[i], c + 1);
    if Ready(m0) {
      ClosedStep(cur, m', queue, todos', pos);
    }
    EndsStep(cur, m', queue, todos');
    CoversStep(cur, m', ns, i);
    KeepsTrans(m, cur, m');
  }

  /** One popped node that is not an end: `check_pos` on each in-bounds
      neighbour at one more than the node's tile cost. */
  method Expand(ghost m0: Map, m: Map, todos: multiset<Node>, pos: Point)
    returns (m': Map, todos': multiset<Node>)
    requires Valid(m) && Queued(m, todos) && In(m, pos) && At(m, pos).cost.Some? && EndsQueued(m, todos)
    requires Ready(m0) ==> Closed(m, todos, Some(pos))
    ensures Keeps(m, m') && Queued(m', todos') && EndsQueued(m', todos')
    ensures Ready(m0) ==> Closed(m', todos', None)
    ensures (m' == m && todos' == todos) || Progress(m', m)
  {
    var ns := Steps(m, pos);
    m', todos' := m, todos;
    for i := 0 to |ns|
      invariant Expanding(m0, m, todos, pos, ns, i, m', todos')
    {
      m', todos' := ExpandOne(m0, m, todos, pos, ns, i, m', todos');
    }
    assert ns[..|ns|] == ns;
    assert Settled(m', pos);
  }

  /** The invariant of the main loop. */
  ghost predicate Searching(m0: Map, m: Map, todos: multiset<Node>)
  {
    Prepared(m0) && Keeps(m0, m) && Queued(m, todos) && EndsQueued(m, todos) &&
    (Ready(m0) ==> Closed(m, todos, None) && At(m, m0.start).cost.Some?)
  }

  datatype Outcome =
    | Route(path: seq<Point>)  // the traced path, start first
    | NoStart                  // the start tile is off the map or has no cost
    | NoSolution               // the queue ran empty before an end was popped
    | Lost                     // the trace back from the end found no way on

  /** `path` is a route on `m0` from the start to the end position along
      which the costs of the searched map `m` count up from zero. */
  ghost predicate Traced(m0: Map, m: Map, path: seq<Point>)
  {
    Valid(m0) && Valid(m) && Path(m0, path) && path[|path| - 1] == m0.end &&
    forall i :: 0 <= i < |path| ==> In(m, path[i]) && At(m, path[i]).cost == Some(i)
  }

  /** `Map::solve`: pop a cheapest node; when its tile is an end, trace the
      path back; otherwise expand it. */
  method Solve(m0: Map) returns (r: Outcome, m: Map)
    requires Prepared(m0)
    ensures Keeps(m0, m)
    ensures r.NoStart? <==> !In(m0, m0.start) || At(m0, m0.start).kind != Start
    ensures r.Route? ==> Traced(m0, m, r.path)
    ensures r.NoSolution? && Ready(m0) ==> forall p :: In(m0, p) && At(m0, p).kind == End ==> !Reachable(m0, p)
  {
    m := m0;
    if !In(m0, m0.start) || At(m0, m0.start).cost.None? {
      return NoStart, m;
    }
    var todos := multiset{Node(m0.start, At(m0, m0.start).cost.value)};
    Start0(m0);
    Measured(m);
    while todos != multiset{}
      invariant Searching(m0, m, todos) && In(m0, m0.start) && At(m0, m0.start).cost.Some?
      invariant Grids.Measure(m.tiles, Unset1) >= 0 && Grids.Measure(m.tiles, Spent1) >= 0
      decreases Grids.Measure(m.tiles, Unset1), Grids.Measure(m.tiles, Spent1), |todos|
    {
      var done;
      done, m, todos := Round(m0, m, todos);
      if done.Some? {
        return done.value, m;
      }
    }
    if Ready(m0) {
      Unreachable(m0, m);
    }
    return NoSolution, m;
  }

  /** One round of the main loop: pop a cheapest node; an end finishes
      the search, any other tile is expanded. */
  method Round(ghost m0: Map, m: Map, todos: multiset<Node>) returns (done: Option<Outcome>, m': Map, todos': multiset<Node>)
    requires Searching(m0, m, todos) && todos != multiset{} && In(m0, m0.start) && At(m0, m0.start).cost.Some?
    ensures done.Some? ==> (done.value.Route? || done.value.Lost?) && m' == m
    ensures done.Some? && done.value.Route? ==> Traced(m0, m, done.value.path)
    ensures done.None? ==> Searching(m0, m', todos')
    ensures done.None? ==> (m' == m && |todos'| < |todos|) || Progress(m', m)
    ensures Grids.Measure(m'.tiles, Unset1) >= 0 && Grids.Measure(m'.tiles, Spent1) >= 0
  {
    var todo := Heaps.PopMax(todos, Rank);
    var pos := todo.pos;
    if At(m, pos).kind == End {
      var r := Finish(m0, m);
      Measured(m);
      return Some(r), m, todos;
    }
    todos' := todos - multiset{todo};
    Popped(m0, m, todos, todos', todo);
    m', todos' := Expand(m0, m, todos', pos);
    KeepsTrans(m0, m, m');
    Measured(m');
    done := None;
  }

  /** The end is popped: trace the path back. */
  method Finish(ghost m0: Map, m: Map) returns (r: Outcome)
    requires Prepared(m0) && Keeps(m0, m) && In(m0, m0.start) && At(m0, m0.start).cost.Some?
    ensures r.Route? || r.Lost?
    ensures r.Route? ==> Traced(m0, m, r.path)
  {
    var traced := Trace(m);
    if traced.None? {
      return Lost;
    }
    Arrived(m0, m, traced.value);
    return Route(traced.value);
  }

  /** The initial state satisfies the loop invariants. */
  lemma Start0(m0: Map)
    requires Prepared(m0) && In(m0, m0.start) && At(m0, m0.start).cost.Some?
    ensures Searching(m0, m0, multiset{Node(m0.start, At(m0, m0.start).cost.value)})
  {
    var todos := multiset{Node(m0.start, At(m0, m0.start).cost.value)};
    assert Pending(todos, m0.start);
  }

  lemma Popped(m0: Map, m: Map, todos: multiset<Node>, rest: multiset<Node>, todo: Node)
    requires Searching(m0, m, todos) && todo in todos && rest == todos - multiset{todo} && At(m, todo.pos).kind != End
    ensures Queued(m, rest) && EndsQueued(m, rest)
    ensures Ready(m0) ==> Closed(m, rest, Some(todo.pos))
  {
    forall p | Pending(todos, p) && p != todo.pos
      ensures Pending(rest, p)
    {
      var n :| n in todos && n.pos == p;
      assert n in rest;
    }
  }

  /** A traced chain from the start on the searched map is a route on the
      original map whose costs count up from zero. */
  lemma Arrived(m0: Map, m: Map, ps: seq<Point>)
    requires Prepared(m0) && Keeps(m0, m) && Chain(m, ps) && ps[0] == m0.start && ps[|ps| - 1] == m0.end
    requires In(m0, m0.start) && At(m0, m0.start).cost.Some?
    ensures Path(m0, ps) && forall i :: 0 <= i < |ps| ==> In(m, ps[i]) && At(m, ps[i]).cost == Some(i)
  {
    ChainCosts(m, ps);
    ChainPath(m0, m, ps);
    StartCost(m0, m);
  }

  /** The start keeps its cost of zero through the search. */
  lemma StartCost(m0: Map, m: Map)
    requires Prepared(m0) && Keeps(m0, m) && In(m0, m0.start) && At(m0, m0.start).cost.Some?
    ensures At(m, m0.start).cost == Some(0)
  {
    assert At(m0, m0.start) == Fresh(At(m0, m0.start).kind);
  }

  lemma {:induction false} ChainPath(m0: Map, m: Map, ps: seq<Point>)
    requires Prepared(m0) && Keeps(m0, m) && Chain(m, ps) && ps[0] == m0.start
    ensures Path(m0, ps)
    decreases |ps|
  {
    if |ps| > 1 {
      var init := ps[..|ps| - 1];
      ChainPath(m0, m, init);
      var q := ps[|ps| - 1];
      assert In(m0, q) && At(m0, q) == Fresh(At(m0, q).kind);
    }
  }

  /** With the queue empty every costed tile is settled, so every tile a
      route reaches has a cost; an end with a cost would still be queued,
      so no end is reached. */
  lemma Unreachable(m0: Map, m: Map)
    requires Ready(m0) && Searching(m0, m, multiset{})
    ensures forall p :: In(m0, p) && At(m0, p).kind == End ==> !Reachable(m0, p)
  {
    forall p | In(m0, p) && At(m0, p).kind == End
      ensures !Reachable(m0, p)
    {
      if Reachable(m0, p) {
        var ps :| Path(m0, ps) && ps[|ps| - 1] == p;
        Covered(m0, m, ps);
      }
    }
  }

  lemma {:induction false} Covered(m0: Map, m: Map, ps: seq<Point>)
    requires Ready(m0) && Searching(m0, m, multiset{}) && Path(m0, ps)
    ensures At(m, ps[|ps| - 1]).cost.Some?
    decreases |ps|
  {
    if |ps| > 1 {
      var init := ps[..|ps| - 1];
      Covered(m0, m, init);
      var p := init[|init| - 1];
      assert !Pending(multiset{}, p);
      assert Settled(m, p);
      assert ps[|ps| - 1] in Steps(m, p);
    }
  }

  // ---- Tracing the path ----

  /** The first of `qs` whose cost is `c`, as `find_map` finds it; `None`
      where none is, or where a point off the map comes first and the
      source panics. */
  function FindPrev(m: Map, qs: seq<Point>, c: nat): (r: Option<Point>)
    requires Valid(m)
    ensures r.Some? ==> r.value in qs && In(m, r.value) && At(m, r.value).cost == Some(c)
  {
    if qs == [] then None
    else if !In(m, qs[0]) then None
    else if At(m, qs[0]).cost == Some(c) then Some(qs[0])
    else FindPrev(m, qs[1..], c)
  }

  /** `trace_solution` from `pos` at cost `c`: step to a neighbour costing
      one less until the start. `None` where the source panics: no such
      neighbour, or cost zero away from the start. */
  function TraceFrom(m: Map, pos: Point, c: nat): (r: Option<seq<Point>>)
    requires Valid(m) && In(m, pos) && At(m, pos).cost == Some(c)
    ensures r.Some? ==> Chain(m, r.value) && r.value[0] == m.start && r.value[|r.value| - 1] == pos
    decreases c
  {
    if pos == m.start then Some([pos])
    else if c == 0 then None
    else match FindPrev(m, Around(pos), c - 1)
      case None => None
      case Some(q) =>
        AroundUnit(pos, q);
        match TraceFrom(m, q, c - 1)
        case None => None
        case Some(ps) =>
          assert (ps + [pos])[..|ps|] == ps;
          Some(ps + [pos])
  }

  /** `trace_solution`: from the end position back to the start. */
  function Trace(m: Map): (r: Option<seq<Point>>)
    requires Valid(m)
    ensures r.Some? ==> Chain(m, r.value) && r.value[0] == m.start && r.value[|r.value| - 1] == m.end
  {
    if !In(m, m.end) || At(m, m.end).cost.None? then None
    else TraceFrom(m, m.end, At(m, m.end).cost.value)
  }

  // ---- Cheats ----

  /** `compute_save_at_pos`: a cheat of `d` picoseconds from a tile reached
      at `cur` lands on `q` at `cur + d`; when `q` has a larger cost, the
      difference is saved. */
  function Save(m: Map, cur: nat, q: Point, d: nat): (r: Option<nat>)
    requires Valid(m) && In(m, q)
    ensures r.Some? <==> At(m, q).cost.Some? && At(m, q).cost.value > cur + d
    ensures r.Some? ==> r.value > 0 && cur + d + r.value == At(m, q).cost.value
  {
    match At(m, q).cost
    case Some(c) => if c > cur + d then Some(c - (cur + d)) else None
    case None => None
  }

  /** The entries a cheat of `d` to `q` adds to the table of savings: none
      or one. The table of counts per saving is kept as the list of savings
      in the order they are recorded, a saving's count being its number of
      occurrences. Off the map nothing is recorded. */
  function Gain(m: Map, cur: nat, q: Point, d: nat): seq<nat>
    requires Valid(m)
  {
    if !In(m, q) then []
    else match Save(m, cur, q, d) case Some(s) => [s] case None => []
  }

  /** `compute_save_at_pos` with its entry in the table. */
  method Compute(m: Map, saves: seq<nat>, cur: nat, q: Point, d: nat) returns (saves': seq<nat>, r: Option<nat>)
    requires Valid(m) && In(m, q)
    ensures r == Save(m, cur, q, d)
    ensures saves' == saves + Gain(m, cur, q, d)
  {
    r := Save(m, cur, q, d);
    saves' := saves;
    if r.Some? {
      saves' := saves' + [r.value];
    }
  }

  /** The entries for cheats from `p` to each of `qs` in turn. */
  function Gains(m: Map, cur: nat, p: Point, qs: seq<Point>): seq<nat>
    requires Valid(m)
  {
    if qs == [] then []
    else Gains(m, cur, p, qs[..|qs| - 1]) + Gain(m, cur, qs[|qs| - 1], Dist(p, qs[|qs| - 1]))
  }

  lemma {:induction false} GainsAppend(m: Map, cur: nat, p: Point, a: seq<Point>, b: seq<Point>)
    requires Valid(m)
    ensures Gains(m, cur, p, a + b) == Gains(m, cur, p, a) + Gains(m, cur, p, b)
    decreases |b|
  {
    if b != [] {
      assert (a + b)[..|a + b| - 1] == a + b[..|b| - 1];
      GainsAppend(m, cur, p, a, b[..|b| - 1]);
    } else {
      assert a + b == a;
    }
  }

  /** The bounds check `find_saves_at_pos` makes for corner `c` of one
      `dx` at distance `d`: 0 is left and up, 1 left and down, 2 right and
      up, 3 right and down. */
  predicate Guard(m: Map, p: Point, d: nat, dx: nat, c: nat)
    requires dx <= d
  {
    var dy := d - dx;
    if c == 0 then dx <= p.x && dy <= p.y && dy > 0 && dx > 0
    else if c == 1 then dx <= p.x && dy < m.height - p.y && dx > 0
    else if c == 2 then dx < m.width - p.x && dy <= p.y && dy > 0
    else dx < m.width - p.x && dy < m.height - p.y
  }

  /** The point tried in corner `c`. */
  function Spot(p: Point, d: nat, dx: nat, c: nat): Point
    requires dx <= d
  {
    var dy := d - dx;
    if c == 0 then Point(p.x - dx, p.y - dy)
    else if c == 1 then Point(p.x - dx, p.y + dy)
    else if c == 2 then Point(p.x + dx, p.y - dy)
    else Point(p.x + dx, p.y + dy)
  }

  /** The point of corner `c`, when its check passes. */
  function Corner(m: Map, p: Point, d: nat, dx: nat, c: nat): seq<Point>
    requires dx <= d
  {
    if Guard(m, p, d, dx, c) then [Spot(p, d, dx, c)] else []
  }

  /** The corner `q` lies in as seen from `p`. */
  function CornerOf(p: Point, q: Point): nat
  {
    if q.x < p.x then (if q.y < p.y then 0 else 1) else (if q.y < p.y then 2 else 3)
  }

  /** A position of the loops of `find_saves_at_pos`: distance `d`, offset
      `dx` and the corner `c` about to be checked. */
  predicate Placed(d: nat, dx: nat, c: nat)
  {
    2 <= d && dx <= d + 1 && c <= 4 && (dx == d + 1 ==> c == 0)
  }

  /** The points `find_saves_at_pos` has tried from `p` before reaching
      position `(d, dx, c)`, in order. */
  function Walk(m: Map, p: Point, d: nat, dx: nat, c: nat): seq<Point>
    requires Placed(d, dx, c)
    decreases d, dx, c
  {
    if c > 0 then Walk(m, p, d, dx, c - 1) + Corner(m, p, d, dx, c - 1)
    else if dx > 0 then Walk(m, p, d, dx - 1, 4)
    else if d > 2 then Walk(m, p, d - 1, d, 0)
    else []
  }

  /** Every point `find_saves_at_pos` tries from `p`. */
  function Visits(m: Map, p: Point): seq<Point>
  {
    Walk(m, p, CheatDuration + 1, 0, 0)
  }

  /** `q` comes before position `(d, dx, c)` in the order of the loops. */
  predicate Before(p: Point, q: Point, d: nat, dx: nat, c: nat)
  {
    var e := Dist(p, q);
    var ox := Seqs.Abs(q.x - p.x);
    2 <= e < d || (e == d && (ox < dx || (ox == dx && CornerOf(p, q) < c)))
  }

  /** Corner `c` of one `dx` at distance `d` tries exactly the point of the
      map in that corner at that distance and horizontal offset. */
  lemma CornerOnce(m: Map, p: Point, d: nat, dx: nat, c: nat, q: Point)
    requires In(m, p) && dx <= d && c < 4
    ensures Seqs.Occ(Corner(m, p, d, dx, c), q) ==
      if In(m, q) && Dist(p, q) == d && Seqs.Abs(q.x - p.x) == dx && CornerOf(p, q) == c then 1 else 0
  {
  }

  /** Up to any position, the loops have tried each point of the map that
      comes before it exactly once, and nothing else. */
  lemma {:induction false} WalkOnce(m: Map, p: Point, d: nat, dx: nat, c: nat, q: Point)
    requires In(m, p) && Placed(d, dx, c)
    ensures Seqs.Occ(Walk(m, p, d, dx, c), q) == if In(m, q) && Before(p, q, d, dx, c) then 1 else 0
    decreases d, dx, c
  {
    if c > 0 {
      WalkOnce(m, p, d, dx, c - 1, q);
      CornerOnce(m, p, d, dx, c - 1, q);
      Seqs.OccAppend(Walk(m, p, d, dx, c - 1), Corner(m, p, d, dx, c - 1), q);
    } else if dx > 0 {
      WalkOnce(m, p, d, dx - 1, 4, q);
    } else if d > 2 {
      WalkOnce(m, p, d - 1, d, 0, q);
    }
  }

  /** Checking corner `c` adds its entry, if its bounds check passes. */
  lemma Advance(m: Map, cur: nat, p: Point, d: nat, dx: nat, c: nat)
    requires Valid(m) && 2 <= d && dx <= d && c < 4
    ensures Gains(m, cur, p, Walk(m, p, d, dx, c + 1)) ==
      Gains(m, cur, p, Walk(m, p, d, dx, c)) + if Guard(m, p, d, dx, c) then Gain(m, cur, Spot(p, d, dx, c), d) else []
  {
    GainsAppend(m, cur, p, Walk(m, p, d, dx, c), Corner(m, p, d, dx, c));
    var q := Spot(p, d, dx, c);
    if Guard(m, p, d, dx, c) {
      assert Dist(p, q) == d;
      assert [q][..0] == [];
    }
  }

  /** `find_saves_at_pos`: for each duration from 2 to 20 and each `dx`
      up to it, the cheats into the four corners whose bounds checks pass.
      The loop bodies are the methods `Duration` and `Corners` below. */
  method FindSaves(m: Map, saves: seq<nat>, pos: Point) returns (saves': seq<nat>)
    requires Valid(m) && In(m, pos) && At(m, pos).cost.Some?
    ensures saves' == saves + Gains(m, At(m, pos).cost.value, pos, Visits(m, pos))
    ensures Seqs.CountIf(saves', Big) == Seqs.CountIf(saves, Big) + |Shortcuts(m, pos)|
  {
    var cur := At(m, pos).cost.value;
    saves' := saves;
    for d := 2 to CheatDuration + 1
      invariant saves' == saves + Gains(m, cur, pos, Walk(m, pos, d, 0, 0))
    {
      saves' := Duration(m, saves, saves', cur, pos, d);
    }
    CheatsCounted(m, pos);
    Seqs.CountIfAppend(saves, Gains(m, cur, pos, Visits(m, pos)), Big);
  }

  /** The loop over `dx` for one duration `d`. */
  method Duration(m: Map, ghost base: seq<nat>, saves: seq<nat>, cur: nat, pos: Point, d: nat)
    returns (saves': seq<nat>)
    requires Valid(m) && In(m, pos) && 2 <= d
    requires saves == base + Gains(m, cur, pos, Walk(m, pos, d, 0, 0))
    ensures saves' == base + Gains(m, cur, pos, Walk(m, pos, d + 1, 0, 0))
  {
    saves' := saves;
    for dx := 0 to d + 1
      invariant saves' == base + Gains(m, cur, pos, Walk(m, pos, d, dx, 0))
    {
      saves' := Corners(m, base, saves', cur, pos, d, dx);
    }
  }

  /** The four corners of one `dx`. The four checks, written out one after
      the other in the source, are taken here in a loop over the corner. */
  method Corners(m: Map, ghost base: seq<nat>, saves: seq<nat>, cur: nat, pos: Point, d: nat, dx: nat)
    returns (saves': seq<nat>)
    requires Valid(m) && In(m, pos) && 2 <= d && dx <= d
    requires saves == base + Gains(m, cur, pos, Walk(m, pos, d, dx, 0))
    ensures saves' == base + Gains(m, cur, pos, Walk(m, pos, d, dx + 1, 0))
  {
    saves' := saves;
    for c := 0 to 4
      invariant saves' == base + Gains(m, cur, pos, Walk(m, pos, d, dx, c))
    {
      saves' := Try(m, base, saves', cur, pos, d, dx, c);
    }
  }

  /** One corner: when its bounds check passes, the cheat to its point. */
  method Try(m: Map, ghost base: seq<nat>, saves: seq<nat>, cur: nat, pos: Point, d: nat, dx: nat, c: nat)
    returns (saves': seq<nat>)
    requires Valid(m) && In(m, pos) && 2 <= d && dx <= d && c < 4
    requires saves == base + Gains(m, cur, pos, Walk(m, pos, d, dx, c))
    ensures saves' == base + Gains(m, cur, pos, Walk(m, pos, d, dx, c + 1))
  {
    Advance(m, cur, pos, d, dx, c);
    saves' := saves;
    if Guard(m, pos, d, dx, c) {
      var got;
      saves', got := Compute(m, saves, cur, Spot(pos, d, dx, c), d);
    }
  }

  // ---- Counting ----

  /** A saving part two counts. */
  predicate Big(s: nat)
  {
    s >= Threshold
  }

  /** A cheat from `p`, reached at `cur`, to the tile `q` of the map that
      saves at least 100 picoseconds. */
  predicate Worth(m: Map, cur: nat, p: Point, q: Point)
  {
    Valid(m) && In(m, q) && At(m, q).cost.Some? && At(m, q).cost.value >= cur + Dist(p, q) + Threshold
  }

  /** The tiles a cheat of 2 to 20 picoseconds from `p` can reach saving at
      least 100 picoseconds. */
  ghost function Shortcuts(m: Map, p: Point): set<Point>
    requires Valid(m) && In(m, p) && At(m, p).cost.Some?
  {
    set x: int, y: int | 0 <= x < m.width && 0 <= y < m.height && 2 <= Dist(p, Point(x, y)) <= CheatDuration &&
      Worth(m, At(m, p).cost.value, p, Point(x, y)) :: Point(x, y)
  }

  /** An entry counts exactly when its cheat is worth it. */
  lemma {:induction false} GainsCount(m: Map, cur: nat, p: Point, qs: seq<Point>, worth: Point -> bool)
    requires Valid(m) && forall q :: worth(q) == Worth(m, cur, p, q)
    ensures Seqs.CountIf(Gains(m, cur, p, qs), Big) == Seqs.CountIf(qs, worth)
    decreases |qs|
  {
    if qs != [] {
      var init, q := qs[..|qs| - 1], qs[|qs| - 1];
      GainsCount(m, cur, p, init, worth);
      Seqs.CountIfAppend(Gains(m, cur, p, init), Gain(m, cur, q, Dist(p, q)), Big);
      var g := Gain(m, cur, q, Dist(p, q));
      if g != [] {
        assert g[..0] == [];
      }
    }
  }

  /** The entries `find_saves_at_pos` records from `p` that save at least
      100 picoseconds are as many as the tiles such a cheat can reach. */
  lemma CheatsCounted(m: Map, p: Point)
    requires Valid(m) && In(m, p) && At(m, p).cost.Some?
    ensures Seqs.CountIf(Gains(m, At(m, p).cost.value, p, Visits(m, p)), Big) == |Shortcuts(m, p)|
  {
    var cur := At(m, p).cost.value;
    var worth := q => Worth(m, cur, p, q);
    GainsCount(m, cur, p, Visits(m, p), worth);
    var r := set x: int, y: int | 0 <= x < m.width && 0 <= y < m.height && 2 <= Dist(p, Point(x, y)) <= CheatDuration :: Point(x, y);
    forall q
      ensures Seqs.Occ(Visits(m, p), q) == if q in r then 1 else 0
    {
      WalkOnce(m, p, CheatDuration + 1, 0, 0, q);
      if In(m, q) && 2 <= Dist(p, q) <= CheatDuration {
        assert q == Point(q.x, q.y);
      }
    }
    Seqs.CountIfOnce(Visits(m, p), r, worth);
    forall q
      ensures q in Seqs.Select(r, worth) <==> q in Shortcuts(m, p)
    {
      if q in r && worth(q) {
        assert q == Point(q.x, q.y);
      }
    }
    assert Seqs.Select(r, worth) == Shortcuts(m, p);
  }

  /** Every tile of `ps` is on the map and has a cost. */
  ghost predicate Costed(m: Map, ps: seq<Point>)
  {
    Valid(m) && forall i :: 0 <= i < |ps| ==> In(m, ps[i]) && At(m, ps[i]).cost.Some?
  }

  lemma CostedSuffix(m: Map, ps: seq<Point>, i: nat)
    requires Costed(m, ps) && i <= |ps|
    ensures Costed(m, ps[i..])
  {
    assert forall j :: 0 <= j < |ps| - i ==> ps[i..][j] == ps[i + j];
  }

  /** The cheats counted along a route: those from each of its tiles, up
      to its first end tile. */
  ghost function Cheats(m: Map, ps: seq<Point>): nat
    requires Costed(m, ps)
  {
    CostedSuffix(m, ps, if ps == [] then 0 else 1);
    if ps == [] || At(m, ps[0]).kind == End then 0
    else |Shortcuts(m, ps[0])| + Cheats(m, ps[1..])
  }

  /** `main`: parse, find the normal route, record the cheats from each of
      its tiles up to the first end tile, and count those saving at least
      100 picoseconds. Where the source panics (no map, no start, no route)
      the result is `None`. */
  method Run(lines: seq<string>) returns (r: Option<nat>, ghost m0: Map, ghost m: Map, ghost path: seq<Point>)
    ensures Parse(lines).None? ==> r.None?
    ensures r.Some? ==> Parse(lines) == Some(m0) && Keeps(m0, m) && Traced(m0, m, path) && r.value == Cheats(m, path)
  {
    var parsed := Parse(lines);
    if parsed.None? {
      m0 := Map([], Point(0, 0), Point(0, 0), 0, 0);
      return None, m0, m0, [];
    }
    m0 := parsed.value;
    r, m, path := Race(parsed.value);
  }

  /** `main` on a parsed map: solve it, then count the cheats along the
      route found. */
  method Race(m0: Map) returns (r: Option<nat>, ghost m: Map, ghost path: seq<Point>)
    requires Prepared(m0)
    ensures r.Some? ==> Keeps(m0, m) && Traced(m0, m, path) && r.value == Cheats(m, path)
  {
    var outcome, solved := Solve(m0);
    m, path := solved, [];
    if !outcome.Route? {
      return None, m, path;
    }
    path := outcome.path;
    TracedCosted(m0, solved, path);
    var n := CountCheats(solved, outcome.path);
    r := Some(n);
  }

  lemma TracedCosted(m0: Map, m: Map, path: seq<Point>)
    requires Traced(m0, m, path)
    ensures Costed(m, path)
  {
  }

  /** The loop of `main` over the normal route and the sum at its end. */
  method CountCheats(m: Map, route: seq<Point>) returns (n: nat)
    requires Costed(m, route)
    ensures n == Cheats(m, route)
  {
    var saves: seq<nat> := [];
    var i := 0;
    while i < |route| && At(m, route[i]).kind != End
      invariant 0 <= i <= |route| && Costed(m, route[i..])
      invariant Seqs.CountIf(saves, Big) + Cheats(m, route[i..]) == Cheats(m, route)
    {
      saves := FindSaves(m, saves, route[i]);
      assert route[i..][1..] == route[i + 1..];
      CostedSuffix(m, route, i + 1);
      i := i + 1;
    }
    n := Seqs.CountIf(saves, Big);
  }
}

=== FILE: day21.dfy ===
/** Day 21: keypad robots. A chain of robots types a code on the numeric
    keypad; every robot is driven from a directional keypad, and the move
    list between two keys is chosen by `get_cheapest_moves`. Part one
    expands the code through the chain explicitly; part two counts the keys
    of a deep chain with a cache. Positions have the bottom-left key at
    (0, 0) and `Up` increasing `y`. */
module Keypads {
  import opened Wrappers
  import Seqs

  /** The four moves, declared in the order their `Ord` compares them. */
  datatype Direction = Left | Down | Up | Right

  function Rank(d: Direction): nat
  {
    match d
    case Left => 0
    case Down => 1
    case Up => 2
    case Right => 3
  }

  /** `<` on move lists, as for `Vec`: the first difference decides, and a
      proper prefix is smaller. */
  predicate Below(a: seq<Direction>, b: seq<Direction>)
  {
    if |a| == 0 then |b| > 0
    else if |b| == 0 then false
    else if a[0] != b[0] then Rank(a[0]) < Rank(b[0])
    else Below(a[1..], b[1..])
  }

  lemma {:induction false} BelowIrreflexive(a: seq<Direction>)
    ensures !Below(a, a)
  {
    if |a| > 0 {
      BelowIrreflexive(a[1..]);
    }
  }

  lemma {:induction false} BelowAsymmetric(a: seq<Direction>, b: seq<Direction>)
    requires Below(a, b)
    ensures !Below(b, a)
  {
    if |a| > 0 && |b| > 0 && a[0] == b[0] {
      BelowAsymmetric(a[1..], b[1..]);
    }
  }

  /** Two different move lists are ordered one way or the other. */
  lemma {:induction false} BelowTotal(a: seq<Direction>, b: seq<Direction>)
    requires a != b
    ensures Below(a, b) || Below(b, a)
  {
    if |a| > 0 && |b| > 0 && a[0] == b[0] {
      assert a == [a[0]] + a[1..] && b == [b[0]] + b[1..];
      BelowTotal(a[1..], b[1..]);
    }
  }

  lemma {:induction false} BelowTransitive(a: seq<Direction>, b: seq<Direction>, c: seq<Direction>)
    requires Below(a, b) && Below(b, c)
    ensures Below(a, c)
  {
    if |a| > 0 && a[0] == b[0] && b[0] == c[0] {
      BelowTransitive(a[1..], b[1..], c[1..]);
    }
  }

  /** `first.min(second)`: the second only when it is strictly smaller. */
  function Min(a: seq<Direction>, b: seq<Direction>): (r: seq<Direction>)
    ensures r == a || r == b
    ensures !Below(a, r) && !Below(b, r)
  {
    BelowIrreflexive(a);
    BelowIrreflexive(b);
    if Below(b, a) then
      BelowAsymmetric(b, a);
      b
    else a
  }

  datatype Vector = Vector(x: int, y: int)

  function Add(a: Vector, b: Vector): Vector
  {
    Vector(a.x + b.x, a.y + b.y)
  }

  /** `end - start`. */
  function Sub(a: Vector, b: Vector): Vector
  {
    Vector(a.x - b.x, a.y - b.y)
  }

  function Step(d: Direction): Vector
  {
    match d
    case Left => Vector(-1, 0)
    case Down => Vector(0, -1)
    case Up => Vector(0, 1)
    case Right => Vector(1, 0)
  }

  /** Where a move list takes the arm, relative to where it starts. */
  function Displace(ms: seq<Direction>): Vector
  {
    if |ms| == 0 then Vector(0, 0) else Add(Step(ms[0]), Displace(ms[1..]))
  }

  lemma {:induction false} DisplaceAppend(a: seq<Direction>, b: seq<Direction>)
    ensures Displace(a + b) == Add(Displace(a), Displace(b))
  {
    if a != [] {
      assert (a + b)[1..] == a[1..] + b;
      DisplaceAppend(a[1..], b);
    } else {
      assert a + b == b;
    }
  }

  /** `n` moves in one direction. */
  lemma {:induction false} DisplaceRun(d: Direction, n: nat)
    ensures Displace(Seqs.Repeat(d, n)) ==
      match d
      case Left => Vector(-(n as int), 0)
      case Down => Vector(0, -(n as int))
      case Up => Vector(0, n)
      case Right => Vector(n, 0)
  {
    if n > 0 {
      DisplaceRun(d, n - 1);
      assert Seqs.Repeat(d, n)[1..] == Seqs.Repeat(d, n - 1);
    }
  }

  /** The direction of a horizontal move by `x`. */
  function XDir(x: int): Direction
  {
    if x > 0 then Right else Left
  }

  /** The direction of a vertical move by `y`. */
  function YDir(y: int): Direction
  {
    if y > 0 then Up else Down
  }

  /** The horizontal run of `path`: `|x|` moves right or left. */
  function XRun(path: Vector): seq<Direction>
  {
    Seqs.Repeat(XDir(path.x), Seqs.Abs(path.x))
  }

  /** The vertical run of `path`: `|y|` moves up or down. */
  function YRun(path: Vector): seq<Direction>
  {
    Seqs.Repeat(YDir(path.y), Seqs.Abs(path.y))
  }

  lemma XRunDisplace(path: Vector)
    ensures Displace(XRun(path)) == Vector(path.x, 0)
  {
    DisplaceRun(XDir(path.x), Seqs.Abs(path.x));
  }

  lemma YRunDisplace(path: Vector)
    ensures Displace(YRun(path)) == Vector(0, path.y)
  {
    DisplaceRun(YDir(path.y), Seqs.Abs(path.y));
  }

  /** Both orders of the two runs take the arm along `path`. */
  lemma RunsDisplace(path: Vector)
    ensures Displace(XRun(path) + YRun(path)) == path
    ensures Displace(YRun(path) + XRun(path)) == path
  {
    XRunDisplace(path);
    YRunDisplace(path);
    DisplaceAppend(XRun(path), YRun(path));
    DisplaceAppend(YRun(path), XRun(path));
  }

  /** The diagonal case of `get_cheapest_moves`: horizontal-first or
      vertical-first, whichever `are_moves_safe` allows, the smaller of the
      two when both are; `None` is the panic when neither is. */
  function Diagonal(path: Vector, safeXY: bool, safeYX: bool): (r: Option<seq<Direction>>)
    ensures r.Some? <==> safeXY || safeYX
    ensures r.Some? ==>
      (r.value == XRun(path) + YRun(path) && safeXY) || (r.value == YRun(path) + XRun(path) && safeYX)
    ensures safeXY && safeYX ==>
      r.Some? && !Below(XRun(path) + YRun(path), r.value) && !Below(YRun(path) + XRun(path), r.value)
  {
    var first := XRun(path) + YRun(path);
    var second := YRun(path) + XRun(path);
    if safeXY && safeYX then Some(Min(first, second))
    else if safeXY then Some(first)
    else if safeYX then Some(second)
    else None
  }

  /** With only the vertical-first order safe, it is taken. */
  lemma DiagonalSecond(path: Vector, safeXY: bool, safeYX: bool)
    requires !safeXY && safeYX
    ensures Diagonal(path, safeXY, safeYX) == Some(YRun(path) + XRun(path))
  {
  }

  /** With both orders safe, the strictly smaller one is taken. */
  lemma DiagonalBoth(path: Vector, m: seq<Direction>)
    requires (m == XRun(path) + YRun(path) && Below(m, YRun(path) + XRun(path)))
      || (m == YRun(path) + XRun(path) && Below(m, XRun(path) + YRun(path)))
    ensures Diagonal(path, true, true) == Some(m)
  {
    if m == XRun(path) + YRun(path) {
      BelowAsymmetric(m, YRun(path) + XRun(path));
    } else {
      BelowAsymmetric(m, XRun(path) + YRun(path));
    }
  }

  /** `get_cheapest_moves` for the displacement `path`, where `safeXY` and
      `safeYX` are what `are_moves_safe` says of the horizontal-first and
      the vertical-first order: a straight line is never checked. */
  function Cheapest(path: Vector, safeXY: bool, safeYX: bool): (r: Option<seq<Direction>>)
    ensures r.Some? ==> Displace(r.value) == path && |r.value| == Seqs.Abs(path.x) + Seqs.Abs(path.y)
    ensures path.x == 0 || path.y == 0 ==> r.Some?
    ensures path.x != 0 && path.y != 0 ==> r == Diagonal(path, safeXY, safeYX)
  {
    if path.x == 0 && path.y == 0 then Some([])
    else if path.y == 0 then XRunDisplace(path); Some(XRun(path))
    else if path.x == 0 then YRunDisplace(path); Some(YRun(path))
    else RunsDisplace(path); Diagonal(path, safeXY, safeYX)
  }

  /** A pad's outline: a `width` by `height` rectangle of keys with its
      bottom-left key at (0, 0), less the gap, which both pads have in the
      left column, in row `gapRow`. */
  datatype Pad = Pad(width: nat, height: nat, gapRow: int)

  predicate IsGap(pad: Pad, x: int, y: int)
  {
    x == 0 && y == pad.gapRow
  }

  predicate OnPad(pad: Pad, v: Vector)
  {
    0 <= v.x < pad.width && 0 <= v.y < pad.height && !IsGap(pad, v.x, v.y)
  }

  /** The gap is in the top or the bottom row. */
  predicate GapInCorner(pad: Pad)
  {
    pad.gapRow == 0 || pad.gapRow == pad.height - 1
  }

  /** The arm moving from `v` by `ms`: where it ends, or `None` if it ever
      points at the gap or off the pad. */
  function Walk(pad: Pad, v: Vector, ms: seq<Direction>): Option<Vector>
    decreases |ms|
  {
    if |ms| == 0 then Some(v)
    else
      var w := Add(v, Step(ms[0]));
      if OnPad(pad, w) then Walk(pad, w, ms[1..]) else None
  }

  /** A walk that stays on the pad ends where the moves lead. */
  lemma {:induction false} WalkDisplace(pad: Pad, v: Vector, ms: seq<Direction>)
    requires Walk(pad, v, ms).Some?
    ensures Walk(pad, v, ms).value == Add(v, Displace(ms))
    decreases |ms|
  {
    if |ms| != 0 {
      WalkDisplace(pad, Add(v, Step(ms[0])), ms[1..]);
    }
  }

  /** `v` moved `k` cells towards `d`. */
  function Shift(v: Vector, d: Direction, k: int): Vector
  {
    match d
    case Left => Vector(v.x - k, v.y)
    case Down => Vector(v.x, v.y - k)
    case Up => Vector(v.x, v.y + k)
    case Right => Vector(v.x + k, v.y)
  }

  /** Every cell of the straight run of `n` moves from `v` is on the pad. */
  predicate Clear(pad: Pad, v: Vector, d: Direction, n: nat)
  {
    forall k :: 1 <= k <= n ==> OnPad(pad, Shift(v, d, k))
  }

  /** A run is clear when its first cell is and the run after it is. */
  lemma ClearStep(pad: Pad, v: Vector, d: Direction, n: nat)
    requires n > 0
    ensures Clear(pad, v, d, n) <==> OnPad(pad, Shift(v, d, 1)) && Clear(pad, Shift(v, d, 1), d, n - 1)
  {
    var w := Shift(v, d, 1);
    assert forall k :: Shift(w, d, k) == Shift(v, d, k + 1);
    if OnPad(pad, w) && Clear(pad, w, d, n - 1) {
      forall k | 1 <= k <= n
        ensures OnPad(pad, Shift(v, d, k))
      {
        if k > 1 {
          assert Shift(w, d, k - 1) == Shift(v, d, k);
        }
      }
    }
    if Clear(pad, v, d, n) {
      forall k | 1 <= k <= n - 1
        ensures OnPad(pad, Shift(w, d, k))
      {
        assert OnPad(pad, Shift(v, d, k + 1));
      }
    }
  }

  /** A run of `n` equal moves gets through when every cell it passes is
      on the pad. */
  lemma {:induction false} WalkRun(pad: Pad, v: Vector, d: Direction, n: nat, rest: seq<Direction>)
    ensures Walk(pad, v, Seqs.Repeat(d, n) + rest) ==
      if Clear(pad, v, d, n) then Walk(pad, Shift(v, d, n), rest) else None
    decreases n
  {
    if n == 0 {
      assert Seqs.Repeat(d, n) + rest == rest;
    } else {
      var w := Shift(v, d, 1);
      var ms := Seqs.Repeat(d, n) + rest;
      assert ms[0] == d && ms[1..] == Seqs.Repeat(d, n - 1) + rest;
      assert Add(v, Step(d)) == w;
      WalkRun(pad, w, d, n - 1, rest);
      assert Shift(w, d, n - 1) == Shift(v, d, n);
      ClearStep(pad, v, d, n);
    }
  }

  /** The horizontal run from `s` towards `e`'s column passes only cells
      of the pad unless it ends on the gap. */
  lemma RowClear(pad: Pad, s: Vector, e: Vector)
    requires GapInCorner(pad) && OnPad(pad, s) && OnPad(pad, e)
    ensures var path := Sub(e, s);
      Clear(pad, s, XDir(path.x), Seqs.Abs(path.x)) <==> !IsGap(pad, e.x, s.y)
  {
    var path := Sub(e, s);
    var d := XDir(path.x);
    var n := Seqs.Abs(path.x);
    assert Shift(s, d, n) == Vector(e.x, s.y);
    if !IsGap(pad, e.x, s.y) {
      forall k | 1 <= k <= n
        ensures OnPad(pad, Shift(s, d, k))
      {
      }
    }
  }

  /** The vertical run from `s` towards `e`'s row passes only cells of the
      pad unless it ends on the gap. */
  lemma ColumnClear(pad: Pad, s: Vector, e: Vector)
    requires GapInCorner(pad) && OnPad(pad, s) && OnPad(pad, e)
    ensures var path := Sub(e, s);
      Clear(pad, s, YDir(path.y), Seqs.Abs(path.y)) <==> !IsGap(pad, s.x, e.y)
  {
    var path := Sub(e, s);
    var d := YDir(path.y);
    var n := Seqs.Abs(path.y);
    assert Shift(s, d, n) == Vector(s.x, e.y);
    if !IsGap(pad, s.x, e.y) {
      forall k | 1 <= k <= n
        ensures OnPad(pad, Shift(s, d, k))
      {
      }
    }
  }

  /** Going round a corner horizontally first reaches `e` exactly when
      the cell it turns at is not the gap. */
  lemma WalkCornerXY(pad: Pad, s: Vector, e: Vector)
    requires GapInCorner(pad) && OnPad(pad, s) && OnPad(pad, e)
    ensures Walk(pad, s, XRun(Sub(e, s)) + YRun(Sub(e, s))) == if IsGap(pad, e.x, s.y) then None else Some(e)
  {
    var path := Sub(e, s);
    var xy := Vector(e.x, s.y);
    WalkRun(pad, s, XDir(path.x), Seqs.Abs(path.x), YRun(path));
    RowClear(pad, s, e);
    ShiftEnds(s, e);
    if !IsGap(pad, xy.x, xy.y) {
      assert Sub(e, xy).y == path.y;
      ColumnWalk(pad, xy, e);
    }
  }

  /** Going round a corner vertically first reaches `e` exactly when the
      cell it turns at is not the gap. */
  lemma WalkCornerYX(pad: Pad, s: Vector, e: Vector)
    requires GapInCorner(pad) && OnPad(pad, s) && OnPad(pad, e)
    ensures Walk(pad, s, YRun(Sub(e, s)) + XRun(Sub(e, s))) == if IsGap(pad, s.x, e.y) then None else Some(e)
  {
    var path := Sub(e, s);
    var yx := Vector(s.x, e.y);
    WalkRun(pad, s, YDir(path.y), Seqs.Abs(path.y), XRun(path));
    ColumnClear(pad, s, e);
    ShiftEnds(s, e);
    if !IsGap(pad, yx.x, yx.y) {
      assert Sub(e, yx).x == path.x;
      RowWalk(pad, yx, e);
    }
  }

  /** The straight runs from `s` towards `e` end in `e`'s column and in
      `e`'s row. */
  lemma ShiftEnds(s: Vector, e: Vector)
    ensures Shift(s, XDir(Sub(e, s).x), Seqs.Abs(Sub(e, s).x)) == Vector(e.x, s.y)
    ensures Shift(s, YDir(Sub(e, s).y), Seqs.Abs(Sub(e, s).y)) == Vector(s.x, e.y)
  {
  }

  /** Within one column the vertical run reaches `e`. */
  lemma ColumnWalk(pad: Pad, v: Vector, e: Vector)
    requires GapInCorner(pad) && OnPad(pad, v) && OnPad(pad, e) && v.x == e.x
    ensures Walk(pad, v, YRun(Sub(e, v))) == Some(e)
  {
    var path := Sub(e, v);
    assert YRun(path) + [] == YRun(path);
    WalkRun(pad, v, YDir(path.y), Seqs.Abs(path.y), []);
    ColumnClear(pad, v, e);
    ShiftEnds(v, e);
  }

  /** Within one row the horizontal run reaches `e`. */
  lemma RowWalk(pad: Pad, v: Vector, e: Vector)
    requires GapInCorner(pad) && OnPad(pad, v) && OnPad(pad, e) && v.y == e.y
    ensures Walk(pad, v, XRun(Sub(e, v))) == Some(e)
  {
    var path := Sub(e, v);
    assert XRun(path) + [] == XRun(path);
    WalkRun(pad, v, XDir(path.x), Seqs.Abs(path.x), []);
    RowClear(pad, v, e);
    ShiftEnds(v, e);
  }

  /** The move list `c` exists and leads the arm from `a` to `b` without
      crossing the gap. */
  predicate Leads(pad: Pad, a: Vector, b: Vector, c: Option<seq<Direction>>)
  {
    c.Some? && Walk(pad, a, c.value) == Some(b)
  }

  /** For a diagonal move from `a` to `b`, each order the safety flags
      allow turns at a cell of the pad, and one of them is allowed. */
  predicate Turns(pad: Pad, a: Vector, b: Vector, safeXY: bool, safeYX: bool)
  {
    b.x != a.x && b.y != a.y ==>
      (safeXY ==> !IsGap(pad, b.x, a.y)) && (safeYX ==> !IsGap(pad, a.x, b.y)) && (safeXY || safeYX)
  }

  /** The move list `Cheapest` picks from `a` to `b` reaches `b` without
      crossing the gap, provided that the safety flags let a diagonal
      move turn. */
  lemma CheapestReaches(pad: Pad, a: Vector, b: Vector, safeXY: bool, safeYX: bool, c: Option<seq<Direction>>)
    requires GapInCorner(pad) && OnPad(pad, a) && OnPad(pad, b) && Turns(pad, a, b, safeXY, safeYX)
    requires c == Cheapest(Sub(b, a), safeXY, safeYX)
    ensures Leads(pad, a, b, c)
  {
    var path := Sub(b, a);
    WalkCornerXY(pad, a, b);
    WalkCornerYX(pad, a, b);
    if path.x == 0 || path.y == 0 {
      assert XRun(path) + YRun(path) == (if path.y == 0 then XRun(path) else YRun(path));
    }
  }

  /** The first and last moves of the two orders round a corner. */
  lemma Ends(path: Vector)
    requires path.x != 0 && path.y != 0
    ensures var xy := XRun(path) + YRun(path);
      xy[0] == XDir(path.x) && xy[|xy| - 1] == YDir(path.y)
    ensures var yx := YRun(path) + XRun(path);
      yx[0] == YDir(path.y) && yx[|yx| - 1] == XDir(path.x)
  {
    var xs := XRun(path);
    var ys := YRun(path);
    Seqs.RepeatOnly(XDir(path.x), Seqs.Abs(path.x), xs[0]);
    Seqs.RepeatOnly(XDir(path.x), Seqs.Abs(path.x), xs[|xs| - 1]);
    Seqs.RepeatOnly(YDir(path.y), Seqs.Abs(path.y), ys[0]);
    Seqs.RepeatOnly(YDir(path.y), Seqs.Abs(path.y), ys[|ys| - 1]);
  }

  /** The order the tests fix. */
  lemma Order()
    ensures Rank(Left) < Rank(Down) < Rank(Up) < Rank(Right)
    ensures Below([Left, Down], [Down, Left])
  {
  }
}

/** Pads driving pads. Each key pressed below is reached by a block of
    keys `step(from, to)` typed on the pad above, whose arm starts on a
    home key. How the steps are chosen does not matter here, so the
    counting of part two is stated for any step function. */
module Chains {
  import opened Wrappers
  import Seqs

  /** The keys typed above for `keys` below, the lower arm on `from`. */
  function Expand<K, L>(step: (K, K) -> seq<L>, from: K, keys: seq<K>): seq<L>
  {
    Seqs.Flatten(Seqs.Pairs(step, from, keys))
  }

  /** The block for the first key, then those for the rest. */
  lemma ExpandHead<K, L>(step: (K, K) -> seq<L>, from: K, keys: seq<K>)
    requires |keys| > 0
    ensures Expand(step, from, keys) == step(from, keys[0]) + Expand(step, keys[0], keys[1..])
  {
    var bs := Seqs.Pairs(step, from, keys);
    assert bs[0] == step(from, keys[0]) && bs[1..] == Seqs.Pairs(step, keys[0], keys[1..]);
  }

  /** Keys after which the arm is back home: none, or ending on home. */
  ghost predicate Closed<K>(home: K, keys: seq<K>)
  {
    |keys| == 0 || keys[|keys| - 1] == home
  }

  /** Every block ends on the home key. */
  ghost predicate Homing<K(!new)>(step: (K, K) -> seq<K>, home: K)
  {
    forall a, b :: Closed(home, step(a, b))
  }

  lemma {:induction false} ExpandClosed<K(!new)>(step: (K, K) -> seq<K>, home: K, from: K, keys: seq<K>)
    requires Homing(step, home)
    ensures Closed(home, Expand(step, from, keys))
    decreases |keys|
  {
    if |keys| > 0 {
      ExpandHead(step, from, keys);
      ExpandClosed(step, home, keys[0], keys[1..]);
      assert Closed(home, step(from, keys[0]));
    }
  }

  /** After a closed prefix the arm is home, where it starts, so the
      expansion splits there. */
  lemma ExpandAppend<K>(step: (K, K) -> seq<K>, home: K, a: seq<K>, b: seq<K>)
    requires Closed(home, a)
    ensures Expand(step, home, a + b) == Expand(step, home, a) + Expand(step, home, b)
  {
    Seqs.PairsAppend(step, home, a, b);
    Seqs.FlattenAppend(Seqs.Pairs(step, home, a), Seqs.Pairs(step, home, b));
  }

  /** The keys to type at the top of `depth` pads driving each other so
      that the bottom one types `keys`. */
  function Iterate<K>(step: (K, K) -> seq<K>, home: K, keys: seq<K>, depth: nat): seq<K>
    decreases depth
  {
    if depth == 0 then keys else Iterate(step, home, Expand(step, home, keys), depth - 1)
  }

  /** What a chain of `depth` robots types when `top` is typed at its
      head, each robot turning the keys typed on it into the keys it
      presses with `run`, or `None` once one of them fails. */
  function Unrun<K>(run: seq<K> -> Option<seq<K>>, top: seq<K>, depth: nat): Option<seq<K>>
    decreases depth
  {
    if depth == 0 then Some(top)
    else
      match Unrun(run, top, depth - 1)
      case None => None
      case Some(ks) => run(ks)
  }

  /** `run` undoes one expansion with `step` from `home`. */
  ghost predicate Inverts<K(!new)>(run: seq<K> -> Option<seq<K>>, step: (K, K) -> seq<K>, home: K)
  {
    forall keys :: run(Expand(step, home, keys)) == Some(keys)
  }

  /** A chain of robots that each undo one expansion types back the keys
      the chain was expanded from. */
  lemma {:induction false} UnrunIterate<K(!new)>(run: seq<K> -> Option<seq<K>>, step: (K, K) -> seq<K>, home: K, keys: seq<K>, depth: nat)
    requires Inverts(run, step, home)
    ensures Unrun(run, Iterate(step, home, keys, depth), depth) == Some(keys)
    decreases depth
  {
    if depth > 0 {
      var next := Expand(step, home, keys);
      assert run(next) == Some(keys);
      UnrunIterate(run, step, home, next, depth - 1);
    }
  }

  lemma {:induction false} IterateAppend<K(!new)>(step: (K, K) -> seq<K>, home: K, a: seq<K>, b: seq<K>, depth: nat)
    requires Homing(step, home) && Closed(home, a)
    ensures Iterate(step, home, a + b, depth) == Iterate(step, home, a, depth) + Iterate(step, home, b, depth)
    decreases depth
  {
    if depth > 0 {
      ExpandAppend(step, home, a, b);
      ExpandClosed(step, home, home, a);
      IterateAppend(step, home, Expand(step, home, a), Expand(step, home, b), depth - 1);
    }
  }

  lemma {:induction false} IterateEmpty<K>(step: (K, K) -> seq<K>, home: K, depth: nat)
    ensures Iterate(step, home, [], depth) == []
    decreases depth
  {
    if depth > 0 {
      assert Expand(step, home, []) == [];
      IterateEmpty(step, home, depth - 1);
    }
  }

  /** `count_keys` without its cache: the number of keys typed at the top
      of `depth` pads for `keys` at the bottom. */
  function Count<K>(step: (K, K) -> seq<K>, home: K, keys: seq<K>, depth: nat): nat
    decreases depth, 1, 0
  {
    if depth == 0 then |keys| else Sum(step, home, home, keys, depth)
  }

  /** The counts one level up of the blocks reaching each key of `keys`
      from the one before, `prev` first. */
  function Sum<K>(step: (K, K) -> seq<K>, home: K, prev: K, keys: seq<K>, depth: nat): nat
    requires depth > 0
    decreases depth, 0, |keys|
  {
    if |keys| == 0 then 0
    else Count(step, home, step(prev, keys[0]), depth - 1) + Sum(step, home, keys[0], keys[1..], depth)
  }

  /** Counting block by block gives the length of the written-out
      expansion. */
  lemma {:induction false} CountIterate<K(!new)>(step: (K, K) -> seq<K>, home: K, keys: seq<K>, depth: nat)
    requires Homing(step, home)
    ensures Count(step, home, keys, depth) == |Iterate(step, home, keys, depth)|
    decreases depth, 1, 0
  {
    if depth > 0 {
      SumIterate(step, home, home, keys, depth);
    }
  }

  lemma {:induction false} SumIterate<K(!new)>(step: (K, K) -> seq<K>, home: K, prev: K, keys: seq<K>, depth: nat)
    requires Homing(step, home) && depth > 0
    ensures Sum(step, home, prev, keys, depth) == |Iterate(step, home, Expand(step, prev, keys), depth - 1)|
    decreases depth, 0, |keys|
  {
    if |keys| == 0 {
      assert Expand(step, prev, keys) == [];
      IterateEmpty(step, home, depth - 1);
    } else {
      var head := step(prev, keys[0]);
      ExpandHead(step, prev, keys);
      assert Closed(home, head);
      IterateAppend(step, home, head, Expand(step, keys[0], keys[1..]), depth - 1);
      CountIterate(step, home, head, depth - 1);
      SumIterate(step, home, keys[0], keys[1..], depth);
    }
  }

  /** `CacheKey`: the block from one key to the next at a depth. */
  datatype Entry<K> = Entry(prev: K, key: K, depth: nat)

  /** Every cached count is the count of its entry's block one level up. */
  ghost predicate Memo<K>(step: (K, K) -> seq<K>, home: K, cache: map<Entry<K>, nat>)
  {
    forall e :: e in cache ==> e.depth > 0 && cache[e] == Count(step, home, step(e.prev, e.key), e.depth - 1)
  }

  /** `count_keys`: at depth zero the keys themselves; otherwise, for each
      key, the cached count for the block reaching it or, failing that,
      the count of that block one level down, which is then cached. */
  method CountKeys<K(==)>(step: (K, K) -> seq<K>, home: K, cache: map<Entry<K>, nat>, keys: seq<K>, depth: nat)
    returns (n: nat, cache': map<Entry<K>, nat>)
    requires Memo(step, home, cache)
    ensures n == Count(step, home, keys, depth) && Memo(step, home, cache')
    decreases depth
  {
    if depth == 0 {
      return |keys|, cache;
    }
    n, cache' := 0, cache;
    for i := 0 to |keys|
      invariant Memo(step, home, cache')
      invariant n + Sum(step, home, if i == 0 then home else keys[i - 1], keys[i..], depth) == Sum(step, home, home, keys, depth)
    {
      var prev := if i > 0 then keys[i - 1] else home;
      var entry := Entry(prev, keys[i], depth);
      var count;
      if entry in cache' {
        count := cache'[entry];
      } else {
        count, cache' := CountKeys(step, home, cache', step(prev, keys[i]), depth - 1);
        cache' := cache'[entry := count];
      }
      assert keys[i..][0] == keys[i] && keys[i..][1..] == keys[i + 1..];
      n := n + count;
    }
  }
}

/** The directional keypad, and a robot arm driven from it. */
module Dirpad {
  import opened Wrappers
  import opened Keypads
  import Chains

  //     +---+---+
  //     | ^ | A |
  // +---+---+---+
  // | < | v | > |
  // +---+---+---+
  datatype Key = Up | Left | Down | Right | A

  function Position(k: Key): Vector
  {
    match k
    case Up => Vector(1, 1)
    case A => Vector(2, 1)
    case Left => Vector(0, 0)
    case Down => Vector(1, 0)
    case Right => Vector(2, 0)
  }

  const Shape := Pad(3, 2, 1)

  /** The key at `v`: `None` exactly off the pad. */
  function At(v: Vector): (r: Option<Key>)
    ensures r.Some? <==> OnPad(Shape, v)
    ensures r.Some? ==> Position(r.value) == v
  {
    if v == Vector(1, 1) then Some(Key.Up)
    else if v == Vector(2, 1) then Some(A)
    else if v == Vector(0, 0) then Some(Key.Left)
    else if v == Vector(1, 0) then Some(Key.Down)
    else if v == Vector(2, 0) then Some(Key.Right)
    else None
  }

  /** Every key is found where it is. */
  lemma AtPosition(k: Key)
    ensures At(Position(k)) == Some(k)
  {
  }

  /** `are_moves_safe`: leaving the left key the first move must be right,
      reaching it the last move must be left; no move list is unsafe
      otherwise, nor is an empty one. */
  predicate Safe(s: Key, e: Key, ms: seq<Direction>)
  {
    |ms| == 0 || Allows(s, e, ms[0], ms[|ms| - 1])
  }

  /** The rule for a non-empty move list, by its first and last move. */
  predicate Allows(s: Key, e: Key, first: Direction, last: Direction)
  {
    if s == Key.Left then first == Direction.Right
    else if e == Key.Left then last == Direction.Left
    else true
  }

  /** `get_cheapest_moves` on this pad, `None` for the panic. */
  function Choice(s: Key, e: Key): Option<seq<Direction>>
  {
    var path := Sub(Position(e), Position(s));
    Cheapest(path, Safe(s, e, XRun(path) + YRun(path)), Safe(s, e, YRun(path) + XRun(path)))
  }

  /** The safety flags of a diagonal pair are those of its first and
      last moves. */
  lemma Flags(s: Key, e: Key, path: Vector)
    requires path.x != 0 && path.y != 0
    ensures Safe(s, e, XRun(path) + YRun(path)) == Allows(s, e, XDir(path.x), YDir(path.y))
    ensures Safe(s, e, YRun(path) + XRun(path)) == Allows(s, e, YDir(path.y), XDir(path.x))
  {
    Ends(path);
  }

  /** The safety rules of a diagonal pair, by its first and last moves,
      let the move turn: each allowed order turns at a key, and one order
      is allowed. */
  lemma Premise(s: Key, e: Key, a: Vector, b: Vector, safeXY: bool, safeYX: bool)
    requires a == Position(s) && b == Position(e) && b.x != a.x && b.y != a.y
    requires safeXY == Allows(s, e, XDir(b.x - a.x), YDir(b.y - a.y))
    requires safeYX == Allows(s, e, YDir(b.y - a.y), XDir(b.x - a.x))
    ensures Turns(Shape, a, b, safeXY, safeYX)
  {
  }

  /** The choice never panics, and the arm following it never points at
      the gap and stops on the key wanted. */
  lemma Reach(s: Key, e: Key)
    ensures Leads(Shape, Position(s), Position(e), Choice(s, e))
  {
    AtPosition(s);
    AtPosition(e);
    Corner(s, e);
    ChoiceIs(s, e);
    var path := Sub(Position(e), Position(s));
    CheapestReaches(Shape, Position(s), Position(e), Safe(s, e, XRun(path) + YRun(path)), Safe(s, e, YRun(path) + XRun(path)), Choice(s, e));
  }

  /** The safety rule of this pad lets every diagonal move turn. */
  lemma Corner(s: Key, e: Key)
    ensures var path := Sub(Position(e), Position(s));
      Turns(Shape, Position(s), Position(e), Safe(s, e, XRun(path) + YRun(path)), Safe(s, e, YRun(path) + XRun(path)))
  {
    var a := Position(s);
    var b := Position(e);
    var path := Sub(b, a);
    if path.x != 0 && path.y != 0 {
      Flags(s, e, path);
      Premise(s, e, a, b, Safe(s, e, XRun(path) + YRun(path)), Safe(s, e, YRun(path) + XRun(path)));
    }
  }

  /** The choice, spelled out. */
  lemma ChoiceIs(s: Key, e: Key)
    ensures var path := Sub(Position(e), Position(s));
      Choice(s, e) == Cheapest(path, Safe(s, e, XRun(path) + YRun(path)), Safe(s, e, YRun(path) + XRun(path)))
  {
  }

  /** The moves from `s` to `e`: as short as any path, and the arm
      following them stays on the pad and stops on `e`. */
  function Moves(s: Key, e: Key): (r: seq<Direction>)
    ensures Walk(Shape, Position(s), r) == Some(Position(e))
    ensures Displace(r) == Sub(Position(e), Position(s))
    ensures |r| == Seqs.Abs(Position(e).x - Position(s).x) + Seqs.Abs(Position(e).y - Position(s).y)
  {
    Reach(s, e);
    Choice(s, e).value
  }

  /** The key that makes the robot move its arm towards `d`. */
  function Press(d: Direction): Key
  {
    match d
    case Left => Key.Left
    case Down => Key.Down
    case Up => Key.Up
    case Right => Key.Right
  }

  /** The move an arrow key makes the robot do. */
  function Aim(k: Key): Direction
    requires k != A
  {
    match k
    case Left => Direction.Left
    case Down => Direction.Down
    case Up => Direction.Up
    case Right => Direction.Right
  }

  /** `keys_from_moves`: one arrow key per move, then A to press. */
  function KeysFrom(ms: seq<Direction>): (r: seq<Key>)
    ensures |r| == |ms| + 1 && r[|ms|] == A
    ensures forall i :: 0 <= i < |ms| ==> r[i] != A && Aim(r[i]) == ms[i]
    decreases |ms|
  {
    if |ms| == 0 then [A] else [Press(ms[0])] + KeysFrom(ms[1..])
  }

  /** The keys typed on the pad driving this one to move the arm from
      `s` to `e` and press. */
  function Block(s: Key, e: Key): seq<Key>
  {
    KeysFrom(Moves(s, e))
  }

  /** `move_sequence` then `flat_map` of `keys_from_moves`: the keys to
      type on a directional pad to make a robot type `keys` on this one. */
  function Expand(keys: seq<Key>): seq<Key>
  {
    Chains.Expand(Block, A, keys)
  }

  /** A robot driven from this pad, its arm at `v` over a pad laid out as
      `at`: each arrow key moves the arm, A presses the key under it. The
      keys it presses, or `None` once the arm points at no key. */
  function Operate<K>(at: Vector -> Option<K>, v: Vector, keys: seq<Key>): Option<seq<K>>
    decreases |keys|
  {
    if |keys| == 0 then Some([])
    else if keys[0] == A then
      match at(v)
      case None => None
      case Some(k) =>
        match Operate(at, v, keys[1..])
        case None => None
        case Some(ks) => Some([k] + ks)
    else
      var w := Add(v, Step(Aim(keys[0])));
      if at(w).None? then None else Operate(at, w, keys[1..])
  }

  /** Typing the keys of a walk that stays on the pad moves the arm along
      it and presses the key where it stops. */
  lemma {:induction false} OperateBlock<K>(pad: Pad, at: Vector -> Option<K>, v: Vector, ms: seq<Direction>, rest: seq<Key>)
    requires forall w :: at(w).Some? <==> OnPad(pad, w)
    requires Walk(pad, v, ms).Some? && at(Walk(pad, v, ms).value).Some?
    ensures Operate(at, v, KeysFrom(ms) + rest) ==
      match Operate(at, Walk(pad, v, ms).value, rest)
      case None => None
      case Some(ks) => Some([at(Walk(pad, v, ms).value).value] + ks)
    decreases |ms|
  {
    var keys := KeysFrom(ms) + rest;
    if |ms| == 0 {
      assert keys[0] == A && keys[1..] == rest;
    } else {
      assert keys[0] == Press(ms[0]) && keys[1..] == KeysFrom(ms[1..]) + rest;
      OperateBlock(pad, at, Add(v, Step(ms[0])), ms[1..], rest);
    }
  }

  /** `block` drives a robot over the pad laid out as `at`, the key `k`
      at `pos(k)`: typing `block(s, e)` with the arm on `s` and then keys
      that type `ks` from `e` types `e` and then `ks`. */
  ghost predicate Drives<K(!new)>(at: Vector -> Option<K>, pos: K -> Vector, block: (K, K) -> seq<Key>)
  {
    forall s, e, rest, ks :: Operate(at, pos(e), rest) == Some(ks) ==> Operate(at, pos(s), block(s, e) + rest) == Some([e] + ks)
  }

  /** A robot driven by the blocks of the steps through `keys`, with its
      arm on `prev`, types `keys`. */
  lemma {:induction false} OperateExpand<K(!new)>(at: Vector -> Option<K>, pos: K -> Vector, block: (K, K) -> seq<Key>, prev: K, keys: seq<K>)
    requires Drives(at, pos, block)
    ensures Operate(at, pos(prev), Chains.Expand(block, prev, keys)) == Some(keys)
    decreases |keys|
  {
    if |keys| != 0 {
      Chains.ExpandHead(block, prev, keys);
      OperateExpand(at, pos, block, keys[0], keys[1..]);
      assert keys == [keys[0]] + keys[1..];
    }
  }

  /** This pad's blocks drive a robot over this pad. */
  lemma BlockDrives()
    ensures Drives(At, Position, Block)
  {
    forall s, e, rest, ks | Operate(At, Position(e), rest) == Some(ks)
      ensures Operate(At, Position(s), Block(s, e) + rest) == Some([e] + ks)
    {
      OperateStep(Position(s), Moves(s, e), e, rest, ks);
    }
  }

  /** A robot typing the keys of the steps through `keys`, with its arm
      on `prev`, types `keys`. */
  lemma OperateSteps(prev: Key, keys: seq<Key>)
    ensures Operate(At, Position(prev), Chains.Expand(Block, prev, keys)) == Some(keys)
  {
    BlockDrives();
    OperateExpand(At, Position, Block, prev, keys);
  }

  /** One step of `OperateSteps`: the keys for a walk that stops on `e`,
      then keys that type `ks` from `e`, type `e` and then `ks`. */
  lemma OperateStep(v: Vector, ms: seq<Direction>, e: Key, rest: seq<Key>, ks: seq<Key>)
    requires Walk(Shape, v, ms) == Some(Position(e)) && Operate(At, Position(e), rest) == Some(ks)
    ensures Operate(At, v, KeysFrom(ms) + rest) == Some([e] + ks)
  {
    AtOnPad();
    AtPosition(e);
    OperateBlock(Shape, At, v, ms, rest);
  }

  lemma AtOnPad()
    ensures forall w :: At(w).Some? <==> OnPad(Shape, w)
  {
  }

  /** The expansion round trip: a robot driven with `Expand(keys)`, its
      arm starting on A, types exactly `keys` and never points at the gap. */
  lemma RoundTrip(keys: seq<Key>)
    ensures Operate(At, Position(A), Expand(keys)) == Some(keys)
  {
    OperateSteps(A, keys);
  }

  /** Every step ends by pressing A, so the arm is back on A after it. */
  lemma Homes()
    ensures Chains.Homing(Block, A)
  {
  }

  /** The keys a robot at this pad presses when `keys` are typed on it,
      its arm starting on A. */
  function Type(keys: seq<Key>): Option<seq<Key>>
  {
    Operate(At, Position(A), keys)
  }

  /** What a chain of `depth` robots at directional pads, each arm
      starting on A, types when `top` is typed at its head. */
  function Unwind(top: seq<Key>, depth: nat): Option<seq<Key>>
  {
    Chains.Unrun(Type, top, depth)
  }

  /** The chain types back exactly the keys it was expanded from. */
  lemma UnwindIterate(keys: seq<Key>, depth: nat)
    ensures Unwind(Chains.Iterate(Block, A, keys, depth), depth) == Some(keys)
  {
    forall ks ensures Type(Chains.Expand(Block, A, ks)) == Some(ks) {
      RoundTrip(ks);
    }
    Chains.UnrunIterate(Type, Block, A, keys, depth);
  }
}

/** The numeric keypad, operated by a robot driven from a directional
    keypad. */
module Numpad {
  import opened Wrappers
  import opened Keypads
  import Seqs
  import Chains
  import Dirpad
  import Text

  // +---+---+---+
  // | 7 | 8 | 9 |
  // +---+---+---+
  // | 4 | 5 | 6 |
  // +---+---+---+
  // | 1 | 2 | 3 |
  // +---+---+---+
  //     | 0 | A |
  //     +---+---+
  datatype Key = N0 | N1 | N2 | N3 | N4 | N5 | N6 | N7 | N8 | N9 | A

  function Position(k: Key): Vector
  {
    match k
    case N0 => Vector(1, 0)
    case A => Vector(2, 0)
    case N1 => Vector(0, 1)
    case N2 => Vector(1, 1)
    case N3 => Vector(2, 1)
    case N4 => Vector(0, 2)
    case N5 => Vector(1, 2)
    case N6 => Vector(2, 2)
    case N7 => Vector(0, 3)
    case N8 => Vector(1, 3)
    case N9 => Vector(2, 3)
  }

  const Shape := Pad(3, 4, 0)

  /** The key at `v`: `None` exactly off the pad. */
  function At(v: Vector): (r: Option<Key>)
    ensures r.Some? <==> OnPad(Shape, v)
    ensures r.Some? ==> Position(r.value) == v
  {
    if v == Vector(1, 0) then Some(N0)
    else if v == Vector(2, 0) then Some(A)
    else if v == Vector(0, 1) then Some(N1)
    else if v == Vector(1, 1) then Some(N2)
    else if v == Vector(2, 1) then Some(N3)
    else if v == Vector(0, 2) then Some(N4)
    else if v == Vector(1, 2) then Some(N5)
    else if v == Vector(2, 2) then Some(N6)
    else if v == Vector(0, 3) then Some(N7)
    else if v == Vector(1, 3) then Some(N8)
    else if v == Vector(2, 3) then Some(N9)
    else None
  }

  /** Every key is found where it is. */
  lemma AtPosition(k: Key)
    ensures At(Position(k)) == Some(k)
  {
  }

  lemma PositionOnPad(k: Key)
    ensures OnPad(Shape, Position(k))
  {
  }

  lemma AtOnPad()
    ensures forall w :: At(w).Some? <==> OnPad(Shape, w)
  {
  }

  /** The character printed on a key. */
  function ToChar(k: Key): char
  {
    match k
    case N0 => '0'
    case N1 => '1'
    case N2 => '2'
    case N3 => '3'
    case N4 => '4'
    case N5 => '5'
    case N6 => '6'
    case N7 => '7'
    case N8 => '8'
    case N9 => '9'
    case A => 'A'
  }

  /** `NumpadKey::from(char)`: `None` is the panic on any other character. */
  function FromChar(c: char): Option<Key>
  {
    match c
    case '0' => Some(N0)
    case '1' => Some(N1)
    case '2' => Some(N2)
    case '3' => Some(N3)
    case '4' => Some(N4)
    case '5' => Some(N5)
    case '6' => Some(N6)
    case '7' => Some(N7)
    case '8' => Some(N8)
    case '9' => Some(N9)
    case 'A' => Some(A)
    case _ => None
  }

  /** Reading a character gives the key printed as it, and fails exactly
      on the characters that are neither digits nor A. */
  lemma FromCharInverse(c: char)
    ensures FromChar(c).Some? ==> ToChar(FromChar(c).value) == c
    ensures FromChar(c).None? <==> !(Text.IsDigit(c) || c == 'A')
  {
  }

  /** Printing a key and reading it back gives the key. */
  lemma CharRoundTrip(k: Key)
    ensures FromChar(ToChar(k)) == Some(k)
  {
  }

  /** A code read key by key; `None` if a character is not a key. */
  function Code(code: string): Option<seq<Key>>
    decreases |code|
  {
    if |code| == 0 then Some([])
    else if FromChar(code[0]).None? then None
    else
      var rest := Code(code[1..]);
      if rest.None? then None else Some([FromChar(code[0]).value] + rest.value)
  }

  /** A code is read exactly when every character is a key, and then
      key `i` prints as character `i`. */
  lemma {:induction false} CodeInverse(code: string)
    ensures Code(code).Some? <==> forall i :: 0 <= i < |code| ==> FromChar(code[i]).Some?
    ensures Code(code).Some? ==> |Code(code).value| == |code| && forall i :: 0 <= i < |code| ==> ToChar(Code(code).value[i]) == code[i]
    decreases |code|
  {
    if |code| > 0 {
      FromCharInverse(code[0]);
      CodeInverse(code[1..]);
      assert forall i :: 1 <= i < |code| ==> code[i] == code[1..][i - 1];
    }
  }

  /** `trim_end_matches("A")`: `s` without its trailing 'A's. */
  function TrimA(s: string): string
    decreases |s|
  {
    if |s| > 0 && s[|s| - 1] == 'A' then TrimA(s[..|s| - 1]) else s
  }

  /** The trimmed string is a prefix of `s` not ending in 'A', and all
      that was cut off is 'A's. */
  lemma {:induction false} TrimAPrefix(s: string)
    ensures TrimA(s) <= s && (|TrimA(s)| == 0 || TrimA(s)[|TrimA(s)| - 1] != 'A')
    ensures forall i :: |TrimA(s)| <= i < |s| ==> s[i] == 'A'
    decreases |s|
  {
    if |s| > 0 && s[|s| - 1] == 'A' {
      TrimAPrefix(s[..|s| - 1]);
    }
  }

  const UsizeLimit := 0x1_0000_0000_0000_0000

  /** `parse::<usize>()` of a decimal: an optional '+', then one or more
      digits, with a value that fits in 64 bits. */
  function ParseUsize(s: string): Option<nat>
  {
    var ds := if |s| > 0 && s[0] == '+' then s[1..] else s;
    if |ds| > 0 && Text.AllDigits(ds) && Text.Value(ds) < UsizeLimit then Some(Text.Value(ds)) else None
  }

  /** A parsed number fits in 64 bits, and a string of digits parses to
      its decimal value exactly when it is nonempty and that value fits. */
  lemma ParseUsizeDigits(s: string)
    ensures ParseUsize(s).Some? ==> ParseUsize(s).value < UsizeLimit
    ensures Text.AllDigits(s) ==> (ParseUsize(s).Some? <==> |s| > 0 && Text.Value(s) < UsizeLimit)
    ensures Text.AllDigits(s) && ParseUsize(s).Some? ==> ParseUsize(s).value == Text.Value(s)
  {
  }

  /** The numeric part of a code, as `main` computes it: `None` is the
      panic of `unwrap`. */
  function CodeNum(code: string): Option<nat>
  {
    ParseUsize(TrimA(code))
  }

  lemma CodeNumExample()
    ensures CodeNum("029A") == Some(29)
  {
    assert TrimA("029A") == "029";
    assert Text.AllDigits("029");
    assert "029"[..2] == "02" && "02"[..1] == "0" && "0"[..0] == "";
  }

  /** `are_moves_safe`, by the first and last move of a non-empty list:
      leaving 0 the first move goes up or right; reaching 0 the last move
      goes down or left; from A to the left column the first move goes up;
      from the left column to A the last move goes down. */
  predicate Allows(s: Key, e: Key, first: Direction, last: Direction)
  {
    if s == N0 then first == Direction.Up || first == Direction.Right
    else if e == N0 then last == Direction.Down || last == Direction.Left
    else if s == A && (e == N1 || e == N4 || e == N7) then first == Direction.Up
    else if (s == N1 || s == N4 || s == N7) && e == A then last == Direction.Down
    else true
  }

  /** `are_moves_safe`: an empty list is always safe. */
  predicate Safe(s: Key, e: Key, ms: seq<Direction>)
  {
    |ms| == 0 || Allows(s, e, ms[0], ms[|ms| - 1])
  }

  /** `get_cheapest_moves` on this pad, `None` for the panic. */
  function Choice(s: Key, e: Key): Option<seq<Direction>>
  {
    var path := Sub(Position(e), Position(s));
    Cheapest(path, Safe(s, e, XRun(path) + YRun(path)), Safe(s, e, YRun(path) + XRun(path)))
  }

  /** The safety flags of a diagonal pair are those of its first and
      last moves. */
  lemma Flags(s: Key, e: Key, path: Vector)
    requires path.x != 0 && path.y != 0
    ensures Safe(s, e, XRun(path) + YRun(path)) == Allows(s, e, XDir(path.x), YDir(path.y))
    ensures Safe(s, e, YRun(path) + XRun(path)) == Allows(s, e, YDir(path.y), XDir(path.x))
  {
    Ends(path);
  }

  /** The safety rules of a diagonal pair, by its first and last moves,
      let the move turn: each allowed order turns at a key, and one order
      is allowed. */
  lemma Premise(s: Key, e: Key, a: Vector, b: Vector, safeXY: bool, safeYX: bool)
    requires a == Position(s) && b == Position(e) && b.x != a.x && b.y != a.y
    requires safeXY == Allows(s, e, XDir(b.x - a.x), YDir(b.y - a.y))
    requires safeYX == Allows(s, e, YDir(b.y - a.y), XDir(b.x - a.x))
    ensures Turns(Shape, a, b, safeXY, safeYX)
  {
  }

  /** The choice never panics, and the arm following it never points at
      the gap and stops on the key wanted. */
  lemma Reach(s: Key, e: Key)
    ensures Leads(Shape, Position(s), Position(e), Choice(s, e))
  {
    PositionOnPad(s);
    PositionOnPad(e);
    Corner(s, e);
    ChoiceIs(s, e);
    var path := Sub(Position(e), Position(s));
    CheapestReaches(Shape, Position(s), Position(e), Safe(s, e, XRun(path) + YRun(path)), Safe(s, e, YRun(path) + XRun(path)), Choice(s, e));
  }

  /** The choice, spelled out. */
  lemma ChoiceIs(s: Key, e: Key)
    ensures var path := Sub(Position(e), Position(s));
      Choice(s, e) == Cheapest(path, Safe(s, e, XRun(path) + YRun(path)), Safe(s, e, YRun(path) + XRun(path)))
  {
  }

  /** The safety rule of this pad lets every diagonal move turn. */
  lemma Corner(s: Key, e: Key)
    ensures var path := Sub(Position(e), Position(s));
      Turns(Shape, Position(s), Position(e), Safe(s, e, XRun(path) + YRun(path)), Safe(s, e, YRun(path) + XRun(path)))
  {
    var a := Position(s);
    var b := Position(e);
    var path := Sub(b, a);
    if path.x != 0 && path.y != 0 {
      Flags(s, e, path);
      Premise(s, e, a, b, Safe(s, e, XRun(path) + YRun(path)), Safe(s, e, YRun(path) + XRun(path)));
    }
  }

  /** The moves from `s` to `e`: as short as any path, and the arm
      following them stays on the pad and stops on `e`. */
  function Moves(s: Key, e: Key): (r: seq<Direction>)
    ensures Walk(Shape, Position(s), r) == Some(Position(e))
    ensures Displace(r) == Sub(Position(e), Position(s))
    ensures |r| == Seqs.Abs(Position(e).x - Position(s).x) + Seqs.Abs(Position(e).y - Position(s).y)
  {
    Reach(s, e);
    Choice(s, e).value
  }

  /** `move_sequence`: the moves to each key in turn, the arm starting
      on A. */
  function MoveSequence(keys: seq<Key>): (r: seq<seq<Direction>>)
    ensures |r| == |keys|
    ensures forall i :: 0 <= i < |keys| ==> r[i] == Moves(if i == 0 then A else keys[i - 1], keys[i])
  {
    var r := Seqs.Pairs(Moves, A, keys);
    forall i | 0 <= i < |keys|
      ensures r[i] == Moves(if i == 0 then A else keys[i - 1], keys[i])
    {
      Seqs.PairsAt(Moves, A, keys, i);
    }
    r
  }


  /** The moves are the choice of `get_cheapest_moves`, which never
      panics. */
  lemma MovesChoice(s: Key, e: Key)
    ensures Choice(s, e).Some? && Moves(s, e) == Choice(s, e).value
  {
    Reach(s, e);
  }

  /** The choice on a diagonal, by the first and last moves of each
      order. */
  lemma ChoiceDiagonal(s: Key, e: Key, path: Vector)
    requires path == Sub(Position(e), Position(s)) && path.x != 0 && path.y != 0
    ensures Choice(s, e) == Diagonal(path, Allows(s, e, XDir(path.x), YDir(path.y)), Allows(s, e, YDir(path.y), XDir(path.x)))
  {
    var safeXY := Safe(s, e, XRun(path) + YRun(path));
    var safeYX := Safe(s, e, YRun(path) + XRun(path));
    ChoiceIs(s, e);
    assert Choice(s, e) == Cheapest(path, safeXY, safeYX) == Diagonal(path, safeXY, safeYX);
    Flags(s, e, path);
  }

  /** With only the vertical-first order safe, it is the choice. */
  lemma ChoiceSecond(s: Key, e: Key, path: Vector)
    requires path == Sub(Position(e), Position(s)) && path.x != 0 && path.y != 0
    requires !Allows(s, e, XDir(path.x), YDir(path.y)) && Allows(s, e, YDir(path.y), XDir(path.x))
    ensures Choice(s, e) == Some(YRun(path) + XRun(path))
  {
    ChoiceDiagonal(s, e, path);
    DiagonalSecond(path, false, true);
  }

  /** From A to 1 the horizontal-first order would cross the gap. */
  lemma ChoiceAOne(s: Key, e: Key)
    requires s == A && e == N1
    ensures Choice(s, e) == Some(YRun(Vector(-2, 1)) + XRun(Vector(-2, 1)))
  {
    var path := Vector(-2, 1);
    assert XDir(path.x) == Direction.Left && YDir(path.y) == Direction.Up;
    ChoiceSecond(s, e, path);
  }

  lemma RunsAOne()
    ensures YRun(Vector(-2, 1)) + XRun(Vector(-2, 1)) == [Direction.Up, Direction.Left, Direction.Left]
  {
    assert XRun(Vector(-2, 1)) == [Direction.Left, Direction.Left];
  }

  lemma MovesAOne()
    ensures Moves(A, N1) == [Direction.Up, Direction.Left, Direction.Left]
  {
    ChoiceAOne(A, N1);
    RunsAOne();
    MovesChoice(A, N1);
  }


  /** From 1 to 9 both orders are safe and the smaller one is taken. */
  lemma ChoiceOneNine(s: Key, e: Key)
    requires s == N1 && e == N9
    ensures Choice(s, e) == Some([Direction.Up, Direction.Up, Direction.Right, Direction.Right])
  {
    var path := Sub(Position(e), Position(s));
    assert path == Vector(2, 2);
    ChoiceDiagonal(s, e, path);
    var safeXY := Allows(s, e, XDir(path.x), YDir(path.y));
    var safeYX := Allows(s, e, YDir(path.y), XDir(path.x));
    assert safeXY && safeYX by {
      assert XDir(path.x) == Direction.Right && YDir(path.y) == Direction.Up;
    }
    var m := YRun(path) + XRun(path);
    assert m == [Direction.Up, Direction.Up, Direction.Right, Direction.Right] by {
      assert XRun(path) == [Direction.Right, Direction.Right];
      assert YRun(path) == [Direction.Up, Direction.Up];
    }
    assert Below(m, XRun(path) + YRun(path));
    DiagonalBoth(path, m);
  }


  lemma MovesOneNine()
    ensures Moves(N1, N9) == [Direction.Up, Direction.Up, Direction.Right, Direction.Right]
  {
    ChoiceOneNine(N1, N9);
    MovesChoice(N1, N9);
  }

  /** From 9 to 2 both orders are safe and the smaller one is taken. */
  lemma ChoiceNineTwo(s: Key, e: Key)
    requires s == N9 && e == N2
    ensures Choice(s, e) == Some([Direction.Left, Direction.Down, Direction.Down])
  {
    var path := Sub(Position(e), Position(s));
    assert path == Vector(-1, -2);
    ChoiceDiagonal(s, e, path);
    var safeXY := Allows(s, e, XDir(path.x), YDir(path.y));
    var safeYX := Allows(s, e, YDir(path.y), XDir(path.x));
    assert safeXY && safeYX by {
      assert XDir(path.x) == Direction.Left && YDir(path.y) == Direction.Down;
    }
    var m := XRun(path) + YRun(path);
    assert m == [Direction.Left, Direction.Down, Direction.Down] by {
      assert XRun(path) == [Direction.Left];
      assert YRun(path) == [Direction.Down, Direction.Down];
    }
    assert Below(m, YRun(path) + XRun(path));
    DiagonalBoth(path, m);
  }


  lemma MovesNineTwo()
    ensures Moves(N9, N2) == [Direction.Left, Direction.Down, Direction.Down]
  {
    ChoiceNineTwo(N9, N2);
    MovesChoice(N9, N2);
  }

  /** From 2 to 1 is one move left. */
  lemma ChoiceTwoOne()
    ensures Choice(N2, N1) == Some([Direction.Left])
  {
    assert XRun(Vector(-1, 0)) == [Direction.Left];
  }

  lemma MovesTwoOne()
    ensures Moves(N2, N1) == [Direction.Left]
  {
    ChoiceTwoOne();
    MovesChoice(N2, N1);
  }



  /** The moves to type 1, 9, 2, 1 from A. */
  lemma MoveSequenceExample()
    ensures MoveSequence([N1, N9, N2, N1]) == [
      [Direction.Up, Direction.Left, Direction.Left],
      [Direction.Up, Direction.Up, Direction.Right, Direction.Right],
      [Direction.Left, Direction.Down, Direction.Down],
      [Direction.Left]]
  {
    Seqs.PairsFour(Moves, A, N1, N9, N2, N1);
    MovesAOne();
    MovesOneNine();
    MovesNineTwo();
    MovesTwoOne();
  }


  /** The keys typed on the directional pad driving this one to move the
      arm from `s` to `e` and press. */
  function Block(s: Key, e: Key): seq<Dirpad.Key>
  {
    Dirpad.KeysFrom(Moves(s, e))
  }

  /** `move_sequence` then `flat_map` of `keys_from_moves`: the keys to
      type on a directional pad to make a robot type `keys` on this one. */
  function Expand(keys: seq<Key>): seq<Dirpad.Key>
  {
    Chains.Expand(Block, A, keys)
  }

  /** One step of `OperateSteps`. */
  lemma OperateStep(v: Vector, ms: seq<Direction>, e: Key, rest: seq<Dirpad.Key>, ks: seq<Key>)
    requires Walk(Shape, v, ms) == Some(Position(e)) && Dirpad.Operate(At, Position(e), rest) == Some(ks)
    ensures Dirpad.Operate(At, v, Dirpad.KeysFrom(ms) + rest) == Some([e] + ks)
  {
    AtOnPad();
    AtPosition(e);
    Dirpad.OperateBlock(Shape, At, v, ms, rest);
  }

  /** This pad's blocks drive the robot at this pad. */
  lemma BlockDrives()
    ensures Dirpad.Drives(At, Position, Block)
  {
    forall s, e, rest, ks | Dirpad.Operate(At, Position(e), rest) == Some(ks)
      ensures Dirpad.Operate(At, Position(s), Block(s, e) + rest) == Some([e] + ks)
    {
      OperateStep(Position(s), Moves(s, e), e, rest, ks);
    }
  }

  /** A robot typing the keys of the steps through `keys`, with its arm
      on `prev`, types `keys`. */
  lemma OperateSteps(prev: Key, keys: seq<Key>)
    ensures Dirpad.Operate(At, Position(prev), Chains.Expand(Block, prev, keys)) == Some(keys)
  {
    BlockDrives();
    Dirpad.OperateExpand(At, Position, Block, prev, keys);
  }

  /** The expansion round trip: the robot at the numeric keypad, driven
      with `Expand(keys)` and its arm starting on A, types exactly `keys`
      and never points at the gap. */
  lemma RoundTrip(keys: seq<Key>)
    ensures Dirpad.Operate(At, Position(A), Expand(keys)) == Some(keys)
  {
    OperateSteps(A, keys);
  }
}

/** Part one: two robots at directional pads between the one at the
    numeric pad and the person, the expansions written out. */
module Day21a {
  import opened Wrappers
  import Arith
  import Numpad
  import Dirpad

  /** The person's key presses for a code: the numeric pad's moves, then
      two directional expansions. */
  function Presses(keys: seq<Numpad.Key>): seq<Dirpad.Key>
  {
    Dirpad.Expand(Dirpad.Expand(Numpad.Expand(keys)))
  }

  /** What the three robots type when the person presses `top`. */
  function Typed(top: seq<Dirpad.Key>): Option<seq<Numpad.Key>>
  {
    match Dirpad.Operate(Dirpad.At, Dirpad.Position(Dirpad.A), top)
    case None => None
    case Some(second) =>
      match Dirpad.Operate(Dirpad.At, Dirpad.Position(Dirpad.A), second)
      case None => None
      case Some(first) => Dirpad.Operate(Numpad.At, Numpad.Position(Numpad.A), first)
  }

  /** The presses make the robots type the code and nothing else. */
  lemma TypedPresses(keys: seq<Numpad.Key>)
    ensures Typed(Presses(keys)) == Some(keys)
  {
    Dirpad.RoundTrip(Dirpad.Expand(Numpad.Expand(keys)));
    Dirpad.RoundTrip(Numpad.Expand(keys));
    Numpad.RoundTrip(keys);
  }

  /** A code's complexity: its numeric part times the number of presses,
      `None` for the panics on a bad character or number. */
  function Complexity(code: string): (r: Option<nat>)
    ensures r.Some? <==> Numpad.Code(code).Some? && Numpad.CodeNum(code).Some?
  {
    match Numpad.Code(code)
    case None => None
    case Some(keys) =>
      match Numpad.CodeNum(code)
      case None => None
      case Some(n) => Arith.MulNat(n, |Presses(keys)|); Some(n * |Presses(keys)|)
  }

  /** The answer: the sum of the complexities, `None` once a code panics. */
  function Solve(codes: seq<string>): (r: Option<nat>)
    ensures r.Some? <==> forall i :: 0 <= i < |codes| ==> Complexity(codes[i]).Some?
  {
    SumAll(Complexity, codes)
  }
}

/** Part two: 25 robots at directional pads, the presses counted block
    by block with a cache instead of written out. The count holds for
    any choice of blocks that end on A; `dir` and `num` are the blocks
    typed for a move on a directional and on the numeric pad, and the
    answer uses those of the keypads. */
module Day21b {
  import opened Wrappers
  import Arith
  import Chains
  import Numpad
  import Dirpad
  import Day21a

  type DirBlocks = (Dirpad.Key, Dirpad.Key) -> seq<Dirpad.Key>
  type NumBlocks = (Numpad.Key, Numpad.Key) -> seq<Dirpad.Key>
  type Cache = map<Chains.Entry<Dirpad.Key>, nat>

  /** A code's complexity behind `depth` directional robots. */
  function Complexity(dir: DirBlocks, num: NumBlocks, code: string, depth: nat): (r: Option<nat>)
    ensures r.Some? <==> Numpad.Code(code).Some? && Numpad.CodeNum(code).Some?
  {
    match Numpad.Code(code)
    case None => None
    case Some(keys) =>
      match Numpad.CodeNum(code)
      case None => None
      case Some(n) =>
        var presses := |Chains.Iterate(dir, Dirpad.A, Chains.Expand(num, Numpad.A, keys), depth)|;
        Arith.MulNat(n, presses);
        Some(n * presses)
  }

  /** The complexity of each code behind `depth` robots. */
  function Scores(dir: DirBlocks, num: NumBlocks, depth: nat): string -> Option<nat>
  {
    (code: string) => Complexity(dir, num, code, depth)
  }

  /** The sum of the complexities behind `depth` robots. */
  function Total(dir: DirBlocks, num: NumBlocks, codes: seq<string>, depth: nat): Option<nat>
  {
    SumAll(Scores(dir, num, depth), codes)
  }

  /** One code's complexity, its presses counted with the shared cache. */
  method Score(dir: DirBlocks, num: NumBlocks, cache: Cache, code: string, depth: nat)
    returns (r: Option<nat>, cache': Cache)
    requires Chains.Homing(dir, Dirpad.A) && Chains.Memo(dir, Dirpad.A, cache)
    ensures r == Complexity(dir, num, code, depth) && Chains.Memo(dir, Dirpad.A, cache')
  {
    var keys := Numpad.Code(code);
    var n := Numpad.CodeNum(code);
    if keys.None? || n.None? {
      return None, cache;
    }
    var first := Chains.Expand(num, Numpad.A, keys.value);
    var count;
    count, cache' := Chains.CountKeys(dir, Dirpad.A, cache, first, depth);
    Chains.CountIterate(dir, Dirpad.A, first, depth);
    Arith.MulNat(n.value, count);
    r := Some(n.value * count);
  }

  /** The sum of the complexities behind `depth` robots, with one cache
      shared by all codes. */
  method Run(dir: DirBlocks, num: NumBlocks, codes: seq<string>, depth: nat) returns (r: Option<nat>)
    requires Chains.Homing(dir, Dirpad.A)
    ensures r == Total(dir, num, codes, depth)
  {
    var cache: Cache := map[];
    var sum: nat := 0;
    for i := 0 to |codes|
      invariant Chains.Memo(dir, Dirpad.A, cache)
      invariant SumAll(Scores(dir, num, depth), codes[..i]) == Some(sum)
    {
      var score;
      score, cache := Score(dir, num, cache, codes[i], depth);
      assert Scores(dir, num, depth)(codes[i]) == score;
      if score.None? {
        return None;
      }
      SumAllNext(Scores(dir, num, depth), codes, i, sum, score.value);
      sum := sum + score.value;
    }
    assert codes[..|codes|] == codes;
    r := Some(sum);
  }

  /** `DEPTH`: the directional robots of part two. */
  const Depth := 25

  /** The answer: 25 robots driven through the keypads' blocks. */
  method Solve(codes: seq<string>) returns (r: Option<nat>)
    ensures r == Total(Dirpad.Block, Numpad.Block, codes, Depth)
  {
    Dirpad.Homes();
    r := Run(Dirpad.Block, Numpad.Block, codes, Depth);
  }

  /** With two robots this is the sum of part one. */
  lemma PartOne(codes: seq<string>)
    ensures Total(Dirpad.Block, Numpad.Block, codes, 2) == Day21a.Solve(codes)
  {
    forall code: string
      ensures Scores(Dirpad.Block, Numpad.Block, 2)(code) == Day21a.Complexity(code)
    {
      if Numpad.Code(code).Some? {
        var keys := Numpad.Code(code).value;
        assert Chains.Iterate(Dirpad.Block, Dirpad.A, Numpad.Expand(keys), 2) == Day21a.Presses(keys);
      }
    }
    SumAllCongruent(Scores(Dirpad.Block, Numpad.Block, 2), Day21a.Complexity, codes);
  }
}

=== FILE: day22.dfy ===
/** Day 22: monkey-market secrets. Every buyer's secret number evolves by
    a fixed xor-shift step. Part one adds up each buyer's 2000th secret;
    part two turns each buyer's secrets into prices and price changes,
    lets each buyer offer the price that follows the first occurrence of
    every run of four changes, and looks for the run whose offers add up
    to the most. The parallel iterators of both parts are modelled as
    sequential maps over the buyers. */

/** The secret-number step, shared by both parts. */
module Secrets {
  /** The 24 bits every shifted term is masked to. */
  const Mask: bv32 := 0xFF_FFFF
  /** Secrets below this bound keep their bits within the mask. */
  const Limit: bv32 := 0x100_0000
  /** The sign bit of an `i32` held as its 32-bit pattern. */
  const Sign: bv32 := 0x8000_0000

  /** The first line of `next`: `wrapping_shl` drops the bits shifted
      past bit 31, and the mask keeps 24 bits. */
  function StepOne(s: bv32): bv32
  {
    s ^ ((s << 6) & Mask)
  }

  /** The second line of `next` on `u32`, whose `>>` shifts zeros in. */
  function StepTwo(s: bv32): bv32
  {
    s ^ (s >> 5)
  }

  /** The third line of `next`. */
  function StepThree(s: bv32): bv32
  {
    s ^ ((s << 11) & Mask)
  }

  /** `next` on `u32`. */
  function Next(s: bv32): bv32
  {
    StepThree(StepTwo(StepOne(s)))
  }

  /** `>> 5` on `i32`: the shift copies the sign bit into the vacated
      bits. */
  function ShiftSigned(s: bv32): bv32
  {
    if s & Sign == 0 then s >> 5 else !((!s) >> 5)
  }

  /** The second line of `next` on `i32`. */
  function StepTwoSigned(s: bv32): bv32
  {
    s ^ ShiftSigned(s)
  }

  /** `next` on `i32`, held as 32-bit patterns. */
  function NextSigned(s: bv32): bv32
  {
    StepThree(StepTwoSigned(StepOne(s)))
  }

  /** The secret after `n` steps of `step`. */
  function Advance(step: bv32 -> bv32, s: bv32, n: nat): bv32
  {
    if n == 0 then s else step(Advance(step, s, n - 1))
  }

  predicate Below(s: bv32, bound: bv32)
  {
    s < bound
  }

  predicate NonNegative(s: bv32)
  {
    s & Sign == 0
  }

  /** A secret below 2^24 stays below 2^24, and zero is a fixed point. */
  lemma NextBounded(s: bv32)
    ensures s < Limit ==> Next(s) < Limit
    ensures Next(0) == 0
  {
  }

  lemma StepOneSign(s: bv32)
    requires NonNegative(s)
    ensures NonNegative(StepOne(s))
  {
  }

  lemma StepTwoAgrees(s: bv32)
    requires NonNegative(s)
    ensures StepTwoSigned(s) == StepTwo(s)
  {
  }

  lemma StepTwoSign(s: bv32)
    ensures NonNegative(StepTwoSigned(s))
  {
  }

  lemma StepThreeSign(s: bv32)
    requires NonNegative(s)
    ensures NonNegative(StepThree(s))
  {
  }

  /** Whatever the sign of the secret, the signed step yields a
      non-negative one: the second line xors the sign bit with its own
      copy. */
  lemma NextSignedSign(s: bv32)
    ensures NonNegative(NextSigned(s))
  {
    StepTwoSign(StepOne(s));
    StepThreeSign(StepTwoSigned(StepOne(s)));
  }

  /** On non-negative secrets the signed step is the unsigned one. */
  lemma NextSignedAgrees(s: bv32)
    requires NonNegative(s)
    ensures NextSigned(s) == Next(s)
  {
    StepOneSign(s);
    StepTwoAgrees(StepOne(s));
  }

  /** Any step that keeps a bound keeps it for any number of steps. */
  lemma {:induction false} AdvanceBounded(step: bv32 -> bv32, s: bv32, n: nat, bound: bv32)
    requires forall x :: Below(x, bound) ==> Below(step(x), bound)
    requires Below(s, bound)
    ensures Below(Advance(step, s, n), bound)
  {
    if n > 0 {
      AdvanceBounded(step, s, n - 1, bound);
    }
  }

  /** Steps that agree on non-negative secrets and keep them non-negative
      agree for any number of steps. */
  lemma {:induction false} AdvanceAgrees(f: bv32 -> bv32, g: bv32 -> bv32, s: bv32, n: nat)
    requires forall x :: NonNegative(x) ==> f(x) == g(x) && NonNegative(f(x))
    requires NonNegative(s)
    ensures Advance(f, s, n) == Advance(g, s, n) && NonNegative(Advance(f, s, n))
  {
    if n > 0 {
      AdvanceAgrees(f, g, s, n - 1);
    }
  }

  /** Any number of steps keeps a secret below 2^24. */
  lemma AdvanceLimit(s: bv32, n: nat)
    requires s < Limit
    ensures Advance(Next, s, n) < Limit
  {
    forall x | Below(x, Limit)
      ensures Below(Next(x), Limit)
    {
      NextBounded(x);
    }
    AdvanceBounded(Next, s, n, Limit);
  }

  /** Non-negative `i32` secrets evolve as the `u32` ones do. */
  lemma SignedAdvance(s: bv32, n: nat)
    requires NonNegative(s)
    ensures Advance(NextSigned, s, n) == Advance(Next, s, n)
  {
    forall x | NonNegative(x)
      ensures NextSigned(x) == Next(x) && NonNegative(NextSigned(x))
    {
      NextSignedAgrees(x);
      NextSignedSign(x);
    }
    AdvanceAgrees(NextSigned, Next, s, n);
  }
}

/** Part one: the sum of every buyer's 2000th secret. */
module Day22a {
  import Secrets

  const Rounds: nat := 2000

  /** The secret after the 2000 steps of one buyer. */
  function Final(s: bv32): bv32
  {
    Secrets.Advance(Secrets.Next, s, Rounds)
  }

  /** The sum of the final secrets, each widened to `usize`. */
  function Total(secrets: seq<bv32>): nat
  {
    if |secrets| == 0 then 0
    else Total(secrets[..|secrets| - 1]) + Final(secrets[|secrets| - 1]) as nat
  }

  /** The loop of 2000 steps for one buyer. */
  method Evolve(s: bv32) returns (r: bv32)
    ensures r == Secrets.Advance(Secrets.Next, s, Rounds)
    ensures s < Secrets.Limit ==> r < Secrets.Limit
  {
    r := s;
    for i := 0 to Rounds
      invariant r == Secrets.Advance(Secrets.Next, s, i)
    {
      r := Secrets.Next(r);
    }
    if s < Secrets.Limit {
      Secrets.AdvanceLimit(s, Rounds);
    }
  }

  /** The answer: every buyer evolved, the results added up. */
  method Solve(secrets: seq<bv32>) returns (r: nat)
    ensures r == Total(secrets)
  {
    r := 0;
    for i := 0 to |secrets|
      invariant r == Total(secrets[..i])
    {
      var s := Evolve(secrets[i]);
      assert secrets[..i + 1][..i] == secrets[..i];
      r := r + s as nat;
    }
    assert secrets[..|secrets|] == secrets;
  }

}

/** Offers keyed by runs of changes, totalled over the buyers and searched
    for the best one; nothing here depends on how the offers arose. */
module Market {
  import opened Wrappers

  /** A buyer's offer for `k`, zero when the buyer makes none. */
  function Get<K>(m: map<K, int>, k: K): int
  {
    if k in m then m[k] else 0
  }

  /** The offers for `k` added up over the buyers. */
  function SumOver<K>(ms: seq<map<K, int>>, k: K): int
  {
    if |ms| == 0 then 0 else SumOver(ms[..|ms| - 1], k) + Get(ms[|ms| - 1], k)
  }

  /** One buyer's offers merged into the totals: `and_modify` adds to a
      present total, `or_insert` starts a missing one. */
  function AddBuyer<K>(total: map<K, int>, offer: map<K, int>): map<K, int>
  {
    map k | k in total.Keys + offer.Keys :: Get(total, k) + Get(offer, k)
  }

  /** The totals of every run: a run is present when some buyer offers
      for it, and its total is the sum of all offers for it. */
  method Totals<K>(ms: seq<map<K, int>>) returns (t: map<K, int>)
    ensures forall k :: k in t <==> exists v :: 0 <= v < |ms| && k in ms[v]
    ensures forall k :: Get(t, k) == SumOver(ms, k)
  {
    t := map[];
    for i := 0 to |ms|
      invariant forall k :: k in t <==> exists v :: 0 <= v < i && k in ms[v]
      invariant forall k :: Get(t, k) == SumOver(ms[..i], k)
    {
      assert ms[..i + 1][..i] == ms[..i];
      t := AddBuyer(t, ms[i]);
    }
    assert ms[..|ms|] == ms;
  }

  /** `max_by` over the totals, `None` where `unwrap` would panic on an
      empty map. */
  method Best<K>(t: map<K, int>) returns (r: Option<int>)
    ensures r.None? <==> |t| == 0
    ensures r.Some? ==> exists k :: k in t && t[k] == r.value
    ensures r.Some? ==> forall k :: k in t ==> t[k] <= r.value
  {
    r := None;
    var rest := t.Keys;
    while rest != {}
      invariant rest <= t.Keys
      invariant r.None? <==> rest == t.Keys
      invariant r.Some? ==> exists k :: k in t && t[k] == r.value
      invariant r.Some? ==> forall k :: k in t && k !in rest ==> t[k] <= r.value
      decreases |rest|
    {
      var k :| k in rest;
      if r.None? || t[k] > r.value {
        r := Some(t[k]);
      }
      rest := rest - {k};
    }
    assert |t.Keys| == |t|;
  }
}

/** Part two: prices, first offers per run of four changes, the best total. */
module Day22b {
  import opened Wrappers
  import Arith
  import Secrets
  import Market

  const NumPrices: nat := 2000
  const SeqLen: nat := 4

  /** A buyer's price and the change from the price before. */
  type Quote = (int, int)

  /** The value of an `i32` held as its 32-bit pattern. */
  function Signed(s: bv32): int
  {
    if s & Secrets.Sign == 0 then s as int else s as int - 0x1_0000_0000
  }

  /** `s % 10` on `i32`: the last digit, negative for a negative secret. */
  function Price(s: bv32): int
  {
    Arith.Rem(Signed(s), 10)
  }

  /** The price after `i` steps of `step`. */
  function PriceAt(step: bv32 -> bv32, price: bv32 -> int, s: bv32, i: nat): int
  {
    price(Secrets.Advance(step, s, i))
  }

  /** The `i`-th pair: the price after `i + 1` steps and its change from
      the price after `i` steps. */
  function QuoteAt(step: bv32 -> bv32, price: bv32 -> int, s: bv32, i: nat): Quote
  {
    var p := PriceAt(step, price, s, i + 1);
    (p, p - PriceAt(step, price, s, i))
  }

  /** The NUM_PRICES - 1 pairs of one buyer. */
  function Quotes(s: bv32): seq<Quote>
  {
    seq(NumPrices - 1, i requires 0 <= i => QuoteAt(Secrets.NextSigned, Price, s, i))
  }

  /** `ret` holds the first `|ret|` pairs of the buyer. */
  ghost predicate Listed(step: bv32 -> bv32, price: bv32 -> int, s: bv32, ret: seq<Quote>)
  {
    forall j :: 0 <= j < |ret| ==> ret[j] == QuoteAt(step, price, s, j)
  }

  /** The loop that lists one buyer's prices and changes, for any step
      and any price of a secret. */
  method List(step: bv32 -> bv32, price: bv32 -> int, s: bv32, n: nat) returns (ret: seq<Quote>)
    ensures |ret| == n && Listed(step, price, s, ret)
  {
    var t := s;
    var last := price(t);
    ret := [];
    for i := 0 to n
      invariant |ret| == i && Listed(step, price, s, ret)
      invariant t == Secrets.Advance(step, s, i) && last == PriceAt(step, price, s, i)
    {
      t := step(t);
      var next := price(t);
      ret := ret + [(next, next - last)];
      last := next;
    }
  }

  /** The listing with the `i32` step and price is the buyer's pairs. */
  lemma AllListed(s: bv32, ret: seq<Quote>)
    requires |ret| == NumPrices - 1 && Listed(Secrets.NextSigned, Price, s, ret)
    ensures ret == Quotes(s)
  {
  }

  /** The number of windows `array_windows` yields. */
  function Windows(ps: seq<Quote>): nat
  {
    if |ps| < SeqLen then 0 else |ps| - SeqLen + 1
  }

  /** The four changes of window `j`. */
  function Key(ps: seq<Quote>, j: nat): (k: seq<int>)
    requires j < Windows(ps)
    ensures |k| == SeqLen
  {
    seq(SeqLen, i requires 0 <= i < SeqLen => ps[j + i].1)
  }

  /** The price at the end of window `j`. */
  function Last(ps: seq<Quote>, j: nat): int
    requires j < Windows(ps)
  {
    ps[j + SeqLen - 1].0
  }

  /** The offer for `k` among the first `n` windows: an offer already
      made stands, as `or_insert` leaves a present entry alone. */
  function Scan(ps: seq<Quote>, k: seq<int>, n: nat): Option<int>
    requires n <= Windows(ps)
  {
    if n == 0 then None
    else
      var earlier := Scan(ps, k, n - 1);
      if earlier.Some? then earlier
      else if Key(ps, n - 1) == k then Some(Last(ps, n - 1))
      else None
  }

  /** The buyer's offer for `k` over all windows. */
  function Offer(ps: seq<Quote>, k: seq<int>): Option<int>
  {
    Scan(ps, k, Windows(ps))
  }

  /** The offer comes from the first window with the run `k`, and there
      is none when no window has it. */
  lemma {:induction false} ScanFirst(ps: seq<Quote>, k: seq<int>, n: nat)
    requires n <= Windows(ps)
    ensures Scan(ps, k, n).None? <==> forall j :: 0 <= j < n ==> Key(ps, j) != k
    ensures Scan(ps, k, n).Some? ==>
      exists j :: 0 <= j < n && Key(ps, j) == k && Scan(ps, k, n).value == Last(ps, j) &&
        forall i :: 0 <= i < j ==> Key(ps, i) != k
  {
    if n > 0 {
      ScanFirst(ps, k, n - 1);
    }
  }

  /** The loop over the windows of one buyer. */
  method FirstOffers(ps: seq<Quote>) returns (m: map<seq<int>, int>)
    ensures forall k :: k in m <==> Offer(ps, k).Some?
    ensures forall k :: k in m ==> m[k] == Offer(ps, k).value
  {
    m := map[];
    for j := 0 to Windows(ps)
      invariant forall k :: k in m <==> Scan(ps, k, j).Some?
      invariant forall k :: k in m ==> m[k] == Scan(ps, k, j).value
    {
      var key := Key(ps, j);
      if key !in m {
        m := m[key := Last(ps, j)];
      }
    }
  }

  /** What a buyer pays for `k`: its first offer, or nothing. */
  function Bid(s: bv32, k: seq<int>): int
  {
    var o := Offer(Quotes(s), k);
    if o.Some? then o.value else 0
  }

  /** Some buyer makes an offer for `k`. */
  ghost predicate Sold(secrets: seq<bv32>, k: seq<int>)
  {
    exists v :: 0 <= v < |secrets| && Offer(Quotes(secrets[v]), k).Some?
  }

  /** The bananas the run `k` earns from all buyers. */
  function Gain(secrets: seq<bv32>, k: seq<int>): int
  {
    if |secrets| == 0 then 0
    else Gain(secrets[..|secrets| - 1], k) + Bid(secrets[|secrets| - 1], k)
  }

  /** Offers that agree buyer by buyer add up to the same gain. */
  lemma {:induction false} GainSum(secrets: seq<bv32>, ms: seq<map<seq<int>, int>>, k: seq<int>)
    requires |ms| == |secrets|
    requires forall v :: 0 <= v < |ms| ==> Market.Get(ms[v], k) == Bid(secrets[v], k)
    ensures Market.SumOver(ms, k) == Gain(secrets, k)
  {
    if |ms| > 0 {
      GainSum(secrets[..|secrets| - 1], ms[..|ms| - 1], k);
    }
  }

  /** Every buyer offers for the run of its own first window. */
  lemma FirstWindowSold(s: bv32)
    ensures Offer(Quotes(s), Key(Quotes(s), 0)).Some?
  {
    var ps := Quotes(s);
    ScanFirst(ps, Key(ps, 0), Windows(ps));
  }

  /** One buyer's offers, as the second parallel map builds them. */
  method Offers(s: bv32) returns (m: map<seq<int>, int>)
    ensures forall k :: k in m <==> Offer(Quotes(s), k).Some?
    ensures forall k :: Market.Get(m, k) == Bid(s, k)
  {
    var ps := List(Secrets.NextSigned, Price, s, NumPrices - 1);
    AllListed(s, ps);
    m := FirstOffers(ps);
  }

  /** The offers of every buyer, in buyer order. */
  method AllOffers(secrets: seq<bv32>) returns (ms: seq<map<seq<int>, int>>)
    ensures |ms| == |secrets|
    ensures forall i, k :: 0 <= i < |ms| ==> (k in ms[i] <==> Offer(Quotes(secrets[i]), k).Some?)
    ensures forall i, k :: 0 <= i < |ms| ==> Market.Get(ms[i], k) == Bid(secrets[i], k)
  {
    ms := [];
    for v := 0 to |secrets|
      invariant |ms| == v
      invariant forall i, k :: 0 <= i < v ==> (k in ms[i] <==> Offer(Quotes(secrets[i]), k).Some?)
      invariant forall i, k :: 0 <= i < v ==> Market.Get(ms[i], k) == Bid(secrets[i], k)
    {
      var m := Offers(secrets[v]);
      ms := ms + [m];
    }
  }

  /** The answer: the best total over the runs some buyer offers for,
      `None` for no buyers, where `unwrap` would panic. */
  method Solve(secrets: seq<bv32>) returns (r: Option<int>)
    ensures r.None? <==> |secrets| == 0
    ensures r.Some? ==> exists k :: Sold(secrets, k) && Gain(secrets, k) == r.value
    ensures r.Some? ==> forall k :: Sold(secrets, k) ==> Gain(secrets, k) <= r.value
  {
    var ms := AllOffers(secrets);
    var total := Market.Totals(ms);
    forall k
      ensures k in total <==> Sold(secrets, k)
      ensures k in total ==> total[k] == Gain(secrets, k)
    {
      GainSum(secrets, ms, k);
    }
    if |secrets| > 0 {
      var k := Key(Quotes(secrets[0]), 0);
      FirstWindowSold(secrets[0]);
      assert k in total;
    }
    r := Market.Best(total);
  }
}

=== FILE: day23.dfy ===
/** Day 23: a LAN party. The input lists links between computers, one
    `a-b` per line. Part one counts the sets of three computers that are
    all linked to each other and include one whose name starts with `t`;
    part two runs Bron–Kerbosch and reports the names of the longest
    clique it finds, sorted and joined by commas. */

/** The network, as both parts build it. */
module Lan {
  import opened Wrappers
  import Seqs

  /** A computer: its name and the indices of the computers it is linked
      to. */
  datatype Node = Node(name: string, neighbors: seq<int>)

  type Graph = seq<Node>

  predicate Adjacent(g: Graph, a: int, b: int)
  {
    0 <= a < |g| && b in g[a].neighbors
  }

  /** Every neighbour index names a node. */
  ghost predicate WellFormed(g: Graph)
  {
    forall a, b :: Adjacent(g, a, b) ==> 0 <= b < |g|
  }

  ghost predicate Symmetric(g: Graph)
  {
    forall a, b :: Adjacent(g, a, b) ==> Adjacent(g, b, a)
  }

  /** Every two different members are linked. */
  predicate Clique(g: Graph, s: seq<int>)
  {
    forall a, b :: a in s && b in s && a != b ==> Adjacent(g, a, b)
  }

  /** The nodes are in ascending order of their names. */
  ghost predicate Ordered(g: Graph)
  {
    forall i, j :: 0 <= i < j < |g| ==> Less(g[i].name, g[j].name)
  }

  /** No computer is linked to itself. */
  predicate Loopless(g: Graph)
  {
    forall a :: 0 <= a < |g| ==> a !in g[a].neighbors
  }

  /** What the clique search needs of the network. */
  ghost predicate Network(g: Graph)
  {
    WellFormed(g) && Symmetric(g) && Loopless(g)
  }

  /** `&str` order: code point by code point, a proper prefix first. */
  predicate Less(a: string, b: string)
  {
    |b| > 0 && (|a| == 0 || a[0] < b[0] || (a[0] == b[0] && Less(a[1..], b[1..])))
  }

  lemma {:induction false} LessIrreflexive(a: string)
    ensures !Less(a, a)
  {
    if |a| > 0 {
      LessIrreflexive(a[1..]);
    }
  }

  lemma {:induction false} LessTransitive(a: string, b: string, c: string)
    requires Less(a, b) && Less(b, c)
    ensures Less(a, c)
  {
    if |a| > 0 && a[0] == b[0] && b[0] == c[0] {
      LessTransitive(a[1..], b[1..], c[1..]);
    }
  }

  lemma {:induction false} LessTotal(a: string, b: string)
    ensures a == b || Less(a, b) || Less(b, a)
  {
    if |a| > 0 && |b| > 0 && a[0] == b[0] {
      LessTotal(a[1..], b[1..]);
      if a[1..] == b[1..] {
        assert a == [a[0]] + a[1..] && b == [b[0]] + b[1..];
      }
    }
  }

  /** Strictly ascending: a `BTreeSet` iterated in order. */
  predicate Ascending(s: seq<string>)
  {
    forall i :: 0 < i < |s| ==> Less(s[i - 1], s[i])
  }

  /** In an ascending sequence every earlier name is smaller. */
  lemma {:induction false} AscendingOrder(s: seq<string>, i: nat, j: nat)
    requires Ascending(s) && i < j < |s|
    ensures Less(s[i], s[j])
    decreases j - i
  {
    if i + 1 < j {
      AscendingOrder(s, i + 1, j);
      LessTransitive(s[i], s[i + 1], s[j]);
    }
  }

  /** An ascending sequence holds each name once. */
  lemma AscendingDistinct(s: seq<string>, i: nat, j: nat)
    requires Ascending(s) && i < |s| && j < |s| && s[i] == s[j]
    ensures i == j
  {
    if i < j {
      AscendingOrder(s, i, j);
      LessIrreflexive(s[i]);
    } else if j < i {
      AscendingOrder(s, j, i);
      LessIrreflexive(s[j]);
    }
  }

  /** `BTreeSet::insert`: the name is added once, in its place. */
  function Insert(x: string, s: seq<string>): (r: seq<string>)
    requires Ascending(s)
    ensures Ascending(r)
    ensures forall y :: y in r <==> y in s || y == x
    ensures |r| > 0 && (r[0] == x || (|s| > 0 && r[0] == s[0]))
  {
    if |s| == 0 then [x]
    else if x == s[0] then s
    else if Less(x, s[0]) then [x] + s
    else
      LessTotal(x, s[0]);
      [s[0]] + Insert(x, s[1..])
  }

  /** The names in the input: every endpoint of every link, ascending. */
  function Names(links: seq<(string, string)>): (r: seq<string>)
    ensures Ascending(r)
    ensures forall y :: y in r <==> exists e :: e in links && (y == e.0 || y == e.1)
  {
    if |links| == 0 then []
    else
      var init := links[..|links| - 1];
      var e := links[|links| - 1];
      assert forall e' :: e' in links <==> e' in init || e' == e;
      Insert(e.1, Insert(e.0, Names(init)))
  }

  /** The index `BTreeMap` lookup gives a name: its place in the list. */
  function Position(names: seq<string>, x: string): (r: nat)
    requires x in names
    ensures r < |names| && names[r] == x
  {
    if names[0] == x then 0 else 1 + Position(names[1..], x)
  }

  /** `split_once("-")`: the text before and after the first `-`. */
  function SplitOnce(line: string): Option<(string, string)>
  {
    if |line| == 0 then None
    else if line[0] == '-' then Some(("", line[1..]))
    else
      var rest := SplitOnce(line[1..]);
      if rest.None? then None else Some(([line[0]] + rest.value.0, rest.value.1))
  }

  /** The split fails exactly when there is no `-`; otherwise the halves
      rebuild the line and the first has no `-`. */
  lemma {:induction false} SplitOnceInverse(line: string)
    ensures SplitOnce(line).None? <==> '-' !in line
    ensures SplitOnce(line).Some? ==>
      var (a, b) := SplitOnce(line).value; line == a + "-" + b && '-' !in a
  {
    if |line| > 0 && line[0] != '-' {
      SplitOnceInverse(line[1..]);
      assert line == [line[0]] + line[1..];
    }
  }

  /** Every line split into a link; `None` where `unwrap` would panic. */
  function Links(lines: seq<string>): (r: Option<seq<(string, string)>>)
  {
    if |lines| == 0 then Some([])
    else
      var init := Links(lines[..|lines| - 1]);
      var last := SplitOnce(lines[|lines| - 1]);
      if init.None? || last.None? then None else Some(init.value + [last.value])
  }

  /** The links succeed exactly when every line holds a `-`, one link per
      line. */
  lemma {:induction false} LinksSome(lines: seq<string>)
    ensures Links(lines).Some? <==> forall i :: 0 <= i < |lines| ==> '-' in lines[i]
    ensures Links(lines).Some? ==> |Links(lines).value| == |lines|
  {
    if |lines| > 0 {
      var init := lines[..|lines| - 1];
      LinksSome(init);
      SplitOnceInverse(lines[|lines| - 1]);
      assert forall i :: 0 <= i < |init| ==> init[i] == lines[i];
    }
  }

  /** The index pairs of the links (`edge_indizes`). */
  function Pairs(names: seq<string>, links: seq<(string, string)>): set<(int, int)>
    requires forall e :: e in links ==> e.0 in names && e.1 in names
  {
    set e | e in links :: (Position(names, e.0) as int, Position(names, e.1) as int)
  }

  /** The neighbours of node `a`: every index linked to it in either
      direction, in ascending order. */
  function Neighbors(pairs: set<(int, int)>, n: nat, a: int): seq<int>
  {
    Seqs.Filter(seq(n, i => i), (b: int) => (a, b) in pairs || (b, a) in pairs)
  }

  /** The nodes: one per name in ascending name order, each with the
      neighbours its links give it. */
  function Build(links: seq<(string, string)>): Graph
  {
    var names := Names(links);
    var pairs := Pairs(names, links);
    seq(|names|, i requires 0 <= i < |names| => Node(names[i], Neighbors(pairs, |names|, i)))
  }

  /** Whether names `x` and `y` are linked in the input, either way. */
  ghost predicate Linked(links: seq<(string, string)>, x: string, y: string)
  {
    exists e :: e in links && ((e.0 == x && e.1 == y) || (e.0 == y && e.1 == x))
  }

  /** A neighbour of `a` is an index below `n` paired with `a` either
      way, and every such index is one. */
  lemma NeighborsIn(pairs: set<(int, int)>, n: nat, a: int, b: int)
    ensures b in Neighbors(pairs, n, a) <==> 0 <= b < n && ((a, b) in pairs || (b, a) in pairs)
  {
    var all := seq(n, i => i);
    if 0 <= b < n {
      assert all[b] == b;
    }
  }

  /** The nodes keep the ascending order of their names. */
  lemma BuildAscending(links: seq<(string, string)>)
    ensures Ordered(Build(links))
  {
    var names := Names(links);
    forall i, j | 0 <= i < j < |names|
      ensures Less(names[i], names[j])
    {
      AscendingOrder(names, i, j);
    }
  }

  /** Every neighbour is a node, and links go both ways. */
  lemma BuildSymmetric(links: seq<(string, string)>)
    ensures WellFormed(Build(links)) && Symmetric(Build(links))
  {
    var g := Build(links);
    var names := Names(links);
    var pairs := Pairs(names, links);
    forall a, b | Adjacent(g, a, b)
      ensures 0 <= b < |g| && Adjacent(g, b, a)
    {
      NeighborsIn(pairs, |names|, a, b);
      NeighborsIn(pairs, |names|, b, a);
    }
  }

  /** Two nodes are adjacent exactly when their names are linked in the
      input. */
  lemma BuildLinked(links: seq<(string, string)>, i: int, j: int)
    requires 0 <= i < |Build(links)| && 0 <= j < |Build(links)|
    ensures var g := Build(links); Adjacent(g, i, j) <==> Linked(links, g[i].name, g[j].name)
  {
    var names := Names(links);
    var pairs := Pairs(names, links);
    NeighborsIn(pairs, |names|, i, j);
    PairsNamed(names, links, i, j);
  }

  /** A pair of indices is a link's pair exactly when the names at those
      indices are the link's endpoints. */
  lemma PairsNamed(names: seq<string>, links: seq<(string, string)>, i: nat, j: nat)
    requires Ascending(names)
    requires forall e :: e in links ==> e.0 in names && e.1 in names
    requires i < |names| && j < |names|
    ensures ((i, j) in Pairs(names, links) || (j, i) in Pairs(names, links)) <==> Linked(links, names[i], names[j])
  {
    if (i, j) in Pairs(names, links) {
      var e :| e in links && (Position(names, e.0) as int, Position(names, e.1) as int) == (i, j);
    }
    if (j, i) in Pairs(names, links) {
      var e :| e in links && (Position(names, e.0) as int, Position(names, e.1) as int) == (j, i);
    }
    if Linked(links, names[i], names[j]) {
      var e :| e in links && ((e.0 == names[i] && e.1 == names[j]) || (e.0 == names[j] && e.1 == names[i]));
      AscendingDistinct(names, Position(names, e.0), if e.0 == names[i] then i else j);
      AscendingDistinct(names, Position(names, e.1), if e.0 == names[i] then j else i);
    }
  }

  /** The network has no self-links exactly when no input line links a
      computer to itself. */
  lemma BuildLoopless(links: seq<(string, string)>)
    ensures Loopless(Build(links)) <==> forall e :: e in links ==> e.0 != e.1
  {
    var g := Build(links);
    var names := Names(links);
    if Loopless(g) {
      forall e | e in links
        ensures e.0 != e.1
      {
        if e.0 == e.1 {
          var a := Position(names, e.0);
          BuildLinked(links, a, a);
        }
      }
    } else {
      var a :| 0 <= a < |g| && a in g[a].neighbors;
      BuildLinked(links, a, a);
    }
  }
}

/** Part one: every cycle of three found by walking from each node, as
    sorted index triples in a set, counted where a name starts with `t`. */
module Day23a {
  import opened Wrappers
  import Seqs
  import opened Lan

  /** The filter of `find_cycles`: not yet on the path. */
  function Outside(path: seq<int>): int -> bool
  {
    x => x !in path
  }

  /** `find_cycles`: `current` joins the path; a path of full length that
      closes back to its start is reported sorted, a shorter one extends to
      every neighbour not on it yet. */
  function Cycles(g: Graph, visited: seq<int>, length: nat, current: int): seq<seq<int>>
    requires WellFormed(g) && 0 <= current < |g| && |visited| < length
    decreases length - |visited|, 0
  {
    var path := visited + [current];
    if |path| == length then
      if path[0] in g[current].neighbors then [Seqs.Sort(path)] else []
    else
      var next := Seqs.Filter(g[current].neighbors, Outside(path));
      assert forall i :: 0 <= i < |next| ==> Adjacent(g, current, next[i]);
      Extend(g, path, length, next)
  }

  /** The `flat_map` over the neighbours left to visit. */
  function Extend(g: Graph, path: seq<int>, length: nat, next: seq<int>): seq<seq<int>>
    requires WellFormed(g) && |path| < length
    requires forall i :: 0 <= i < |next| ==> 0 <= next[i] < |g|
    decreases length - |path|, |next|
  {
    if |next| == 0 then [] else Cycles(g, path, length, next[0]) + Extend(g, path, length, next[1..])
  }

  /** Each step from index `k` on follows a link. */
  ghost predicate WalkFrom(g: Graph, p: seq<int>, k: nat)
  {
    forall i :: k < i < |p| ==> Adjacent(g, p[i - 1], p[i])
  }

  /** Each node from index `k` on is new to the path. */
  predicate FreshFrom(p: seq<int>, k: nat)
  {
    forall j :: k <= j < |p| ==> p[j] !in p[..j]
  }

  /** `c` holds the nodes of `p` in ascending order. */
  predicate SortedOf(c: seq<int>, p: seq<int>)
  {
    Seqs.Sorted(c) && multiset(c) == multiset(p) && |c| == |p|
  }

  /** A closed walk of `length` nodes that starts with `prefix`, takes a
      link at each step after it and visits no node twice after it, whose
      sorted nodes are `c`. */
  ghost predicate ClosesFrom(g: Graph, prefix: seq<int>, length: nat, c: seq<int>)
    requires |prefix| >= 1
  {
    exists p :: |p| == length && |prefix| <= length && p[..|prefix|] == prefix &&
      WalkFrom(g, p, |prefix| - 1) && FreshFrom(p, |prefix|) &&
      Adjacent(g, p[length - 1], p[0]) && SortedOf(c, p)
  }

  /** Everything `find_cycles` reports is a closed walk continuing the
      path it was given, sorted. */
  lemma {:induction false} CyclesSound(g: Graph, visited: seq<int>, length: nat, current: int, c: seq<int>)
    requires WellFormed(g) && 0 <= current < |g| && |visited| < length
    requires c in Cycles(g, visited, length, current)
    ensures ClosesFrom(g, visited + [current], length, c)
    decreases length - |visited|, 0
  {
    var path := visited + [current];
    if |path| == length {
      assert path[..|path|] == path;
      assert WalkFrom(g, path, |path| - 1) && FreshFrom(path, |path|);
    } else {
      var next := Seqs.Filter(g[current].neighbors, Outside(path));
      forall i | 0 <= i < |next|
        ensures Adjacent(g, current, next[i]) && next[i] !in path
      {
        assert Outside(path)(next[i]);
      }
      ExtendSound(g, path, length, next, c);
    }
  }

  lemma {:induction false} ExtendSound(g: Graph, path: seq<int>, length: nat, next: seq<int>, c: seq<int>)
    requires WellFormed(g) && 1 <= |path| < length
    requires forall i :: 0 <= i < |next| ==> 0 <= next[i] < |g|
    requires forall i :: 0 <= i < |next| ==> Adjacent(g, path[|path| - 1], next[i]) && next[i] !in path
    requires c in Extend(g, path, length, next)
    ensures ClosesFrom(g, path, length, c)
    decreases length - |path|, |next|
  {
    if c in Cycles(g, path, length, next[0]) {
      CyclesSound(g, path, length, next[0], c);
      ClosesBack(g, path, next[0], length, c);
    } else {
      ExtendSound(g, path, length, next[1..], c);
    }
  }

  /** A closed walk continuing `path + [x]` continues `path`, when `x` is
      linked from the end of `path` and new to it. */
  lemma ClosesBack(g: Graph, path: seq<int>, x: int, length: nat, c: seq<int>)
    requires 1 <= |path| && Adjacent(g, path[|path| - 1], x) && x !in path
    requires ClosesFrom(g, path + [x], length, c)
    ensures ClosesFrom(g, path, length, c)
  {
    var prefix := path + [x];
    var p :| |p| == length && |prefix| <= length && p[..|prefix|] == prefix &&
      WalkFrom(g, p, |prefix| - 1) && FreshFrom(p, |prefix|) &&
      Adjacent(g, p[length - 1], p[0]) && SortedOf(c, p);
    Shorten(g, path, x, p);
  }

  /** A walk continuing `path + [x]` also continues `path`. */
  lemma Shorten(g: Graph, path: seq<int>, x: int, p: seq<int>)
    requires 1 <= |path| && Adjacent(g, path[|path| - 1], x) && x !in path
    requires |path| < |p| && p[..|path| + 1] == path + [x]
    requires WalkFrom(g, p, |path|) && FreshFrom(p, |path| + 1)
    ensures p[..|path|] == path && WalkFrom(g, p, |path| - 1) && FreshFrom(p, |path|)
  {
    assert p[..|path|] == path by {
      assert p[..|path|] == p[..|path| + 1][..|path|];
    }
    assert p[|path|] == x by {
      assert p[..|path| + 1][|path|] == (path + [x])[|path|];
    }
    assert p[|path| - 1] == path[|path| - 1];
    forall j | |path| <= j < |p|
      ensures p[j] !in p[..j]
    {
      if j == |path| {
        assert p[..j] == path;
      }
    }
  }

  /** What `find_cycles` reports from a neighbour in the list is part of
      the `flat_map`. */
  lemma {:induction false} ExtendHas(g: Graph, path: seq<int>, length: nat, next: seq<int>, k: nat, c: seq<int>)
    requires WellFormed(g) && |path| < length
    requires forall i :: 0 <= i < |next| ==> 0 <= next[i] < |g|
    requires k < |next| && c in Cycles(g, path, length, next[k])
    ensures c in Extend(g, path, length, next)
    decreases k
  {
    if k > 0 {
      ExtendHas(g, path, length, next[1..], k - 1, c);
    }
  }

  /** Three distinct nodes, ascending, each pair linked. */
  predicate Triangle(g: Graph, c: seq<int>)
  {
    |c| == 3 && 0 <= c[0] < c[1] < c[2] < |g| && Clique(g, c)
  }

  /** A path whose every node is new to it has no repeats. */
  lemma FreshDistinct(p: seq<int>)
    requires FreshFrom(p, 1)
    ensures Seqs.Distinct(p)
  {
    forall i, j | 0 <= i < j < |p|
      ensures p[i] != p[j]
    {
      assert p[i] == p[..j][i];
    }
  }

  /** A closed walk through three distinct nodes sorts into a triangle. */
  lemma WalkTriangle(g: Graph, p: seq<int>, c: seq<int>)
    requires WellFormed(g) && Symmetric(g) && |p| == 3
    requires Adjacent(g, p[0], p[1]) && Adjacent(g, p[1], p[2]) && Adjacent(g, p[2], p[0])
    requires Seqs.Distinct(p) && Seqs.Sorted(c) && multiset(c) == multiset(p) && |c| == 3
    ensures Triangle(g, c)
  {
    Seqs.SortedDistinct(p, c);
    assert forall x :: x in c <==> x == p[0] || x == p[1] || x == p[2] by {
      assert p == [p[0], p[1], p[2]];
    }
  }

  /** Every cycle reported from a node is a triangle. */
  lemma CyclesTriangle(g: Graph, a: int, c: seq<int>)
    requires WellFormed(g) && Symmetric(g) && 0 <= a < |g|
    requires c in Cycles(g, [], 3, a)
    ensures Triangle(g, c)
  {
    CyclesSound(g, [], 3, a, c);
    var p :| |p| == 3 && p[..1] == [a] && WalkFrom(g, p, 0) && FreshFrom(p, 1) &&
      Adjacent(g, p[2], p[0]) && SortedOf(c, p);
    assert Adjacent(g, p[0], p[1]) && Adjacent(g, p[1], p[2]);
    FreshDistinct(p);
    WalkTriangle(g, p, c);
  }

  /** A path of three ascending nodes closing back to its start is
      reported, sorted as it is. */
  lemma Closes(g: Graph, a: int, b: int, d: int)
    requires WellFormed(g) && 0 <= a < b < d < |g| && Adjacent(g, d, a)
    ensures [a, b, d] in Cycles(g, [a, b], 3, d)
  {
    assert [a, b] + [d] == [a, b, d];
    assert Seqs.Sorted([a, b, d]);
    Seqs.SortedUnique(Seqs.Sort([a, b, d]), [a, b, d]);
  }

  /** What is reported after stepping to a neighbour new to the path is
      reported from the node before it. */
  lemma Reach(g: Graph, visited: seq<int>, length: nat, current: int, x: int, c: seq<int>)
    requires WellFormed(g) && 0 <= current < |g| && |visited| + 1 < length
    requires Adjacent(g, current, x) && x !in visited + [current]
    requires c in Cycles(g, visited + [current], length, x)
    ensures c in Cycles(g, visited, length, current)
  {
    var path := visited + [current];
    var next := Seqs.Filter(g[current].neighbors, Outside(path));
    assert Outside(path)(x);
    var k :| 0 <= k < |next| && next[k] == x;
    assert forall i :: 0 <= i < |next| ==> Adjacent(g, current, next[i]);
    ExtendHas(g, path, length, next, k, c);
  }

  /** Every triangle is reported from its smallest node. */
  lemma TriangleCycles(g: Graph, c: seq<int>)
    requires WellFormed(g) && Triangle(g, c)
    ensures c in Cycles(g, [], 3, c[0])
  {
    assert c == [c[0], c[1], c[2]];
    assert c[0] in c && c[1] in c && c[2] in c;
    Found(g, c[0], c[1], c[2]);
  }

  /** The steps of the walk that finds the triangle `a`, `b`, `d`. */
  lemma Found(g: Graph, a: int, b: int, d: int)
    requires WellFormed(g) && 0 <= a < b < d < |g|
    requires Adjacent(g, a, b) && Adjacent(g, b, d) && Adjacent(g, d, a)
    ensures [a, b, d] in Cycles(g, [], 3, a)
  {
    Closes(g, a, b, d);
    assert [a] + [b] == [a, b];
    Reach(g, [a], 3, b, d, [a, b, d]);
    assert [] + [a] == [a];
    Reach(g, [], 3, a, b, [a, b, d]);
  }

  /** The cycles from every node (`flat_map` over the nodes). */
  function AllCycles(g: Graph): seq<seq<int>>
    requires WellFormed(g)
  {
    Seqs.Flatten(seq(|g|, a requires 0 <= a < |g| => Cycles(g, [], 3, a)))
  }

  /** The cycles found are exactly the triangles of the network. */
  lemma AllCyclesTriangles(g: Graph, c: seq<int>)
    requires WellFormed(g) && Symmetric(g)
    ensures c in AllCycles(g) <==> Triangle(g, c)
  {
    var bs := seq(|g|, a requires 0 <= a < |g| => Cycles(g, [], 3, a));
    Seqs.FlattenHas(bs, c);
    if c in AllCycles(g) {
      var a :| 0 <= a < |bs| && c in bs[a];
      CyclesTriangle(g, a, c);
    }
    if Triangle(g, c) {
      TriangleCycles(g, c);
      assert c in bs[c[0]];
    }
  }

  /** A computer in the set has a name starting with `t`. */
  predicate HasT(g: Graph, c: seq<int>)
  {
    exists k :: 0 <= k < |c| && 0 <= c[k] < |g| && |g[c[k]].name| > 0 && g[c[k]].name[0] == 't'
  }

  /** The answer: the distinct triangles with a `t` computer; `None` when
      a line has no `-`. */
  function Solve(lines: seq<string>): (r: Option<nat>)
    ensures r.None? <==> exists i :: 0 <= i < |lines| && '-' !in lines[i]
  {
    LinksSome(lines);
    match Links(lines)
    case None => None
    case Some(links) =>
      BuildSymmetric(links);
      var g := Build(links);
      Some(|set c | c in AllCycles(g) && HasT(g, c)|)
  }

  /** The count is that of the triangles of the built network that have a
      `t` computer. */
  lemma SolveCounts(lines: seq<string>, links: seq<(string, string)>)
    requires Links(lines) == Some(links)
    ensures WellFormed(Build(links))
    ensures Solve(lines) == Some(|set c | c in AllCycles(Build(links)) && HasT(Build(links), c)|)
    ensures forall c :: c in AllCycles(Build(links)) <==> Triangle(Build(links), c)
  {
    BuildSymmetric(links);
    forall c
      ensures c in AllCycles(Build(links)) <==> Triangle(Build(links), c)
    {
      AllCyclesTriangles(Build(links), c);
    }
  }
}

/** Part two: Bron–Kerbosch without pivoting, the longest clique it
    reports, and that clique's names sorted and joined by commas. */
module Day23b {
  import opened Wrappers
  import Seqs
  import opened Lan

  /** Every node of `s` is a node of the network. */
  predicate Nodes(g: Graph, s: seq<int>)
  {
    forall i :: 0 <= i < |s| ==> 0 <= s[i] < |g|
  }

  /** Every member of `s` is linked to `w`. */
  predicate Extends(g: Graph, s: seq<int>, w: int)
  {
    forall a :: a in s ==> Adjacent(g, a, w)
  }

  /** A clique no node of the network can join. */
  predicate Maximal(g: Graph, s: seq<int>)
  {
    Clique(g, s) && forall w :: 0 <= w < |g| && w !in s ==> !Extends(g, s, w)
  }

  /** The test `nodes[v].neighbors.contains(&u)`. */
  function NeighborOf(g: Graph, v: int): int -> bool
    requires 0 <= v < |g|
  {
    u => u in g[v].neighbors
  }

  /** The test of `candidates.retain(|&x| x != v)`. */
  function Other(v: int): int -> bool
  {
    x => x != v
  }

  /** `bron_kerbosch`: the cliques it reports, in order. With neither
      candidates nor already-found nodes the current clique is reported;
      otherwise every candidate is tried in turn. */
  function BronKerbosch(g: Graph, current: seq<int>, candidates: seq<int>, found: seq<int>): seq<seq<int>>
    requires WellFormed(g) && Loopless(g) && Nodes(g, candidates) && Seqs.Distinct(candidates)
    decreases |candidates|, |candidates| + 1
  {
    if |candidates| == 0 && |found| == 0 then [current]
    else Explore(g, current, candidates, found, candidates)
  }

  /** The loop over the copy of the candidates: `v` joins the clique for a
      recursive call restricted to its neighbours, then leaves the
      candidates for the already-found nodes. */
  function Explore(g: Graph, current: seq<int>, candidates: seq<int>, found: seq<int>, todo: seq<int>): seq<seq<int>>
    requires WellFormed(g) && Loopless(g) && Nodes(g, candidates) && Seqs.Distinct(candidates)
    requires Seqs.Distinct(todo) && forall i :: 0 <= i < |todo| ==> todo[i] in candidates
    decreases |candidates|, |todo|
  {
    if |todo| == 0 then []
    else
      var v := todo[0];
      var near := Seqs.Filter(candidates, NeighborOf(g, v));
      var rest := Seqs.Filter(candidates, Other(v));
      Seqs.FilterShorter(candidates, NeighborOf(g, v), v);
      Seqs.FilterShorter(candidates, Other(v), v);
      Seqs.FilterDistinct(candidates, NeighborOf(g, v));
      Seqs.FilterDistinct(candidates, Other(v));
      RestTodo(candidates, todo);
      BronKerbosch(g, current + [v], near, Seqs.Filter(found, NeighborOf(g, v))) +
      Explore(g, current, rest, found + [v], todo[1..])
  }

  /** Filtering keeps the nodes within the network. */
  lemma FilterNodes(g: Graph, s: seq<int>, p: int -> bool)
    requires Nodes(g, s)
    ensures Nodes(g, Seqs.Filter(s, p))
  {
    var r := Seqs.Filter(s, p);
    assert forall i :: 0 <= i < |r| ==> r[i] in s;
  }

  /** The candidates left to try are still candidates once the first is
      removed. */
  lemma RestTodo(candidates: seq<int>, todo: seq<int>)
    requires |todo| > 0 && Seqs.Distinct(todo) && forall i :: 0 <= i < |todo| ==> todo[i] in candidates
    ensures forall i :: 0 <= i < |todo[1..]| ==> todo[1..][i] in Seqs.Filter(candidates, Other(todo[0]))
  {
    forall i | 0 <= i < |todo[1..]|
      ensures todo[1..][i] in Seqs.Filter(candidates, Other(todo[0]))
    {
      assert todo[1..][i] == todo[i + 1];
      var k :| 0 <= k < |candidates| && candidates[k] == todo[i + 1];
      assert Other(todo[0])(candidates[k]);
    }
  }

  /** `find_cliques`: the search from the empty clique with every node a
      candidate. */
  function FindCliques(g: Graph): seq<seq<int>>
    requires WellFormed(g) && Loopless(g)
  {
    var all := seq(|g|, i => i);
    assert Seqs.Distinct(all);
    BronKerbosch(g, [], all, [])
  }

  /** The state of the search: the current clique, the candidates and the
      already-found nodes lie in the network, the clique has no repeats,
      every candidate and already-found node is linked to the whole
      clique, and every node that could join the clique is a candidate
      or already found. */
  ghost predicate Inv(g: Graph, current: seq<int>, candidates: seq<int>, found: seq<int>)
  {
    Network(g) && Nodes(g, current) && Seqs.Distinct(current) && Clique(g, current) &&
    Nodes(g, candidates) && Seqs.Distinct(candidates) && Nodes(g, found) &&
    (forall w :: w in candidates ==> Extends(g, current, w)) &&
    (forall w :: w in found ==> Extends(g, current, w)) &&
    (forall w :: 0 <= w < |g| && w !in current && Extends(g, current, w) ==> w in candidates || w in found)
  }

  /** A node linked to the whole clique is not in it. */
  lemma Outsider(g: Graph, current: seq<int>, v: int)
    requires Loopless(g) && Extends(g, current, v)
    ensures v !in current
  {
  }

  /** Adding a candidate `v` to the clique keeps it a clique without
      repeats. */
  lemma Grow(g: Graph, current: seq<int>, v: int)
    requires Network(g) && 0 <= v < |g| && Extends(g, current, v)
    requires Nodes(g, current) && Seqs.Distinct(current) && Clique(g, current)
    ensures Nodes(g, current + [v]) && Seqs.Distinct(current + [v]) && Clique(g, current + [v])
  {
    Outsider(g, current, v);
    var c := current + [v];
    forall a, b | a in c && b in c && a != b
      ensures Adjacent(g, a, b)
    {
      if a == v {
        assert Adjacent(g, b, a);
      }
    }
  }

  /** The recursive call keeps the state: the clique grows by `v`, and
      candidates and already-found nodes are cut to `v`'s neighbours. */
  lemma StepInv(g: Graph, current: seq<int>, candidates: seq<int>, found: seq<int>, v: int)
    requires Inv(g, current, candidates, found) && v in candidates
    ensures 0 <= v < |g|
    ensures Inv(g, current + [v], Seqs.Filter(candidates, NeighborOf(g, v)), Seqs.Filter(found, NeighborOf(g, v)))
  {
    var i :| 0 <= i < |candidates| && candidates[i] == v;
    Grow(g, current, v);
    Seqs.FilterDistinct(candidates, NeighborOf(g, v));
    var c := current + [v];
    var near := Seqs.Filter(candidates, NeighborOf(g, v));
    var seen := Seqs.Filter(found, NeighborOf(g, v));
    assert Nodes(g, near) && Nodes(g, seen) by {
      assert forall i :: 0 <= i < |near| ==> near[i] in candidates;
      assert forall i :: 0 <= i < |seen| ==> seen[i] in found;
    }
    forall w | w in near || w in seen
      ensures Extends(g, c, w)
    {
      assert NeighborOf(g, v)(w);
    }
    forall w | 0 <= w < |g| && w !in c && Extends(g, c, w)
      ensures w in near || w in seen
    {
      assert Extends(g, current, w);
      assert Adjacent(g, v, w) && NeighborOf(g, v)(w);
    }
  }

  /** Moving a tried candidate `v` to the already-found nodes keeps the
      state. */
  lemma NextInv(g: Graph, current: seq<int>, candidates: seq<int>, found: seq<int>, v: int)
    requires Inv(g, current, candidates, found) && v in candidates
    ensures Inv(g, current, Seqs.Filter(candidates, Other(v)), found + [v])
  {
    var rest := Seqs.Filter(candidates, Other(v));
    Seqs.FilterDistinct(candidates, Other(v));
    assert Nodes(g, rest) by {
      assert forall i :: 0 <= i < |rest| ==> rest[i] in candidates;
    }
    var i :| 0 <= i < |candidates| && candidates[i] == v;
    forall w | 0 <= w < |g| && w !in current && Extends(g, current, w)
      ensures w in rest || w in found + [v]
    {
      if w != v && w in candidates {
        assert Other(v)(w);
      }
    }
  }

  /** Every clique the search reports is maximal, within the network and
      without repeats. */
  lemma {:induction false} BronKerboschSound(g: Graph, current: seq<int>, candidates: seq<int>, found: seq<int>, c: seq<int>)
    requires Inv(g, current, candidates, found)
    requires c in BronKerbosch(g, current, candidates, found)
    ensures Maximal(g, c) && Seqs.Distinct(c) && Nodes(g, c)
    decreases |candidates|, |candidates| + 1
  {
    if |candidates| == 0 && |found| == 0 {
      assert c == current;
    } else {
      ExploreSound(g, current, candidates, found, candidates, c);
    }
  }

  /** What the loop reports comes from the first candidate's call or from
      the rest of the loop. */
  lemma ExploreSplit(g: Graph, current: seq<int>, candidates: seq<int>, found: seq<int>, todo: seq<int>, c: seq<int>)
    requires WellFormed(g) && Loopless(g) && Nodes(g, candidates) && Seqs.Distinct(candidates)
    requires Seqs.Distinct(todo) && forall i :: 0 <= i < |todo| ==> todo[i] in candidates
    requires c in Explore(g, current, candidates, found, todo)
    ensures |todo| > 0
    ensures var v := todo[0];
      Seqs.Distinct(Seqs.Filter(candidates, NeighborOf(g, v))) && Seqs.Distinct(Seqs.Filter(candidates, Other(v))) &&
      Nodes(g, Seqs.Filter(candidates, NeighborOf(g, v))) && Nodes(g, Seqs.Filter(candidates, Other(v))) &&
      (c in BronKerbosch(g, current + [v], Seqs.Filter(candidates, NeighborOf(g, v)), Seqs.Filter(found, NeighborOf(g, v))) ||
       c in Explore(g, current, Seqs.Filter(candidates, Other(v)), found + [v], todo[1..]))
  {
    var v := todo[0];
    Seqs.FilterDistinct(candidates, NeighborOf(g, v));
    Seqs.FilterDistinct(candidates, Other(v));
    RestTodo(candidates, todo);
  }

  lemma {:induction false} ExploreSound(g: Graph, current: seq<int>, candidates: seq<int>, found: seq<int>, todo: seq<int>, c: seq<int>)
    requires Inv(g, current, candidates, found)
    requires Seqs.Distinct(todo) && forall i :: 0 <= i < |todo| ==> todo[i] in candidates
    requires c in Explore(g, current, candidates, found, todo)
    ensures Maximal(g, c) && Seqs.Distinct(c) && Nodes(g, c)
    decreases |candidates|, |todo|
  {
    ExploreSplit(g, current, candidates, found, todo, c);
    var v := todo[0];
    var near := Seqs.Filter(candidates, NeighborOf(g, v));
    var seen := Seqs.Filter(found, NeighborOf(g, v));
    var rest := Seqs.Filter(candidates, Other(v));
    Seqs.FilterShorter(candidates, NeighborOf(g, v), v);
    Seqs.FilterShorter(candidates, Other(v), v);
    if c in BronKerbosch(g, current + [v], near, seen) {
      StepInv(g, current, candidates, found, v);
      BronKerboschSound(g, current + [v], near, seen, c);
    } else {
      RestTodo(candidates, todo);
      NextInv(g, current, candidates, found, v);
      ExploreSound(g, current, rest, found + [v], todo[1..], c);
    }
  }

  /** Two sequences with the same members. */
  ghost predicate Same(a: seq<int>, b: seq<int>)
  {
    forall x :: x in a <==> x in b
  }

  /** Some clique of `r` has the members of `c`. */
  ghost predicate Reported(r: seq<seq<int>>, c: seq<int>)
  {
    exists k :: 0 <= k < |r| && Same(r[k], c)
  }

  /** No node can join a clique that already covers a maximal one. */
  lemma NoneExtends(g: Graph, current: seq<int>, c: seq<int>, w: int)
    requires Loopless(g) && Maximal(g, c) && 0 <= w < |g|
    requires forall a :: a in c ==> a in current
    ensures !Extends(g, current, w)
  {
    if Extends(g, current, w) {
      Outsider(g, current, w);
      assert Extends(g, c, w);
    }
  }

  /** When the current clique covers a maximal clique there are neither
      candidates nor already-found nodes, and the clique is reported. */
  lemma Covered(g: Graph, current: seq<int>, candidates: seq<int>, found: seq<int>, c: seq<int>)
    requires Inv(g, current, candidates, found) && Maximal(g, c)
    requires forall a :: a in current ==> a in c
    requires forall a :: a in c ==> a in current
    ensures |candidates| == 0 && |found| == 0 && Same(current, c)
    ensures Reported(BronKerbosch(g, current, candidates, found), c)
  {
    if |candidates| > 0 {
      NoneExtends(g, current, c, candidates[0]);
    }
    if |found| > 0 {
      NoneExtends(g, current, c, found[0]);
    }
    assert BronKerbosch(g, current, candidates, found)[0] == current;
  }

  /** After taking `v` from the maximal clique the rest of its members
      outside the clique are neighbours of `v`. */
  lemma TakeCovers(g: Graph, current: seq<int>, candidates: seq<int>, todo: seq<int>, c: seq<int>)
    requires WellFormed(g) && Clique(g, c) && |todo| > 0 && todo[0] in c && 0 <= todo[0] < |g|
    requires forall i :: 0 <= i < |todo| ==> todo[i] in candidates
    requires forall a :: a in c ==> a in current || a in todo
    ensures forall b :: b in c ==> b in current + [todo[0]] || b in Seqs.Filter(candidates, NeighborOf(g, todo[0]))
  {
    var v := todo[0];
    forall b | b in c
      ensures b in current + [v] || b in Seqs.Filter(candidates, NeighborOf(g, v))
    {
      if b !in current && b != v {
        assert Adjacent(g, v, b) && NeighborOf(g, v)(b);
      }
    }
  }

  /** Skipping a `v` outside the maximal clique leaves its members outside
      the clique among the rest of the loop. */
  lemma SkipCovers(current: seq<int>, todo: seq<int>, c: seq<int>)
    requires |todo| > 0 && todo[0] !in c
    requires forall a :: a in c ==> a in current || a in todo
    ensures forall b :: b in c ==> b in current || b in todo[1..]
  {
    forall b | b in c && b !in current
      ensures b in todo[1..]
    {
      var j :| 0 <= j < |todo| && todo[j] == b;
      assert todo[1..][j - 1] == b;
    }
  }

  /** A clique reported by either part is reported by both together. */
  lemma Reports(first: seq<seq<int>>, later: seq<seq<int>>, c: seq<int>)
    requires Reported(first, c) || Reported(later, c)
    ensures Reported(first + later, c)
  {
    if k :| 0 <= k < |first| && Same(first[k], c) {
      assert (first + later)[k] == first[k];
    } else {
      var k :| 0 <= k < |later| && Same(later[k], c);
      assert (first + later)[|first| + k] == later[k];
    }
  }

  /** Every maximal clique that contains the current clique, whose other
      members are candidates and none already found, is reported. */
  lemma {:induction false} BronKerboschComplete(g: Graph, current: seq<int>, candidates: seq<int>, found: seq<int>, c: seq<int>)
    requires Inv(g, current, candidates, found) && Maximal(g, c)
    requires forall a :: a in current ==> a in c
    requires forall a :: a in c ==> a in current || a in candidates
    requires forall a :: a in found ==> a !in c
    ensures Reported(BronKerbosch(g, current, candidates, found), c)
    decreases |candidates|, |candidates| + 1, 0
  {
    if a :| a in c && a !in current {
      assert a in candidates;
      assert BronKerbosch(g, current, candidates, found) == Explore(g, current, candidates, found, candidates);
      ExploreComplete(g, current, candidates, found, candidates, c, a);
    } else {
      Covered(g, current, candidates, found, c);
    }
  }

  lemma {:induction false} ExploreComplete(g: Graph, current: seq<int>, candidates: seq<int>, found: seq<int>, todo: seq<int>, c: seq<int>, a: int)
    requires Inv(g, current, candidates, found) && Maximal(g, c)
    requires Seqs.Distinct(todo) && forall i :: 0 <= i < |todo| ==> todo[i] in candidates
    requires forall a :: a in current ==> a in c
    requires forall a :: a in c ==> a in current || a in todo
    requires forall a :: a in found ==> a !in c
    requires a in c && a !in current
    ensures Reported(Explore(g, current, candidates, found, todo), c)
    decreases |candidates|, |todo|, 1
  {
    assert a in todo;
    if todo[0] in c {
      TakeComplete(g, current, candidates, found, todo, c);
    } else {
      SkipComplete(g, current, candidates, found, todo, c, a);
    }
  }

  /** What the first candidate's call reports, the loop reports. */
  lemma ReportedFirst(g: Graph, current: seq<int>, candidates: seq<int>, found: seq<int>, todo: seq<int>, c: seq<int>)
    requires WellFormed(g) && Loopless(g) && Nodes(g, candidates) && Seqs.Distinct(candidates)
    requires Seqs.Distinct(todo) && forall i :: 0 <= i < |todo| ==> todo[i] in candidates
    requires |todo| > 0
    requires Seqs.Distinct(Seqs.Filter(candidates, NeighborOf(g, todo[0])))
    requires Nodes(g, Seqs.Filter(candidates, NeighborOf(g, todo[0])))
    requires Reported(BronKerbosch(g, current + [todo[0]], Seqs.Filter(candidates, NeighborOf(g, todo[0])), Seqs.Filter(found, NeighborOf(g, todo[0]))), c)
    ensures Reported(Explore(g, current, candidates, found, todo), c)
  {
    var v := todo[0];
    RestTodo(candidates, todo);
    Seqs.FilterDistinct(candidates, Other(v));
    Reports(BronKerbosch(g, current + [v], Seqs.Filter(candidates, NeighborOf(g, v)), Seqs.Filter(found, NeighborOf(g, v))),
      Explore(g, current, Seqs.Filter(candidates, Other(v)), found + [v], todo[1..]), c);
  }


  /** What the rest of the loop reports, the loop reports. */
  lemma ReportedLater(g: Graph, current: seq<int>, candidates: seq<int>, found: seq<int>, todo: seq<int>, c: seq<int>)
    requires WellFormed(g) && Loopless(g) && Nodes(g, candidates) && Seqs.Distinct(candidates)
    requires Seqs.Distinct(todo) && forall i :: 0 <= i < |todo| ==> todo[i] in candidates
    requires |todo| > 0
    requires Seqs.Distinct(Seqs.Filter(candidates, Other(todo[0])))
    requires Nodes(g, Seqs.Filter(candidates, Other(todo[0])))
    requires Seqs.Distinct(todo[1..]) && forall i :: 0 <= i < |todo[1..]| ==> todo[1..][i] in Seqs.Filter(candidates, Other(todo[0]))
    requires Reported(Explore(g, current, Seqs.Filter(candidates, Other(todo[0])), found + [todo[0]], todo[1..]), c)
    ensures Reported(Explore(g, current, candidates, found, todo), c)
  {
    var v := todo[0];
    RestTodo(candidates, todo);
    Seqs.FilterDistinct(candidates, NeighborOf(g, v));
    FilterNodes(g, candidates, NeighborOf(g, v));
    Seqs.FilterDistinct(candidates, Other(v));
    Reports(BronKerbosch(g, current + [v], Seqs.Filter(candidates, NeighborOf(g, v)), Seqs.Filter(found, NeighborOf(g, v))),
      Explore(g, current, Seqs.Filter(candidates, Other(v)), found + [v], todo[1..]), c);
  }

  /** The first candidate belongs to the maximal clique: the recursive
      call reports it. */
  lemma {:induction false} TakeComplete(g: Graph, current: seq<int>, candidates: seq<int>, found: seq<int>, todo: seq<int>, c: seq<int>)
    requires Inv(g, current, candidates, found) && Maximal(g, c)
    requires Seqs.Distinct(todo) && forall i :: 0 <= i < |todo| ==> todo[i] in candidates
    requires forall a :: a in current ==> a in c
    requires forall a :: a in c ==> a in current || a in todo
    requires forall a :: a in found ==> a !in c
    requires |todo| > 0 && todo[0] in c
    ensures Reported(Explore(g, current, candidates, found, todo), c)
    decreases |candidates|, |todo|, 0
  {
    var v := todo[0];
    var near := Seqs.Filter(candidates, NeighborOf(g, v));
    var seen := Seqs.Filter(found, NeighborOf(g, v));
    Seqs.FilterShorter(candidates, NeighborOf(g, v), v);
    StepInv(g, current, candidates, found, v);
    TakeCovers(g, current, candidates, todo, c);
    BronKerboschComplete(g, current + [v], near, seen, c);
    ReportedFirst(g, current, candidates, found, todo, c);
  }

  /** The first candidate is outside the maximal clique: the rest of the
      loop reports it. */
  lemma {:induction false} SkipComplete(g: Graph, current: seq<int>, candidates: seq<int>, found: seq<int>, todo: seq<int>, c: seq<int>, a: int)
    requires Inv(g, current, candidates, found) && Maximal(g, c)
    requires Seqs.Distinct(todo) && forall i :: 0 <= i < |todo| ==> todo[i] in candidates
    requires forall a :: a in current ==> a in c
    requires forall a :: a in c ==> a in current || a in todo
    requires forall a :: a in found ==> a !in c
    requires |todo| > 0 && todo[0] !in c && a in c && a !in current
    ensures Reported(Explore(g, current, candidates, found, todo), c)
    decreases |candidates|, |todo|, 0
  {
    var v := todo[0];
    var rest := Seqs.Filter(candidates, Other(v));
    Seqs.FilterShorter(candidates, Other(v), v);
    RestTodo(candidates, todo);
    NextInv(g, current, candidates, found, v);
    SkipCovers(current, todo, c);
    ExploreComplete(g, current, rest, found + [v], todo[1..], c, a);
    ReportedLater(g, current, candidates, found, todo, c);
  }

  /** The state the search starts from: no clique, every node a
      candidate. */
  lemma StartInv(g: Graph)
    requires Network(g)
    ensures Inv(g, [], seq(|g|, i => i), [])
  {
    var all := seq(|g|, i => i);
    forall w | 0 <= w < |g|
      ensures w in all
    {
      assert all[w] == w;
    }
  }

  /** Every clique `find_cliques` reports is maximal. */
  lemma FindCliquesSound(g: Graph, c: seq<int>)
    requires Network(g) && c in FindCliques(g)
    ensures Maximal(g, c) && Seqs.Distinct(c) && Nodes(g, c)
  {
    StartInv(g);
    BronKerboschSound(g, [], seq(|g|, i => i), [], c);
  }

  /** Every maximal clique is reported by `find_cliques`. */
  lemma FindCliquesComplete(g: Graph, c: seq<int>)
    requires Network(g) && Maximal(g, c) && Nodes(g, c)
    ensures Reported(FindCliques(g), c)
  {
    StartInv(g);
    var all := seq(|g|, i => i);
    forall a | a in c
      ensures a in all
    {
      assert all[a] == a;
    }
    BronKerboschComplete(g, [], all, [], c);
  }

  /** Every clique lies within a maximal one. */
  lemma {:induction false} ExtendToMaximal(g: Graph, c: seq<int>) returns (d: seq<int>)
    requires Network(g) && Clique(g, c) && Seqs.Distinct(c) && Nodes(g, c)
    ensures Maximal(g, d) && Seqs.Distinct(d) && Nodes(g, d)
    ensures forall x :: x in c ==> x in d
    decreases |g| - |c|
  {
    if Maximal(g, c) {
      return c;
    }
    var w :| 0 <= w < |g| && w !in c && Extends(g, c, w);
    Grow(g, c, w);
    var all := seq(|g|, i => i);
    forall x | x in c + [w]
      ensures x in all
    {
      assert all[x] == x;
    }
    Seqs.DistinctShorter(c + [w], all);
    d := ExtendToMaximal(g, c + [w]);
  }

  /** The last of the longest cliques: `sort_by_key` on the length is
      stable, so `last` picks the latest of those of greatest length;
      `None` where `unwrap` would panic. */
  function Longest(cs: seq<seq<int>>): (r: Option<seq<int>>)
    ensures r.None? <==> |cs| == 0
    ensures r.Some? ==> exists k :: 0 <= k < |cs| && cs[k] == r.value && forall j :: k < j < |cs| ==> |cs[j]| < |r.value|
    ensures r.Some? ==> forall j :: 0 <= j < |cs| ==> |cs[j]| <= |r.value|
  {
    if |cs| == 0 then None
    else
      var init := cs[..|cs| - 1];
      var l := Longest(init);
      assert forall j :: 0 <= j < |init| ==> init[j] == cs[j];
      if l.None? || |cs[|cs| - 1]| >= |l.value| then Some(cs[|cs| - 1]) else l
  }

  /** A clique of the greatest size there is. */
  ghost predicate Maximum(g: Graph, c: seq<int>)
  {
    Maximal(g, c) && Seqs.Distinct(c) && Nodes(g, c) &&
    forall d :: Clique(g, d) && Seqs.Distinct(d) && Nodes(g, d) ==> |d| <= |c|
  }

  /** The longest clique reported exists and is a maximum clique. */
  lemma Largest(g: Graph)
    requires Network(g)
    ensures Longest(FindCliques(g)).Some? && Maximum(g, Longest(FindCliques(g)).value)
  {
    var r := FindCliques(g);
    var e := ExtendToMaximal(g, []);
    FindCliquesComplete(g, e);
    var c := Longest(r).value;
    FindCliquesSound(g, c);
    forall d | Clique(g, d) && Seqs.Distinct(d) && Nodes(g, d)
      ensures |d| <= |c|
    {
      var m := ExtendToMaximal(g, d);
      FindCliquesComplete(g, m);
      var k :| 0 <= k < |r| && Same(r[k], m);
      FindCliquesSound(g, r[k]);
      Seqs.DistinctShorter(d, m);
      Seqs.DistinctShorter(m, r[k]);
    }
  }

  /** The names of the nodes `s`, in order. */
  function NameList(g: Graph, s: seq<int>): (r: seq<string>)
    requires Nodes(g, s)
  {
    seq(|s|, i requires 0 <= i < |s| => g[s[i]].name)
  }

  /** `join(",")`. */
  function Join(ss: seq<string>): string
  {
    if |ss| == 0 then "" else if |ss| == 1 then ss[0] else ss[0] + "," + Join(ss[1..])
  }

  /** The text between the commas. */
  function Split(s: string): (r: seq<string>)
    ensures |r| >= 1
  {
    if |s| == 0 then [""]
    else if s[0] == ',' then [""] + Split(s[1..])
    else
      var rest := Split(s[1..]);
      [[s[0]] + rest[0]] + rest[1..]
  }

  /** Text without a comma in front of more text joins onto the first
      part of that text. */
  lemma {:induction false} SplitPrefix(a: string, t: string)
    requires ',' !in a
    ensures Split(a + t) == [a + Split(t)[0]] + Split(t)[1..]
  {
    if |a| > 0 {
      SplitPrefix(a[1..], t);
      assert (a + t)[1..] == a[1..] + t;
      assert [a[0]] + (a[1..] + Split(t)[0]) == a + Split(t)[0];
    } else {
      assert a + t == t;
      assert Split(t) == [Split(t)[0]] + Split(t)[1..];
      assert a + Split(t)[0] == Split(t)[0];
    }
  }

  /** Splitting the joined names at the commas gives them back, when no
      name holds a comma. */
  lemma {:induction false} SplitJoin(ss: seq<string>)
    requires |ss| > 0 && forall i :: 0 <= i < |ss| ==> ',' !in ss[i]
    ensures Split(Join(ss)) == ss
  {
    if |ss| == 1 {
      SplitPrefix(ss[0], "");
      assert ss[0] + "" == ss[0];
    } else {
      SplitJoin(ss[1..]);
      var rest := "," + Join(ss[1..]);
      SplitPrefix(ss[0], rest);
      assert ss[0] + "," + Join(ss[1..]) == ss[0] + rest;
      assert rest[1..] == Join(ss[1..]);
      assert ss[0] + "" == ss[0];
      assert ss == [ss[0]] + ss[1..];
    }
  }

  /** The password: the clique's names sorted and joined by commas. The
      names are sorted through their indices, whose order is theirs. */
  function Password(g: Graph, c: seq<int>): string
    requires Nodes(g, c)
  {
    SortNodes(g, c);
    Join(NameList(g, Seqs.Sort(c)))
  }

  /** Sorting keeps the nodes within the network. */
  lemma SortNodes(g: Graph, c: seq<int>)
    requires Nodes(g, c)
    ensures Nodes(g, Seqs.Sort(c))
  {
    Seqs.SortMembers(c);
    var r := Seqs.Sort(c);
    forall i | 0 <= i < |r|
      ensures 0 <= r[i] < |g|
    {
      assert r[i] in r;
      var j :| 0 <= j < |c| && c[j] == r[i];
    }
  }

  /** The names in the password are the clique's names, one each, in
      ascending order: what sorting them gives. */
  lemma PasswordNames(g: Graph, c: seq<int>)
    requires Ordered(g) && Nodes(g, c) && Seqs.Distinct(c)
    ensures Nodes(g, Seqs.Sort(c))
    ensures var ns := NameList(g, Seqs.Sort(c));
      Ascending(ns) && |ns| == |c| &&
      (forall x :: x in ns <==> exists a :: a in c && g[a].name == x)
  {
    SortNodes(g, c);
    var r := Seqs.Sort(c);
    Seqs.SortedDistinct(c, r);
    NamesOf(g, c, r);
  }

  /** The names of a strictly ascending reordering of `c` are ascending
      and are the names of `c`. */
  lemma NamesOf(g: Graph, c: seq<int>, r: seq<int>)
    requires Ordered(g) && Nodes(g, r) && |r| == |c|
    requires forall i, j :: 0 <= i < j < |r| ==> r[i] < r[j]
    requires forall x :: x in r <==> x in c
    ensures var ns := NameList(g, r);
      Ascending(ns) && |ns| == |c| &&
      (forall x :: x in ns <==> exists a :: a in c && g[a].name == x)
  {
    var ns := NameList(g, r);
    forall i | 0 < i < |ns|
      ensures Less(ns[i - 1], ns[i])
    {
      assert r[i - 1] < r[i];
    }
    forall x | x in ns
      ensures exists a :: a in c && g[a].name == x
    {
      var i :| 0 <= i < |ns| && ns[i] == x;
      assert r[i] in c;
    }
    forall a | a in c
      ensures g[a].name in ns
    {
      var i :| 0 <= i < |r| && r[i] == a;
      assert ns[i] == g[a].name;
    }
  }

  /** The answer: the password of the longest clique found; `None` when a
      line has no `-`, or when a computer is linked to itself (the search
      would recurse without end). */
  function Solve(lines: seq<string>): (r: Option<string>)
    ensures r.Some? <==> Links(lines).Some? && forall e :: e in Links(lines).value ==> e.0 != e.1
  {
    match Links(lines)
    case None => None
    case Some(links) =>
      BuildSymmetric(links);
      BuildLoopless(links);
      var g := Build(links);
      if !Loopless(g) then None
      else
        Largest(g);
        match Longest(FindCliques(g))
        case None => None
        case Some(c) => Some(Password(g, c))
  }

  /** For well-formed input the answer is the password of a maximum clique
      of the network the links describe. */
  lemma SolveLargest(lines: seq<string>, links: seq<(string, string)>)
    requires Links(lines) == Some(links) && forall e :: e in links ==> e.0 != e.1
    ensures exists c :: Maximum(Build(links), c) && Solve(lines) == Some(Password(Build(links), c))
  {
    BuildSymmetric(links);
    BuildLoopless(links);
    var g := Build(links);
    Largest(g);
    var c := Longest(FindCliques(g)).value;
    assert Solve(lines) == Some(Password(g, c));
  }
}
